=== FILE: README.md ===
# oss-summary, modelled in Dafny

oss-summary produces a periodic HTML report of a GitHub repository's activity:

1. It fetches the issues, commits and pull requests of each configured repository, and drops bot activity.
2. It asks a language-model agent to sort the commits into bug fixes, features, improvements and others.
3. It asks the agent for a short summary of every commit and for an overall summary.
4. It renders the result as an HTML page per repository.

This project models the decision logic between the GitHub data and the agent. The agent, the GitHub API and the file system become parameters. Every module is a set of pure functions over immutable datatypes, with proofs of what the Java code promises.

- `Wrappers`: `Option` and `Result`. Java `null` is `None`. A thrown exception is `Err`.
- `JavaText`: the Java library behaviour the code relies on, written out:
  - `trim`, the regex classes `\s`, `\d` and `\w`, `replaceAll("\\s+", " ")`;
  - ASCII `toLowerCase`, `contains`, `indexOf` and `lastIndexOf`, `replace`;
  - `split` with its dropping of trailing empty strings;
  - `Integer.parseInt` on ASCII digits, with its 32-bit range;
  - `compareTo` on strings.
- `Seqs`: order-preserving filters, subsequences and duplicate-free appends.
- `Entities`: commits, pull requests and issues. `Commit` carries the `summary`, `prId` and `prDescription` fields the services set.
- `Agents`: the agent as an oracle `(prompt, maxTokens) -> Replied(text) | Failed`. `Failed` is a thrown exception. Callers return the trace of calls they made, so "no agent call" is a checkable statement.
- `BotFilter`: `BotFilter.isBotUser` and its three wrappers.
- `RepoData`: `RepositoryData` and `removeBotActivity`.
- `Categorization`: the immutable four-bucket `CommitCategorization`.
- `PromptText`: the prompt helpers of `ParallelCommitSummaryService`. These are the truncations, the SHA abbreviation, issue-reference extraction (hand-written matchers for the two regexes) and `buildSummaryPrompt`.
- `SummaryFormat`: `formatSummaryResponse` and its helpers.
- `CommitSummaries`: the sequential summarisation loop.
- `AiAnalysis`: `AzureAiAnalysisService`. This covers:
  - the categorisation prompt;
  - the reply decoder (`Bug Fixes: [1,3], ...`) with its keyword fallback;
  - summary attachment;
  - the overall summary.
- `ReplyDecoding`: what the reply decoder of `AzureAiAnalysisService` makes of well-formed replies: index lists, `<label>: [indices]`, and replies that name one bucket.
- `GitHub`: the pure parts of `GitHubService`:
  - the date window;
  - the two PR-number extractors;
  - PR enrichment, with the description fetch as a parameter;
  - the repository-URL split, the bot and team filters, and the `fetchData` loop over a `Remote` that stands for the parsed API answers.
- `HtmlReport`: the helpers and selection logic of `HtmlReportGenerator`. These are escaping, the summary guard, truncation, its weaker bot rule, data and categorisation filtering, open-issue and open-PR selection, and commit descriptions.
- `ReportService`: `filterBotCommits` and `generateReport` up to the HTML rendering.
- `Calendar`: `LocalDate` as `calculateStartDate` uses it:
  - strict `yyyy-MM-dd` parsing with SMART resolution;
  - `minusDays` with its year limits;
  - formatting, with the round trip proved.
- `UserInput`: the command-line parser.
- `Orchestrator`: `SummaryGeneratorOrchestrator.run`. This covers parameter resolution, the start date, output file names and one output per fetched repository.

The analysis service always builds its summary service with `preserveOrder = true` (AzureAiAnalysisService.java:53). The sequential branch is therefore the one the application runs, and the model follows it.

## Model

| member | source | states |
|---|---|---|
| BotFilter.WrappersShareOneRule | src/main/java/org/microsoft/utils/BotFilter.java:18-44 | A commit, a pull request and an issue with the same author login classify alike, and a null login is never a bot |
| BotFilter.CaseInsensitive | src/main/java/org/microsoft/utils/BotFilter.java:51-52 | Two logins that differ only in letter case get the same verdict |
| BotFilter.SuffixIsBot | src/main/java/org/microsoft/utils/BotFilter.java:55 | Every login whose lowercase form ends in `bot` is a bot |
| BotFilter.BotMentionsBotOrIsNamedAccount | src/main/java/org/microsoft/utils/BotFilter.java:55-63 | Every bot login either contains `bot` once lowercased or contains `renovate` or `github-actions` or is exactly `codecov-io` or `coveralls` |
| BotFilter.NotBotWhenMarkersMissing | src/main/java/org/microsoft/utils/BotFilter.java:52-63 | A login whose lowercase form fails every clause is human: it does not end in `bot`, it lacks some letter of each marker looked for inside it, and it is none of the exact names |
| BotFilter.HelloWorldIsHuman | src/main/java/org/microsoft/utils/BotFilter.java:52-63 | `hello-world` is human |
| BotFilter.AbbottIsHuman | src/main/java/org/microsoft/utils/BotFilter.java:55-63 | `abbott` is human: `bot` inside a login is not enough |
| BotFilter.EmptyLoginIsHuman | src/main/java/org/microsoft/utils/BotFilter.java:55-63 | The empty login is human |
| BotFilter.DependabotIsBot | src/main/java/org/microsoft/utils/BotFilter.java:52-59 | `dependabot` is a bot in every letter case tried |
| BotFilter.NamedAccountsAreBots | src/main/java/org/microsoft/utils/BotFilter.java:61-63 | `github-actions`, `codecov-io` and `coveralls` are bots although they do not contain `bot` |
| BotFilter.MarkerInsideIsBot | src/main/java/org/microsoft/utils/BotFilter.java:52-61 | Any login whose lowercase form contains `perfbot`, `dependabot`, `renovate` or `github-actions` anywhere, or contains both `gluten` and `bot`, is a bot |
| BotFilter.ContainedMarkerExamples | src/main/java/org/microsoft/utils/BotFilter.java:58-59 | `dependabot[bot]` and `renovate-helper` are bots through a contained marker, although neither ends in `bot` |
| RepoData.RemoveIfCleans | src/main/java/org/microsoft/github/data/RepositoryData.java:52-67 | `removeIf` keeps a null list null, and otherwise keeps exactly the unflagged entries, in order |
| RepoData.RemoveBotActivity | src/main/java/org/microsoft/github/data/RepositoryData.java:51-68 | The four commit and PR lists lose exactly their entries whose login mentions `bot`, keep the order and stay null when null; the name, issues and team issues do not change |
| RepoData.NullLoginSurvives | src/main/java/org/microsoft/github/data/RepositoryData.java:53-54 | A commit with a null login survives the clean-up |
| RepoData.RemoveIfIdempotent | src/main/java/org/microsoft/github/data/RepositoryData.java:52-67 | Removing flagged entries twice is removing them once |
| RepoData.RemoveBotActivityIdempotent | src/main/java/org/microsoft/github/data/RepositoryData.java:51-68 | Cleaning repository data twice is cleaning it once |
| Categorization.CommitCategorization.TotalCount | src/main/java/org/microsoft/analysis/CommitCategorization.java:39-41 | The total is the length of the four buckets together, and it is zero exactly when every bucket is empty |
| Categorization.CopyOf | src/main/java/org/microsoft/analysis/CommitCategorization.java:17-20 | A null list becomes an empty bucket; a list holding a null element makes `List.copyOf` throw `NullPointerException`; otherwise the bucket holds the same commits in the same order |
| Categorization.CopyElements | src/main/java/org/microsoft/analysis/CommitCategorization.java:17-20 | Copying fails exactly when an element is null, and otherwise yields the elements in order |
| Categorization.Create | src/main/java/org/microsoft/analysis/CommitCategorization.java:15-21 | The constructor fails exactly when some non-null argument holds a null commit; otherwise each bucket is the copied argument, or empty for a null argument |
| Categorization.AsJavaList | src/main/java/org/microsoft/analysis/CommitCategorization.java:23-37 | A getter's list is never null and holds no null commit |
| Categorization.CreateFromGetters | src/main/java/org/microsoft/analysis/CommitCategorization.java:15-37 | Building a categorisation from another one's getters gives it back unchanged, in bucket order |
| Categorization.NullBucketsAreEmpty | src/main/java/org/microsoft/analysis/CommitCategorization.java:17-20 | Four null arguments give four empty buckets with total 0 |
| PromptText.TruncateMessage | src/main/java/org/microsoft/analysis/ParallelCommitSummaryService.java:276-279 | Null stays null; a message of at most 200 chars is kept; a longer one becomes its first 197 chars plus `...`, 200 chars in all |
| PromptText.TruncateMessageIdempotent | src/main/java/org/microsoft/analysis/ParallelCommitSummaryService.java:276-279 | Truncating a truncated message changes nothing |
| PromptText.Truncate | src/main/java/org/microsoft/analysis/ParallelCommitSummaryService.java:451-455 | Null becomes `""`; text within the cap is kept; longer text keeps its first `max - 3` chars plus `...`, at most `max` chars; `substring` throws exactly when the text is too long and the cap is below 3 |
| PromptText.TruncateIdempotent | src/main/java/org/microsoft/analysis/ParallelCommitSummaryService.java:451-455 | With a cap of at least 3, truncating twice is truncating once |
| PromptText.AbbreviateSha | src/main/java/org/microsoft/analysis/ParallelCommitSummaryService.java:172-175 | The result is a prefix of the SHA of at most 8 chars, and a SHA of at most 8 chars is kept whole |
| PromptText.SegmentEnd | src/main/java/org/microsoft/analysis/ParallelCommitSummaryService.java:436 | A greedy `[^/]*` from `i` stops at the next `/` or at the end |
| PromptText.UrlMatchAt | src/main/java/org/microsoft/analysis/ParallelCommitSummaryService.java:436 | A URL match starts with `https://github.com/`, has `/issues/` right before its group, and its group is the full digit run there |
| PromptText.UrlRefAt | src/main/java/org/microsoft/analysis/ParallelCommitSummaryService.java:438 | A URL match yields `#` followed by digits |
| PromptText.HashMatchEnd | src/main/java/org/microsoft/analysis/ParallelCommitSummaryService.java:443 | A `#n` match covers the `#` and at least one digit |
| PromptText.HashRefAt | src/main/java/org/microsoft/analysis/ParallelCommitSummaryService.java:445 | A `#n` match yields `#` followed by digits |
| PromptText.UrlRefsFrom | src/main/java/org/microsoft/analysis/ParallelCommitSummaryService.java:436-440 | Every reference the URL scan reports is `#` followed by digits |
| PromptText.HashRefsFrom | src/main/java/org/microsoft/analysis/ParallelCommitSummaryService.java:443-447 | Every reference the `#n` scan reports is `#` followed by digits |
| PromptText.UrlRefsSound | src/main/java/org/microsoft/analysis/ParallelCommitSummaryService.java:436-440 | Every URL reference reported comes from a match in the text |
| PromptText.HashRefsSound | src/main/java/org/microsoft/analysis/ParallelCommitSummaryService.java:443-447 | Every `#n` reference reported comes from a match in the text that is not preceded by a word char |
| PromptText.HashRefsComplete | src/main/java/org/microsoft/analysis/ParallelCommitSummaryService.java:443-447 | Resuming after a match skips no later match: every `#n` match at or after the start is reported |
| PromptText.HashRefsAllFound | src/main/java/org/microsoft/analysis/ParallelCommitSummaryService.java:443-447 | Every `#n` match anywhere in the text is reported by the scan from the start |
| PromptText.ExtractIssueRefs | src/main/java/org/microsoft/analysis/ParallelCommitSummaryService.java:432-449 | The references are distinct, each is `#` followed by digits, and null text has none |
| PromptText.ExtractIssueRefsSound | src/main/java/org/microsoft/analysis/ParallelCommitSummaryService.java:432-449 | Every extracted reference comes from a URL match or a `#n` match in the text |
| PromptText.ExtractIssueRefsComplete | src/main/java/org/microsoft/analysis/ParallelCommitSummaryService.java:432-449 | Every `#n` match and every reference the URL scan reports is extracted |
| PromptText.ExtractIssueRefsOrder | src/main/java/org/microsoft/analysis/ParallelCommitSummaryService.java:435-447 | The extracted list holds the URL references first, then only `#n` references that no URL match gave |
| PromptText.PromptRefs | src/main/java/org/microsoft/analysis/ParallelCommitSummaryService.java:211-219 | The prompt's references are distinct issue references: the message's references first, in their order, then every reference of the PR description when it is not blank, and nothing else |
| PromptText.PromptRefLimit | src/main/java/org/microsoft/analysis/ParallelCommitSummaryService.java:223-226 | At most the first three references are looked up, and all of them when there are at most three |
| PromptText.IssueLine | src/main/java/org/microsoft/analysis/ParallelCommitSummaryService.java:226-233 | A reference gets a line exactly when the resolver knows a non-blank description for its number (the text after `#`); the line starts with `Issue #n: `, ends with a line break and holds at most 1000 chars of description |
| PromptText.IssuesSegment | src/main/java/org/microsoft/analysis/ParallelCommitSummaryService.java:221-235 | The issues segment is empty exactly when no reference has a known, non-blank description |
| PromptText.IssuesSegmentSplit | src/main/java/org/microsoft/analysis/ParallelCommitSummaryService.java:225-234 | The lines come in reference order: the segment is the lines of the references before one, that reference's line, then the lines of those after it |
| PromptText.PrSegment | src/main/java/org/microsoft/analysis/ParallelCommitSummaryService.java:237-243 | The PR line is absent without a non-blank description; otherwise it is `PR Description: ` with the trimmed description, cut to 297 chars plus `...` when over 300, and a line break |
| PromptText.NoResolverNoIssues | src/main/java/org/microsoft/analysis/ParallelCommitSummaryService.java:228-233 | Without an issue resolver no issue line is written, whatever the references |
| PromptText.BuildSummaryPrompt | src/main/java/org/microsoft/analysis/ParallelCommitSummaryService.java:207-254 | The prompt is the fixed instruction, then the PR line, then the issue lines of the first three distinct references, then the abbreviated SHA, the author and the truncated message, then the fixed output format |
| PromptText.PlainPrompt | src/main/java/org/microsoft/analysis/ParallelCommitSummaryService.java:237-253 | With no PR description and no resolver, the prompt is the instruction directly followed by the commit lines and the format line |
| PromptText.KnownIssueInPrompt | src/main/java/org/microsoft/analysis/ParallelCommitSummaryService.java:221-254 | A reference among the first three with a known description appears in the prompt as its own issue line, after the PR line and between the lines of the references before and after it |
| SummaryFormat.OneLineTrim | src/main/java/org/microsoft/analysis/ParallelCommitSummaryService.java:403 | Trimming keeps text free of line breaks |
| SummaryFormat.EnsureSentencePunctuation | src/main/java/org/microsoft/analysis/ParallelCommitSummaryService.java:401-407 | The result is empty exactly when the trimmed text is; otherwise it is the trimmed text, with `.` added only when it did not end a sentence, and it ends with `.`, `!` or `?` |
| SummaryFormat.PunctuationIdempotent | src/main/java/org/microsoft/analysis/ParallelCommitSummaryService.java:401-407 | Punctuating twice is punctuating once |
| SummaryFormat.TruncateIfNeeded | src/main/java/org/microsoft/analysis/ParallelCommitSummaryService.java:350-363 | The result has at most 200 chars; text within 200 chars is kept; longer text is cut after its last `.` at index 151..197 when there is one, and otherwise to 197 chars plus `...`; one-line text stays one line |
| SummaryFormat.CloseSentence | src/main/java/org/microsoft/analysis/ParallelCommitSummaryService.java:374-376 | Closing a sentence adds at most one sentence, and only a non-blank one-line one |
| SummaryFormat.ScanFindsSentences | src/main/java/org/microsoft/analysis/ParallelCommitSummaryService.java:371-383 | The character scan with its break after the second sentence and its pending tail collects exactly the reference sentences: the text cut after its first and its second `.`, `!` or `?`, or the whole text when none occurs, each piece trimmed |
| SummaryFormat.ScanKeepsSentences | src/main/java/org/microsoft/analysis/ParallelCommitSummaryService.java:371-383 | On one-line text that ends in a visible char, every sentence the scan collects is non-blank, one line and ends at a visible char, and together they are no longer than the text |
| SummaryFormat.SentencesOf | src/main/java/org/microsoft/analysis/ParallelCommitSummaryService.java:367-383 | The sentences found in a line are the reference sentences of its trimmed, whitespace-collapsed form: at most two, each non-blank and one line, no longer in total than the line |
| SummaryFormat.EnsureTwoSentences | src/main/java/org/microsoft/analysis/ParallelCommitSummaryService.java:365-399 | With no sentence found the result is `Update applied. Improves code quality.`; with one it is that sentence punctuated plus ` Improves code quality.`; with two it is both punctuated and joined by a space; it is always one line ending in `.`, `!` or `?` |
| SummaryFormat.FallbackPairIsSentence | src/main/java/org/microsoft/analysis/ParallelCommitSummaryService.java:385-387 | The fixed pair `Update applied. Improves code quality.` is one line and ends a sentence |
| SummaryFormat.Join2 | src/main/java/org/microsoft/analysis/ParallelCommitSummaryService.java:337-341 | Two texts joined by a space end a sentence when the second does, and stay one line when both are |
| SummaryFormat.SummaryPrefixesDistinct | src/main/java/org/microsoft/analysis/ParallelCommitSummaryService.java:294 | The six prefixes start with pairwise different chars |
| SummaryFormat.PieceOfLine | src/main/java/org/microsoft/analysis/ParallelCommitSummaryService.java:313-314 | A line trimmed and collapsed is, when non-empty, one line starting with a visible char |
| SummaryFormat.Pieces | src/main/java/org/microsoft/analysis/ParallelCommitSummaryService.java:310-315 | The pieces are exactly the lines each trimmed and whitespace-collapsed, in order, with the empty ones dropped; each is one line starting with a visible char |
| SummaryFormat.FormatSummaryResponse | src/main/java/org/microsoft/analysis/ParallelCommitSummaryService.java:284-345 | The result is null exactly when the reply is null or blank or is one recognised prefix followed by blank text; otherwise it is one line of 1 to 200 chars ending in `.`, `!` or `?`, formed from the first piece alone when the prefix-stripped reply has one piece and from the first two pieces when it has more |
| SummaryFormat.FormatSingle | src/main/java/org/microsoft/analysis/ParallelCommitSummaryService.java:319-334 | A piece that is at least 15 chars once punctuated is that punctuated text, cut at a sentence end or with `...` when over 200 chars; a shorter one is completed to two sentences |
| SummaryFormat.FormatPair | src/main/java/org/microsoft/analysis/ParallelCommitSummaryService.java:337-344 | Two pieces give both punctuated and joined by a space, kept whole within 200 chars and otherwise cut after the last `.` at index 151..197, or to 197 chars plus `...` |
| SummaryFormat.StripPrefixCases | src/main/java/org/microsoft/analysis/ParallelCommitSummaryService.java:295-301 | The first recognised prefix the text starts with is removed and the rest trimmed; text that starts with none is left alone |
| SummaryFormat.PrefixesExclusive | src/main/java/org/microsoft/analysis/ParallelCommitSummaryService.java:294-301 | Prefixes with distinct leading chars cannot both match one text, so at most one is stripped |
| SummaryFormat.StrippedBlankIff | src/main/java/org/microsoft/analysis/ParallelCommitSummaryService.java:287-307 | The stripped text is blank exactly when the reply was blank or a bare recognised prefix |
| SummaryFormat.CollapseSingleSpaced | src/main/java/org/microsoft/analysis/ParallelCommitSummaryService.java:313 | Collapsing whitespace leaves single-spaced one-line text unchanged |
| SummaryFormat.NormalLineIsOnePiece | src/main/java/org/microsoft/analysis/ParallelCommitSummaryService.java:310-315 | A clean line splits into exactly itself as one piece |
| SummaryFormat.FormatOfCleanedLine | src/main/java/org/microsoft/analysis/ParallelCommitSummaryService.java:284-335 | A reply whose prefix-stripped text is a clean line is formatted from that line alone |
| SummaryFormat.UnprefixedLine | src/main/java/org/microsoft/analysis/ParallelCommitSummaryService.java:284-335 | A clean one-line reply that starts with no recognised prefix is formatted as it stands |
| SummaryFormat.PrefixIsStripped | src/main/java/org/microsoft/analysis/ParallelCommitSummaryService.java:294-301 | A recognised prefix, a space and a clean line give the summary of the line alone (`Summary: This commit fixes the authentication bug` gives the sentence without the prefix) |
| SummaryFormat.LongLineKept | src/main/java/org/microsoft/analysis/ParallelCommitSummaryService.java:319-327 | A single line of 15 to 200 chars once punctuated is the summary, punctuated |
| SummaryFormat.ShortLineCompleted | src/main/java/org/microsoft/analysis/ParallelCommitSummaryService.java:319-334 | A clean line with no prefix and no sentence end before its last char, shorter than 15 chars once punctuated, is formatted as itself punctuated followed by ` Improves code quality.` |
| SummaryFormat.TwoLinesJoined | src/main/java/org/microsoft/analysis/ParallelCommitSummaryService.java:309-344 | A reply whose first two lines are clean (the first with no recognised prefix) is formatted as those two lines punctuated, joined by a space and truncated, whatever follows them |
| CommitSummaries.GenerateSummary | src/main/java/org/microsoft/analysis/ParallelCommitSummaryService.java:180-205 | The result carries the commit's SHA, and a non-blank summary in it is one the formatter produced |
| CommitSummaries.FormattedIsNotBlank | src/main/java/org/microsoft/analysis/ParallelCommitSummaryService.java:129-130 | A formatted summary is never blank, so the loop keeps every one |
| CommitSummaries.KeptSummaryIsFormattedReply | src/main/java/org/microsoft/analysis/ParallelCommitSummaryService.java:180-205 | What the loop stores for a commit is nothing when the agent throws or returns null, and otherwise the formatter's verdict on the reply |
| CommitSummaries.NoReplyNoSummary | src/main/java/org/microsoft/analysis/ParallelCommitSummaryService.java:129-134 | An agent exception, or a null or blank reply, leaves the commit out of the map |
| CommitSummaries.Shas | src/main/java/org/microsoft/analysis/ParallelCommitSummaryService.java:125-130 | One SHA per commit |
| CommitSummaries.Outcomes | src/main/java/org/microsoft/analysis/ParallelCommitSummaryService.java:125-135 | One outcome per commit |
| CommitSummaries.OutcomeAt | src/main/java/org/microsoft/analysis/ParallelCommitSummaryService.java:125-135 | The outcome of step `i` is what is stored for commit `i` |
| CommitSummaries.SummarizeSequentially | src/main/java/org/microsoft/analysis/ParallelCommitSummaryService.java:105-140 | A null or empty list gives an empty map and no call. Otherwise there is one call per commit, in order, and the map holds, for every SHA, exactly the summary of the last commit with that SHA that got one, and nothing for other SHAs. It has at most one entry per commit, and every value is a formatted summary |
| CommitSummaries.LatestStoredIsLast | src/main/java/org/microsoft/analysis/ParallelCommitSummaryService.java:125-135 | The reference `LatestStored` finds a value exactly when some step stored one, and then the value of the last such step |
| CommitSummaries.LastStoredUnique | src/main/java/org/microsoft/analysis/ParallelCommitSummaryService.java:129-130 | A SHA has only one last stored value, so a later `put` decides the entry |
| CommitSummaries.PutsMapIsLatest | src/main/java/org/microsoft/analysis/ParallelCommitSummaryService.java:123-135 | The map a run of `put`s leaves agrees with the reference on every SHA: present with the last stored value, or absent |
| CommitSummaries.SummarizeOne | src/main/java/org/microsoft/analysis/ParallelCommitSummaryService.java:125-135 | One loop turn extends the map of the first `k` commits to the first `k + 1` and keeps it formatted |
| CommitSummaries.PutStep | src/main/java/org/microsoft/analysis/ParallelCommitSummaryService.java:129-130 | A `put` of a stored value extends the map of `k` steps to `k + 1`, overwriting any earlier value for that SHA |
| CommitSummaries.PutFormatted | src/main/java/org/microsoft/analysis/ParallelCommitSummaryService.java:130 | A `put` adds at most one key and keeps every value formatted |
| CommitSummaries.SkipStep | src/main/java/org/microsoft/analysis/ParallelCommitSummaryService.java:132-134 | A step that stores nothing leaves the map valid for one more step |
| CommitSummaries.ExtractAllCommits | src/main/java/org/microsoft/analysis/ParallelCommitSummaryService.java:412-430 | The commit list has the categorisation's total length and holds exactly the four buckets' commits, bug fixes first |
| CommitSummaries.SummarizeCategorization | src/main/java/org/microsoft/analysis/ParallelCommitSummaryService.java:90-93 | One call per categorised commit, bug fixes first then features, improvements and others; for every SHA the map holds exactly the summary of the last categorised commit with that SHA that got one; every value is formatted |
| CommitSummaries.StoredWitness | src/main/java/org/microsoft/analysis/ParallelCommitSummaryService.java:125-135 | Every key of the map names a step that stored exactly its value |
| AiAnalysis.PutFirstBucket | src/main/java/org/microsoft/analysis/AzureAiAnalysisService.java:240-258 | Placing a commit grows only the bucket of its category, by that commit |
| AiAnalysis.FallbackBy | src/main/java/org/microsoft/analysis/AzureAiAnalysisService.java:234-261 | Each bucket is the input's commits of that category, in input order |
| AiAnalysis.FallbackPartitions | src/main/java/org/microsoft/analysis/AzureAiAnalysisService.java:234-261 | The four buckets together are the input as a multiset, so the total is the input size |
| AiAnalysis.FallbackPlacesEachCommit | src/main/java/org/microsoft/analysis/AzureAiAnalysisService.java:240-258 | An input commit is in a bucket exactly when that bucket is its category |
| AiAnalysis.FallbackMembers | src/main/java/org/microsoft/analysis/AzureAiAnalysisService.java:234-261 | The fallback's buckets hold nothing but input commits |
| AiAnalysis.BugFixKeywordsWin | src/main/java/org/microsoft/analysis/AzureAiAnalysisService.java:247-249 | A message containing `fix` or `bug` in any case is a bug fix, whatever else it contains |
| AiAnalysis.NoKeywordIsOther | src/main/java/org/microsoft/analysis/AzureAiAnalysisService.java:241-256 | A null message, or one with none of the keywords, is `Others` |
| AiAnalysis.FeatureKeywordsBeatImprovement | src/main/java/org/microsoft/analysis/AzureAiAnalysisService.java:248-253 | Without `fix` or `bug`, a message with `feat`, `feature`, `add` or `optimize` is a feature, even if it also has `refactor` or `perf` |
| AiAnalysis.ImprovementKeywords | src/main/java/org/microsoft/analysis/AzureAiAnalysisService.java:248-254 | Without any bug-fix or feature keyword, a message with `refactor` or `perf` is an improvement |
| AiAnalysis.NoHotfixWithoutFix | src/main/java/org/microsoft/analysis/AzureAiAnalysisService.java:248 | The `hotfix` test adds nothing: a text without `fix` has no `hotfix` |
| AiAnalysis.LabelMatchAt | src/main/java/org/microsoft/analysis/AzureAiAnalysisService.java:215 | A match of `<label>:\s*[...]` at `i` starts with the label, and its group lies between a `[` and the first `]` after it |
| AiAnalysis.FirstLabelGroup | src/main/java/org/microsoft/analysis/AzureAiAnalysisService.java:216-219 | The group read holds no `]` |
| AiAnalysis.FirstLabelGroupIsEarliest | src/main/java/org/microsoft/analysis/AzureAiAnalysisService.java:216-219 | No group is read exactly when there is no match; otherwise it is the group of the earliest match |
| AiAnalysis.LeadingLabelIsRead | src/main/java/org/microsoft/analysis/AzureAiAnalysisService.java:216-219 | A reply starting with `<label>: [group]` yields that group, whatever follows, later occurrences of the label included |
| AiAnalysis.MissingLabelReadsNothing | src/main/java/org/microsoft/analysis/AzureAiAnalysisService.java:218-231 | A reply without the label yields no group |
| AiAnalysis.ParseIndexTokens | src/main/java/org/microsoft/analysis/AzureAiAnalysisService.java:221-224 | The indices parsed are 32-bit integers, and a failure is a `NumberFormatException` |
| AiAnalysis.ParseIndexTokensStep | src/main/java/org/microsoft/analysis/AzureAiAnalysisService.java:221-224 | The list fails when its first token is bad or the rest fails |
| AiAnalysis.ParseIndexTokensFails | src/main/java/org/microsoft/analysis/AzureAiAnalysisService.java:221-224 | The list fails exactly when one token is neither blank nor an `int` once trimmed |
| ReplyDecoding.ParseIndexTokensAppend | src/main/java/org/microsoft/analysis/AzureAiAnalysisService.java:221-224 | Parsing splits over concatenation: two token lists together succeed exactly when each does, and give their indices in order |
| ReplyDecoding.ParseIndexTokenOne | src/main/java/org/microsoft/analysis/AzureAiAnalysisService.java:222-224 | A blank token gives no index, a token that trims to an `int` gives that value, and any other token throws `NumberFormatException` |
| ReplyDecoding.ParseDigitTokens | src/main/java/org/microsoft/analysis/AzureAiAnalysisService.java:221-224 | Tokens that trim to decimal numbers within `int` parse to exactly those numbers, in order |
| AiAnalysis.ParseIndexList | src/main/java/org/microsoft/analysis/AzureAiAnalysisService.java:219-221 | Blank brackets give no indices |
| ReplyDecoding.ParseIndexListOfText | src/main/java/org/microsoft/analysis/AzureAiAnalysisService.java:219-224 | A comma-separated list of decimal indices within `int` reads back as exactly those indices |
| AiAnalysis.SelectCommits | src/main/java/org/microsoft/analysis/AzureAiAnalysisService.java:225-227 | Selection yields at most one commit per index, each an input commit |
| AiAnalysis.SelectOne | src/main/java/org/microsoft/analysis/AzureAiAnalysisService.java:225-226 | Index `i` in 1..N yields commit `i - 1`; any other index yields nothing |
| AiAnalysis.SelectAppend | src/main/java/org/microsoft/analysis/AzureAiAnalysisService.java:225-227 | Selection keeps the reply's order and its repeats: it distributes over concatenation |
| AiAnalysis.ExtractCommitsByCategory | src/main/java/org/microsoft/analysis/AzureAiAnalysisService.java:214-232 | A missing label gives an empty bucket, every selected commit is an input commit, and a failure is a `NumberFormatException` |
| ReplyDecoding.IndexReplySelects | src/main/java/org/microsoft/analysis/AzureAiAnalysisService.java:214-227 | A reply starting `<label>: [i1,...,in]` selects the commits at `i1 - 1`, ..., `in - 1` in that order, repeats kept and out-of-range indices dropped |
| ReplyDecoding.OneIndexSelects | src/main/java/org/microsoft/analysis/AzureAiAnalysisService.java:214-227 | `<label>: [i]` with `i` in 1..N selects exactly commit `i - 1`, whatever follows |
| AiAnalysis.DecodeReply | src/main/java/org/microsoft/analysis/AzureAiAnalysisService.java:192-198 | A null reply cannot be decoded; decoded buckets hold only input commits |
| AiAnalysis.CombineBuckets | src/main/java/org/microsoft/analysis/AzureAiAnalysisService.java:192-211 | Decoding aborts exactly when one of the four bucket extractions throws, the bug-fix bucket's exception first; otherwise the buckets are the four extracted lists in label order |
| AiAnalysis.ParseCategorizationResponse | src/main/java/org/microsoft/analysis/AzureAiAnalysisService.java:186-212 | Every bucket holds only input commits, and the categorisation is empty only for an empty input |
| ReplyDecoding.DecodeOneBucket | src/main/java/org/microsoft/analysis/AzureAiAnalysisService.java:192-198 | When one label selects a list and the other three select nothing, decoding puts that list in its bucket and leaves the others empty |
| ReplyDecoding.SingleBucketReply | src/main/java/org/microsoft/analysis/AzureAiAnalysisService.java:186-211 | A reply `<label>: [indices]` gives that bucket the selected commits and the others nothing, or the keyword fallback when no index is in range |
| AiAnalysis.UnlabelledReplyFallsBack | src/main/java/org/microsoft/analysis/AzureAiAnalysisService.java:200-209 | A null reply, or one with none of the four labels (such as `""`), gives the fallback |
| AiAnalysis.BadIndexFallsBack | src/main/java/org/microsoft/analysis/AzureAiAnalysisService.java:205-224 | One bad index under the first match of any label makes the whole reply fall back |
| AiAnalysis.LinesSeeFirstFifty | src/main/java/org/microsoft/analysis/AzureAiAnalysisService.java:171 | Commits after the fiftieth do not reach the numbered lines |
| AiAnalysis.PromptSeesFirstFifty | src/main/java/org/microsoft/analysis/AzureAiAnalysisService.java:164-184 | The categorisation prompt of a list is the prompt of its first fifty commits |
| AiAnalysis.AskAgent | src/main/java/org/microsoft/analysis/AzureAiAnalysisService.java:263-271 | An agent exception becomes `""`; otherwise the agent's text, null included, is returned |
| AiAnalysis.AttachToBucket | src/main/java/org/microsoft/analysis/AzureAiAnalysisService.java:97-109 | Each commit of the bucket, in place, gets the map's summary for its SHA, or `""` |
| AiAnalysis.AttachSummaries | src/main/java/org/microsoft/analysis/AzureAiAnalysisService.java:90-111 | Attaching keeps the total count |
| AiAnalysis.AttachKeepsCommits | src/main/java/org/microsoft/analysis/AzureAiAnalysisService.java:90-111 | Every bucket keeps its size and each commit's SHA, message and login; only the summary is set, to the map entry or `""` |
| AiAnalysis.CategorizeCommits | src/main/java/org/microsoft/analysis/AzureAiAnalysisService.java:58-88 | A null or empty list gives four empty buckets and no call. Otherwise the first call is the 2000-token categorisation prompt, then one summary call per categorised commit in bucket order, and the result is the parsed categorisation with, for every commit, the summary of the last categorised commit with its SHA that got one, or `""` |
| AiAnalysis.SummarizeAndAttach | src/main/java/org/microsoft/analysis/AzureAiAnalysisService.java:81-85 | One summary call per categorised commit, in bucket order, and the categorisation comes back with the latest summaries attached |
| AiAnalysis.LatestSummaryAttached | src/main/java/org/microsoft/analysis/AzureAiAnalysisService.java:90-111 | In the result every bucket keeps its size, and commit `i` of a bucket is the parsed commit with its summary set to the latest summary for its SHA, or `""` when none |
| AiAnalysis.FailedAgentFallsBack | src/main/java/org/microsoft/analysis/AzureAiAnalysisService.java:200-271 | An agent exception on the categorisation prompt ends in the keyword fallback |
| AiAnalysis.ReplyText | src/main/java/org/microsoft/analysis/AzureAiAnalysisService.java:144-150 | The text is `""` exactly when the agent threw or answered null or blank, and otherwise the trimmed reply |
| AiAnalysis.GenerateOverallSummary | src/main/java/org/microsoft/analysis/AzureAiAnalysisService.java:114-151 | Null data or categorisation gives the fixed no-activity text without a call; otherwise one 500-token call with the statistics prompt, and the reply's trimmed text or `""` |
| AiAnalysis.OverallSummaryIsTrimmedReply | src/main/java/org/microsoft/analysis/AzureAiAnalysisService.java:145-146 | A non-blank reply is returned trimmed |
| GitHub.DateOnly | src/main/java/org/microsoft/github/service/GitHubService.java:224 | The date part is the prefix before the first `T`, or the whole text without one |
| GitHub.DateRangeIff | src/main/java/org/microsoft/github/service/GitHubService.java:219-237 | A null date is outside; otherwise the date part must be at least the start when there is one and at most the end when there is one, as strings |
| GitHub.TimeOfDayIgnored | src/main/java/org/microsoft/github/service/GitHubService.java:224 | What follows the `T` plays no part |
| GitHub.BoundsAreInclusive | src/main/java/org/microsoft/github/service/GitHubService.java:228-236 | A day lies in the window that starts and ends on it |
| GitHub.WiderWindowKeeps | src/main/java/org/microsoft/github/service/GitHubService.java:219-237 | Widening the window, or dropping a bound, keeps every date it held |
| GitHub.FirstFrom | src/main/java/org/microsoft/github/service/GitHubService.java:418-419 | `find` reports the first position from `i` that matches, and none is skipped |
| GitHub.FirstFromIs | src/main/java/org/microsoft/github/service/GitHubService.java:418-419 | The scan stops at the first matching position |
| GitHub.ParenNumberAt | src/main/java/org/microsoft/github/service/GitHubService.java:424 | A match of `\(\s*(\d+)\s*\)` opens with `(`, closes with `)`, has a digit group, and holds no other `(` |
| GitHub.ExtractPRId | src/main/java/org/microsoft/github/service/GitHubService.java:412-437 | A null message has no id; an id is a non-negative `int`; a failure is `NumberFormatException` |
| GitHub.CountSkipsPlainText | src/main/java/org/microsoft/github/service/GitHubService.java:425-429 | Positions without `(` start no match |
| GitHub.CountSeesMatch | src/main/java/org/microsoft/github/service/GitHubService.java:425-429 | The counting scan finds every match at or after its start |
| GitHub.ParenDigits | src/main/java/org/microsoft/github/service/GitHubService.java:424 | `(`, digits and `)` form a match whose group is the digits |
| GitHub.SoleEndMatch | src/main/java/org/microsoft/github/service/GitHubService.java:418-434 | With exactly one match and that match ending the trimmed message, its parsed group is the id |
| GitHub.TitleMatch | src/main/java/org/microsoft/github/service/GitHubService.java:418-429 | In `title(d)` with no `(` in the title, the final `(d)` is the only match and ends the string |
| GitHub.TitleWithPRId | src/main/java/org/microsoft/github/service/GitHubService.java:412-437 | `title(n)` yields `n`, or throws when `n` is past `int` |
| GitHub.TitleWithPRIdBeforeTerminator | src/main/java/org/microsoft/github/service/GitHubService.java:412-437 | `title(n)` followed by U+0085, U+2028 or U+2029, which `trim` keeps, still yields `n`, because `$` matches before a final line terminator |
| GitHub.TerminatorExample | src/main/java/org/microsoft/github/service/GitHubService.java:412-437 | `fix (12)` followed by U+2028 yields 12 |
| GitHub.TitleMatchBeforeTerminator | src/main/java/org/microsoft/github/service/GitHubService.java:418-429 | In `title(d)` plus a final terminator, the `(d)` is the only match, the first one that `$` accepts, and its group is `d` |
| GitHub.TerminatedTitleParen | src/main/java/org/microsoft/github/service/GitHubService.java:424 | The `(d)` after the title matches and ends just before the terminator |
| GitHub.TerminatedTitleFirst | src/main/java/org/microsoft/github/service/GitHubService.java:418-419 | With no `(` before it, a match ending just before a final terminator is the first end match |
| GitHub.TerminatedTitleCount | src/main/java/org/microsoft/github/service/GitHubService.java:424-429 | With no `(` before the match and only the terminator after it, the count is one |
| GitHub.TwoNumbersAreAmbiguous | src/main/java/org/microsoft/github/service/GitHubService.java:426-436 | Two parenthesised numbers anywhere give no id |
| GitHub.UnbalancedMessageHasNoId | src/main/java/org/microsoft/github/service/GitHubService.java:418-421 | Without both parentheses there is no id: `Fix bug (123`, `Fix bug 123)` and `""` give none |
| GitHub.HashAfterEveryParen | src/main/java/org/microsoft/github/service/GitHubService.java:424 | When every `(` is followed by `#`, no parenthesised number starts anywhere |
| GitHub.NoParenNumberNoId | src/main/java/org/microsoft/github/service/GitHubService.java:418-421 | With no match in the trimmed message there is no id |
| GitHub.HashInParenthesesIsNoId | src/main/java/org/microsoft/github/service/GitHubService.java:412-437 | `title(#123)` has no id: `#` is not a digit |
| GitHub.HashAfterTrim | src/main/java/org/microsoft/github/service/GitHubService.java:415 | Trimming keeps every `(` before a `#` |
| GitHub.FindPattern | src/main/java/org/microsoft/github/service/GitHubService.java:446-470 | `find` reports a position where the pattern matches |
| GitHub.GroupValue | src/main/java/org/microsoft/github/service/GitHubService.java:449-470 | `parseInt` of a group is a non-negative `int`, or a `NumberFormatException` |
| GitHub.ExtractWith | src/main/java/org/microsoft/github/service/GitHubService.java:445-473 | The number found is a non-negative `int`, and a failure is a `NumberFormatException` |
| GitHub.ExtractPRNumber | src/main/java/org/microsoft/github/service/GitHubService.java:442-474 | A null message has no number; a number is a non-negative `int`; a failure is a `NumberFormatException` |
| GitHub.EndMatchIsLast | src/main/java/org/microsoft/github/service/GitHubService.java:446 | No `(` follows the start of an end-anchored `(#n)` match except in its last two chars |
| GitHub.EndParenHashDecides | src/main/java/org/microsoft/github/service/GitHubService.java:446-450 | When the end pattern matches, its digits decide the number, or the exception |
| GitHub.FirstPatternDecides | src/main/java/org/microsoft/github/service/GitHubService.java:445-473 | The first pattern in priority order that matches decides: its group's value, or the exception parsing it throws |
| GitHub.EndParenHashAt | src/main/java/org/microsoft/github/service/GitHubService.java:446 | `(#`, digits and `)` closing the text are an end-anchored match |
| GitHub.SquashMatch | src/main/java/org/microsoft/github/service/GitHubService.java:446-448 | In `title(#d)` the leftmost end-anchored match is the final one, whatever the title holds |
| GitHub.SquashMergeTitle | src/main/java/org/microsoft/github/service/GitHubService.java:442-450 | A squash-merge title `... (#n)` yields `n` whatever else the title holds, or throws when `n` is past `int` |
| GitHub.NoMatchNoNumber | src/main/java/org/microsoft/github/service/GitHubService.java:473 | When no pattern matches there is no number |
| GitHub.MatchNeedsHash | src/main/java/org/microsoft/github/service/GitHubService.java:446-467 | Every pattern needs a `#` |
| GitHub.NoHashNoNumber | src/main/java/org/microsoft/github/service/GitHubService.java:442-474 | A message without `#` has no number |
| GitHub.LaterPatternDecides | src/main/java/org/microsoft/github/service/GitHubService.java:445-473 | When the patterns before one find nothing and that one first matches at `i`, its group at `i` decides: the value, or the exception |
| GitHub.MergeDecides | src/main/java/org/microsoft/github/service/GitHubService.java:452-457 | Without an end-anchored `(#n)`, the first `Merge pull request #n` decides |
| GitHub.ParenDecides | src/main/java/org/microsoft/github/service/GitHubService.java:459-464 | Without an end-anchored `(#n)` or a merge text, the first `(#n)` decides |
| GitHub.BareHashDecides | src/main/java/org/microsoft/github/service/GitHubService.java:466-471 | When only the bare pattern matches, its first match decides |
| GitHub.NoEndMatchBeforeWord | src/main/java/org/microsoft/github/service/GitHubService.java:446 | A message ending in a word char has no end-anchored `(#n)` |
| GitHub.NoMergeWithoutM | src/main/java/org/microsoft/github/service/GitHubService.java:453 | A message without `M` has no merge match |
| GitHub.NoParenWithoutOpen | src/main/java/org/microsoft/github/service/GitHubService.java:446-464 | Without `(` neither parenthesised pattern matches |
| GitHub.HashBeforeGroup | src/main/java/org/microsoft/github/service/GitHubService.java:446-467 | Every pattern's digits follow a `#`, and that `#` follows no word char |
| GitHub.MergeRequestBeatsHashes | src/main/java/org/microsoft/github/service/GitHubService.java:452-457 | `Merge pull request #n` in a message that ends in a word char yields `n`, whatever `(#m)` and `#m` follow it, or throws when `n` is past `int` |
| GitHub.MidParenBeatsBareHash | src/main/java/org/microsoft/github/service/GitHubService.java:459-464 | `(#n)` in the middle of a message without merge text yields `n` even when bare `#m` come before or after it, or throws when `n` is past `int` |
| GitHub.BareHashCounts | src/main/java/org/microsoft/github/service/GitHubService.java:466-471 | A lone `#n` between non-word chars, with no `(` and no merge text, yields `n`, or throws when `n` is past `int` |
| GitHub.HashAfterWordCharIsNoNumber | src/main/java/org/microsoft/github/service/GitHubService.java:467 | A message whose only `#` follows a word char has no number |
| GitHub.HashBeforeLetterIsNoNumber | src/main/java/org/microsoft/github/service/GitHubService.java:467 | A message whose only `#` is followed by digits running into a letter has no number |
| GitHub.NoMatchAnywhere | src/main/java/org/microsoft/github/service/GitHubService.java:473 | When no pattern matches anywhere there is no number |
| GitHub.WordBoundaryExamples | src/main/java/org/microsoft/github/service/GitHubService.java:467 | `a#12` and `#12a` have no number; `a #12` has 12 |
| GitHub.EnrichCommit | src/main/java/org/microsoft/github/service/GitHubService.java:483-501 | Only `prId` and `prDescription` can change; a new `prId` is the extracted number; a new description is the fetched, non-blank text for that number |
| GitHub.EnrichIdempotent | src/main/java/org/microsoft/github/service/GitHubService.java:483-501 | Enriching twice is enriching once |
| GitHub.NumberIsAlwaysRecorded | src/main/java/org/microsoft/github/service/GitHubService.java:486-496 | An extracted number is always recorded, and the description is replaced only by a usable fetched one |
| GitHub.EnrichAll | src/main/java/org/microsoft/github/service/GitHubService.java:479-504 | Each commit is enriched in place, in order |
| GitHub.RepoCoordinates | src/main/java/org/microsoft/github/service/GitHubService.java:88-90 | Fewer than two parts throws `IndexOutOfBoundsException`; owner and name hold no `/` |
| GitHub.RepoUrlRoundTrip | src/main/java/org/microsoft/github/service/GitHubService.java:88-92 | The URL of `owner/repo` splits back into `owner` and `repo` |
| GitHub.OwnerOnlyUrlFails | src/main/java/org/microsoft/github/service/GitHubService.java:88-90 | A URL naming only an owner fails |
| GitHub.KeepIssues | src/main/java/org/microsoft/github/service/GitHubService.java:193-196 | An issue is kept exactly when it was parsed, was created in the window and is not by a bot; each kept issue occurs as often as it was parsed, in the parsed order |
| GitHub.KeepCommits | src/main/java/org/microsoft/github/service/GitHubService.java:263-268 | A commit is kept exactly when it was parsed and is not by a bot; each kept commit occurs as often as it was parsed, in the parsed order |
| GitHub.KeepPRs | src/main/java/org/microsoft/github/service/GitHubService.java:295-328 | A pull request is kept exactly when it was parsed, is in the window and is not by a bot; each kept one occurs as often as it was parsed, in the parsed order |
| GitHub.FetchedHasNoBots | src/main/java/org/microsoft/github/service/GitHubService.java:94-112 | No list of fetched data holds anything `BotFilter` flags, and enrichment keeps each commit's login |
| GitHub.TeamCommitsAreMembers | src/main/java/org/microsoft/github/service/GitHubService.java:107 | The team commits are exactly the fetched commits by team members: same relative order, and each kept as often as it was fetched |
| GitHub.TeamIssuesAndPRsAreMembers | src/main/java/org/microsoft/github/service/GitHubService.java:106-108 | The team issues and team pull requests are likewise the members' items: same relative order, and each kept as often as it was fetched |
| GitHub.ForEachRepo | src/main/java/org/microsoft/github/service/GitHubService.java:86-134 | The loop succeeds exactly when every URL splits; then there is one result per URL, in order |
| GitHub.FetchedNamesFollowUrls | src/main/java/org/microsoft/github/service/GitHubService.java:88-92 | Each fetched repository is named `owner/repo` after its URL |
| HtmlReport.EscapeChar | src/main/java/org/microsoft/report/HtmlReportGenerator.java:350-354 | A char is kept exactly when it is not one of the five markup chars; an escaped one becomes an entity starting with `&` |
| HtmlReport.EscapeChars | src/main/java/org/microsoft/report/HtmlReportGenerator.java:350-354 | Escaped text holds no `<`, `>`, `"` or `'` and is never shorter |
| HtmlReport.EscapeHtml | src/main/java/org/microsoft/report/HtmlReportGenerator.java:348-355 | Null becomes `""`; otherwise the five chained replacements equal per-char escaping |
| HtmlReport.EscapeHtmlIsCharWise | src/main/java/org/microsoft/report/HtmlReportGenerator.java:350-354 | The chain of string replacements, `&` first, is per-char escaping |
| HtmlReport.CharWiseIsEscapeChars | src/main/java/org/microsoft/report/HtmlReportGenerator.java:350-354 | Replacing `&` first and then the other four is per-char escaping |
| HtmlReport.OneCharEscapes | src/main/java/org/microsoft/report/HtmlReportGenerator.java:350-354 | One char through all five replacements is its entity: the later replacements do not touch the `&amp;` of the first |
| HtmlReport.EscapedAmpersands | src/main/java/org/microsoft/report/HtmlReportGenerator.java:350-354 | In escaped text every `&` starts one of the five entities |
| HtmlReport.UnescapeEscapes | src/main/java/org/microsoft/report/HtmlReportGenerator.java:348-355 | Decoding the five entities restores the input exactly |
| HtmlReport.EscapeInjective | src/main/java/org/microsoft/report/HtmlReportGenerator.java:348-355 | Distinct texts stay distinct once escaped |
| HtmlReport.PlainTextUnchanged | src/main/java/org/microsoft/report/HtmlReportGenerator.java:348-355 | Text without markup chars is left as it is |
| HtmlReport.SummaryContentAsWritten | src/main/java/org/microsoft/report/HtmlReportGenerator.java:80-84 | Null stays null; a summary holding `&lt;`, `&gt;` or `&amp;` is inserted as it is; any other is escaped, and decodes back to itself |
| HtmlReport.QuoteIsEscapedTwice | src/main/java/org/microsoft/report/HtmlReportGenerator.java:80-84 | The escaped form of `"` is escaped again, to `&amp;quot;` |
| HtmlReport.SummaryContent | src/main/java/org/microsoft/report/HtmlReportGenerator.java:79-84 | The guard with all five entities: null stays null; a summary holding an entity is kept; any other is escaped and decodes back to itself |
| HtmlReport.EscapedSummaryIsKept | src/main/java/org/microsoft/report/HtmlReportGenerator.java:79-84 | With the full guard an escaped summary is never escaped again |
| HtmlReport.EntityInEscaped | src/main/java/org/microsoft/report/HtmlReportGenerator.java:350-354 | A markup char of the input leaves an entity in the escaped text |
| HtmlReport.Truncate | src/main/java/org/microsoft/report/HtmlReportGenerator.java:343-346 | Null becomes `""`; text within the limit is kept; longer text keeps its first `n` chars plus `...`, `n + 3` chars in all |
| HtmlReport.ReportRuleIsWeaker | src/main/java/org/microsoft/report/HtmlReportGenerator.java:300-320 | Whatever the report's rule flags, `BotFilter` flags too |
| HtmlReport.RenovatePassesReportRule | src/main/java/org/microsoft/report/HtmlReportGenerator.java:300-320 | The report's rule is strictly weaker: `renovate` passes it but not `BotFilter` |
| HtmlReport.ReportRuleMentionsBot | src/main/java/org/microsoft/report/HtmlReportGenerator.java:300-320 | Whatever the report flags mentions `bot`, so `removeBotActivity` removes it too |
| HtmlReport.ReportRuleAgreesOffExtraMarkers | src/main/java/org/microsoft/report/HtmlReportGenerator.java:300-309 | Without `dependabot`, `renovate` or `github-actions` and apart from `codecov-io` and `coveralls`, the report flags a login exactly when `BotFilter` does |
| HtmlReport.ReportFlagsTestBots | src/test/java/org/microsoft/report/HtmlReportGeneratorTest.java:68-70 | The report flags `GlutenPerfBot` and `testbot` and keeps `humanuser` |
| HtmlReport.FilterBotActivity | src/main/java/org/microsoft/report/HtmlReportGenerator.java:256-298 | The copy keeps the name, issues and team issues; the commit and PR lists, all and team, lose exactly their flagged entries, keep their order and stay null when null |
| HtmlReport.RemoveIfNothingFlagged | src/main/java/org/microsoft/report/HtmlReportGenerator.java:262-293 | A list in which nothing is flagged goes through unchanged |
| HtmlReport.ReportFilterAfterRemoveBotActivity | src/main/java/org/microsoft/report/HtmlReportGenerator.java:256-298 | Data already cleaned by `removeBotActivity` goes through the report's filter unchanged |
| HtmlReport.Shas | src/main/java/org/microsoft/report/HtmlReportGenerator.java:370 | The SHAs of the list, one per commit, in order |
| HtmlReport.FilterCommitsBySha | src/main/java/org/microsoft/report/HtmlReportGenerator.java:367-374 | A null list of kept commits leaves the bucket alone; otherwise the bucket keeps, in order and with every repeat, exactly its commits whose SHA is among the kept ones |
| HtmlReport.FilterCategorization | src/main/java/org/microsoft/report/HtmlReportGenerator.java:357-365 | No commit list leaves the categorisation unchanged; otherwise each of the four buckets keeps, in order and with every repeat, exactly its commits whose SHA is among the filtered commits |
| HtmlReport.FilterBySharedShasKeepsAll | src/main/java/org/microsoft/report/HtmlReportGenerator.java:367-374 | A bucket whose SHAs all survive is kept whole |
| HtmlReport.InsertDescending | src/main/java/org/microsoft/report/HtmlReportGenerator.java:144 | Inserting adds exactly the one entry |
| HtmlReport.SortDescending | src/main/java/org/microsoft/report/HtmlReportGenerator.java:144 | The sort is a permutation |
| HtmlReport.InsertKeepsOrder | src/main/java/org/microsoft/report/HtmlReportGenerator.java:144 | Inserting into a newest-first list keeps it newest first |
| HtmlReport.InsertIsStable | src/main/java/org/microsoft/report/HtmlReportGenerator.java:144 | Inserting puts the entry ahead of the equal-keyed entries already there |
| HtmlReport.SortIsOrdered | src/main/java/org/microsoft/report/HtmlReportGenerator.java:144 | The sorted list is newest first |
| HtmlReport.SortIsStable | src/main/java/org/microsoft/report/HtmlReportGenerator.java:144 | Entries with equal keys keep their input order |
| HtmlReport.OpenIssues | src/main/java/org/microsoft/report/HtmlReportGenerator.java:140-145 | A null list shows nothing; otherwise the shown issues are the open ones as a multiset, each open |
| HtmlReport.OpenIssuesSelection | src/main/java/org/microsoft/report/HtmlReportGenerator.java:142-145 | An issue is shown exactly when it is open; the list is newest first, and open issues created at the same instant keep their input order |
| HtmlReport.OpenPRs | src/main/java/org/microsoft/report/HtmlReportGenerator.java:173-176 | A null list shows nothing; otherwise exactly the open pull requests, in input order, each as often as it occurs |
| HtmlReport.CommitDescription | src/main/java/org/microsoft/report/HtmlReportGenerator.java:334-341 | A null message or one without a newline gives `""`; otherwise the result is trimmed |
| HtmlReport.DescriptionIsTrimmedBody | src/main/java/org/microsoft/report/HtmlReportGenerator.java:339-340 | A subject line, a newline and a body give the trimmed body, later newlines included |
| ReportService.FilterBotCommits | src/main/java/org/microsoft/report/ReportService.java:69-78 | Null gives an empty list; otherwise exactly the commits whose login is null or whose lowercased login lacks `bot`, in order |
| ReportService.FilterBotCommitsIsRemoveBotActivity | src/main/java/org/microsoft/report/ReportService.java:69-78 | The filtered list is the commit list `removeBotActivity` leaves |
| ReportService.SummaryOrDefault | src/main/java/org/microsoft/report/ReportService.java:51-54 | Null becomes the fixed default; any other summary, `""` included, is kept |
| ReportService.CategorizeNonBotCommits | src/main/java/org/microsoft/report/ReportService.java:39-45 | No bucket holds a commit whose login mentions `bot`; every bucketed commit has the SHA of a non-bot input commit; no non-bot commits means no call and empty buckets. Otherwise the result is `categorizeCommits` of the non-bot commits: the first call is their 2000-token categorisation prompt, one summary call per categorised commit follows, and the latest summaries are attached |
| ReportService.AttachedCommitsAreNonBot | src/main/java/org/microsoft/report/ReportService.java:39-45 | Attaching summaries to buckets drawn from non-bot commits keeps them non-bot and keeps their SHAs |
| ReportService.GenerateReport | src/main/java/org/microsoft/report/ReportService.java:35-64 | The generator gets the data unfiltered and a categorisation of non-bot commits only. Before the last call, the calls and the categorisation are those of `categorizeCommits` on the non-bot commits. The summary is the overall summary of that categorisation, and its call is the last one. No non-bot commits means exactly one call |
| Calendar.MonthLength | src/main/java/org/microsoft/SummaryGeneratorOrchestrator.java:85-86 | A month has 28 to 31 days |
| Calendar.NextOfPrev | src/main/java/org/microsoft/SummaryGeneratorOrchestrator.java:86 | The day after the day before is the same date |
| Calendar.PrevOfNext | src/main/java/org/microsoft/SummaryGeneratorOrchestrator.java:86 | The day before the day after is the same date |
| Calendar.DayNumberPrev | src/main/java/org/microsoft/SummaryGeneratorOrchestrator.java:86 | The previous day has the previous day number |
| Calendar.DayNumberNext | src/main/java/org/microsoft/SummaryGeneratorOrchestrator.java:86 | The next day has the next day number |
| Calendar.EarlierDateSmallerNumber | src/main/java/org/microsoft/SummaryGeneratorOrchestrator.java:86 | Valid dates are ordered as their day numbers |
| Calendar.DayNumberInjective | src/main/java/org/microsoft/SummaryGeneratorOrchestrator.java:86 | Two valid dates with one day number are the same date |
| Calendar.StepDays | src/main/java/org/microsoft/SummaryGeneratorOrchestrator.java:86 | Stepping `n` days gives a valid date whose day number is `n` less |
| Calendar.MinusDays | src/main/java/org/microsoft/SummaryGeneratorOrchestrator.java:86 | `minusDays(n)` gives a valid date `n` days earlier within the supported years, or a `DateTimeException` |
| Calendar.MinusDaysIsUnique | src/main/java/org/microsoft/SummaryGeneratorOrchestrator.java:86 | The result is the one valid date `n` days earlier, and it is missing only when that date is out of range |
| Calendar.NatToStringLength | src/main/java/org/microsoft/SummaryGeneratorOrchestrator.java:87 | A number prints in at most `k` digits exactly when it is below `10^k` |
| Calendar.ZeroPad | src/main/java/org/microsoft/SummaryGeneratorOrchestrator.java:87 | Padding gives digits of the field width, or the digits themselves when they are wider |
| Calendar.ZeroPadValue | src/main/java/org/microsoft/SummaryGeneratorOrchestrator.java:87 | Padding does not change the printed value |
| Calendar.YearOfEra | src/main/java/org/microsoft/SummaryGeneratorOrchestrator.java:84-87 | The year-of-era the pattern letter `y` prints is at least 1 |
| Calendar.EraIsNotPrinted | src/main/java/org/microsoft/SummaryGeneratorOrchestrator.java:84-87 | A year `y <= 0` prints like year `1 - y` of the current era |
| Calendar.ResolveDate | src/main/java/org/microsoft/SummaryGeneratorOrchestrator.java:85 | Resolution accepts years of era 1..999,999,999, months 1..12 and days 1..31, and clamps the day to the month's length; anything else is a `DateTimeParseException` |
| Calendar.ParseIsoDate | src/main/java/org/microsoft/SummaryGeneratorOrchestrator.java:84-85 | Null throws `NullPointerException`; any other failure is a `DateTimeParseException`; a parsed date is valid and in the current era |
| Calendar.TwoDigits | src/main/java/org/microsoft/SummaryGeneratorOrchestrator.java:87 | Months and days print as two digits that read back as their value |
| Calendar.SplitAccepts | src/main/java/org/microsoft/SummaryGeneratorOrchestrator.java:85 | Text laid out as `yyyy-MM-dd`, with `+` before a year of more than four digits, passes the parse phase with its fields read |
| Calendar.ParseLayout | src/main/java/org/microsoft/SummaryGeneratorOrchestrator.java:85 | A year text, a month and a day laid out with dashes parse to that date |
| Calendar.FormatThenParse | src/main/java/org/microsoft/SummaryGeneratorOrchestrator.java:84-87 | Parsing what `format` printed gives the date back, for every date of the current era |
| Calendar.DayIsClamped | src/main/java/org/microsoft/SummaryGeneratorOrchestrator.java:85 | `2023-02-30` parses to 28 February 2023 |
| UserInput.ApplyArg | src/main/java/org/microsoft/UserInput.java:14-20 | Only a `--period=` argument can fail, with `NumberFormatException` |
| UserInput.ParseArgs | src/main/java/org/microsoft/UserInput.java:11-22 | Construction fails only with `NumberFormatException` |
| UserInput.LastWith | src/main/java/org/microsoft/UserInput.java:13-20 | The value is the text after the flag of an argument that starts with it, and there is none exactly when no argument does |
| UserInput.FlagsExclusive | src/main/java/org/microsoft/UserInput.java:14-18 | An argument starts with at most one of the three flags |
| UserInput.ParseArgsIsLastValues | src/main/java/org/microsoft/UserInput.java:11-22 | Construction fails exactly when some `--period=` value is not an `int`, and otherwise each field holds its flag's last value: the date text, the parsed period, the repository list split at `,` |
| UserInput.UnknownArgsIgnored | src/main/java/org/microsoft/UserInput.java:13-21 | Arguments matching no flag leave the date null, the period 0 and the repositories null |
| UserInput.BadPeriodFails | src/main/java/org/microsoft/UserInput.java:16-17 | A `--period=` value that is not an `int` makes construction fail, wherever it stands |
| Orchestrator.ResolveParameters | src/main/java/org/microsoft/SummaryGeneratorOrchestrator.java:37-47 | Without arguments everything comes from the config; with arguments, resolution fails exactly when parsing does, with `NumberFormatException` |
| Orchestrator.ArgumentsOverrideConfig | src/main/java/org/microsoft/SummaryGeneratorOrchestrator.java:42-46 | Each parameter is its flag's last value when that value is set (repositories: non-empty; period: positive), and the config's otherwise |
| Orchestrator.NoPeriodUsesConfig | src/main/java/org/microsoft/SummaryGeneratorOrchestrator.java:46 | Without `--period=` the config's period is used |
| Orchestrator.CalculateStartDate | src/main/java/org/microsoft/SummaryGeneratorOrchestrator.java:83-88 | A null end date throws `NullPointerException`; an end date that does not parse throws the parser's exception |
| Orchestrator.StartDateIsPeriodEarlier | src/main/java/org/microsoft/SummaryGeneratorOrchestrator.java:83-88 | The start date is the printed date `period` days before the end date, and it reads back as that date |
| Orchestrator.StartDateOutOfRange | src/main/java/org/microsoft/SummaryGeneratorOrchestrator.java:86 | A start date outside the supported years throws `DateTimeException` |
| Orchestrator.RepoFileName | src/main/java/org/microsoft/SummaryGeneratorOrchestrator.java:73 | The file name is the repository name char for char, with `/` as `-` and a space as `_`, followed by `.html`; it holds no `/` or space |
| Orchestrator.FileNamesCollide | src/main/java/org/microsoft/SummaryGeneratorOrchestrator.java:73 | `a/b-c` and `a-b/c` get the same file |
| Orchestrator.PlainNameKept | src/main/java/org/microsoft/SummaryGeneratorOrchestrator.java:73 | A name without `/` or space is kept, plus `.html` |
| Orchestrator.OutputsFor | src/main/java/org/microsoft/SummaryGeneratorOrchestrator.java:66-78 | One file per fetched repository, in order, with its derived name, the output directory and the agent's summary |
| Orchestrator.Run | src/main/java/org/microsoft/SummaryGeneratorOrchestrator.java:32-81 | A parsing failure escapes as `NumberFormatException`, and a run that succeeds had its parameters resolved |
| Orchestrator.RunWritesOnePerRepository | src/main/java/org/microsoft/SummaryGeneratorOrchestrator.java:53-78 | Once the start date is computed, the run succeeds: a failed fetch writes nothing, a successful one writes one file per repository |
| Orchestrator.RunStopsOnBadDate | src/main/java/org/microsoft/SummaryGeneratorOrchestrator.java:48 | A start date that cannot be computed stops the run before anything is fetched |
| JavaText.Trim | src/main/java/org/microsoft/analysis/ParallelCommitSummaryService.java:293 | `trim` is the slice between the first and last chars above U+0020, and empty exactly when every char is at most U+0020 |
| JavaText.TrimIdempotent | src/main/java/org/microsoft/analysis/ParallelCommitSummaryService.java:293-304 | Trimming twice is trimming once |
| JavaText.CollapseSpaces | src/main/java/org/microsoft/analysis/ParallelCommitSummaryService.java:313 | `replaceAll("\\s+", " ")` leaves no regex space but the plain space and keeps every other char from the input |
| JavaText.CollapseSpacesContent | src/main/java/org/microsoft/analysis/ParallelCommitSummaryService.java:313 | Collapsing keeps the chars that are not regex spaces, all of them and in order, and never leaves two spaces side by side |
| JavaText.ToLower | src/main/java/org/microsoft/utils/BotFilter.java:52 | Lowercasing keeps the length and maps each char by itself |
| JavaText.SameIgnoringCaseLower | src/main/java/org/microsoft/utils/BotFilter.java:52 | Strings differing only in letter case lowercase identically |
| JavaText.ContainsIff | src/main/java/org/microsoft/utils/BotFilter.java:56-61 | `contains` holds exactly when the substring occurs at some index |
| JavaText.IndexOfChar | src/main/java/org/microsoft/github/service/GitHubService.java:224 | `indexOf` is the first index holding the char, or -1 exactly when it is absent |
| JavaText.LastIndexOfChar | src/main/java/org/microsoft/analysis/ParallelCommitSummaryService.java:356 | `lastIndexOf(c, from)` is the last index at or below `from` holding the char, or -1 |
| JavaText.SplitAllJoin | src/main/java/org/microsoft/UserInput.java:19 | The pieces of a split, joined again, give back the text |
| JavaText.SplitAllOfJoin | src/main/java/org/microsoft/analysis/AzureAiAnalysisService.java:221 | Pieces free of the separator, joined and split again, come back unchanged |
| JavaText.JavaSplitOfJoin | src/main/java/org/microsoft/analysis/AzureAiAnalysisService.java:221 | The same holds for Java's `split`, which drops trailing empty strings, when the last piece is not empty |
| JavaText.JavaSplit | src/main/java/org/microsoft/UserInput.java:19 | `split` pieces hold no separator, and text without one splits into itself |
| JavaText.SplitTwo | src/main/java/org/microsoft/github/service/GitHubService.java:88 | `a/b` with a non-empty `b` splits into `[a, b]` |
| JavaText.ParseInt | src/main/java/org/microsoft/UserInput.java:17 | `parseInt` gives a 32-bit value or `NumberFormatException` |
| JavaText.ParseIntOkIff | src/main/java/org/microsoft/UserInput.java:17 | `parseInt` accepts exactly an optional sign and digits whose value fits in 32 bits |
| JavaText.ParseIntOfDigits | src/main/java/org/microsoft/github/service/GitHubService.java:449 | A digit string parses to its value, or throws past `Integer.MAX_VALUE` |
| JavaText.ParseIntToString | src/main/java/org/microsoft/UserInput.java:17 | `parseInt` of `toString(v)` is `v` for every 32-bit `v` |
| JavaText.LexLeqTotal | src/main/java/org/microsoft/github/service/GitHubService.java:228-236 | `compareTo` orders any two strings |
| JavaText.LexLeqTransitive | src/main/java/org/microsoft/github/service/GitHubService.java:228-236 | `compareTo` order is transitive |
| JavaText.LexLeqAntisymmetric | src/main/java/org/microsoft/github/service/GitHubService.java:228-236 | Strings ordered both ways are equal |
| Seqs.FilterMembers | src/main/java/org/microsoft/report/ReportService.java:72-77 | A stream filter keeps exactly the elements that pass |
| Seqs.FilterAppend | src/main/java/org/microsoft/report/HtmlReportGenerator.java:263-265 | Filtering distributes over concatenation, so relative order is kept |
| Seqs.FilterIsSubsequence | src/main/java/org/microsoft/report/HtmlReportGenerator.java:263-265 | The survivors of a filter appear in the input in the same order |
| Seqs.AddDistinct | src/main/java/org/microsoft/analysis/ParallelCommitSummaryService.java:437-447 | Appending only the absent elements keeps the list duplicate-free and misses no element |
| Seqs.AddDistinctAppend | src/main/java/org/microsoft/analysis/ParallelCommitSummaryService.java:437-447 | Adding `a + b` without duplicates is adding `a`, then `b` |
| Seqs.AddDistinctKeepsDistinct | src/main/java/org/microsoft/analysis/ParallelCommitSummaryService.java:219 | A duplicate-free list passes `distinct` whole |
| Seqs.AddDistinctAfter | src/main/java/org/microsoft/analysis/ParallelCommitSummaryService.java:211-219 | `distinct` of a duplicate-free list followed by more is that list with the new elements of the rest appended |
| Seqs.AddDistinctTail | src/main/java/org/microsoft/analysis/ParallelCommitSummaryService.java:437-447 | Everything added after the initial list comes from the input and was not already in the list |

## Left out

- The parallel mode of `generateCommitSummaries` and `shutdown` (ParallelCommitSummaryService.java:142-166, 460): their point is threads and timeouts. The analysis service always runs the sequential branch.
- HTTP, JSON and the GitHub token. `fetchIssues`, `fetchCommits` and `fetchPullRequests` are modelled from the parsed entries on: `GitHub.Remote` hands over the parsed lists and `fetchPRDescription`. `fetchContributors` is not modelled; nothing in the core calls it.
- GitHubDataFetcher.java is not part of this model. The orchestrator calls it through the `Fetch` parameter.
- `KeepPRs`: the `LocalDateTime` window of pull requests (GitHubService.java:287-303) is the `inWindow` parameter, which stands for the library's date-time parsing and comparison.
- The Azure agent client is the `Agent` oracle. Any exception it throws is `Failed`. It is taken to be deterministic: one prompt and budget always get the same reply.
- In `run`, the agent's `getSummaryFromAgent(repoData, ...)` is the `Summarize` parameter; an exception from it would escape `run` and is not modelled.
- `ConfigLoader`, `Main` and the writing of files. `Orchestrator.Run` returns the files it would write as `OutputFile` records. An `IOException` while writing is caught and only logged in the source, so it changes nothing the model states.
- The HTML and CSS text of `generateReport`, `getEmbeddedCSS`, the `append*` methods and `formatDate`. They are templating; only their selection logic is modelled.
- `countBugIssues` and the report's own `isWithinDateRange` (HtmlReportGenerator.java:322-332, 376-394): the generator never calls them.
- Logging, timing and console output. This includes the debug sample of commit messages at GitHubService.java:125-130, which cannot throw because parsed messages are never null.
- `JavaText.ToLower`: lowercases ASCII letters only, because the locale-dependent `toLowerCase` of other scripts is outside the model.
- `JavaText.LexLeq`: compares whole chars, while `compareTo` compares UTF-16 code units. The two orders differ only between a supplementary char and a char in U+E000..U+FFFF.
- Strings are Dafny strings. SHAs, repository names, `createdAt` and the entries of lists handed between services are never null. The constructor of `CommitCategorization` is the one place where null elements are modelled.
- `ReportService.GenerateReport`: takes non-null data. The source throws `NullPointerException` at ReportService.java:39 for null data.
- `HtmlReport.OpenIssues`: an issue with a null `createdAt` would make the sort throw; the model's `createdAt` is never null.
- Summary maps are Dafny maps. The insertion order of the `LinkedHashMap` is not kept, because its only reader looks entries up by SHA.
- `GitHub.RepoUrlRoundTrip`: requires that `owner/repo` does not itself contain `https://github.com/`, since `replace` would remove that too.
- `Calendar.ParseIsoDate`: a `-` before the year is refused while parsing. `LocalDate` refuses it at resolution instead. The exception is the same.
- `Calendar.FormatThenParse`: covers years 1 and later. `yyyy` prints the year of era and drops the era, so earlier years do not read back (`Calendar.EraIsNotPrinted`).
- `PromptText.TruncateMessage`: counts Unicode scalar values, while Java's `length()` counts UTF-16 code units. The 200 and 197 limits agree with Java only for text in the Basic Multilingual Plane; a supplementary char counts once here and twice in Java.
- `PromptText.Truncate`: counts scalar values, so its limit agrees with Java's `length()` only for Basic Multilingual Plane text.
- `SummaryFormat.TruncateIfNeeded`: counts scalar values, so its 200/197/150 limits agree with Java's `length()` and `lastIndexOf` only for Basic Multilingual Plane text.
- `SummaryFormat.FormatSingle`: its 15-char test counts scalar values, which equals Java's `length()` only for Basic Multilingual Plane text.
- `AiAnalysis.CommitLine`: the 80-char cut counts scalar values, which equals Java's `length()` only for Basic Multilingual Plane text. Java can also cut a surrogate pair in half; the model cannot.
- `HtmlReport.Truncate`: counts scalar values, which equals Java's `length()` only for Basic Multilingual Plane text.
- `JavaText.ParseInt`: accepts ASCII digits only. `Integer.parseInt` also accepts the other Unicode decimal digits (`Character.digit`), such as Arabic-Indic digits. The inputs it parses here are the `--period=` value and the index lists of the agent's reply; `JavaText.ParseIntOkIff` carries the same restriction.
- Java's `setSummary` writes each summary into the commit objects the categorisation shares with the repository data. The model's commits are immutable records: `AiAnalysis.CategorizeCommits` returns a categorisation whose commits carry their summaries, and the report reads summaries from that categorisation.
- The decoded categorisation is not a partition: a commit can be in several buckets or in none, and an index can repeat (AzureAiAnalysisService.java:214-227). The model states no partition property.
- The null-summary default of `generateReport` never applies, because `generateSummary` always returns a string, possibly `""`.
- `UserInput` accepts only `--date=`, `--period=` and `--repos=`, with comma-separated repositories, and throws on a bad period (UserInput.java:13-20). The model follows these rules and no other option syntax.
- `PromptText.Resolver`: a total function. Java's `getIssueDescription` may throw; `generateSummary` (ParallelCommitSummaryService.java:180-205) then catches the exception, and the commit gets a null summary. The model has no such failure.
- `PromptText.ExtractIssueRefsComplete`: every reference the URL scan reports is extracted. That the URL scan itself misses no URL match, when it resumes after each match, is not proved.

## Findings

| source | as written | input that shows it | evidently intended | confidence | as-written member | corrected member |
|---|---|---|---|---|---|---|
| src/main/java/org/microsoft/report/HtmlReportGenerator.java:79-84 | The "already escaped" guard looks only for `&lt;`, `&gt;` and `&amp;` | The summary `&quot;`, which is `escapeHtml` of `"`, is escaped again to `&amp;quot;` | Not to escape a summary twice, which needs all five entities `escapeHtml` produces, `&quot;` and `&#x27;` included | not executed | HtmlReport.SummaryContentAsWritten, HtmlReport.QuoteIsEscapedTwice | HtmlReport.SummaryContent, HtmlReport.EscapedSummaryIsKept |

=== FILE: agent.dfy ===
/**
 * The language-model agent as an uninterpreted oracle. The services only ever
 * send a prompt with a token budget and read back text, `null`, or an exception,
 * so that is all the model keeps of the Azure client.
 */
module Agents {
  import opened Wrappers

  /** What one agent call can end in: some text (possibly `null`), or a thrown exception. */
  datatype AgentReply = Replied(text: Option<string>) | Failed

  /** The agent: the reply to a prompt under a token budget. */
  type Agent = (string, int) -> AgentReply

  /** One recorded agent call, so callers can state which prompts were sent, in which order. */
  datatype Call = Call(prompt: string, maxTokens: int)
}

=== FILE: ai_analysis.dfy ===
/**
 * `AzureAiAnalysisService`: commit categorisation through the agent, with a
 * deterministic keyword classifier as fallback, per-commit summaries attached
 * afterwards, and the overall repository summary.
 *
 * The agent's reply `Bug Fixes: [1,3], Features: [2], ...` is decoded by a
 * hand-written matcher for the pattern `<name>:\s*\[([^\]]*)\]`.
 */
module AiAnalysis {
  import opened Wrappers
  import opened JavaText
  import opened Seqs
  import opened Entities
  import opened Agents
  import opened Categorization
  import opened RepoData
  import opened SummaryFormat
  import opened CommitSummaries

  /** The four buckets, in the order the code fills and reports them. */
  datatype Category = BugFix | Feature | Improvement | Other

  /** The name the reply uses for each bucket. */
  function LabelOf(k: Category): string {
    match k
    case BugFix => "Bug Fixes"
    case Feature => "Features"
    case Improvement => "Improvements"
    case Other => "Others"
  }

  /** The bucket of a categorisation that holds category `k`. */
  function Bucket(c: CommitCategorization, k: Category): seq<Commit> {
    match k
    case BugFix => c.bugFixes
    case Feature => c.features
    case Improvement => c.improvements
    case Other => c.others
  }

  // ---------------------------------------------------------------------------
  // The fallback classifier
  // ---------------------------------------------------------------------------

  /**
   * `fallbackCategorization`'s rule for one message: the first group of
   * keywords found in the lowercased message wins; a null message is `Other`.
   */
  function Classify(message: Option<string>): Category {
    if message.None? then Other
    else
      var m := ToLower(message.value);
      if Contains(m, "fix") || Contains(m, "bug") || Contains(m, "hotfix") then BugFix
      else if Contains(m, "feat") || Contains(m, "feature") || Contains(m, "add") || Contains(m, "optimize") then Feature
      else if Contains(m, "refactor") || Contains(m, "perf") then Improvement
      else Other
  }

  /** The category of a commit, by its message. */
  function CategoryOf(c: Commit): Category {
    Classify(c.message)
  }

  /** The commits a classifier puts in category `k`. */
  function InCategory(cls: Commit -> Category, k: Category): Commit -> bool {
    c => cls(c) == k
  }

  /** Puts one commit in front of the bucket the classifier selects. */
  function PutFirst(c: Commit, acc: CommitCategorization, cls: Commit -> Category): CommitCategorization {
    match cls(c)
    case BugFix => acc.(bugFixes := [c] + acc.bugFixes)
    case Feature => acc.(features := [c] + acc.features)
    case Improvement => acc.(improvements := [c] + acc.improvements)
    case Other => acc.(others := [c] + acc.others)
  }

  /** Only the selected bucket grows, by the commit, at the front. */
  lemma PutFirstBucket(c: Commit, acc: CommitCategorization, cls: Commit -> Category, k: Category)
    ensures Bucket(PutFirst(c, acc, cls), k) == if cls(c) == k then [c] + Bucket(acc, k) else Bucket(acc, k)
  {
  }

  /**
   * The loop of `fallbackCategorization` for any classifier: every commit goes
   * to exactly one bucket, and each bucket keeps the input order. It is written
   * from the front (the first commit ahead of the buckets of the rest), which
   * gives the same buckets as the loop's appends: each bucket is the
   * order-preserving filter of the commits for its category.
   */
  function FallbackBy(commits: seq<Commit>, cls: Commit -> Category): (r: CommitCategorization)
    ensures forall k :: Bucket(r, k) == Filter(commits, InCategory(cls, k))
  {
    if commits == [] then Empty
    else
      var rest := FallbackBy(commits[1..], cls);
      forall k ensures Bucket(PutFirst(commits[0], rest, cls), k) == Filter(commits, InCategory(cls, k)) {
        PutFirstBucket(commits[0], rest, cls, k);
      }
      PutFirst(commits[0], rest, cls)
  }

  /** `fallbackCategorization`: the keyword classifier applied to every commit. */
  function Fallback(commits: seq<Commit>): CommitCategorization {
    FallbackBy(commits, CategoryOf)
  }

  /** The four buckets together. */
  function AllBuckets(r: CommitCategorization): multiset<Commit> {
    multiset(r.bugFixes) + multiset(r.features) + multiset(r.improvements) + multiset(r.others)
  }

  /** Every commit lands in exactly one bucket, so the total is the input size. */
  lemma {:induction false} FallbackPartitions(commits: seq<Commit>, cls: Commit -> Category)
    ensures AllBuckets(FallbackBy(commits, cls)) == multiset(commits)
    ensures FallbackBy(commits, cls).TotalCount() == |commits|
  {
    if commits != [] {
      var c := commits[0];
      FallbackPartitions(commits[1..], cls);
      PutFirstCounts(c, FallbackBy(commits[1..], cls), cls);
      assert commits == [c] + commits[1..];
    }
  }

  /** Putting a commit first adds it to the buckets' multiset and one to their total. */
  lemma PutFirstCounts(c: Commit, acc: CommitCategorization, cls: Commit -> Category)
    ensures AllBuckets(PutFirst(c, acc, cls)) == multiset{c} + AllBuckets(acc)
    ensures PutFirst(c, acc, cls).TotalCount() == 1 + acc.TotalCount()
  {
    var r := PutFirst(c, acc, cls);
    match cls(c)
    case BugFix => assert multiset(r.bugFixes) == multiset{c} + multiset(acc.bugFixes);
    case Feature => assert multiset(r.features) == multiset{c} + multiset(acc.features);
    case Improvement => assert multiset(r.improvements) == multiset{c} + multiset(acc.improvements);
    case Other => assert multiset(r.others) == multiset{c} + multiset(acc.others);
  }

  /** Each commit sits in the bucket of its own category, and in no other. */
  lemma FallbackPlacesEachCommit(commits: seq<Commit>, cls: Commit -> Category, c: Commit, k: Category)
    requires c in commits
    ensures c in Bucket(FallbackBy(commits, cls), k) <==> cls(c) == k
  {
    FilterMembers(commits, InCategory(cls, k), c);
  }

  /** The buckets hold nothing but input commits. */
  lemma FallbackMembers(commits: seq<Commit>, cls: Commit -> Category)
    ensures forall k: Category :: forall j :: 0 <= j < |Bucket(FallbackBy(commits, cls), k)| ==>
      Bucket(FallbackBy(commits, cls), k)[j] in commits
  {
    forall k: Category, j | 0 <= j < |Bucket(FallbackBy(commits, cls), k)|
      ensures Bucket(FallbackBy(commits, cls), k)[j] in commits
    {
      FilterMembers(commits, InCategory(cls, k), Bucket(FallbackBy(commits, cls), k)[j]);
    }
  }

  /** Bug-fix keywords take precedence over every other group. */
  lemma BugFixKeywordsWin(message: string)
    requires Contains(ToLower(message), "fix") || Contains(ToLower(message), "bug")
    ensures Classify(Some(message)) == BugFix
  {
  }

  /** Without a bug-fix keyword, a feature keyword makes `Feature`, even when improvement keywords are present too. */
  lemma FeatureKeywordsBeatImprovement(message: string)
    requires !Contains(ToLower(message), "fix") && !Contains(ToLower(message), "bug")
    requires var m := ToLower(message);
      Contains(m, "feat") || Contains(m, "feature") || Contains(m, "add") || Contains(m, "optimize")
    ensures Classify(Some(message)) == Feature
  {
    NoHotfixWithoutFix(ToLower(message));
  }

  /** Without bug-fix or feature keywords, `refactor` or `perf` makes `Improvement`. */
  lemma ImprovementKeywords(message: string)
    requires var m := ToLower(message);
      && !Contains(m, "fix") && !Contains(m, "bug")
      && !Contains(m, "feat") && !Contains(m, "add") && !Contains(m, "optimize")
    requires Contains(ToLower(message), "refactor") || Contains(ToLower(message), "perf")
    ensures Classify(Some(message)) == Improvement
  {
    var m := ToLower(message);
    NoHotfixWithoutFix(m);
    assert "feature"[..4] == "feat";
    ContainsAt("feature", "feat", 0);
    if Contains(m, "feature") {
      ContainsTransitive(m, "feature", "feat");
    }
  }

  /** `hotfix` contains `fix`, so a text without `fix` has no `hotfix` either. */
  lemma NoHotfixWithoutFix(m: string)
    requires !Contains(m, "fix")
    ensures !Contains(m, "hotfix")
  {
    assert "hotfix"[3..6] == "fix";
    ContainsAt("hotfix", "fix", 3);
    if Contains(m, "hotfix") {
      ContainsTransitive(m, "hotfix", "fix");
    }
  }

  /** A message with none of the keywords is `Other`, and so is a null message. */
  lemma NoKeywordIsOther(message: Option<string>)
    requires message.Some? ==>
      var m := ToLower(message.value);
      && !Contains(m, "fix") && !Contains(m, "bug") && !Contains(m, "feat") && !Contains(m, "add")
      && !Contains(m, "optimize") && !Contains(m, "refactor") && !Contains(m, "perf")
    ensures Classify(message) == Other
  {
    if message.Some? {
      var m := ToLower(message.value);
      NoHotfixWithoutFix(m);
      assert "feature"[..4] == "feat";
      ContainsAt("feature", "feat", 0);
      if Contains(m, "feature") {
        ContainsTransitive(m, "feature", "feat");
      }
    }
  }

  // ---------------------------------------------------------------------------
  // Decoding the reply
  // ---------------------------------------------------------------------------

  /**
   * A match of `<name>:\s*\[([^\]]*)\]` starting at `i`: the bounds of the
   * bracketed group. `\s*` cannot swallow the `[`, and `[^\]]*` runs to the
   * first `]`, so the match at `i`, if any, is unique.
   */
  function LabelMatchAt(s: string, name: string, i: nat): (m: Option<(nat, nat)>)
    requires i <= |s|
    ensures m.Some? ==> OccursAt(s, name, i) && i + |name| < m.value.0 <= m.value.1 < |s|
    ensures m.Some? ==> s[m.value.1] == ']' && ']' !in s[m.value.0..m.value.1] && s[m.value.0 - 1] == '['
  {
    var colon := i + |name|;
    if !OccursAt(s, name, i) || colon >= |s| || s[colon] != ':' then None
    else
      var open := SkipRegexSpaces(s, colon + 1);
      if open >= |s| || s[open] != '[' then None
      else
        var k := IndexOfChar(s[open + 1..], ']');
        if k < 0 then None
        else
          assert s[open + 1..open + 1 + k] == s[open + 1..][..k];
          Some((open + 1, open + 1 + k))
  }

  /** `matcher.find()` from `i`, then `group(1)`: the group of the first match at or after `i`. */
  function FirstLabelGroup(s: string, name: string, i: nat): (g: Option<string>)
    requires i <= |s|
    ensures g.Some? ==> ']' !in g.value
    decreases |s| - i
  {
    match LabelMatchAt(s, name, i)
    case Some(_) => Some(GroupAt(s, name, i))
    case None => if i == |s| then None else FirstLabelGroup(s, name, i + 1)
  }

  /** The group of the match at `j`. */
  function GroupAt(s: string, name: string, j: nat): string
    requires j <= |s| && LabelMatchAt(s, name, j).Some?
  {
    var m := LabelMatchAt(s, name, j).value;
    s[m.0..m.1]
  }

  /** `j` is where the first match at or after `i` starts. */
  predicate IsFirstMatch(s: string, name: string, i: nat, j: nat) {
    i <= j <= |s| && LabelMatchAt(s, name, j).Some? && forall j' :: i <= j' < j ==> LabelMatchAt(s, name, j').None?
  }

  /** The group found is the one of the earliest match: no match starts before it. */
  lemma {:induction false} FirstLabelGroupIsEarliest(s: string, name: string, i: nat)
    requires i <= |s|
    ensures FirstLabelGroup(s, name, i).None? <==> forall j :: i <= j <= |s| ==> LabelMatchAt(s, name, j).None?
    ensures FirstLabelGroup(s, name, i).Some? ==>
      (exists j :: IsFirstMatch(s, name, i, j) && FirstLabelGroup(s, name, i).value == GroupAt(s, name, j))
    decreases |s| - i
  {
    if LabelMatchAt(s, name, i).None? && i < |s| {
      FirstLabelGroupIsEarliest(s, name, i + 1);
    }
  }

  /**
   * A reply that starts with `<name>: [<group>]` yields that group, whatever
   * follows, later occurrences of the name included.
   */
  lemma LeadingLabelIsRead(name: string, group: string, rest: string)
    requires ']' !in group
    ensures FirstLabelGroup(name + ": [" + group + "]" + rest, name, 0) == Some(group)
  {
    var s := name + ": [" + group + "]" + rest;
    var colon := |name|;
    assert s[..|name|] == name;
    assert s[colon] == ':' && s[colon + 1] == ' ' && s[colon + 2] == '[';
    assert SkipRegexSpaces(s, colon + 2) == colon + 2;
    assert SkipRegexSpaces(s, colon + 1) == colon + 2;
    var tail := s[colon + 3..];
    assert tail == group + "]" + rest;
    assert tail[|group|] == ']' && tail[..|group|] == group;
    assert IndexOfChar(tail, ']') == |group|;
    assert s[colon + 3..colon + 3 + |group|] == group;
  }

  /** A reply without the name yields no group. */
  lemma MissingLabelReadsNothing(s: string, name: string)
    requires !Contains(s, name)
    ensures FirstLabelGroup(s, name, 0).None?
  {
    ContainsIff(s, name);
    FirstLabelGroupIsEarliest(s, name, 0);
    forall j | 0 <= j <= |s|
      ensures LabelMatchAt(s, name, j).None?
    {
      if LabelMatchAt(s, name, j).Some? {
        assert false;
      }
    }
  }

  /**
   * The index list: `split(",")` of the trimmed group, each token trimmed,
   * empty tokens dropped, the rest parsed with `Integer.parseInt`. One bad
   * token makes the whole list fail.
   */
  function ParseIndexTokens(tokens: seq<string>): (r: Result<seq<int>, Exception>)
    ensures r.Err? ==> r.error == NumberFormatException
    ensures r.Ok? ==> forall k :: 0 <= k < |r.value| ==> IsInt32(r.value[k])
  {
    if tokens == [] then Ok([])
    else
      var t := Trim(tokens[0]);
      var rest := ParseIndexTokens(tokens[1..]);
      if t == [] then rest
      else
        match ParseInt(t)
        case Err(e) => Err(e)
        case Ok(v) =>
          match rest
          case Err(e) => Err(e)
          case Ok(vs) => Ok([v] + vs)
  }

  /** A token that is not blank and not an `int` after trimming. */
  predicate IsBadToken(t: string) {
    Trim(t) != [] && ParseInt(Trim(t)).Err?
  }

  /** One step of the scan: the list fails when its first token is bad or the rest fails. */
  lemma ParseIndexTokensStep(tokens: seq<string>)
    requires tokens != []
    ensures ParseIndexTokens(tokens).Err? <==> IsBadToken(tokens[0]) || ParseIndexTokens(tokens[1..]).Err?
  {
  }

  /** The list fails exactly when one of its tokens is bad. */
  lemma {:induction false} ParseIndexTokensFails(tokens: seq<string>)
    ensures ParseIndexTokens(tokens).Err? <==> exists k :: 0 <= k < |tokens| && IsBadToken(tokens[k])
  {
    if tokens != [] {
      ParseIndexTokensStep(tokens);
      ParseIndexTokensFails(tokens[1..]);
      if ParseIndexTokens(tokens[1..]).Err? {
        var k :| 0 <= k < |tokens[1..]| && IsBadToken(tokens[1..][k]);
        assert tokens[k + 1] == tokens[1..][k];
      }
      if exists k :: 0 <= k < |tokens| && IsBadToken(tokens[k]) {
        var k :| 0 <= k < |tokens| && IsBadToken(tokens[k]);
        if k > 0 {
          assert tokens[1..][k - 1] == tokens[k];
        }
      }
    }
  }

  /** The indices written inside one pair of brackets; blank brackets give none. */
  function ParseIndexList(group: string): (r: Result<seq<int>, Exception>)
    ensures IsTrimBlank(group) ==> r == Ok([])
  {
    var t := Trim(group);
    if t == [] then Ok([]) else ParseIndexTokens(JavaSplit(t, ','))
  }

  /** `i > 0 && i <= commits.size()`. */
  predicate InRange(i: int, n: int) {
    0 < i <= n
  }

  /** Keeps the indices in 1..N and maps each to `commits[i - 1]`, in order, repeats included. */
  function SelectCommits(indices: seq<int>, commits: seq<Commit>): (r: seq<Commit>)
    ensures |r| <= |indices|
    ensures forall k :: 0 <= k < |r| ==> r[k] in commits
  {
    if indices == [] then []
    else
      var i := indices[0];
      (if InRange(i, |commits|) then [commits[i - 1]] else []) + SelectCommits(indices[1..], commits)
  }

  /** Selection works index by index: an in-range index gives its commit, any other nothing. */
  lemma SelectOne(i: int, commits: seq<Commit>)
    ensures SelectCommits([i], commits) == if InRange(i, |commits|) then [commits[i - 1]] else []
  {
  }

  /** Selection keeps the reply's order: it distributes over concatenation. */
  lemma {:induction false} SelectAppend(a: seq<int>, b: seq<int>, commits: seq<Commit>)
    ensures SelectCommits(a + b, commits) == SelectCommits(a, commits) + SelectCommits(b, commits)
  {
    if a != [] {
      assert (a + b)[1..] == a[1..] + b;
      SelectAppend(a[1..], b, commits);
    } else {
      assert a + b == b;
    }
  }

  /** `extractCommitsByCategory`: no match or blank brackets give an empty bucket. */
  function ExtractCommitsByCategory(response: string, name: string, commits: seq<Commit>)
    : (r: Result<seq<Commit>, Exception>)
    ensures FirstLabelGroup(response, name, 0).None? ==> r == Ok([])
    ensures r.Ok? ==> forall k :: 0 <= k < |r.value| ==> r.value[k] in commits
    ensures r.Err? ==> r.error == NumberFormatException
  {
    match FirstLabelGroup(response, name, 0)
    case None => Ok([])
    case Some(g) =>
      match ParseIndexList(g)
      case Err(e) => Err(e)
      case Ok(indices) => Ok(SelectCommits(indices, commits))
  }

  /**
   * The four buckets the reply names, or the exception that aborts decoding:
   * a null reply (the matcher throws) or a bad index.
   */
  function DecodeReply(response: Option<string>, commits: seq<Commit>): (r: Result<CommitCategorization, Exception>)
    ensures response.None? ==> r.Err?
    ensures r.Ok? ==> forall k: Category :: forall j :: 0 <= j < |Bucket(r.value, k)| ==> Bucket(r.value, k)[j] in commits
  {
    if response.None? then Err(NullPointerException)
    else
      var s := response.value;
      var b := ExtractCommitsByCategory(s, LabelOf(BugFix), commits);
      var f := ExtractCommitsByCategory(s, LabelOf(Feature), commits);
      var i := ExtractCommitsByCategory(s, LabelOf(Improvement), commits);
      var o := ExtractCommitsByCategory(s, LabelOf(Other), commits);
      CombinedMembers(b, f, i, o, commits);
      CombineBuckets(b, f, i, o)
  }

  /** Buckets drawn from `commits` combine into a categorisation drawn from `commits`. */
  lemma CombinedMembers(b: Result<seq<Commit>, Exception>, f: Result<seq<Commit>, Exception>,
                        i: Result<seq<Commit>, Exception>, o: Result<seq<Commit>, Exception>, commits: seq<Commit>)
    requires b.Ok? ==> forall j :: 0 <= j < |b.value| ==> b.value[j] in commits
    requires f.Ok? ==> forall j :: 0 <= j < |f.value| ==> f.value[j] in commits
    requires i.Ok? ==> forall j :: 0 <= j < |i.value| ==> i.value[j] in commits
    requires o.Ok? ==> forall j :: 0 <= j < |o.value| ==> o.value[j] in commits
    ensures var r := CombineBuckets(b, f, i, o);
      r.Ok? ==> forall k: Category :: forall j :: 0 <= j < |Bucket(r.value, k)| ==> Bucket(r.value, k)[j] in commits
  {
    var r := CombineBuckets(b, f, i, o);
    if r.Ok? {
      forall k: Category
        ensures forall j :: 0 <= j < |Bucket(r.value, k)| ==> Bucket(r.value, k)[j] in commits
      {
        match k
        case BugFix => assert Bucket(r.value, k) == b.value;
        case Feature => assert Bucket(r.value, k) == f.value;
        case Improvement => assert Bucket(r.value, k) == i.value;
        case Other => assert Bucket(r.value, k) == o.value;
      }
    }
  }

  /**
   * The four decoded buckets, or the first exception among them: the first
   * `extractCommitsByCategory` that throws aborts the rest.
   */
  function CombineBuckets(b: Result<seq<Commit>, Exception>, f: Result<seq<Commit>, Exception>,
                          i: Result<seq<Commit>, Exception>, o: Result<seq<Commit>, Exception>)
    : (r: Result<CommitCategorization, Exception>)
    ensures r.Err? <==> b.Err? || f.Err? || i.Err? || o.Err?
    ensures r.Ok? ==> r.value == CommitCategorization(b.value, f.value, i.value, o.value)
    ensures b.Err? ==> r == Err(b.error)
  {
    if b.Err? then Err(b.error)
    else if f.Err? then Err(f.error)
    else if i.Err? then Err(i.error)
    else if o.Err? then Err(o.error)
    else Ok(CommitCategorization(b.value, f.value, i.value, o.value))
  }

  /**
   * `parseCategorizationResponse`: the decoded buckets, unless decoding threw
   * or left all four empty, in which case the keyword fallback decides.
   */
  function ParseCategorizationResponse(response: Option<string>, commits: seq<Commit>): (r: CommitCategorization)
    ensures forall k: Category :: forall j :: 0 <= j < |Bucket(r, k)| ==> Bucket(r, k)[j] in commits
    ensures r.TotalCount() > 0 || commits == []
  {
    var decoded := DecodeReply(response, commits);
    if decoded.Err? || decoded.value.TotalCount() == 0 then
      FallbackPartitions(commits, CategoryOf);
      FallbackMembers(commits, CategoryOf);
      Fallback(commits)
    else decoded.value
  }

  /** A null reply, or one with no bucket labels at all (such as `""`), falls back. */
  lemma UnlabelledReplyFallsBack(response: Option<string>, commits: seq<Commit>)
    requires response.Some? ==> forall k: Category :: !Contains(response.value, LabelOf(k))
    ensures ParseCategorizationResponse(response, commits) == Fallback(commits)
  {
    if response.Some? {
      MissingLabelReadsNothing(response.value, LabelOf(BugFix));
      MissingLabelReadsNothing(response.value, LabelOf(Feature));
      MissingLabelReadsNothing(response.value, LabelOf(Improvement));
      MissingLabelReadsNothing(response.value, LabelOf(Other));
    }
  }

  /** A bad index under any name makes the whole reply fall back. */
  lemma BadIndexFallsBack(response: string, k: Category, group: string, commits: seq<Commit>)
    requires FirstLabelGroup(response, LabelOf(k), 0) == Some(group)
    requires ParseIndexList(group).Err?
    ensures ParseCategorizationResponse(Some(response), commits) == Fallback(commits)
  {
    assert ExtractCommitsByCategory(response, LabelOf(k), commits).Err?;
    BadBucketAborts(response, k, commits);
  }

  /** A bucket that does not decode aborts the whole decoding. */
  lemma BadBucketAborts(response: string, k: Category, commits: seq<Commit>)
    requires ExtractCommitsByCategory(response, LabelOf(k), commits).Err?
    ensures DecodeReply(Some(response), commits).Err?
  {
    match k
    case BugFix =>
    case Feature =>
    case Improvement =>
    case Other =>
  }

  // ---------------------------------------------------------------------------
  // The categorisation prompt
  // ---------------------------------------------------------------------------

  const CategorizationHead :=
    "Categorize each commit by number into: Bug Fixes, Features, Improvements, Others.\n"
    + "Use keywords: Bug Fixes (fix,bug,hotfix), Features (feat,feature,add,optimize), "
    + "Improvements (refactor,perf), Others (build,ci,chore,test,docs).\n"
    + "Priority order: Bug Fixes > Features > Improvements > Others\n\n"
  const CategorizationTail :=
    "\nRespond with ONLY this format: "
    + "Bug Fixes: [1,3,5], Features: [2,4], Improvements: [6], Others: [7,8]"

  /** At most this many commits are listed in the prompt. */
  const MaxPromptCommits := 50

  /** The numbered line for commit `i` (1-based in the text); a null message gives no line. */
  function CommitLine(i: nat, message: Option<string>): string {
    match message
    case None => ""
    case Some(m) => IntToString(i + 1) + ". " + (if |m| > 80 then m[..80] + "..." else m) + "\n"
  }

  /** The numbered lines from commit `i` on, stopping after the fiftieth commit. */
  function CommitLinesFrom(commits: seq<Commit>, i: nat): string
    requires i <= |commits|
    decreases |commits| - i
  {
    if i == |commits| || i >= MaxPromptCommits then ""
    else CommitLine(i, commits[i].message) + CommitLinesFrom(commits, i + 1)
  }

  /** `buildCategorizationPrompt`. */
  function BuildCategorizationPrompt(commits: seq<Commit>): string {
    CategorizationHead + CommitLinesFrom(commits, 0) + CategorizationTail
  }

  /** Commits after the fiftieth do not reach the prompt. */
  lemma {:induction false} LinesSeeFirstFifty(commits: seq<Commit>, i: nat)
    requires |commits| > MaxPromptCommits && i <= MaxPromptCommits
    ensures CommitLinesFrom(commits, i) == CommitLinesFrom(commits[..MaxPromptCommits], i)
    decreases MaxPromptCommits - i
  {
    if i < MaxPromptCommits {
      LinesSeeFirstFifty(commits, i + 1);
    }
  }

  lemma PromptSeesFirstFifty(commits: seq<Commit>)
    requires |commits| > MaxPromptCommits
    ensures BuildCategorizationPrompt(commits) == BuildCategorizationPrompt(commits[..MaxPromptCommits])
  {
    LinesSeeFirstFifty(commits, 0);
  }

  // ---------------------------------------------------------------------------
  // The service
  // ---------------------------------------------------------------------------

  /** The analysis service: the agent, and the token budget of the per-commit summaries (500 by default). */
  datatype AnalysisService = AnalysisService(agent: Agent, summaryMaxTokens: int)

  const CategorizationMaxTokens := 2000
  const OverallSummaryMaxTokens := 500

  /** `sendToAgent` of this service: an exception becomes `""`. */
  function AskAgent(agent: Agent, prompt: string, maxTokens: int): (r: Option<string>)
    ensures agent(prompt, maxTokens).Failed? ==> r == Some("")
    ensures agent(prompt, maxTokens).Replied? ==> r == agent(prompt, maxTokens).text
  {
    match agent(prompt, maxTokens)
    case Replied(text) => text
    case Failed => Some("")
  }

  /** The summary service the analysis service builds: sequential, no issue resolver. */
  function SummaryServiceOf(a: AnalysisService): SummaryService {
    SummaryService(a.agent, a.summaryMaxTokens, None)
  }

  /** What `attachSummariesWithFallback` sets: the map's entry, or `""`. */
  function SummaryFor(summaries: map<string, string>, sha: string): string {
    if sha in summaries then summaries[sha] else ""
  }

  /** Sets every commit's summary from the map. */
  function AttachToBucket(bucket: seq<Commit>, summaries: map<string, string>): (r: seq<Commit>)
    ensures |r| == |bucket|
    ensures forall i :: 0 <= i < |r| ==> r[i] == bucket[i].(summary := Some(SummaryFor(summaries, bucket[i].sha)))
  {
    if bucket == [] then []
    else [bucket[0].(summary := Some(SummaryFor(summaries, bucket[0].sha)))] + AttachToBucket(bucket[1..], summaries)
  }

  /** `attachSummariesWithFallback`, applied to all four buckets. */
  function AttachSummaries(c: CommitCategorization, summaries: map<string, string>): (r: CommitCategorization)
    ensures r.TotalCount() == c.TotalCount()
  {
    CommitCategorization(
      AttachToBucket(c.bugFixes, summaries), AttachToBucket(c.features, summaries),
      AttachToBucket(c.improvements, summaries), AttachToBucket(c.others, summaries))
  }

  /** Attaching is all the step changes: the buckets keep their commits, sizes and order. */
  lemma AttachKeepsCommits(c: CommitCategorization, summaries: map<string, string>, k: Category, i: nat)
    requires i < |Bucket(c, k)|
    ensures |Bucket(AttachSummaries(c, summaries), k)| == |Bucket(c, k)|
    ensures Bucket(AttachSummaries(c, summaries), k)[i].sha == Bucket(c, k)[i].sha
    ensures Bucket(AttachSummaries(c, summaries), k)[i].message == Bucket(c, k)[i].message
    ensures Bucket(AttachSummaries(c, summaries), k)[i].authorLogin == Bucket(c, k)[i].authorLogin
    ensures Bucket(AttachSummaries(c, summaries), k)[i].summary == Some(SummaryFor(summaries, Bucket(c, k)[i].sha))
  {
  }

  /**
   * `r` is `parsed` with the summaries attached: some map that holds, for every
   * SHA, the summary of the last categorised commit with that SHA that got one.
   */
  ghost predicate AttachedLatest(r: CommitCategorization, parsed: CommitCategorization, svc: SummaryService) {
    exists summaries: map<string, string> ::
      && r == AttachSummaries(parsed, summaries)
      && AgreesWithLatest(summaries, svc, ExtractAllCommits(parsed))
      && AllFormatted(summaries)
  }

  /** `summaries` holds, for every SHA, exactly the latest summary the commits give it. */
  ghost predicate AgreesWithLatest(summaries: map<string, string>, svc: SummaryService, commits: seq<Commit>) {
    forall sha :: LatestSummary(svc, commits, sha) == (if sha in summaries then Some(summaries[sha]) else None)
  }

  /** The summary step of `categorizeCommits`: summarise every categorised commit, then attach. */
  method SummarizeAndAttach(svc: SummaryService, parsed: CommitCategorization)
    returns (r: CommitCategorization, calls: seq<Call>)
    ensures CallsFor(calls, svc, ExtractAllCommits(parsed))
    ensures AttachedLatest(r, parsed, svc)
  {
    var summaries;
    summaries, calls := SummarizeCategorization(svc, parsed);
    r := AttachSummaries(parsed, summaries);
  }

  /**
   * `categorizeCommits`. A null or empty list gives four empty buckets without
   * any agent call. Otherwise one categorisation call (2000 tokens) is made,
   * then one summary call per categorised commit, bug fixes first, and every
   * categorised commit gets the summary of the last commit with its SHA that
   * got one, or `""`.
   */
  method CategorizeCommits(a: AnalysisService, commits: Option<seq<Commit>>)
    returns (r: CommitCategorization, calls: seq<Call>)
    ensures commits.None? || commits.value == [] ==> r == Empty && calls == []
    ensures commits.Some? && commits.value != [] ==>
      var prompt := BuildCategorizationPrompt(commits.value);
      var parsed := ParseCategorizationResponse(AskAgent(a.agent, prompt, CategorizationMaxTokens), commits.value);
      && calls != [] && calls[0] == Call(prompt, CategorizationMaxTokens)
      && CallsFor(calls[1..], SummaryServiceOf(a), ExtractAllCommits(parsed))
      && AttachedLatest(r, parsed, SummaryServiceOf(a))
  {
    if commits.None? || commits.value == [] {
      return Empty, [];
    }
    var prompt := BuildCategorizationPrompt(commits.value);
    var response := AskAgent(a.agent, prompt, CategorizationMaxTokens);
    var parsed := ParseCategorizationResponse(response, commits.value);
    var summaryCalls;
    r, summaryCalls := SummarizeAndAttach(SummaryServiceOf(a), parsed);
    calls := [Call(prompt, CategorizationMaxTokens)] + summaryCalls;
    assert calls[1..] == summaryCalls;
  }

  /**
   * What categorising a non-empty list does: one categorisation call with
   * the prompt for the list, then the summary calls for the commits the
   * parsed reply holds, and those commits with their latest summaries.
   */
  ghost predicate CategorizedAs(a: AnalysisService, commits: seq<Commit>, r: CommitCategorization, calls: seq<Call>) {
    var prompt := BuildCategorizationPrompt(commits);
    var parsed := ParseCategorizationResponse(AskAgent(a.agent, prompt, CategorizationMaxTokens), commits);
    && calls != [] && calls[0] == Call(prompt, CategorizationMaxTokens)
    && CallsFor(calls[1..], SummaryServiceOf(a), ExtractAllCommits(parsed))
    && AttachedLatest(r, parsed, SummaryServiceOf(a))
  }

  /** Every categorised commit carries the latest summary for its SHA, or `""`. */
  lemma LatestSummaryAttached(r: CommitCategorization, parsed: CommitCategorization, svc: SummaryService,
                              k: Category, i: nat)
    requires AttachedLatest(r, parsed, svc) && i < |Bucket(parsed, k)|
    ensures |Bucket(r, k)| == |Bucket(parsed, k)|
    ensures Bucket(r, k)[i] == Bucket(parsed, k)[i].(summary :=
      Some(LatestSummary(svc, ExtractAllCommits(parsed), Bucket(parsed, k)[i].sha).GetOr("")))
  {
    var summaries :| && r == AttachSummaries(parsed, summaries)
      && AgreesWithLatest(summaries, svc, ExtractAllCommits(parsed))
      && AllFormatted(summaries);
    var latest := sha => LatestSummary(svc, ExtractAllCommits(parsed), sha);
    AttachedFromMap(r, parsed, summaries, latest, k, i);
  }

  /** Attaching a map that agrees with `latest` on every SHA gives each commit its `latest` summary, or `""`. */
  lemma AttachedFromMap(r: CommitCategorization, parsed: CommitCategorization, summaries: map<string, string>,
                        latest: string -> Option<string>, k: Category, i: nat)
    requires r == AttachSummaries(parsed, summaries) && i < |Bucket(parsed, k)|
    requires forall sha :: latest(sha) == (if sha in summaries then Some(summaries[sha]) else None)
    ensures |Bucket(r, k)| == |Bucket(parsed, k)|
    ensures Bucket(r, k)[i] == Bucket(parsed, k)[i].(summary := Some(latest(Bucket(parsed, k)[i].sha).GetOr("")))
  {
    AttachKeepsCommits(parsed, summaries, k, i);
    var sha := Bucket(parsed, k)[i].sha;
    assert latest(sha) == (if sha in summaries then Some(summaries[sha]) else None);
  }

  /** A failing agent leaves the categorisation to the fallback. */
  lemma FailedAgentFallsBack(a: AnalysisService, commits: seq<Commit>)
    requires a.agent(BuildCategorizationPrompt(commits), CategorizationMaxTokens).Failed?
    ensures ParseCategorizationResponse(
      AskAgent(a.agent, BuildCategorizationPrompt(commits), CategorizationMaxTokens), commits) == Fallback(commits)
  {
    UnlabelledReplyFallsBack(Some(""), commits);
  }

  // ---------------------------------------------------------------------------
  // The overall summary
  // ---------------------------------------------------------------------------

  const NoActivityText := "No repository activity found for the specified period."

  /** The counts section of the overall-summary prompt; PR and issue lines only for non-null lists. */
  function StatisticsLines(data: RepositoryData, c: CommitCategorization): string {
    "Statistics:\n"
    + "- Total commits: " + IntToString(c.TotalCount()) + "\n"
    + "- Bug fixes: " + IntToString(|c.bugFixes|) + "\n"
    + "- New features: " + IntToString(|c.features|) + "\n"
    + "- Improvements: " + IntToString(|c.improvements|) + "\n"
    + "- Other changes: " + IntToString(|c.others|) + "\n"
    + (if data.pullRequests.Some? then "- Pull requests: " + IntToString(|data.pullRequests.value|) + "\n" else "")
    + (if data.issues.Some? then "- New issues: " + IntToString(|data.issues.value|) + "\n" else "")
  }

  /** The overall-summary prompt. */
  function OverallPrompt(data: RepositoryData, c: CommitCategorization, startDate: Option<string>, endDate: Option<string>)
    : string
  {
    "Generate a 2-3 sentence summary of this repository's activity.\n\n"
    + "Repository: " + data.repoName + "\n"
    + "Period: " + startDate.GetOr("null") + " to " + endDate.GetOr("null") + "\n\n"
    + StatisticsLines(data, c)
    + "\nFocus on the most significant activity and trends. Be concise and informative."
  }

  /** The overall summary and the agent calls made for it. */
  datatype SummaryOutcome = SummaryOutcome(text: string, calls: seq<Call>)

  /** The text `generateSummary` keeps of a reply: trimmed, or `""` when null, blank or failed. */
  function ReplyText(reply: AgentReply): (t: string)
    ensures t == "" <==> reply.Failed? || reply.text.None? || IsTrimBlank(reply.text.value)
    ensures t != "" ==> Trim(t) == t && t == Trim(reply.text.value)
  {
    match reply
    case Failed => ""
    case Replied(None) => ""
    case Replied(Some(text)) =>
      TrimIdempotent(text);
      if IsTrimBlank(text) then "" else Trim(text)
  }

  /**
   * `generateSummary`: null data or categorisation gives the fixed
   * no-activity text without a call; otherwise one call (500 tokens) with the
   * statistics prompt, and the reply's text as `ReplyText` keeps it.
   */
  function GenerateOverallSummary(agent: Agent, data: Option<RepositoryData>, c: Option<CommitCategorization>,
                                  startDate: Option<string>, endDate: Option<string>): (r: SummaryOutcome)
    ensures data.None? || c.None? ==> r == SummaryOutcome(NoActivityText, [])
    ensures data.Some? && c.Some? ==>
      var prompt := OverallPrompt(data.value, c.value, startDate, endDate);
      r == SummaryOutcome(ReplyText(agent(prompt, OverallSummaryMaxTokens)), [Call(prompt, OverallSummaryMaxTokens)])
  {
    if data.None? || c.None? then SummaryOutcome(NoActivityText, [])
    else
      var prompt := OverallPrompt(data.value, c.value, startDate, endDate);
      var summary := AskAgent(agent, prompt, OverallSummaryMaxTokens);
      var text := if summary.Some? && !IsTrimBlank(summary.value) then Trim(summary.value) else "";
      SummaryOutcome(text, [Call(prompt, OverallSummaryMaxTokens)])
  }

  /** A non-blank reply is returned trimmed. */
  lemma OverallSummaryIsTrimmedReply(agent: Agent, data: RepositoryData, c: CommitCategorization,
                                     startDate: Option<string>, endDate: Option<string>, reply: string)
    requires agent(OverallPrompt(data, c, startDate, endDate), OverallSummaryMaxTokens) == Replied(Some(reply))
    requires !IsTrimBlank(reply)
    ensures GenerateOverallSummary(agent, Some(data), Some(c), startDate, endDate).text == Trim(reply)
  {
  }
}

=== FILE: bot_filter.dfy ===
/**
 * BotFilter: the username heuristic that decides whether a commit, pull request
 * or issue was authored by an automation account.
 */
module BotFilter {
  import opened Wrappers
  import opened JavaText
  import opened Entities

  /** The lowercased login ends in, contains, or equals one of the known bot markers. */
  predicate IsBotUser(username: string) {
    IsBotLowercase(ToLower(username))
  }

  /** The marker test, applied to an already-lowercased login. */
  predicate IsBotLowercase(lower: string) {
    || EndsWith(lower, "bot")
    || Contains(lower, "perfbot")
    || lower == "testbot"
    || (Contains(lower, "gluten") && Contains(lower, "bot"))
    || Contains(lower, "dependabot")
    || Contains(lower, "renovate")
    || Contains(lower, "github-actions")
    || lower == "codecov-io"
    || lower == "coveralls"
  }

  /** A null login is never a bot. */
  predicate IsBotLogin(login: Option<string>) {
    login.Some? && IsBotUser(login.value)
  }

  predicate IsBotCommit(commit: Commit) {
    IsBotLogin(commit.authorLogin)
  }

  predicate IsBotPR(pr: PullRequest) {
    IsBotLogin(pr.authorLogin)
  }

  predicate IsBotIssue(issue: Issue) {
    IsBotLogin(issue.authorLogin)
  }

  /** The three wrappers apply one rule to the author login, and null is never a bot. */
  lemma WrappersShareOneRule(c: Commit, pr: PullRequest, issue: Issue)
    requires c.authorLogin == pr.authorLogin == issue.authorLogin
    ensures IsBotCommit(c) == IsBotPR(pr) == IsBotIssue(issue)
    ensures c.authorLogin.None? ==> !IsBotCommit(c) && !IsBotPR(pr) && !IsBotIssue(issue)
  {
  }

  /** Logins that differ only in letter case classify the same. */
  lemma CaseInsensitive(a: string, b: string)
    requires SameIgnoringCase(a, b)
    ensures IsBotUser(a) == IsBotUser(b)
  {
    SameIgnoringCaseLower(a, b);
  }

  /** Every login whose lowercase form ends in `bot` is a bot. */
  lemma SuffixIsBot(username: string)
    requires EndsWith(ToLower(username), "bot")
    ensures IsBotUser(username)
  {
  }

  /**
   * Every bot either mentions `bot` or is one of the named automation
   * accounts (`renovate`, `github-actions`, `codecov-io`, `coveralls`).
   */
  lemma BotMentionsBotOrIsNamedAccount(username: string)
    requires IsBotUser(username)
    ensures var lower := ToLower(username);
      || Contains(lower, "bot")
      || Contains(lower, "renovate")
      || Contains(lower, "github-actions")
      || lower == "codecov-io"
      || lower == "coveralls"
  {
    var lower := ToLower(username);
    assert IsBotLowercase(lower);
    if EndsWith(lower, "bot") {
      EndsWithContains(lower, "bot");
    } else if Contains(lower, "perfbot") {
      EndsWithContains("perfbot", "bot");
      ContainsTransitive(lower, "perfbot", "bot");
    } else if lower == "testbot" {
      EndsWithContains(lower, "bot");
    } else if Contains(lower, "dependabot") {
      EndsWithContains("dependabot", "bot");
      ContainsTransitive(lower, "dependabot", "bot");
    }
  }

  lemma LowerOfLowercase(s: string)
    requires forall i :: 0 <= i < |s| ==> !('A' <= s[i] <= 'Z')
    ensures ToLower(s) == s
  {
  }

  /**
   * A login is human when its lowercase form fails every clause of the
   * heuristic: it does not end in `bot`, it lacks some letter of each marker
   * that is looked for inside it (`p` of perfbot, `pb`, `gl` of gluten, `d` of
   * dependabot, `r` of renovate, `g` of github-actions), and it is none of the
   * exact names.
   */
  lemma NotBotWhenMarkersMissing(username: string, pb: char, gl: char, d: char, r: char, g: char)
    requires !EndsWith(ToLower(username), "bot")
    requires pb in "perfbot" && pb !in ToLower(username)
    requires gl in "gluten" && gl !in ToLower(username)
    requires d in "dependabot" && d !in ToLower(username)
    requires r in "renovate" && r !in ToLower(username)
    requires g in "github-actions" && g !in ToLower(username)
    requires ToLower(username) !in ["testbot", "codecov-io", "coveralls"]
    ensures !IsBotUser(username)
  {
    var u := ToLower(username);
    MissingCharNotContained(u, "perfbot", pb);
    MissingCharNotContained(u, "gluten", gl);
    MissingCharNotContained(u, "dependabot", d);
    MissingCharNotContained(u, "renovate", r);
    MissingCharNotContained(u, "github-actions", g);
  }

  /** `bot` inside a login but not at its end is not enough. */
  lemma AbbottIsHuman()
    ensures !IsBotUser("abbott")
  {
    LowerOfLowercase("abbott");
    NotBotWhenMarkersMissing("abbott", 'p', 'g', 'p', 'r', 'g');
  }

  /** An ordinary hyphenated login with no marker is human. */
  lemma HelloWorldIsHuman()
    ensures !IsBotUser("hello-world")
  {
    LowerOfLowercase("hello-world");
    NotBotWhenMarkersMissing("hello-world", 'p', 'g', 'p', 'v', 'g');
  }

  /** The empty login is human. */
  lemma EmptyLoginIsHuman()
    ensures !IsBotUser("")
  {
    NotBotWhenMarkersMissing("", 'p', 'g', 'p', 'r', 'g');
  }

  /**
   * A marker anywhere inside the lowercased login makes a bot, whatever
   * surrounds it; `gluten` counts only together with `bot`.
   */
  lemma MarkerInsideIsBot(login: string)
    requires var lower := ToLower(login);
      || Contains(lower, "perfbot")
      || (Contains(lower, "gluten") && Contains(lower, "bot"))
      || Contains(lower, "dependabot")
      || Contains(lower, "renovate")
      || Contains(lower, "github-actions")
    ensures IsBotUser(login)
    ensures IsBotLogin(Some(login))
  {
  }

  /** The GitHub App login `dependabot[bot]` and a `renovate-…` login are bots by a contained marker. */
  lemma ContainedMarkerExamples()
    ensures IsBotLogin(Some("dependabot[bot]"))
    ensures IsBotLogin(Some("renovate-helper"))
  {
    LowerOfLowercase("dependabot[bot]");
    assert OccursAt("dependabot[bot]", "dependabot", 0);
    ContainsAt("dependabot[bot]", "dependabot", 0);
    MarkerInsideIsBot("dependabot[bot]");
    LowerOfLowercase("renovate-helper");
    assert OccursAt("renovate-helper", "renovate", 0);
    ContainsAt("renovate-helper", "renovate", 0);
    MarkerInsideIsBot("renovate-helper");
  }

  /** A login whose lowercase form ends in `bot` at position 7 is a bot. */
  lemma BotAtSeven(username: string)
    requires |username| == 10
    requires LowerChar(username[7]) == 'b' && LowerChar(username[8]) == 'o' && LowerChar(username[9]) == 't'
    ensures IsBotUser(username)
  {
    var lower := ToLower(username);
    assert lower[7..] == "bot" by {
      assert lower[7] == 'b' && lower[8] == 'o' && lower[9] == 't';
    }
    SuffixIsBot(username);
  }

  /** Dependabot is recognised in any letter case. */
  lemma DependabotIsBot()
    ensures IsBotUser("dependabot") && IsBotUser("DEPENDABOT") && IsBotUser("DependaBot")
  {
    BotAtSeven("dependabot");
    BotAtSeven("DEPENDABOT");
    BotAtSeven("DependaBot");
  }

  /** Named automation accounts without `bot` in them are bots. */
  lemma NamedAccountsAreBots()
    ensures IsBotUser("github-actions") && IsBotUser("codecov-io") && IsBotUser("coveralls")
  {
    LowerOfLowercase("github-actions");
    assert StartsWith("github-actions", "github-actions");
    LowerOfLowercase("codecov-io");
    LowerOfLowercase("coveralls");
  }
}

=== FILE: calendar.dfy ===
/**
 * `LocalDate` as the start-date computation uses it: proleptic Gregorian
 * dates, `minusDays`, and the `yyyy-MM-dd` pattern with `parse` and `format`
 * under the default SMART resolver.
 */
module Calendar {
  import opened Wrappers
  import opened JavaText

  // ---------------------------------------------------------------------------
  // Dates and their day numbers
  // ---------------------------------------------------------------------------

  /** A calendar date; `year` is proleptic (year 0 is 1 BCE). */
  datatype Date = Date(year: int, month: int, day: int)

  /** The year range `LocalDate` supports. */
  const MIN_YEAR: int := -999_999_999
  const MAX_YEAR: int := 999_999_999

  predicate IsLeapYear(y: int) {
    y % 4 == 0 && (y % 100 != 0 || y % 400 == 0)
  }

  function MonthLength(y: int, m: int): (n: int)
    requires 1 <= m <= 12
    ensures 28 <= n <= 31
  {
    if m == 2 then (if IsLeapYear(y) then 29 else 28)
    else if m == 4 || m == 6 || m == 9 || m == 11 then 30
    else 31
  }

  function YearLength(y: int): int {
    if IsLeapYear(y) then 366 else 365
  }

  predicate IsValidDate(d: Date) {
    1 <= d.month <= 12 && 1 <= d.day <= MonthLength(d.year, d.month)
  }

  predicate InRange(d: Date) {
    MIN_YEAR <= d.year <= MAX_YEAR
  }

  /** Days from 1 January of year 1 to 1 January of year `y` (negative before). */
  function DaysBeforeYear(y: int): int
    decreases if y >= 1 then y - 1 else 1 - y
  {
    if y == 1 then 0
    else if y > 1 then DaysBeforeYear(y - 1) + YearLength(y - 1)
    else DaysBeforeYear(y + 1) - YearLength(y)
  }

  /** Days of year `y` before the first of month `m`. */
  function DaysBeforeMonth(y: int, m: int): int
    requires 1 <= m <= 12
  {
    var common := [0, 31, 59, 90, 120, 151, 181, 212, 243, 273, 304, 334][m - 1];
    if m > 2 && IsLeapYear(y) then common + 1 else common
  }

  /** A count of days: consecutive dates have consecutive numbers. */
  function DayNumber(d: Date): int
    requires 1 <= d.month <= 12
  {
    DaysBeforeYear(d.year) + DaysBeforeMonth(d.year, d.month) + d.day - 1
  }

  // ---------------------------------------------------------------------------
  // One day back and forth
  // ---------------------------------------------------------------------------

  function PrevDay(d: Date): (r: Date)
    requires IsValidDate(d)
    ensures IsValidDate(r)
  {
    if d.day > 1 then Date(d.year, d.month, d.day - 1)
    else if d.month > 1 then Date(d.year, d.month - 1, MonthLength(d.year, d.month - 1))
    else Date(d.year - 1, 12, 31)
  }

  function NextDay(d: Date): (r: Date)
    requires IsValidDate(d)
    ensures IsValidDate(r)
  {
    if d.day < MonthLength(d.year, d.month) then Date(d.year, d.month, d.day + 1)
    else if d.month < 12 then Date(d.year, d.month + 1, 1)
    else Date(d.year + 1, 1, 1)
  }

  lemma NextOfPrev(d: Date)
    requires IsValidDate(d)
    ensures NextDay(PrevDay(d)) == d
  {
  }

  lemma PrevOfNext(d: Date)
    requires IsValidDate(d)
    ensures PrevDay(NextDay(d)) == d
  {
  }

  /** The month boundaries add up: the month before `m` ends where `m` starts. */
  lemma DaysBeforeMonthStep(y: int, m: int)
    requires 2 <= m <= 12
    ensures DaysBeforeMonth(y, m) == DaysBeforeMonth(y, m - 1) + MonthLength(y, m - 1)
  {
  }

  /** December 31 is the last day of the year. */
  lemma DecemberEndsYear(y: int)
    ensures DaysBeforeMonth(y, 12) + 31 == YearLength(y)
  {
  }

  /** The previous day has the previous day number. */
  lemma DayNumberPrev(d: Date)
    requires IsValidDate(d)
    ensures DayNumber(PrevDay(d)) == DayNumber(d) - 1
  {
    if d.day == 1 {
      if d.month > 1 {
        DaysBeforeMonthStep(d.year, d.month);
      } else {
        DecemberEndsYear(d.year - 1);
        assert DaysBeforeYear(d.year) == DaysBeforeYear(d.year - 1) + YearLength(d.year - 1);
      }
    }
  }

  lemma DayNumberNext(d: Date)
    requires IsValidDate(d)
    ensures DayNumber(NextDay(d)) == DayNumber(d) + 1
  {
    PrevOfNext(d);
    DayNumberPrev(NextDay(d));
  }

  // ---------------------------------------------------------------------------
  // Day numbers identify dates
  // ---------------------------------------------------------------------------

  /** A valid date's offset within its year is below the year's length. */
  lemma DayOfYearBounds(d: Date)
    requires IsValidDate(d)
    ensures 0 <= DaysBeforeMonth(d.year, d.month) + d.day - 1 < YearLength(d.year)
    ensures forall m :: d.month < m <= 12 ==> DaysBeforeMonth(d.year, d.month) + d.day - 1 < DaysBeforeMonth(d.year, m)
  {
  }

  /** Later years start after earlier ones end. */
  lemma {:induction false} YearsAreOrdered(a: int, b: int)
    requires a < b
    ensures DaysBeforeYear(a) + YearLength(a) <= DaysBeforeYear(b)
    decreases b - a
  {
    if a + 1 < b {
      YearsAreOrdered(a + 1, b);
      assert DaysBeforeYear(a + 1) == DaysBeforeYear(a) + YearLength(a) by {
        if a + 1 > 1 {
        } else {
          assert DaysBeforeYear(a) == DaysBeforeYear(a + 1) - YearLength(a);
        }
      }
    } else {
      if b > 1 {
      } else {
        assert DaysBeforeYear(a) == DaysBeforeYear(b) - YearLength(a);
      }
    }
  }

  /** Valid dates are ordered as their day numbers are. */
  lemma EarlierDateSmallerNumber(a: Date, b: Date)
    requires IsValidDate(a) && IsValidDate(b)
    requires a.year < b.year || (a.year == b.year && (a.month < b.month || (a.month == b.month && a.day < b.day)))
    ensures DayNumber(a) < DayNumber(b)
  {
    DayOfYearBounds(a);
    DayOfYearBounds(b);
    if a.year < b.year {
      YearsAreOrdered(a.year, b.year);
    }
  }

  /** Two valid dates with the same day number are the same date. */
  lemma DayNumberInjective(a: Date, b: Date)
    requires IsValidDate(a) && IsValidDate(b) && DayNumber(a) == DayNumber(b)
    ensures a == b
  {
    if a.year < b.year || (a.year == b.year && (a.month < b.month || (a.month == b.month && a.day < b.day))) {
      EarlierDateSmallerNumber(a, b);
    } else if a != b {
      EarlierDateSmallerNumber(b, a);
    }
  }

  // ---------------------------------------------------------------------------
  // minusDays
  // ---------------------------------------------------------------------------

  /** `n` days earlier (later for negative `n`), one day at a time, with no year limit. */
  function StepDays(d: Date, n: int): (r: Date)
    requires IsValidDate(d)
    ensures IsValidDate(r) && DayNumber(r) == DayNumber(d) - n
    decreases if n >= 0 then n else -n
  {
    if n == 0 then d
    else if n > 0 then
      DayNumberPrev(d);
      StepDays(PrevDay(d), n - 1)
    else
      DayNumberNext(d);
      StepDays(NextDay(d), n + 1)
  }

  /**
   * `LocalDate.minusDays(n)`: the date `n` days earlier, or a
   * `DateTimeException` when that date lies outside the supported years.
   */
  function MinusDays(d: Date, n: int): (r: Result<Date, Exception>)
    requires IsValidDate(d)
    ensures r.Ok? ==> IsValidDate(r.value) && InRange(r.value) && DayNumber(r.value) == DayNumber(d) - n
    ensures r.Err? ==> r.error == DateTimeException
  {
    var e := StepDays(d, n);
    if InRange(e) then Ok(e) else Err(DateTimeException)
  }

  /** The result is the one valid date `n` days earlier, and it is missing only out of range. */
  lemma MinusDaysIsUnique(d: Date, n: int, e: Date)
    requires IsValidDate(d) && IsValidDate(e) && DayNumber(e) == DayNumber(d) - n
    ensures MinusDays(d, n) == if InRange(e) then Ok(e) else Err(DateTimeException)
  {
    DayNumberInjective(StepDays(d, n), e);
  }

  // ---------------------------------------------------------------------------
  // The `yyyy-MM-dd` pattern: format
  // ---------------------------------------------------------------------------

  function Pow10(k: nat): (p: nat)
    ensures p >= 1
  {
    if k == 0 then 1 else 10 * Pow10(k - 1)
  }

  /** `Integer.toString(n)` has at most `k` digits exactly when `n < 10^k`. */
  lemma {:induction false} NatToStringLength(n: nat, k: nat)
    requires k >= 1
    ensures |NatToString(n)| <= k <==> n < Pow10(k)
    decreases n
  {
    if n >= 10 {
      assert |NatToString(n)| == |NatToString(n / 10)| + 1;
      if k == 1 {
        assert Pow10(1) == 10;
        assert |NatToString(n / 10)| >= 1;
      } else {
        NatToStringLength(n / 10, k - 1);
        assert Pow10(k) == 10 * Pow10(k - 1);
        assert n / 10 < Pow10(k - 1) <==> n < 10 * Pow10(k - 1) by {
          assert 10 * (n / 10) <= n < 10 * (n / 10) + 10;
          if n / 10 < Pow10(k - 1) {
            assert n / 10 + 1 <= Pow10(k - 1);
            assert 10 * (n / 10) + 10 <= 10 * Pow10(k - 1);
          } else {
            assert 10 * Pow10(k - 1) <= 10 * (n / 10);
          }
        }
      }
    } else {
      if k > 1 {
        assert Pow10(k) == 10 * Pow10(k - 1);
      }
    }
  }

  function Zeros(k: nat): (z: string)
    ensures |z| == k && AllDigits(z)
  {
    seq(k, _ => '0')
  }

  /** Digits padded on the left with `0` to width `w`, as fixed-width printing does. */
  function ZeroPad(s: string, w: nat): (r: string)
    requires AllDigits(s)
    ensures AllDigits(r) && |r| == if |s| >= w then |s| else w
  {
    if |s| >= w then s else Zeros(w - |s|) + s
  }

  lemma {:induction false} ZerosValue(k: nat)
    ensures DigitsValue(Zeros(k)) == 0
  {
    if k > 0 {
      ZerosValue(k - 1);
      assert Zeros(k)[..k - 1] == Zeros(k - 1);
    }
  }

  /** Leading zeros do not change a decimal value. */
  lemma {:induction false} LeadingZerosValue(k: nat, s: string)
    requires AllDigits(s)
    ensures DigitsValue(Zeros(k) + s) == DigitsValue(s)
    decreases |s|
  {
    var t := Zeros(k) + s;
    if s == [] {
      assert t == Zeros(k);
      ZerosValue(k);
    } else {
      LeadingZerosValue(k, s[..|s| - 1]);
      assert t[..|t| - 1] == Zeros(k) + s[..|s| - 1];
    }
  }

  lemma ZeroPadValue(s: string, w: nat)
    requires AllDigits(s)
    ensures DigitsValue(ZeroPad(s, w)) == DigitsValue(s)
  {
    if |s| < w {
      LeadingZerosValue(w - |s|, s);
    }
  }

  /** The year-of-era the pattern letter `y` prints: year 0 is year 1 of the era before. */
  function YearOfEra(y: int): (yoe: nat)
    ensures yoe >= 1
  {
    if y >= 1 then y else 1 - y
  }

  /** `yyyy`: at least four digits; a `+` in front once the value needs more than four. */
  function FormatYear(y: int): string {
    var yoe := YearOfEra(y);
    var digits := ZeroPad(NatToString(yoe), 4);
    if yoe >= 10000 then "+" + digits else digits
  }

  /** `MM` and `dd`: exactly two digits. */
  function FormatTwoDigits(v: nat): string {
    ZeroPad(NatToString(v), 2)
  }

  /** `LocalDate.format` with `yyyy-MM-dd`. */
  function FormatIsoDate(d: Date): string
    requires IsValidDate(d)
  {
    FormatYear(d.year) + "-" + FormatTwoDigits(d.month) + "-" + FormatTwoDigits(d.day)
  }

  /** The era is not printed: a date before year 1 reads like one of the current era. */
  lemma EraIsNotPrinted(y: int)
    requires y <= 0
    ensures FormatYear(y) == FormatYear(1 - y) && 1 - y >= 1
  {
  }

  // ---------------------------------------------------------------------------
  // The `yyyy-MM-dd` pattern: parse
  // ---------------------------------------------------------------------------

  /** The fields parsing reads before resolving them to a date. */
  datatype Fields = Fields(yearOfEra: nat, month: nat, day: nat)

  /**
   * The parse phase of the strict formatter. The year takes 4 to 19 digits: a
   * `+` is required when there are more than 4 and refused otherwise; a `-`
   * sign can never give a valid year-of-era and is refused here. `MM` and `dd`
   * take exactly two digits, and no text may follow.
   */
  function SplitIsoDate(s: string): Option<Fields> {
    var plus := s != [] && s[0] == '+';
    var start := if plus then 1 else 0;
    var n := DigitRun(s, start);
    var y := start + n;
    if n < 4 || n > 19 || plus != (n > 4) then None
    else if |s| != y + 6 || s[y] != '-' || s[y + 3] != '-' then None
    else if !AllDigits(s[y + 1..y + 3]) || !AllDigits(s[y + 4..]) then None
    else
      DigitRunDigits(s, start);
      Some(Fields(DigitsValue(s[start..y]), DigitsValue(s[y + 1..y + 3]), DigitsValue(s[y + 4..])))
  }

  /**
   * SMART resolution: the year-of-era must lie in 1..999,999,999, the month in
   * 1..12 and the day in 1..31; a day past the month's end becomes its last day.
   */
  function ResolveDate(f: Fields): (r: Result<Date, Exception>)
    ensures r.Ok? ==> IsValidDate(r.value) && 1 <= r.value.year <= MAX_YEAR
    ensures r.Ok? ==> r.value.year == f.yearOfEra && r.value.month == f.month
    ensures r.Ok? ==> r.value.day == if f.day <= MonthLength(f.yearOfEra, f.month) then f.day else MonthLength(f.yearOfEra, f.month)
    ensures r.Err? ==> r.error == DateTimeParseException
  {
    if f.yearOfEra < 1 || f.yearOfEra > MAX_YEAR || f.month < 1 || f.month > 12 || f.day < 1 || f.day > 31 then
      Err(DateTimeParseException)
    else
      var last := MonthLength(f.yearOfEra, f.month);
      Ok(Date(f.yearOfEra, f.month, if f.day <= last then f.day else last))
  }

  /** `LocalDate.parse(text, ofPattern("yyyy-MM-dd"))`. */
  function ParseIsoDate(text: Option<string>): (r: Result<Date, Exception>)
    ensures text.None? ==> r == Err(NullPointerException)
    ensures text.Some? && r.Err? ==> r.error == DateTimeParseException
    ensures r.Ok? ==> IsValidDate(r.value) && 1 <= r.value.year <= MAX_YEAR
  {
    if text.None? then Err(NullPointerException)
    else
      match SplitIsoDate(text.value)
      case None => Err(DateTimeParseException)
      case Some(f) => ResolveDate(f)
  }

  // ---------------------------------------------------------------------------
  // Round trip
  // ---------------------------------------------------------------------------

  /** Where the pieces of `yyyy-MM-dd` sit in the joined text. */
  lemma Layout(yt: string, md: string, dd: string)
    requires |md| == 2 && |dd| == 2
    ensures var s := yt + "-" + md + "-" + dd;
      && |s| == |yt| + 6 && s[..|yt|] == yt && s[|yt|] == '-' && s[|yt| + 3] == '-'
      && s[|yt| + 1..|yt| + 3] == md && s[|yt| + 4..] == dd
  {
    var a := yt + "-";
    var b := a + md;
    var c := b + "-";
    var s := c + dd;
    assert s[..|yt|] == yt;
    assert s[|yt| + 1..|yt| + 3] == md;
    assert s[|yt| + 4..] == dd;
  }

  /** A month or day prints as two digits that read back as its value. */
  lemma TwoDigits(v: nat)
    requires 1 <= v < 100
    ensures |FormatTwoDigits(v)| == 2 && AllDigits(FormatTwoDigits(v))
    ensures DigitsValue(FormatTwoDigits(v)) == v
  {
    NatToStringLength(v, 2);
    assert Pow10(2) == 100;
    ZeroPadValue(NatToString(v), 2);
  }

  /** The printed year: where its digits start, how many there are, and their value. */
  lemma YearDigits(y: int)
    requires 1 <= y <= MAX_YEAR
    ensures var yt := FormatYear(y);
      var start := if y >= 10000 then 1 else 0;
      && |yt| >= 4 && (yt[0] == '+' <==> y >= 10000)
      && var digits := yt[start..];
      && AllDigits(digits) && DigitsValue(digits) == y
      && 4 <= |digits| <= 19 && (|digits| > 4 <==> y >= 10000)
  {
    var digits := ZeroPad(NatToString(y), 4);
    ZeroPadValue(NatToString(y), 4);
    NatToStringLength(y, 4);
    NatToStringLength(y, 19);
    assert Pow10(4) == 10000;
    assert Pow10(19) == 10_000_000_000_000_000_000;
    if y >= 10000 {
      assert FormatYear(y)[1..] == digits;
    } else {
      assert IsDigit(digits[0]);
    }
  }

  /** The parse phase accepts a text laid out as `yyyy-MM-dd` and reads its fields. */
  lemma SplitAccepts(s: string, start: nat, n: nat)
    requires start == if s != [] && s[0] == '+' then 1 else 0
    requires start <= |s| && DigitRun(s, start) == n
    requires 4 <= n <= 19 && (start == 1 <==> n > 4)
    requires |s| == start + n + 6 && s[start + n] == '-' && s[start + n + 3] == '-'
    requires AllDigits(s[start + n + 1..start + n + 3]) && AllDigits(s[start + n + 4..])
    ensures AllDigits(s[start..start + n])
    ensures SplitIsoDate(s) == Some(Fields(DigitsValue(s[start..start + n]),
      DigitsValue(s[start + n + 1..start + n + 3]), DigitsValue(s[start + n + 4..])))
  {
    DigitRunDigits(s, start);
  }

  /** The year digits of the printed text form the digit run the parser reads. */
  lemma YearRun(s: string, yt: string, start: nat)
    requires start <= |yt| < |s| && s[..|yt|] == yt && s[|yt|] == '-'
    requires AllDigits(yt[start..])
    ensures DigitRun(s, start) == |yt| - start && s[start..|yt|] == yt[start..]
  {
    forall j | start <= j < |yt| ensures IsDigit(s[j]) {
      assert s[j] == yt[j];
      assert yt[j] == yt[start..][j - start];
    }
    DigitRunIs(s, start, |yt| - start);
  }

  /** A year text, a month and a day laid out with dashes parse to that date. */
  lemma ParseLayout(yt: string, md: string, dd: string, start: nat, d: Date)
    requires IsValidDate(d) && 1 <= d.year <= MAX_YEAR
    requires |yt| >= 4 && (yt[0] == '+' <==> start == 1) && start <= 1
    requires AllDigits(yt[start..]) && DigitsValue(yt[start..]) == d.year
    requires 4 <= |yt| - start <= 19 && (|yt| - start > 4 <==> start == 1)
    requires |md| == 2 && AllDigits(md) && DigitsValue(md) == d.month
    requires |dd| == 2 && AllDigits(dd) && DigitsValue(dd) == d.day
    ensures ParseIsoDate(Some(yt + "-" + md + "-" + dd)) == Ok(d)
  {
    Layout(yt, md, dd);
    var s := yt + "-" + md + "-" + dd;
    assert (s != [] && s[0] == '+') <==> start == 1 by {
      assert s[0] == yt[0];
    }
    YearRun(s, yt, start);
    SplitAccepts(s, start, |yt| - start);
  }

  /** Parsing what `format` printed gives the date back, for every date of the current era. */
  lemma FormatThenParse(d: Date)
    requires IsValidDate(d) && 1 <= d.year <= MAX_YEAR
    ensures ParseIsoDate(Some(FormatIsoDate(d))) == Ok(d)
  {
    TwoDigits(d.month);
    TwoDigits(d.day);
    YearDigits(d.year);
    ParseLayout(FormatYear(d.year), FormatTwoDigits(d.month), FormatTwoDigits(d.day),
      if d.year >= 10000 then 1 else 0, d);
  }

  /** The value of a two-digit and of a four-digit decimal. */
  lemma SmallDigitsValue(s: string)
    requires AllDigits(s) && (|s| == 2 || |s| == 4)
    ensures |s| == 2 ==> DigitsValue(s) == 10 * DigitValue(s[0]) + DigitValue(s[1])
    ensures |s| == 4 ==> (DigitsValue(s) ==
      1000 * DigitValue(s[0]) + 100 * DigitValue(s[1]) + 10 * DigitValue(s[2]) + DigitValue(s[3]))
  {
    var s1, s2 := s[..1], s[..2];
    assert s1[..0] == [] && s2[..1] == s1;
    if |s| == 4 {
      var s3 := s[..3];
      assert s3[..2] == s2;
      assert DigitsValue(s2) == 10 * DigitValue(s[0]) + DigitValue(s[1]);
      assert DigitsValue(s3) == DigitsValue(s2) * 10 + DigitValue(s[2]);
      assert DigitsValue(s) == DigitsValue(s3) * 10 + DigitValue(s[3]);
      var a, b, c, d := DigitValue(s[0]), DigitValue(s[1]), DigitValue(s[2]), DigitValue(s[3]);
      assert ((10 * a + b) * 10 + c) * 10 + d == 1000 * a + 100 * b + 10 * c + d;
    } else {
      assert s == s2;
      assert DigitsValue(s) == DigitsValue(s1) * 10 + DigitValue(s[1]);
    }
  }

  /** SMART resolution turns a day past the month's end into its last day. */
  lemma DayIsClamped()
    ensures ParseIsoDate(Some("2023-02-30")) == Ok(Date(2023, 2, 28))
  {
    var a := "2023-02-30";
    DigitRunIs(a, 0, 4);
    var y, m, d := a[0..4], a[5..7], a[8..];
    assert y == "2023" && m == "02" && d == "30";
    SmallDigitsValue(y);
    SmallDigitsValue(m);
    SmallDigitsValue(d);
    SplitAccepts(a, 0, 4);
  }
}

=== FILE: categorization.dfy ===
/**
 * CommitCategorization: the immutable four-bucket result of commit
 * categorisation. Value semantics give the defensive copies for free.
 */
module Categorization {
  import opened Wrappers
  import opened JavaText
  import opened Entities

  /** The four buckets, each in the order it was given. */
  datatype CommitCategorization = CommitCategorization(
    bugFixes: seq<Commit>,
    features: seq<Commit>,
    improvements: seq<Commit>,
    others: seq<Commit>)
  {
    /** `getTotalCount`: the sum of the four bucket sizes. */
    function TotalCount(): (n: nat)
      ensures n == 0 <==> bugFixes == [] && features == [] && improvements == [] && others == []
      ensures n == |bugFixes + features + improvements + others|
    {
      |bugFixes| + |features| + |improvements| + |others|
    }
  }

  /** A bucket with no commits in any position. */
  const Empty := CommitCategorization([], [], [], [])

  /** A Java list of possibly-null commits, as handed to `List.copyOf`. */
  type NullableList = Option<seq<Option<Commit>>>

  predicate HasNull(xs: seq<Option<Commit>>) {
    exists i :: 0 <= i < |xs| && xs[i].None?
  }

  /**
   * `List.copyOf(list != null ? list : List.of())`: a null list becomes empty,
   * and a null element makes the copy throw.
   */
  function CopyOf(list: NullableList): (r: Result<seq<Commit>, Exception>)
    ensures r.Err? <==> list.Some? && HasNull(list.value)
    ensures r.Err? ==> r.error == NullPointerException
    ensures r.Ok? && list.None? ==> r.value == []
    ensures r.Ok? && list.Some? ==>
      |r.value| == |list.value| && forall i :: 0 <= i < |r.value| ==> Some(r.value[i]) == list.value[i]
  {
    match list
    case None => Ok([])
    case Some(xs) => CopyElements(xs)
  }

  function CopyElements(xs: seq<Option<Commit>>): (r: Result<seq<Commit>, Exception>)
    ensures r.Err? <==> HasNull(xs)
    ensures r.Err? ==> r.error == NullPointerException
    ensures r.Ok? ==> |r.value| == |xs| && forall i :: 0 <= i < |r.value| ==> Some(r.value[i]) == xs[i]
  {
    if xs == [] then Ok([])
    else
      match CopyElements(xs[1..])
      case Err(e) =>
        assert HasNull(xs) by {
          var i :| 0 <= i < |xs[1..]| && xs[1..][i].None?;
          assert xs[i + 1].None?;
        }
        Err(e)
      case Ok(rest) =>
        match xs[0]
        case None => Err(NullPointerException)
        case Some(c) =>
          assert !HasNull(xs) by {
            forall i | 0 <= i < |xs| ensures xs[i].Some? {
              if i > 0 { assert xs[i] == xs[1..][i - 1]; }
            }
          }
          Ok([c] + rest)
  }

  /** The constructor: fails exactly when some bucket holds a null commit. */
  function Create(bugFixes: NullableList, features: NullableList, improvements: NullableList, others: NullableList)
    : (r: Result<CommitCategorization, Exception>)
    ensures r.Err? <==> exists l :: l in [bugFixes, features, improvements, others] && l.Some? && HasNull(l.value)
    ensures r.Err? ==> r.error == NullPointerException
    ensures r.Ok? ==>
      && CopyOf(bugFixes) == Ok(r.value.bugFixes) && CopyOf(features) == Ok(r.value.features)
      && CopyOf(improvements) == Ok(r.value.improvements) && CopyOf(others) == Ok(r.value.others)
  {
    var b := CopyOf(bugFixes);
    var f := CopyOf(features);
    var i := CopyOf(improvements);
    var o := CopyOf(others);
    if b.Err? then Err(b.error)
    else if f.Err? then Err(f.error)
    else if i.Err? then Err(i.error)
    else if o.Err? then Err(o.error)
    else Ok(CommitCategorization(b.value, f.value, i.value, o.value))
  }

  /** The Java view of a bucket: a non-null list of non-null commits. */
  function AsJavaList(bucket: seq<Commit>): (l: NullableList)
    ensures l.Some? && !HasNull(l.value)
  {
    Some(seq(|bucket|, i requires 0 <= i < |bucket| => Some(bucket[i])))
  }

  /** Building from the getters' lists gives back the same categorisation, in the same order. */
  lemma CreateFromGetters(c: CommitCategorization)
    ensures Create(AsJavaList(c.bugFixes), AsJavaList(c.features), AsJavaList(c.improvements), AsJavaList(c.others)) == Ok(c)
  {
    var r := Create(AsJavaList(c.bugFixes), AsJavaList(c.features), AsJavaList(c.improvements), AsJavaList(c.others));
    assert r.Ok?;
    assert r.value.bugFixes == c.bugFixes;
    assert r.value.features == c.features;
    assert r.value.improvements == c.improvements;
    assert r.value.others == c.others;
  }

  /** Null bucket arguments become empty buckets. */
  lemma NullBucketsAreEmpty()
    ensures Create(None, None, None, None) == Ok(Empty)
    ensures Empty.TotalCount() == 0
  {
  }
}

=== FILE: commit_summaries.dfy ===
/**
 * The sequential (`preserveOrder`) mode of `ParallelCommitSummaryService`:
 * one agent call per commit, in input order, folded into a SHA-to-summary map.
 */
module CommitSummaries {
  import opened Wrappers
  import opened JavaText
  import opened Entities
  import opened Agents
  import opened SummaryFormat
  import opened PromptText
  import opened Categorization

  /** The parts of the service's configuration the sequential mode reads. */
  datatype SummaryService = SummaryService(agent: Agent, maxTokens: int, resolver: Option<Resolver>)

  /** What `generateSummary` hands back: the commit's SHA and the (possibly null) summary. */
  datatype CommitSummaryResult = CommitSummaryResult(commitSha: string, summary: Option<string>)

  /** `sendToAgent`: an exception becomes `null`. */
  function SendToAgent(svc: SummaryService, prompt: string): Option<string> {
    match svc.agent(prompt, svc.maxTokens)
    case Replied(text) => text
    case Failed => None
  }

  /** The agent call `generateSummary` makes for `c`. */
  function SummaryCall(svc: SummaryService, c: Commit): Call {
    Call(BuildSummaryPrompt(c, svc.resolver), svc.maxTokens)
  }

  /** A summary as the formatter produces it. */
  predicate IsFormattedSummary(s: string) {
    IsOneLine(s) && 0 < |s| <= MaxSummaryLength && EndsWithTerminator(s)
  }

  /**
   * `generateSummary`: a non-blank reply is cleaned by `formatSummaryResponse`
   * (which may turn it into `null`); a null or blank reply is passed on as it is.
   */
  function GenerateSummary(svc: SummaryService, c: Commit): (r: CommitSummaryResult)
    ensures r.commitSha == c.sha
    ensures r.summary.Some? && !IsTrimBlank(r.summary.value) ==> IsFormattedSummary(r.summary.value)
  {
    var raw := SendToAgent(svc, BuildSummaryPrompt(c, svc.resolver));
    if raw.Some? && !IsTrimBlank(raw.value) then CommitSummaryResult(c.sha, FormatSummaryResponse(raw))
    else CommitSummaryResult(c.sha, raw)
  }

  /** The loop's test: a result is stored when its summary is non-null and not blank. */
  predicate IsKept(r: CommitSummaryResult) {
    r.summary.Some? && !IsTrimBlank(r.summary.value)
  }

  /** The summary the loop stores for `c`, or `None` when it stores nothing. */
  function KeptSummary(svc: SummaryService, c: Commit): Option<string> {
    var r := GenerateSummary(svc, c);
    if IsKept(r) then r.summary else None
  }

  /** A formatted summary is never blank. */
  lemma FormattedIsNotBlank(s: string)
    requires IsFormattedSummary(s)
    ensures !IsTrimBlank(s)
  {
    assert !IsTrimmable(s[|s| - 1]);
  }

  /**
   * What gets stored for a commit is exactly the formatter's verdict on the
   * agent's text: nothing when the agent throws or returns `null`, and
   * otherwise `formatSummaryResponse` of the reply (`None` for a blank reply).
   */
  lemma KeptSummaryIsFormattedReply(svc: SummaryService, c: Commit)
    ensures KeptSummary(svc, c) ==
      match svc.agent(BuildSummaryPrompt(c, svc.resolver), svc.maxTokens)
      case Failed => None
      case Replied(text) => FormatSummaryResponse(text)
  {
    var raw := SendToAgent(svc, BuildSummaryPrompt(c, svc.resolver));
    if raw.Some? && !IsTrimBlank(raw.value) {
      var f := FormatSummaryResponse(raw);
      if f.Some? {
        FormattedIsNotBlank(f.value);
      }
    }
  }

  /** An agent exception, or a null or blank reply, leaves the commit out of the map. */
  lemma NoReplyNoSummary(svc: SummaryService, c: Commit)
    requires SendToAgent(svc, BuildSummaryPrompt(c, svc.resolver)).None?
      || IsTrimBlank(SendToAgent(svc, BuildSummaryPrompt(c, svc.resolver)).value)
    ensures KeptSummary(svc, c).None?
  {
  }

  /** The SHA of each commit, in order. */
  function Shas(commits: seq<Commit>): (r: seq<string>)
    ensures |r| == |commits|
  {
    seq(|commits|, i requires 0 <= i < |commits| => commits[i].sha)
  }

  /** What the loop stores for each commit, in order. */
  function Outcomes(svc: SummaryService, commits: seq<Commit>): (r: seq<Option<string>>)
    ensures |r| == |commits|
  {
    if commits == [] then [] else [KeptSummary(svc, commits[0])] + Outcomes(svc, commits[1..])
  }

  lemma {:induction false} OutcomeAt(svc: SummaryService, commits: seq<Commit>, i: nat)
    requires i < |commits|
    ensures Outcomes(svc, commits)[i] == KeptSummary(svc, commits[i])
  {
    if i > 0 {
      OutcomeAt(svc, commits[1..], i - 1);
    }
  }

  /** Among the first `n` steps, some step for this SHA stored a value. */
  predicate StoredBefore(shas: seq<string>, vals: seq<Option<string>>, sha: string, n: int)
    requires 0 <= n <= |shas| == |vals|
  {
    exists i :: 0 <= i < n && shas[i] == sha && vals[i].Some?
  }

  /** Among the first `n` steps, the last one for this SHA that stored a value stored `v`. */
  predicate LastStoredBefore(shas: seq<string>, vals: seq<Option<string>>, sha: string, v: string, n: int)
    requires 0 <= n <= |shas| == |vals|
  {
    exists i :: 0 <= i < n && shas[i] == sha && vals[i] == Some(v) && IsLastFor(shas, vals, i, n)
  }

  /** No step after `i` and before `n` with the same SHA stored a value. */
  predicate IsLastFor(shas: seq<string>, vals: seq<Option<string>>, i: int, n: int)
    requires 0 <= i < n <= |shas| == |vals|
  {
    forall j :: i < j < n && shas[j] == shas[i] ==> vals[j].None?
  }

  /** The map a run of `put`s (one per stored value) leaves after `n` steps. */
  ghost predicate IsPutsMap(m: map<string, string>, shas: seq<string>, vals: seq<Option<string>>, n: int)
    requires 0 <= n <= |shas| == |vals|
  {
    && (forall sha :: sha in m <==> StoredBefore(shas, vals, sha, n))
    && (forall sha :: sha in m ==> LastStoredBefore(shas, vals, sha, m[sha], n))
  }

  /** Reference: the value stored by the last of the first `n` steps that stored one for `sha`. */
  function LatestStored(shas: seq<string>, vals: seq<Option<string>>, sha: string, n: nat): Option<string>
    requires n <= |shas| == |vals|
  {
    if n == 0 then None
    else if shas[n - 1] == sha && vals[n - 1].Some? then vals[n - 1]
    else LatestStored(shas, vals, sha, n - 1)
  }

  /** The summary of the last commit with this SHA that got one, or `None`. */
  function LatestSummary(svc: SummaryService, commits: seq<Commit>, sha: string): Option<string> {
    LatestStored(Shas(commits), Outcomes(svc, commits), sha, |commits|)
  }

  /** The reference finds a value exactly when some step stored one, and then the last step's value. */
  lemma {:induction false} LatestStoredIsLast(shas: seq<string>, vals: seq<Option<string>>, sha: string, n: nat)
    requires n <= |shas| == |vals|
    ensures LatestStored(shas, vals, sha, n).None? <==> !StoredBefore(shas, vals, sha, n)
    ensures LatestStored(shas, vals, sha, n).Some? ==>
      LastStoredBefore(shas, vals, sha, LatestStored(shas, vals, sha, n).value, n)
  {
    if n > 0 {
      if shas[n - 1] == sha && vals[n - 1].Some? {
        assert IsLastFor(shas, vals, n - 1, n);
      } else {
        LatestStoredIsLast(shas, vals, sha, n - 1);
        if StoredBefore(shas, vals, sha, n) {
          var i :| 0 <= i < n && shas[i] == sha && vals[i].Some?;
          assert i < n - 1;
        }
        var v := LatestStored(shas, vals, sha, n - 1);
        if v.Some? {
          var i :| 0 <= i < n - 1 && shas[i] == sha && vals[i] == v && IsLastFor(shas, vals, i, n - 1);
          assert IsLastFor(shas, vals, i, n);
        }
      }
    }
  }

  /** Two last stores for one SHA are the same store. */
  lemma LastStoredUnique(shas: seq<string>, vals: seq<Option<string>>, sha: string, v: string, w: string, n: nat)
    requires n <= |shas| == |vals|
    requires LastStoredBefore(shas, vals, sha, v, n) && LastStoredBefore(shas, vals, sha, w, n)
    ensures v == w
  {
    var i :| 0 <= i < n && shas[i] == sha && vals[i] == Some(v) && IsLastFor(shas, vals, i, n);
    var j :| 0 <= j < n && shas[j] == sha && vals[j] == Some(w) && IsLastFor(shas, vals, j, n);
    assert !(i < j) && !(j < i);
  }

  /** A `put` map holds, for every SHA, exactly the reference's value. */
  lemma PutsMapIsLatest(m: map<string, string>, shas: seq<string>, vals: seq<Option<string>>, n: nat)
    requires n <= |shas| == |vals| && IsPutsMap(m, shas, vals, n)
    ensures forall sha :: LatestStored(shas, vals, sha, n) == (if sha in m then Some(m[sha]) else None)
  {
    forall sha
      ensures LatestStored(shas, vals, sha, n) == (if sha in m then Some(m[sha]) else None)
    {
      LatestStoredIsLast(shas, vals, sha, n);
      if sha in m {
        LastStoredUnique(shas, vals, sha, m[sha], LatestStored(shas, vals, sha, n).value, n);
      }
    }
  }

  /**
   * The sequential branch of `generateCommitSummaries`. The map holds a SHA
   * exactly when some commit with that SHA got a summary, and then the summary
   * of the last such commit (a later `put` overwrites an earlier one). One
   * agent call is made per commit, in input order; a null or empty list makes
   * none and gives an empty map.
   */
  method SummarizeSequentially(svc: SummaryService, commits: Option<seq<Commit>>)
    returns (summaries: map<string, string>, calls: seq<Call>)
    ensures commits.None? || commits.value == [] ==> summaries == map[] && calls == []
    ensures CallsFor(calls, svc, commits.GetOr([]))
    ensures |summaries| <= |commits.GetOr([])|
    ensures IsPutsMap(summaries, Shas(commits.GetOr([])), Outcomes(svc, commits.GetOr([])), |commits.GetOr([])|)
    ensures forall sha :: LatestSummary(svc, commits.GetOr([]), sha) == (if sha in summaries then Some(summaries[sha]) else None)
    ensures AllFormatted(summaries)
  {
    summaries := map[];
    calls := [];
    if commits.None? || commits.value == [] {
      return;
    }
    var cs := commits.value;
    var k := 0;
    while k < |cs|
      invariant 0 <= k <= |cs|
      invariant CallsFor(calls, svc, cs[..k])
      invariant |summaries| <= k
      invariant IsPutsMap(summaries, Shas(cs), Outcomes(svc, cs), k)
      invariant AllFormatted(summaries)
    {
      AppendCall(calls, svc, cs[..k], cs[k]);
      PrefixStep(cs, k);
      calls := calls + [SummaryCall(svc, cs[k])];
      summaries := SummarizeOne(svc, cs, k, summaries);
      k := k + 1;
    }
    assert cs[..k] == cs;
    PutsMapIsLatest(summaries, Shas(cs), Outcomes(svc, cs), |cs|);
  }

  /** Every stored summary is formatted. */
  ghost predicate AllFormatted(m: map<string, string>) {
    forall sha :: sha in m ==> IsFormattedSummary(m[sha])
  }

  /** One turn of the loop: summarise commit `k` and `put` its summary when it is kept. */
  method SummarizeOne(svc: SummaryService, cs: seq<Commit>, k: nat, summaries: map<string, string>)
    returns (next: map<string, string>)
    requires k < |cs| && |summaries| <= k
    requires IsPutsMap(summaries, Shas(cs), Outcomes(svc, cs), k) && AllFormatted(summaries)
    ensures |next| <= k + 1
    ensures IsPutsMap(next, Shas(cs), Outcomes(svc, cs), k + 1) && AllFormatted(next)
  {
    ghost var shas := Shas(cs);
    ghost var vals := Outcomes(svc, cs);
    var result := GenerateSummary(svc, cs[k]);
    OutcomeAt(svc, cs, k);
    assert shas[k] == result.commitSha;
    if result.summary.Some? && !IsTrimBlank(result.summary.value) {
      assert vals[k] == result.summary;
      PutStep(summaries, shas, vals, k);
      PutFormatted(summaries, result.commitSha, result.summary.value);
      next := summaries[result.commitSha := result.summary.value];
    } else {
      assert vals[k].None?;
      SkipStep(summaries, shas, vals, k);
      next := summaries;
    }
  }

  lemma PrefixStep<T>(s: seq<T>, k: nat)
    requires k < |s|
    ensures s[..k + 1] == s[..k] + [s[k]]
  {
  }

  /** `calls` is one call per commit, in order. */
  predicate CallsFor(calls: seq<Call>, svc: SummaryService, commits: seq<Commit>) {
    |calls| == |commits| && forall i :: 0 <= i < |calls| ==> calls[i] == SummaryCall(svc, commits[i])
  }

  lemma AppendCall(calls: seq<Call>, svc: SummaryService, done: seq<Commit>, c: Commit)
    requires CallsFor(calls, svc, done)
    ensures CallsFor(calls + [SummaryCall(svc, c)], svc, done + [c])
  {
    var calls', done' := calls + [SummaryCall(svc, c)], done + [c];
    forall i | 0 <= i < |calls'|
      ensures calls'[i] == SummaryCall(svc, done'[i])
    {
      if i < |calls| {
        assert calls'[i] == calls[i] && done'[i] == done[i];
      } else {
        assert calls'[i] == SummaryCall(svc, c) && done'[i] == c;
      }
    }
  }

  /** A `put` of step `k`'s value extends the map of the first `k` steps to `k + 1`. */
  lemma PutStep(m: map<string, string>, shas: seq<string>, vals: seq<Option<string>>, k: nat)
    requires k < |shas| == |vals| && vals[k].Some?
    requires IsPutsMap(m, shas, vals, k)
    ensures IsPutsMap(m[shas[k] := vals[k].value], shas, vals, k + 1)
  {
    var m' := m[shas[k] := vals[k].value];
    forall sha | sha in m'
      ensures LastStoredBefore(shas, vals, sha, m'[sha], k + 1)
    {
      if sha == shas[k] {
        assert IsLastFor(shas, vals, k, k + 1);
      } else {
        var i :| 0 <= i < k && shas[i] == sha && vals[i] == Some(m[sha]) && IsLastFor(shas, vals, i, k);
        assert IsLastFor(shas, vals, i, k + 1);
      }
    }
    forall sha | StoredBefore(shas, vals, sha, k + 1)
      ensures sha in m'
    {
      var i :| 0 <= i < k + 1 && shas[i] == sha && vals[i].Some?;
      if i < k {
        assert StoredBefore(shas, vals, sha, k);
      }
    }
    forall sha | sha in m'
      ensures StoredBefore(shas, vals, sha, k + 1)
    {
      if sha != shas[k] {
        var i :| 0 <= i < k && shas[i] == sha && vals[i].Some?;
        assert 0 <= i < k + 1;
      }
    }
  }

  /** A `put` adds at most one key and keeps every value formatted. */
  lemma PutFormatted(m: map<string, string>, sha: string, v: string)
    requires AllFormatted(m) && IsFormattedSummary(v)
    ensures AllFormatted(m[sha := v]) && |m[sha := v]| <= |m| + 1
  {
    assert m[sha := v].Keys == m.Keys + {sha};
  }

  /** A step that stores nothing leaves the map of the first `k` steps valid for `k + 1`. */
  lemma SkipStep(m: map<string, string>, shas: seq<string>, vals: seq<Option<string>>, k: nat)
    requires k < |shas| == |vals| && vals[k].None?
    requires IsPutsMap(m, shas, vals, k)
    ensures IsPutsMap(m, shas, vals, k + 1)
  {
    forall sha | sha in m
      ensures LastStoredBefore(shas, vals, sha, m[sha], k + 1)
    {
      var i :| 0 <= i < k && shas[i] == sha && vals[i] == Some(m[sha]) && IsLastFor(shas, vals, i, k);
      assert IsLastFor(shas, vals, i, k + 1);
    }
    forall sha | StoredBefore(shas, vals, sha, k + 1)
      ensures StoredBefore(shas, vals, sha, k)
    {
      var i :| 0 <= i < k + 1 && shas[i] == sha && vals[i].Some?;
      assert i < k;
    }
  }

  /** `extractAllCommits`: the four buckets, bug fixes first, in their own order. */
  function ExtractAllCommits(cat: CommitCategorization): (r: seq<Commit>)
    ensures |r| == cat.TotalCount()
    ensures multiset(r) == multiset(cat.bugFixes) + multiset(cat.features)
      + multiset(cat.improvements) + multiset(cat.others)
  {
    var r := cat.bugFixes + cat.features + cat.improvements + cat.others;
    assert multiset(r) == multiset(cat.bugFixes + cat.features + cat.improvements) + multiset(cat.others);
    r
  }

  /**
   * `generateCommitSummaries(categorization)`: one call per categorised
   * commit, bug fixes first, and for every SHA the summary of the last
   * categorised commit with that SHA that got one.
   */
  method SummarizeCategorization(svc: SummaryService, cat: CommitCategorization)
    returns (summaries: map<string, string>, calls: seq<Call>)
    ensures CallsFor(calls, svc, ExtractAllCommits(cat)) && |summaries| <= cat.TotalCount()
    ensures forall sha :: LatestSummary(svc, ExtractAllCommits(cat), sha) == (if sha in summaries then Some(summaries[sha]) else None)
    ensures forall sha :: sha in summaries ==>
      exists c: Commit :: c in multiset(ExtractAllCommits(cat)) && c.sha == sha && KeptSummary(svc, c) == Some(summaries[sha])
    ensures AllFormatted(summaries)
  {
    var all := ExtractAllCommits(cat);
    summaries, calls := SummarizeSequentially(svc, Some(all));
    forall sha | sha in summaries
      ensures exists c: Commit :: c in multiset(all) && c.sha == sha && KeptSummary(svc, c) == Some(summaries[sha])
    {
      var i := StoredWitness(summaries, Shas(all), Outcomes(svc, all), |all|, sha);
      OutcomeAt(svc, all, i);
      assert all[i] in multiset(all);
    }
  }

  /** A key of a `put` map names a step that stored its value. */
  lemma StoredWitness(m: map<string, string>, shas: seq<string>, vals: seq<Option<string>>, n: nat, sha: string)
    returns (i: nat)
    requires n <= |shas| == |vals| && IsPutsMap(m, shas, vals, n) && sha in m
    ensures i < n && shas[i] == sha && vals[i] == Some(m[sha])
  {
    assert LastStoredBefore(shas, vals, sha, m[sha], n);
    i :| 0 <= i < n && shas[i] == sha && vals[i] == Some(m[sha]) && IsLastFor(shas, vals, i, n);
  }
}

=== FILE: entities.dfy ===
/**
 * The GitHub entities the pipeline moves around, as immutable values.
 * Java's nullable `String` fields become `Option<string>`.
 */
module Entities {
  import opened Wrappers

  /**
   * A commit. `summary`, `prId` and `prDescription` are attached after fetching
   * (by the summary step and the PR-enrichment step); they start as `None`.
   */
  datatype Commit = Commit(
    sha: string,
    message: Option<string>,
    authorName: Option<string>,
    authorEmail: Option<string>,
    authorLogin: Option<string>,
    date: Option<string>,
    summary: Option<string>,
    prId: Option<int>,
    prDescription: Option<string>)

  /** A pull request; read-only after fetching. */
  datatype PullRequest = PullRequest(
    id: int,
    number: int,
    title: Option<string>,
    state: Option<string>,
    createdAt: string,
    updatedAt: string,
    closedAt: Option<string>,
    mergedAt: Option<string>,
    authorLogin: Option<string>,
    assignees: seq<string>,
    body: Option<string>)

  /** An issue; read-only after fetching. */
  datatype Issue = Issue(
    id: int,
    number: int,
    title: Option<string>,
    state: Option<string>,
    createdAt: string,
    updatedAt: string,
    closedAt: Option<string>,
    authorLogin: Option<string>,
    assignees: seq<string>,
    labels: seq<string>,
    comments: int,
    body: Option<string>,
    isPullRequest: bool)
}

=== FILE: github.dfy ===
/**
 * The pure steps of `GitHubService`: the inclusive date window, the two
 * pull-request number extractors (hand-written matchers for their regular
 * expressions), PR enrichment with the description fetch as an oracle, and,
 * from `fetchData`, the repository-URL split, the bot filter each fetch
 * applies and the team filters.
 */
module GitHub {
  import opened Wrappers
  import opened JavaText
  import opened Seqs
  import opened Entities
  import opened BotFilter
  import opened RepoData

  // ---------------------------------------------------------------------------
  // isWithinDateRange
  // ---------------------------------------------------------------------------

  /** The text before the first `T` (the date of an ISO timestamp), or the whole string. */
  function DateOnly(s: string): (d: string)
    ensures 'T' !in d && StartsWith(s, d)
    ensures 'T' !in s ==> d == s
    ensures 'T' in s ==> |d| < |s| && s[|d|] == 'T'
  {
    var k := IndexOfChar(s, 'T');
    if k < 0 then s else s[..k]
  }

  /** `isWithinDateRange`: the date part compared as text, inclusive at both ends; a null bound is open. */
  predicate IsWithinDateRange(date: Option<string>, start: Option<string>, end: Option<string>) {
    if date.None? then false
    else if start.None? && end.None? then true
    else
      var d := DateOnly(date.value);
      if start.None? then LexLeq(d, end.value)
      else if end.None? then LexLeq(start.value, d)
      else LexLeq(start.value, d) && LexLeq(d, end.value)
  }

  /** `d` is not before the start; no start is no constraint. */
  predicate NotBefore(d: string, start: Option<string>) {
    start.None? || LexLeq(start.value, d)
  }

  /** `d` is not after the end; no end is no constraint. */
  predicate NotAfter(d: string, end: Option<string>) {
    end.None? || LexLeq(d, end.value)
  }

  /** The four null cases of the window are one rule: each bound present constrains its side. */
  lemma DateRangeIff(date: Option<string>, start: Option<string>, end: Option<string>)
    ensures IsWithinDateRange(date, start, end) <==>
      date.Some? && NotBefore(DateOnly(date.value), start) && NotAfter(DateOnly(date.value), end)
  {
  }

  /** The time of day after the `T` plays no part. */
  lemma TimeOfDayIgnored(day: string, time: string, start: Option<string>, end: Option<string>)
    requires 'T' !in day
    ensures IsWithinDateRange(Some(day + "T" + time), start, end) == IsWithinDateRange(Some(day), start, end)
  {
    var s := day + "T" + time;
    assert s[|day|] == 'T' && s[..|day|] == day;
    assert DateOnly(s) == day;
  }

  /** Both ends are inclusive: a day lies in the window that starts and ends on it. */
  lemma BoundsAreInclusive(day: string)
    requires 'T' !in day
    ensures IsWithinDateRange(Some(day), Some(day), Some(day))
  {
    LexLeqReflexive(day);
  }

  /** Widening the window (or dropping a bound) keeps every date it held. */
  lemma WiderWindowKeeps(date: Option<string>, start: Option<string>, end: Option<string>,
                         start2: Option<string>, end2: Option<string>)
    requires IsWithinDateRange(date, start, end)
    requires start2.None? || (start.Some? && LexLeq(start2.value, start.value))
    requires end2.None? || (end.Some? && LexLeq(end.value, end2.value))
    ensures IsWithinDateRange(date, start2, end2)
  {
    DateRangeIff(date, start, end);
    DateRangeIff(date, start2, end2);
    var d := DateOnly(date.value);
    if start2.Some? {
      LexLeqTransitive(start2.value, start.value, d);
    }
    if end2.Some? {
      LexLeqTransitive(d, end.value, end2.value);
    }
  }

  // ---------------------------------------------------------------------------
  // Regular-expression plumbing
  // ---------------------------------------------------------------------------

  /** The first position in `i..n` that satisfies `p`, as `Matcher.find` scans from `i`. */
  function FirstFrom(p: nat -> bool, i: nat, n: nat): (r: Option<nat>)
    ensures r.Some? ==> i <= r.value <= n && p(r.value)
    ensures forall j :: i <= j <= n && (r.None? || j < r.value) ==> !p(j)
    decreases n - i
  {
    if i > n then None else if p(i) then Some(i) else FirstFrom(p, i + 1, n)
  }

  /** The scan stops at the first position that satisfies `p`. */
  lemma {:induction false} FirstFromIs(p: nat -> bool, i: nat, n: nat, k: nat)
    requires i <= k <= n && p(k) && forall j :: i <= j < k ==> !p(j)
    ensures FirstFrom(p, i, n) == Some(k)
    decreases k - i
  {
    if i < k {
      FirstFromIs(p, i + 1, n, k);
    }
  }

  /** Java's line terminators, before one of which a final `$` also matches. */
  predicate IsLineTerminator(c: char) {
    c == '\n' || c == '\r' || c == '\U{85}' || c == '\U{2028}' || c == '\U{2029}'
  }

  /** `$` without MULTILINE at `e`: the end of the input, or just before one final line terminator. */
  predicate AtInputEnd(s: string, e: nat) {
    e == |s|
    || (e + 1 == |s| && IsLineTerminator(s[e]))
    || (e + 2 == |s| && s[e] == '\r' && s[e + 1] == '\n')
  }

  // ---------------------------------------------------------------------------
  // extractPRId
  // ---------------------------------------------------------------------------

  /**
   * A match of `\(\s*(\d+)\s*\)` at `i`: the bounds of the digit group and
   * the end of the match. The classes around the group are disjoint, so the
   * greedy match is the only one.
   */
  function ParenNumberAt(s: string, i: nat): (m: Option<(nat, nat, nat)>)
    ensures m.Some? ==> i < m.value.0 < m.value.1 < m.value.2 <= |s|
    ensures m.Some? ==> s[i] == '(' && s[m.value.2 - 1] == ')' && AllDigits(s[m.value.0..m.value.1])
    ensures m.Some? ==> forall k :: i < k < m.value.2 ==> s[k] != '('
  {
    if i >= |s| || s[i] != '(' then None
    else
      var g := SkipRegexSpaces(s, i + 1);
      var n := DigitRun(s, g);
      var close := SkipRegexSpaces(s, g + n);
      if n == 0 || close >= |s| || s[close] != ')' then None
      else
        DigitRunDigits(s, g);
        Some((g, g + n, close + 1))
  }

  /** The match of `\(\s*(\d+)\s*\)$` at `i`. */
  predicate EndParenNumberAt(s: string, i: nat) {
    ParenNumberAt(s, i).Some? && AtInputEnd(s, ParenNumberAt(s, i).value.2)
  }

  /** The successful `find()` calls for `\(\s*(\d+)\s*\)` from `i`: each search resumes where the last match ended. */
  function CountParenNumbers(s: string, i: nat): nat
    decreases |s| - i
  {
    if i >= |s| then 0
    else
      match ParenNumberAt(s, i)
      case Some(m) => 1 + CountParenNumbers(s, m.2)
      case None => CountParenNumbers(s, i + 1)
  }

  /**
   * `extractPRId`: the number in the parentheses that end the trimmed
   * message, provided that is the only parenthesised number in it; the
   * group is parsed with `Integer.parseInt`, which throws past `int`.
   */
  function ExtractPRId(message: Option<string>): (r: Result<Option<int>, Exception>)
    ensures message.None? ==> r == Ok(None)
    ensures r.Err? ==> r.error == NumberFormatException
    ensures r.Ok? && r.value.Some? ==> 0 <= r.value.value <= INT_MAX
  {
    if message.None? then Ok(None)
    else
      var t := Trim(message.value);
      match FirstFrom((j: nat) => EndParenNumberAt(t, j), 0, |t|)
      case None => Ok(None)
      case Some(i) =>
        if CountParenNumbers(t, 0) != 1 then Ok(None)
        else
          var m := ParenNumberAt(t, i).value;
          ParseIntOfDigits(t[m.0..m.1]);
          match ParseInt(t[m.0..m.1])
          case Err(e) => Err(e)
          case Ok(v) => Ok(Some(v))
  }

  /** Positions without `(` start no match, so the count skips them. */
  lemma {:induction false} CountSkipsPlainText(s: string, i: nat, k: nat)
    requires i <= k <= |s| && forall j :: i <= j < k ==> s[j] != '('
    ensures CountParenNumbers(s, i) == CountParenNumbers(s, k)
    decreases k - i
  {
    if i < k {
      CountSkipsPlainText(s, i + 1, k);
    }
  }

  /** Every match at or after `i` is found by the scan: matches hold no `(` after their first char. */
  lemma {:induction false} CountSeesMatch(s: string, i: nat, j: nat)
    requires i <= j && ParenNumberAt(s, j).Some?
    ensures CountParenNumbers(s, i) >= 1 + CountParenNumbers(s, ParenNumberAt(s, j).value.2)
    decreases j - i
  {
    if i < j {
      match ParenNumberAt(s, i)
      case Some(m) =>
        assert s[j] == '(';
        assert m.2 <= j;
        CountSeesMatch(s, m.2, j);
      case None =>
        CountSeesMatch(s, i + 1, j);
    }
  }

  /** `(` then a digit string then `)` is a match whose group is that string. */
  lemma ParenDigits(s: string, p: nat, d: string)
    requires d != [] && AllDigits(d) && p + |d| + 2 <= |s|
    requires s[p] == '(' && s[p + 1..p + 1 + |d|] == d && s[p + 1 + |d|] == ')'
    ensures ParenNumberAt(s, p) == Some((p + 1, p + 1 + |d|, p + 2 + |d|))
  {
    forall j | p + 1 <= j < p + 1 + |d|
      ensures IsDigit(s[j])
    {
      assert s[j] == s[p + 1..p + 1 + |d|][j - p - 1];
    }
    DigitRunIs(s, p + 1, |d|);
  }

  /** When the trimmed message holds one match and it ends the message, its group is the id. */
  lemma SoleEndMatch(message: string, i: nat, d: string)
    requires FirstFrom((j: nat) => EndParenNumberAt(Trim(message), j), 0, |Trim(message)|) == Some(i)
    requires CountParenNumbers(Trim(message), 0) == 1
    requires ParenNumberAt(Trim(message), i).Some?
    requires Trim(message)[ParenNumberAt(Trim(message), i).value.0..ParenNumberAt(Trim(message), i).value.1] == d
    ensures ParseInt(d).Ok? ==> ExtractPRId(Some(message)) == Ok(Some(ParseInt(d).value))
    ensures ParseInt(d).Err? ==> ExtractPRId(Some(message)) == Err(ParseInt(d).error)
  {
  }

  /** In `title(d)` with no `(` in the title, the final `(d)` is the one match, and it ends the string. */
  lemma TitleMatch(title: string, d: string)
    requires '(' !in title && d != [] && AllDigits(d)
    ensures var s := title + "(" + d + ")";
      && FirstFrom((j: nat) => EndParenNumberAt(s, j), 0, |s|) == Some(|title|)
      && CountParenNumbers(s, 0) == 1
      && ParenNumberAt(s, |title|) == Some((|title| + 1, |title| + 1 + |d|, |s|))
  {
    var s := title + "(" + d + ")";
    var p := |title|;
    assert s[p + 1..p + 1 + |d|] == d;
    ParenDigits(s, p, d);
    forall j | 0 <= j < p
      ensures !EndParenNumberAt(s, j) && s[j] != '('
    {
      assert s[j] == title[j];
    }
    FirstFromIs((j: nat) => EndParenNumberAt(s, j), 0, |s|, p);
    CountSkipsPlainText(s, 0, p);
  }

  /** A title with no `(`, followed by `(n)`, yields `n` (or throws when `n` is past `int`). */
  lemma TitleWithPRId(title: string, n: nat)
    requires '(' !in title && (title == [] || !IsTrimmable(title[0]))
    ensures ExtractPRId(Some(title + "(" + NatToString(n) + ")")) ==
      if n <= INT_MAX then Ok(Some(n)) else Err(NumberFormatException)
  {
    var d := NatToString(n);
    var s := title + "(" + d + ")";
    assert s[0] == (if title == [] then '(' else title[0]);
    TrimOfTrimmedEnds(s);
    TitleMatch(title, d);
    assert s[|title| + 1..|title| + 1 + |d|] == d;
    SoleEndMatch(s, |title|, d);
    ParseIntOfDigits(d);
  }

  /**
   * `$` also matches just before one final line terminator that `trim` keeps
   * (U+0085, U+2028, U+2029), so `title(n)` followed by one of them still
   * yields `n`.
   */
  lemma TitleWithPRIdBeforeTerminator(title: string, n: nat, term: char)
    requires '(' !in title && (title == [] || !IsTrimmable(title[0]))
    requires IsLineTerminator(term) && !IsTrimmable(term)
    ensures ExtractPRId(Some(title + "(" + NatToString(n) + ")" + [term])) ==
      if n <= INT_MAX then Ok(Some(n)) else Err(NumberFormatException)
  {
    var d := NatToString(n);
    var s := title + "(" + d + ")" + [term];
    var t := Trim(s);
    assert t == s by {
      assert s[0] == (if title == [] then '(' else title[0]);
      assert !IsTrimmable(s[|s| - 1]);
      TrimOfTrimmedEnds(s);
    }
    TitleMatchBeforeTerminator(title, d, term, t);
    ParseIntOfDigits(d);
    SoleEndMatch(s, |title|, d);
  }

  /** `fix (12)` followed by U+2028 yields 12. */
  lemma TerminatorExample()
    ensures ExtractPRId(Some("fix (12)\U{2028}")) == Ok(Some(12))
  {
    assert NatToString(12) == "12";
    assert "fix " + "(" + "12" + ")" + ['\U{2028}'] == "fix (12)\U{2028}";
    TitleWithPRIdBeforeTerminator("fix ", 12, '\U{2028}');
  }

  /** In `title(d)` plus a final terminator, the `(d)` is the one match, and `$` accepts its end. */
  lemma TitleMatchBeforeTerminator(title: string, d: string, term: char, s: string)
    requires '(' !in title && d != [] && AllDigits(d) && IsLineTerminator(term)
    requires s == title + "(" + d + ")" + [term]
    ensures FirstFrom((j: nat) => EndParenNumberAt(s, j), 0, |s|) == Some(|title|)
    ensures CountParenNumbers(s, 0) == 1
    ensures ParenNumberAt(s, |title|) == Some((|title| + 1, |title| + 1 + |d|, |s| - 1))
    ensures s[|title| + 1..|title| + 1 + |d|] == d
  {
    TerminatedTitleParen(title, d, term, s);
    forall j | 0 <= j < |title|
      ensures s[j] != '('
    {
      assert s[j] == title[j];
    }
    TerminatedTitleFirst(s, |title|);
    TerminatedTitleCount(s, |title|);
  }

  /** The `(d)` after the title is a match that ends just before the terminator. */
  lemma TerminatedTitleParen(title: string, d: string, term: char, s: string)
    requires d != [] && AllDigits(d)
    requires s == title + "(" + d + ")" + [term]
    ensures ParenNumberAt(s, |title|) == Some((|title| + 1, |title| + 1 + |d|, |s| - 1))
    ensures s[|title| + 1..|title| + 1 + |d|] == d
  {
    assert s[|title| + 1..|title| + 1 + |d|] == d;
    ParenDigits(s, |title|, d);
  }

  /** With no `(` before `p`, a match at `p` ending just before a final terminator is the first end match. */
  lemma TerminatedTitleFirst(s: string, p: nat)
    requires p < |s| && IsLineTerminator(s[|s| - 1])
    requires ParenNumberAt(s, p).Some? && ParenNumberAt(s, p).value.2 == |s| - 1
    requires forall j :: 0 <= j < p ==> s[j] != '('
    ensures FirstFrom((j: nat) => EndParenNumberAt(s, j), 0, |s|) == Some(p)
  {
    FirstFromIs((j: nat) => EndParenNumberAt(s, j), 0, |s|, p);
  }

  /** With no `(` before `p` and only the terminator after the match at `p`, the count is one. */
  lemma TerminatedTitleCount(s: string, p: nat)
    requires p < |s| && s[|s| - 1] != '('
    requires ParenNumberAt(s, p).Some? && ParenNumberAt(s, p).value.2 == |s| - 1
    requires forall j :: 0 <= j < p ==> s[j] != '('
    ensures CountParenNumbers(s, 0) == 1
  {
    CountSkipsPlainText(s, 0, p);
    assert ParenNumberAt(s, |s| - 1).None?;
    assert CountParenNumbers(s, |s| - 1) == 0 by {
      assert CountParenNumbers(s, |s|) == 0;
    }
  }

  /** Two parenthesised numbers make the message ambiguous, wherever they are. */
  lemma TwoNumbersAreAmbiguous(message: string, i: nat, j: nat)
    requires i < j && ParenNumberAt(Trim(message), i).Some? && ParenNumberAt(Trim(message), j).Some?
    ensures ExtractPRId(Some(message)) == Ok(None)
  {
    var t := Trim(message);
    var e := ParenNumberAt(t, i).value.2;
    assert t[j] == '(';
    assert e <= j;
    CountSeesMatch(t, 0, i);
    CountSeesMatch(t, e, j);
  }

  /** Without both parentheses there is no id: `Fix bug (123`, `Fix bug 123)`, `""`. */
  lemma UnbalancedMessageHasNoId(message: string)
    requires '(' !in message || ')' !in message
    ensures ExtractPRId(Some(message)) == Ok(None)
  {
    var t := Trim(message);
    TrimChars(message);
    forall j | 0 <= j <= |t|
      ensures !EndParenNumberAt(t, j)
    {
    }
  }

  /** When every `(` is followed by `#`, no parenthesised number starts anywhere. */
  lemma HashAfterEveryParen(t: string)
    requires forall j :: 0 <= j < |t| && t[j] == '(' ==> j + 1 < |t| && t[j + 1] == '#'
    ensures forall j: nat :: ParenNumberAt(t, j).None?
  {
    forall j: nat
      ensures ParenNumberAt(t, j).None?
    {
      if j < |t| && t[j] == '(' {
        assert SkipRegexSpaces(t, j + 1) == j + 1;
      }
    }
  }

  /** With no match anywhere in the trimmed message there is no id. */
  lemma NoParenNumberNoId(message: string)
    requires forall j: nat :: ParenNumberAt(Trim(message), j).None?
    ensures ExtractPRId(Some(message)) == Ok(None)
  {
    var t := Trim(message);
    forall j | 0 <= j <= |t|
      ensures !EndParenNumberAt(t, j)
    {
      assert ParenNumberAt(t, j).None?;
    }
  }

  /** A `#` in the parentheses is not a digit: `Fix bug (#123)` has no id. */
  lemma HashInParenthesesIsNoId(title: string, digits: string)
    requires '(' !in title && AllDigits(digits)
    ensures ExtractPRId(Some(title + "(#" + digits + ")")) == Ok(None)
  {
    var s := title + "(#" + digits + ")";
    var p := |title|;
    forall x | 0 <= x < |s| && x != p
      ensures s[x] != '('
    {
      if x < p {
        assert s[x] == title[x];
      } else if p + 1 < x < |s| - 1 {
        assert s[x] == digits[x - p - 2];
      }
    }
    assert s[p] == '(' && s[p + 1] == '#' && s[|s| - 1] == ')';
    HashAfterTrim(s, p);
    NoParenNumberNoId(s);
  }

  /** Trimming a string whose one `(` sits at `p`, before a `#`, ahead of a closing `)`, keeps every `(` before a `#`. */
  lemma HashAfterTrim(s: string, p: nat)
    requires p + 1 < |s| && s[p] == '(' && s[p + 1] == '#' && s[|s| - 1] == ')'
    requires forall x :: 0 <= x < |s| && x != p ==> s[x] != '('
    ensures forall j: nat :: ParenNumberAt(Trim(s), j).None?
  {
    var t := Trim(s);
    var k := TrimOffset(s);
    forall j | 0 <= j < |t| && t[j] == '('
      ensures j + 1 < |t| && t[j + 1] == '#'
    {
      assert t[j] == s[k + j];
      assert k + j == p;
      assert t[j + 1] == s[k + j + 1];
    }
    HashAfterEveryParen(t);
  }

  // ---------------------------------------------------------------------------
  // extractPRNumber
  // ---------------------------------------------------------------------------

  /** The four patterns `extractPRNumber` tries, most specific first. */
  datatype PrPattern =
    | EndParenHash   // `\(#(\d+)\)\s*$`
    | MergeRequest   // `Merge pull request #(\d+)`
    | ParenHash      // `\(#(\d+)\)`
    | BareHash       // `(?<!\w)#(\d+)(?!\w)`

  const MergeRequestText := "Merge pull request #"

  /** Where the digit group of a match of `p` at `i` starts. */
  function GroupStart(p: PrPattern, i: nat): nat {
    match p
    case EndParenHash => i + 2
    case ParenHash => i + 2
    case MergeRequest => i + |MergeRequestText|
    case BareHash => i + 1
  }

  /**
   * `p` matches at `i`: its fixed text, a greedy digit group, then what the
   * pattern demands after the group. Backtracking into the group cannot
   * help, since a shorter group is followed by a digit.
   */
  predicate MatchesAt(p: PrPattern, s: string, i: nat) {
    var g := GroupStart(p, i);
    g <= |s| && DigitRun(s, g) > 0 &&
    (var e := g + DigitRun(s, g);
     match p
     case EndParenHash => s[i] == '(' && s[i + 1] == '#' && e < |s| && s[e] == ')' && AtInputEnd(s, SkipRegexSpaces(s, e + 1))
     case ParenHash => s[i] == '(' && s[i + 1] == '#' && e < |s| && s[e] == ')'
     case MergeRequest => s[i..g] == MergeRequestText
     case BareHash => s[i] == '#' && (i == 0 || !IsWordChar(s[i - 1])) && (e == |s| || !IsWordChar(s[e])))
  }

  /** `find()` for `p`: the leftmost match. */
  function FindPattern(p: PrPattern, s: string): (r: Option<nat>)
    ensures r.Some? ==> MatchesAt(p, s, r.value)
  {
    FirstFrom((i: nat) => MatchesAt(p, s, i), 0, |s|)
  }

  /** `Integer.parseInt(group(1))` for the match of `p` at `i`. */
  function GroupValue(p: PrPattern, s: string, i: nat): (r: Result<int, Exception>)
    requires MatchesAt(p, s, i)
    ensures r.Err? ==> r.error == NumberFormatException
    ensures r.Ok? ==> 0 <= r.value <= INT_MAX
  {
    var g := GroupStart(p, i);
    var digits := s[g..g + DigitRun(s, g)];
    assert forall k :: 0 <= k < |digits| ==> digits[k] == s[g + k];
    ParseIntOfDigits(digits);
    ParseInt(digits)
  }

  /** The patterns tried in order: the first that finds a match decides. */
  function ExtractWith(patterns: seq<PrPattern>, s: string): (r: Result<Option<int>, Exception>)
    ensures r.Err? ==> r.error == NumberFormatException
    ensures r.Ok? && r.value.Some? ==> 0 <= r.value.value <= INT_MAX
  {
    if patterns == [] then Ok(None)
    else
      match FindPattern(patterns[0], s)
      case Some(i) =>
        (match GroupValue(patterns[0], s, i)
         case Err(e) => Err(e)
         case Ok(v) => Ok(Some(v)))
      case None => ExtractWith(patterns[1..], s)
  }

  const PrPatterns := [EndParenHash, MergeRequest, ParenHash, BareHash]

  /** `extractPRNumber`: a null message has none; a group past `int` throws. */
  function ExtractPRNumber(message: Option<string>): (r: Result<Option<int>, Exception>)
    ensures message.None? ==> r == Ok(None)
    ensures r.Err? ==> r.error == NumberFormatException
    ensures r.Ok? && r.value.Some? ==> 0 <= r.value.value <= INT_MAX
  {
    if message.None? then Ok(None) else ExtractWith(PrPatterns, message.value)
  }

  /** No `(` can follow the start of an end-anchored `(#n)` match, except within its final two chars. */
  lemma EndMatchIsLast(s: string, j: nat, p: nat)
    requires MatchesAt(EndParenHash, s, j) && j < p && p + 2 < |s|
    ensures s[p] != '('
  {
    var e := j + 2 + DigitRun(s, j + 2);
    if e >= p {
      assert p == j + 1 || p == e || IsDigit(s[p]);
    } else {
      var q := SkipRegexSpaces(s, e + 1);
      assert e + 1 <= p < q;
      assert IsRegexSpace(s[p]);
    }
  }

  /** The end pattern is tried first, so its leftmost match decides the number. */
  lemma EndParenHashDecides(s: string, i: nat, d: string)
    requires FindPattern(EndParenHash, s) == Some(i)
    requires i + 2 + DigitRun(s, i + 2) <= |s| && s[i + 2..i + 2 + DigitRun(s, i + 2)] == d
    ensures ParseInt(d).Ok? ==> ExtractPRNumber(Some(s)) == Ok(Some(ParseInt(d).value))
    ensures ParseInt(d).Err? ==> ExtractPRNumber(Some(s)) == Err(ParseInt(d).error)
  {
    GroupIsDigits(EndParenHash, s, i, d);
    FirstPatternDecides(PrPatterns, s, i);
  }

  /** The first pattern that finds a match decides: its group's value, or the exception parsing it throws. */
  lemma FirstPatternDecides(patterns: seq<PrPattern>, s: string, i: nat)
    requires patterns != [] && FindPattern(patterns[0], s) == Some(i)
    ensures GroupValue(patterns[0], s, i).Ok? ==> ExtractWith(patterns, s) == Ok(Some(GroupValue(patterns[0], s, i).value))
    ensures GroupValue(patterns[0], s, i).Err? ==> ExtractWith(patterns, s) == Err(GroupValue(patterns[0], s, i).error)
  {
  }

  /** `(#`, `n` digits and `)` closing the string are an end-anchored match. */
  lemma EndParenHashAt(s: string, p: nat, n: nat)
    requires 0 < n && p + n + 3 == |s|
    requires s[p] == '(' && s[p + 1] == '#' && s[p + 2 + n] == ')'
    requires forall j :: p + 2 <= j < p + 2 + n ==> IsDigit(s[j])
    ensures MatchesAt(EndParenHash, s, p) && DigitRun(s, p + 2) == n
  {
    DigitRunIs(s, p + 2, n);
    assert SkipRegexSpaces(s, p + n + 3) == |s|;
  }

  /** The characters of `title(#d)` around and inside the final parentheses. */
  lemma SquashText(title: string, d: string)
    ensures var s := title + "(#" + d + ")"; var p := |title|;
      && |s| == p + |d| + 3
      && s[p] == '(' && s[p + 1] == '#' && s[p + 2 + |d|] == ')'
      && s[p + 2..p + 2 + |d|] == d
  {
    var open := title + "(#";
    var body := open + d;
    var s := body + ")";
    var p := |title|;
    assert s[p] == open[p] == '(' && s[p + 1] == open[p + 1] == '#';
    assert s[|body|] == ')';
    assert s[p + 2..p + 2 + |d|] == body[p + 2..] == d;
  }

  /** A final `(#d)` group with `d` a non-empty digit run is the leftmost match of the end pattern. */
  lemma FinalGroupFound(s: string, p: nat, d: string)
    requires d != [] && AllDigits(d) && p + |d| + 3 == |s|
    requires s[p] == '(' && s[p + 1] == '#' && s[p + 2 + |d|] == ')'
    requires s[p + 2..p + 2 + |d|] == d
    ensures FindPattern(EndParenHash, s) == Some(p) && DigitRun(s, p + 2) == |d|
  {
    forall j | p + 2 <= j < p + 2 + |d|
      ensures IsDigit(s[j])
    {
      assert s[j] == d[j - p - 2];
    }
    EndParenHashAt(s, p, |d|);
    forall j | 0 <= j < p
      ensures !MatchesAt(EndParenHash, s, j)
    {
      if MatchesAt(EndParenHash, s, j) {
        EndMatchIsLast(s, j, p);
      }
    }
    FirstFromIs((i: nat) => MatchesAt(EndParenHash, s, i), 0, |s|, p);
  }

  /** In `title(#d)` the leftmost end-anchored match is the final one, whatever the title holds. */
  lemma SquashMatch(title: string, d: string)
    requires d != [] && AllDigits(d)
    ensures var s := title + "(#" + d + ")";
      && FindPattern(EndParenHash, s) == Some(|title|)
      && DigitRun(s, |title| + 2) == |d|
  {
    SquashText(title, d);
    FinalGroupFound(title + "(#" + d + ")", |title|, d);
  }

  /**
   * A squash-merge title `... (#n)` yields `n` whatever the title holds
   * (other `#m`, `(#m)` or `Merge pull request #m` included): the end pattern
   * goes first and only the final group can satisfy it.
   */
  lemma SquashMergeTitle(title: string, n: nat)
    ensures ExtractPRNumber(Some(title + "(#" + NatToString(n) + ")")) ==
      if n <= INT_MAX then Ok(Some(n)) else Err(NumberFormatException)
  {
    var d := NatToString(n);
    var s := title + "(#" + d + ")";
    SquashText(title, d);
    SquashMatch(title, d);
    EndParenHashDecides(s, |title|, d);
    ParseIntOfDigits(d);
  }

  /** When no pattern finds a match there is no number. */
  lemma {:induction false} NoMatchNoNumber(patterns: seq<PrPattern>, s: string)
    requires forall p: PrPattern :: FindPattern(p, s).None?
    ensures ExtractWith(patterns, s) == Ok(None)
  {
    if patterns != [] {
      NoMatchNoNumber(patterns[1..], s);
    }
  }

  /** Every pattern needs a `#`. */
  lemma MatchNeedsHash(p: PrPattern, s: string, i: nat)
    requires MatchesAt(p, s, i)
    ensures '#' in s
  {
    if p == MergeRequest {
      assert s[i + |MergeRequestText| - 1] == s[i..i + |MergeRequestText|][|MergeRequestText| - 1];
    }
  }

  /** A message without a `#` has no number. */
  lemma NoHashNoNumber(message: string)
    requires '#' !in message
    ensures ExtractPRNumber(Some(message)) == Ok(None)
  {
    forall p: PrPattern, i: nat
      ensures !MatchesAt(p, message, i)
    {
      if MatchesAt(p, message, i) {
        MatchNeedsHash(p, message, i);
      }
    }
    NoMatchNoNumber(PrPatterns, message);
  }

  /** What `extractPRNumber` returns for a parsed group: the number, or the exception. */
  function AsNumber(r: Result<int, Exception>): Result<Option<int>, Exception> {
    match r
    case Ok(v) => Ok(Some(v))
    case Err(e) => Err(e)
  }

  /** A pattern is reached only when every earlier one finds nothing; then its first match decides. */
  lemma {:induction false} LaterPatternDecides(patterns: seq<PrPattern>, s: string, k: nat, i: nat)
    requires k < |patterns|
    requires forall j :: 0 <= j < k ==> FindPattern(patterns[j], s).None?
    requires FindPattern(patterns[k], s) == Some(i)
    ensures ExtractWith(patterns, s) == AsNumber(GroupValue(patterns[k], s, i))
    decreases k
  {
    if k == 0 {
      FirstPatternDecides(patterns, s, i);
    } else {
      assert FindPattern(patterns[0], s).None?;
      assert forall j :: 0 <= j < k - 1 ==> patterns[1..][j] == patterns[j + 1];
      LaterPatternDecides(patterns[1..], s, k - 1, i);
    }
  }

  /** Without an end-anchored match, the first merge match decides. */
  lemma MergeDecides(s: string, i: nat)
    requires FindPattern(EndParenHash, s).None?
    requires FindPattern(MergeRequest, s) == Some(i)
    ensures ExtractPRNumber(Some(s)) == AsNumber(GroupValue(MergeRequest, s, i))
  {
    var rest := PrPatterns[1..];
    assert rest == [MergeRequest, ParenHash, BareHash];
    assert ExtractWith(PrPatterns, s) == ExtractWith(rest, s);
    FirstPatternDecides(rest, s, i);
  }

  /** Without an end-anchored or a merge match, the first `(#n)` decides. */
  lemma ParenDecides(s: string, i: nat)
    requires FindPattern(EndParenHash, s).None? && FindPattern(MergeRequest, s).None?
    requires FindPattern(ParenHash, s) == Some(i)
    ensures ExtractPRNumber(Some(s)) == AsNumber(GroupValue(ParenHash, s, i))
  {
    var rest := PrPatterns[1..];
    assert rest == [MergeRequest, ParenHash, BareHash] && rest[1..] == [ParenHash, BareHash];
    assert ExtractWith(PrPatterns, s) == ExtractWith(rest, s);
    assert ExtractWith(rest, s) == ExtractWith(rest[1..], s);
    FirstPatternDecides(rest[1..], s, i);
  }

  /** With no match of the first three patterns, the first bare `#n` decides. */
  lemma BareHashDecides(s: string, i: nat)
    requires FindPattern(EndParenHash, s).None? && FindPattern(MergeRequest, s).None?
    requires FindPattern(ParenHash, s).None?
    requires FindPattern(BareHash, s) == Some(i)
    ensures ExtractPRNumber(Some(s)) == AsNumber(GroupValue(BareHash, s, i))
  {
    var rest := PrPatterns[1..];
    assert rest == [MergeRequest, ParenHash, BareHash] && rest[1..] == [ParenHash, BareHash];
    assert rest[1..][1..] == [BareHash];
    assert ExtractWith(PrPatterns, s) == ExtractWith(rest, s);
    assert ExtractWith(rest, s) == ExtractWith(rest[1..], s);
    assert ExtractWith(rest[1..], s) == ExtractWith(rest[1..][1..], s);
    FirstPatternDecides(rest[1..][1..], s, i);
  }

  /** A pattern with no match anywhere finds nothing. */
  lemma NoMatchFindsNothing(p: PrPattern, s: string)
    requires forall i: nat :: !MatchesAt(p, s, i)
    ensures FindPattern(p, s).None?
  {
  }

  /** A message whose last char is a word char has no end-anchored `(#n)`. */
  lemma NoEndMatchBeforeWord(s: string)
    requires s != [] && IsWordChar(s[|s| - 1])
    ensures FindPattern(EndParenHash, s).None?
  {
    forall i: nat
      ensures !MatchesAt(EndParenHash, s, i)
    {
    }
    NoMatchFindsNothing(EndParenHash, s);
  }

  /** The number a match of `p` at `i` carries is its digit group `d`, parsed. */
  lemma GroupIsDigits(p: PrPattern, s: string, i: nat, d: string)
    requires MatchesAt(p, s, i)
    requires s[GroupStart(p, i)..GroupStart(p, i) + DigitRun(s, GroupStart(p, i))] == d
    ensures GroupValue(p, s, i) == ParseInt(d)
  {
  }

  /** The digits `d` sit at `g` in `s` and end there: they are the greedy digit run from `g`. */
  lemma DigitsAt(s: string, g: nat, d: string)
    requires d != [] && AllDigits(d)
    requires g + |d| <= |s| && s[g..g + |d|] == d
    requires g + |d| == |s| || !IsDigit(s[g + |d|])
    ensures DigitRun(s, g) == |d| && s[g..g + DigitRun(s, g)] == d
  {
    forall j | g <= j < g + |d|
      ensures IsDigit(s[j])
    {
      assert s[j] == s[g..g + |d|][j - g];
    }
    DigitRunIs(s, g, |d|);
  }

  /** What the digits of `n` give: `n`, or the exception when it is past `int`. */
  function ParsedNumber(n: nat): Result<Option<int>, Exception> {
    if n <= INT_MAX then Ok(Some(n)) else Err(NumberFormatException)
  }

  /** The decimal digits of `n`, parsed, give what `ParsedNumber` says. */
  lemma DecimalParsed(n: nat)
    ensures AsNumber(ParseInt(NatToString(n))) == ParsedNumber(n)
  {
    ParseIntOfDigits(NatToString(n));
  }

  /** With no `M` before it, merge text followed by digits is the first merge match, and its group is the digits. */
  lemma MergeFoundAt(pre: string, d: string, post: string)
    requires 'M' !in pre
    requires d != [] && AllDigits(d)
    requires post == [] || !IsDigit(post[0])
    ensures var s := pre + MergeRequestText + d + post; var g := GroupStart(MergeRequest, |pre|);
      && FindPattern(MergeRequest, s) == Some(|pre|)
      && g + DigitRun(s, g) <= |s| && s[g..g + DigitRun(s, g)] == d
  {
    var s := pre + MergeRequestText + d + post;
    var h := |pre|;
    var g := h + |MergeRequestText|;
    assert s[h..g] == MergeRequestText;
    assert s[g..g + |d|] == d;
    assert g + |d| < |s| ==> s[g + |d|] == post[0];
    DigitsAt(s, g, d);
    forall j | 0 <= j < h
      ensures !MatchesAt(MergeRequest, s, j)
    {
      assert s[j] == pre[j];
      if MatchesAt(MergeRequest, s, j) {
        MergeMatchStartsWithM(s, j);
      }
    }
    FirstFromIs((i: nat) => MatchesAt(MergeRequest, s, i), 0, |s|, h);
  }

  /**
   * `Merge pull request #n` decides when no `(#m)` ends the message, however
   * many `(#m)` or `#m` come before or after it: the merge pattern is tried
   * before the two general ones.
   */
  lemma MergeRequestBeatsHashes(pre: string, n: nat, post: string)
    requires 'M' !in pre
    requires post == [] || (!IsDigit(post[0]) && IsWordChar(post[|post| - 1]))
    ensures ExtractPRNumber(Some(pre + MergeRequestText + NatToString(n) + post)) == ParsedNumber(n)
  {
    var d := NatToString(n);
    var s := pre + MergeRequestText + d + post;
    MergeFoundAt(pre, d, post);
    assert s[|s| - 1] == if post == [] then d[|d| - 1] else post[|post| - 1];
    NoEndMatchBeforeWord(s);
    MergeDecides(s, |pre|);
    GroupIsDigits(MergeRequest, s, |pre|, d);
    DecimalParsed(n);
  }

  /** A match of the merge pattern begins with `M`. */
  lemma MergeMatchStartsWithM(s: string, i: nat)
    requires MatchesAt(MergeRequest, s, i)
    ensures i < |s| && s[i] == 'M'
  {
    assert s[i..i + |MergeRequestText|][0] == 'M';
  }

  /** A message without `M` has no merge match. */
  lemma NoMergeWithoutM(s: string)
    requires 'M' !in s
    ensures FindPattern(MergeRequest, s).None?
  {
    forall i: nat
      ensures !MatchesAt(MergeRequest, s, i)
    {
      if MatchesAt(MergeRequest, s, i) {
        MergeMatchStartsWithM(s, i);
      }
    }
    NoMatchFindsNothing(MergeRequest, s);
  }

  /** With no `(` before it, `(#d)` is the first `(#n)` match, and its group is the digits. */
  lemma ParenFoundAt(pre: string, d: string, post: string)
    requires '(' !in pre
    requires d != [] && AllDigits(d)
    ensures var s := pre + "(#" + d + ")" + post; var g := GroupStart(ParenHash, |pre|);
      && FindPattern(ParenHash, s) == Some(|pre|)
      && g + DigitRun(s, g) <= |s| && s[g..g + DigitRun(s, g)] == d
  {
    var s := pre + "(#" + d + ")" + post;
    var h := |pre|;
    var g := h + 2;
    assert s[h] == '(' && s[h + 1] == '#' && s[g + |d|] == ')';
    assert s[g..g + |d|] == d;
    DigitsAt(s, g, d);
    forall j | 0 <= j < h
      ensures !MatchesAt(ParenHash, s, j)
    {
      assert s[j] == pre[j];
    }
    FirstFromIs((i: nat) => MatchesAt(ParenHash, s, i), 0, |s|, h);
  }

  /** A letter outside `pre` and `post` is outside `pre(#d)post` for digits `d`. */
  lemma CharOutsideParenText(pre: string, d: string, post: string, c: char)
    requires AllDigits(d) && c !in pre && c !in post
    requires c != '(' && c != '#' && c != ')' && !IsDigit(c)
    ensures c !in pre + "(#" + d + ")" + post
  {
    assert forall j :: 0 <= j < |d| ==> d[j] != c;
    assert pre + "(#" + d + ")" + post == pre + ("(#" + d + ")") + post;
  }

  /**
   * Without merge text or a final `(#m)`, the first `(#n)` decides, even
   * when a bare `#m` comes before it.
   */
  lemma MidParenBeatsBareHash(pre: string, n: nat, post: string)
    requires '(' !in pre && 'M' !in pre && 'M' !in post
    requires post != [] && IsWordChar(post[|post| - 1])
    ensures ExtractPRNumber(Some(pre + "(#" + NatToString(n) + ")" + post)) == ParsedNumber(n)
  {
    var d := NatToString(n);
    var s := pre + "(#" + d + ")" + post;
    ParenFoundAt(pre, d, post);
    assert s[|s| - 1] == post[|post| - 1];
    NoEndMatchBeforeWord(s);
    CharOutsideParenText(pre, d, post, 'M');
    NoMergeWithoutM(s);
    ParenDecides(s, |pre|);
    GroupIsDigits(ParenHash, s, |pre|, d);
    DecimalParsed(n);
  }

  /** Every match has a `#` just before its digits, and no word char just before that `#`. */
  lemma HashBeforeGroup(p: PrPattern, s: string, i: nat)
    requires MatchesAt(p, s, i)
    ensures var h := GroupStart(p, i) - 1;
      0 <= h < |s| && s[h] == '#' && (h == 0 || !IsWordChar(s[h - 1]))
  {
    if p == MergeRequest {
      var g := GroupStart(p, i);
      assert s[g - 1] == s[i..g][|MergeRequestText| - 1];
      assert s[g - 2] == s[i..g][|MergeRequestText| - 2];
    }
  }

  /** The paren patterns need a `(`. */
  lemma NoParenWithoutOpen(p: PrPattern, s: string)
    requires p == EndParenHash || p == ParenHash
    requires '(' !in s
    ensures FindPattern(p, s).None?
  {
    forall i: nat
      ensures !MatchesAt(p, s, i)
    {
    }
    NoMatchFindsNothing(p, s);
  }

  /**
   * A bare `#n` between non-word chars is the number when the message has no
   * `(` or merge text and no earlier `#`.
   */
  lemma BareHashCounts(pre: string, n: nat, post: string)
    requires '#' !in pre && '(' !in pre && '(' !in post && 'M' !in pre && 'M' !in post
    requires pre == [] || !IsWordChar(pre[|pre| - 1])
    requires post == [] || !IsWordChar(post[0])
    ensures ExtractPRNumber(Some(pre + "#" + NatToString(n) + post)) == ParsedNumber(n)
  {
    var d := NatToString(n);
    var s := pre + "#" + d + post;
    BareHashFoundAt(pre, d, post);
    CharOutsideHashText(pre, d, post, '(');
    CharOutsideHashText(pre, d, post, 'M');
    NoParenWithoutOpen(EndParenHash, s);
    NoParenWithoutOpen(ParenHash, s);
    NoMergeWithoutM(s);
    BareHashDecides(s, |pre|);
    GroupIsDigits(BareHash, s, |pre|, d);
    DecimalParsed(n);
  }

  /** With no `#` before it, a `#d` between non-word chars is the first bare match, and its group is the digits. */
  lemma BareHashFoundAt(pre: string, d: string, post: string)
    requires '#' !in pre
    requires d != [] && AllDigits(d)
    requires pre == [] || !IsWordChar(pre[|pre| - 1])
    requires post == [] || !IsWordChar(post[0])
    ensures var s := pre + "#" + d + post; var g := GroupStart(BareHash, |pre|);
      && FindPattern(BareHash, s) == Some(|pre|)
      && g + DigitRun(s, g) <= |s| && s[g..g + DigitRun(s, g)] == d
  {
    var s := pre + "#" + d + post;
    var h := |pre|;
    var g := h + 1;
    assert s[h] == '#' && s[g..g + |d|] == d;
    assert g + |d| < |s| ==> s[g + |d|] == post[0];
    DigitsAt(s, g, d);
    assert h > 0 ==> s[h - 1] == pre[h - 1];
    assert MatchesAt(BareHash, s, h);
    forall j | 0 <= j < h
      ensures !MatchesAt(BareHash, s, j)
    {
      assert s[j] == pre[j];
    }
    FirstFromIs((i: nat) => MatchesAt(BareHash, s, i), 0, |s|, h);
  }

  /** A char outside `pre` and `post` is outside `pre#dpost` for digits `d`, unless it is `#` or a digit. */
  lemma CharOutsideHashText(pre: string, d: string, post: string, c: char)
    requires AllDigits(d) && c !in pre && c !in post && c != '#' && !IsDigit(c)
    ensures c !in pre + "#" + d + post
  {
    assert forall j :: 0 <= j < |d| ==> d[j] != c;
    assert pre + "#" + d + post == pre + ("#" + d) + post;
  }

  /** The only `#` of `pre#post` sits at `|pre|`. */
  lemma OnlyHash(pre: string, post: string, k: nat)
    requires '#' !in pre && '#' !in post
    requires k < |pre + "#" + post| && (pre + "#" + post)[k] == '#'
    ensures k == |pre|
  {
  }

  /** A `#` right after a word char starts no number (`a#12` has none), whatever follows. */
  lemma HashAfterWordCharIsNoNumber(pre: string, post: string)
    requires pre != [] && IsWordChar(pre[|pre| - 1])
    requires '#' !in pre && '#' !in post
    ensures ExtractPRNumber(Some(pre + "#" + post)) == Ok(None)
  {
    var s := pre + "#" + post;
    forall p: PrPattern, i: nat
      ensures !MatchesAt(p, s, i)
    {
      if MatchesAt(p, s, i) {
        HashBeforeGroup(p, s, i);
      }
    }
    NoMatchNoNumber(PrPatterns, s);
  }

  /**
   * Digits after a `#` that run into a letter or `_` give no number (`#12a`
   * has none): backtracking cannot help, as a shorter group is followed by a digit.
   */
  lemma HashBeforeLetterIsNoNumber(pre: string, d: string, post: string)
    requires d != [] && AllDigits(d)
    requires post != [] && IsWordChar(post[0]) && !IsDigit(post[0])
    requires '#' !in pre && '#' !in post && 'M' !in pre
    ensures ExtractPRNumber(Some(pre + "#" + d + post)) == Ok(None)
  {
    var s := pre + "#" + d + post;
    var h := |pre|;
    HashTextFacts(pre, d, post);
    forall p: PrPattern, i: nat
      ensures !MatchesAt(p, s, i)
    {
      RunIntoWordNoMatch(s, h, p, i);
    }
    NoMatchAnywhere(s);
  }

  /** In `pre#dpost` with `#` only at `|pre|`: where the `#` is, where its digits end, and that no `M` precedes it. */
  lemma HashTextFacts(pre: string, d: string, post: string)
    requires d != [] && AllDigits(d)
    requires post != [] && IsWordChar(post[0]) && !IsDigit(post[0])
    requires '#' !in pre && '#' !in post && 'M' !in pre
    ensures var s := pre + "#" + d + post; var h := |pre|;
      && h + 1 <= |s| && (forall k :: 0 <= k < |s| && s[k] == '#' ==> k == h)
      && h + 1 + DigitRun(s, h + 1) < |s| && IsWordChar(s[h + 1 + DigitRun(s, h + 1)])
      && (forall k :: 0 <= k < h ==> s[k] != 'M')
  {
    HashOnlyAt(pre, d, post);
    RunEndsInPost(pre, d, post);
    NoMBefore(pre, "#" + d + post);
    assert pre + "#" + d + post == pre + ("#" + d + post);
  }

  /** The only `#` of `pre#dpost` is the one at `|pre|`. */
  lemma HashOnlyAt(pre: string, d: string, post: string)
    requires AllDigits(d) && '#' !in pre && '#' !in post
    ensures var s := pre + "#" + d + post;
      forall k :: 0 <= k < |s| && s[k] == '#' ==> k == |pre|
  {
    var s := pre + "#" + d + post;
    var rest := d + post;
    assert s == pre + "#" + rest;
    assert '#' !in rest by {
      assert forall j :: 0 <= j < |d| ==> d[j] != '#';
    }
    forall k | 0 <= k < |s| && s[k] == '#'
      ensures k == |pre|
    {
      OnlyHash(pre, rest, k);
    }
  }

  /** The digits after the `#` of `pre#dpost` end at the first char of `post`. */
  lemma RunEndsInPost(pre: string, d: string, post: string)
    requires d != [] && AllDigits(d) && post != [] && !IsDigit(post[0])
    ensures var s := pre + "#" + d + post; var g := |pre| + 1;
      g + DigitRun(s, g) < |s| && s[g + DigitRun(s, g)] == post[0]
  {
    var s := pre + "#" + d + post;
    var g := |pre| + 1;
    assert s[g..g + |d|] == d && s[g + |d|] == post[0];
    DigitsAt(s, g, d);
  }

  /** No `M` comes before the end of a prefix without one. */
  lemma NoMBefore(pre: string, rest: string)
    requires 'M' !in pre
    ensures forall k :: 0 <= k < |pre| ==> (pre + rest)[k] != 'M'
  {
    forall k | 0 <= k < |pre|
      ensures (pre + rest)[k] != 'M'
    {
      assert (pre + rest)[k] == pre[k];
    }
  }

  /**
   * With one `#`, at `h`, whose digits run into a word char, and no `M`
   * before it, no pattern matches anywhere.
   */
  lemma RunIntoWordNoMatch(s: string, h: nat, p: PrPattern, i: nat)
    requires h + 1 <= |s| && forall k :: 0 <= k < |s| && s[k] == '#' ==> k == h
    requires h + 1 + DigitRun(s, h + 1) < |s| && IsWordChar(s[h + 1 + DigitRun(s, h + 1)])
    requires forall k :: 0 <= k < h ==> s[k] != 'M'
    ensures !MatchesAt(p, s, i)
  {
    if MatchesAt(p, s, i) {
      HashBeforeGroup(p, s, i);
      if p == MergeRequest {
        MergeMatchStartsWithM(s, i);
      }
    }
  }

  /** A message no pattern matches anywhere has no number. */
  lemma NoMatchAnywhere(s: string)
    requires forall p: PrPattern, i: nat :: !MatchesAt(p, s, i)
    ensures ExtractPRNumber(Some(s)) == Ok(None)
  {
    forall p: PrPattern
      ensures FindPattern(p, s).None?
    {
      NoMatchFindsNothing(p, s);
    }
    NoMatchNoNumber(PrPatterns, s);
  }

  /** `a#12` and `#12a` carry no number; `a #12` carries 12. */
  lemma WordBoundaryExamples()
    ensures ExtractPRNumber(Some("a#12")) == Ok(None)
    ensures ExtractPRNumber(Some("#12a")) == Ok(None)
    ensures ExtractPRNumber(Some("a #12")) == Ok(Some(12))
  {
    assert NatToString(12) == "12";
    HashAfterWordCharIsNoNumber("a", "12");
    assert "a" + "#" + "12" == "a#12";
    HashBeforeLetterIsNoNumber("", "12", "a");
    assert "" + "#" + "12" + "a" == "#12a";
    BareHashCounts("a ", 12, "");
    assert "a " + "#" + "12" + "" == "a #12";
  }

  // ---------------------------------------------------------------------------
  // enrichCommitsWithPRInfo
  // ---------------------------------------------------------------------------

  /** `fetchPRDescription(owner, repo, n)`: the PR body (`""` when it is null), or null on an error. */
  type DescriptionFetch = (string, string, int) -> Option<string>

  /** A description worth attaching: non-null and not blank. */
  predicate IsUsableDescription(d: Option<string>) {
    d.Some? && !IsTrimBlank(d.value)
  }

  /**
   * One iteration of `enrichCommitsWithPRInfo`: an extracted number becomes
   * the commit's `prId`, and a usable fetched description its `prDescription`.
   * A message without a number, or one whose number throws, leaves the commit
   * alone (the exception is caught before anything is set).
   */
  function EnrichCommit(c: Commit, owner: string, repo: string, fetch: DescriptionFetch): (r: Commit)
    ensures r.(prId := c.prId, prDescription := c.prDescription) == c
    ensures r.prId != c.prId ==> ExtractPRNumber(c.message) == Ok(r.prId)
    ensures r.prDescription != c.prDescription ==>
      ExtractPRNumber(c.message).Ok? && ExtractPRNumber(c.message).value == r.prId && IsUsableDescription(r.prDescription)
  {
    match ExtractPRNumber(c.message)
    case Ok(Some(n)) =>
      var d := fetch(owner, repo, n);
      if IsUsableDescription(d) then c.(prId := Some(n), prDescription := d) else c.(prId := Some(n))
    case _ => c
  }

  /** Enriching is idempotent: a second pass finds the same number and description. */
  lemma EnrichIdempotent(c: Commit, owner: string, repo: string, fetch: DescriptionFetch)
    ensures EnrichCommit(EnrichCommit(c, owner, repo, fetch), owner, repo, fetch) == EnrichCommit(c, owner, repo, fetch)
  {
  }

  /** A commit whose message has a number always gets it as `prId`, fetched description or not. */
  lemma NumberIsAlwaysRecorded(c: Commit, owner: string, repo: string, fetch: DescriptionFetch, n: int)
    requires ExtractPRNumber(c.message) == Ok(Some(n))
    ensures EnrichCommit(c, owner, repo, fetch).prId == Some(n)
    ensures EnrichCommit(c, owner, repo, fetch).prDescription ==
      if IsUsableDescription(fetch(owner, repo, n)) then fetch(owner, repo, n) else c.prDescription
  {
  }

  /** `enrichCommitsWithPRInfo` over a list: each commit in place, in order. */
  function EnrichAll(commits: seq<Commit>, owner: string, repo: string, fetch: DescriptionFetch): (r: seq<Commit>)
    ensures |r| == |commits|
    ensures forall i :: 0 <= i < |r| ==> r[i] == EnrichCommit(commits[i], owner, repo, fetch)
  {
    if commits == [] then []
    else [EnrichCommit(commits[0], owner, repo, fetch)] + EnrichAll(commits[1..], owner, repo, fetch)
  }

  // ---------------------------------------------------------------------------
  // fetchData
  // ---------------------------------------------------------------------------

  const GitHubPrefix := "https://github.com/"

  /**
   * `repoUrl.replace("https://github.com/", "").split("/")`, then `parts[0]`
   * and `parts[1]`; fewer than two parts throws.
   */
  function RepoCoordinates(url: string): (r: Result<(string, string), Exception>)
    ensures r.Err? ==> r.error == IndexOutOfBoundsException
    ensures r.Ok? ==> '/' !in r.value.0 && '/' !in r.value.1
  {
    var parts := JavaSplit(ReplaceString(url, GitHubPrefix, ""), '/');
    if |parts| < 2 then Err(IndexOutOfBoundsException) else Ok((parts[0], parts[1]))
  }

  /** The name a repository gets: `owner/repo`. */
  function RepoName(owner: string, repo: string): string {
    owner + "/" + repo
  }

  /** The URL of a repository splits back into its owner and name. */
  lemma RepoUrlRoundTrip(owner: string, repo: string)
    requires '/' !in owner && '/' !in repo && repo != []
    requires !Contains(RepoName(owner, repo), GitHubPrefix)
    ensures RepoCoordinates(GitHubPrefix + RepoName(owner, repo)) == Ok((owner, repo))
  {
    var path := RepoName(owner, repo);
    var url := GitHubPrefix + path;
    assert url[..|GitHubPrefix|] == GitHubPrefix && url[|GitHubPrefix|..] == path;
    ReplaceStringAbsent(path, GitHubPrefix, "");
    assert ReplaceString(url, GitHubPrefix, "") == path;
    SplitTwo(owner, '/', repo);
  }

  /** A URL that names no repository after the owner fails. */
  lemma OwnerOnlyUrlFails(owner: string)
    requires '/' !in owner && !Contains(owner, GitHubPrefix)
    ensures RepoCoordinates(GitHubPrefix + owner).Err?
  {
    var url := GitHubPrefix + owner;
    assert url[..|GitHubPrefix|] == GitHubPrefix && url[|GitHubPrefix|..] == owner;
    ReplaceStringAbsent(owner, GitHubPrefix, "");
  }

  /** A login in the configured team; a null login never is. */
  predicate InTeam(login: Option<string>, team: seq<string>) {
    login.Some? && login.value in team
  }

  /** `fetchIssues`' test: created in the window, and not by a bot. */
  predicate IsKeptIssue(x: Issue, start: string, end: string) {
    IsWithinDateRange(Some(x.createdAt), Some(start), Some(end)) && !IsBotIssue(x)
  }

  /**
   * `fetchIssues`' selection: exactly the parsed issues that pass the test,
   * each as often as it was parsed, in the parsed order.
   */
  function KeepIssues(parsed: seq<Issue>, start: string, end: string): (r: seq<Issue>)
    ensures forall i :: 0 <= i < |r| ==> r[i] in parsed && !IsBotIssue(r[i])
    ensures forall i :: 0 <= i < |r| ==> IsWithinDateRange(Some(r[i].createdAt), Some(start), Some(end))
    ensures forall x :: x in r <==> x in parsed && IsKeptIssue(x, start, end)
    ensures forall x :: multiset(r)[x] == if IsKeptIssue(x, start, end) then multiset(parsed)[x] else 0
    ensures IsSubsequence(r, parsed)
  {
    var keep := (x: Issue) => IsKeptIssue(x, start, end);
    var r := Filter(parsed, keep);
    forall x
      ensures (x in r <==> x in parsed && keep(x))
      ensures multiset(r)[x] == if keep(x) then multiset(parsed)[x] else 0
    {
      FilterMembers(parsed, keep, x);
      FilterCount(parsed, keep, x);
    }
    FilterIsSubsequence(parsed, keep);
    r
  }

  /** `fetchCommits`' test: not by a bot. */
  predicate IsKeptCommit(x: Commit) {
    !IsBotCommit(x)
  }

  /**
   * `fetchCommits`' selection: exactly the parsed commits not by a bot, each
   * as often as it was parsed, in the parsed order.
   */
  function KeepCommits(parsed: seq<Commit>): (r: seq<Commit>)
    ensures forall i :: 0 <= i < |r| ==> r[i] in parsed && !IsBotCommit(r[i])
    ensures forall x :: x in r <==> x in parsed && IsKeptCommit(x)
    ensures forall x :: multiset(r)[x] == if IsKeptCommit(x) then multiset(parsed)[x] else 0
    ensures IsSubsequence(r, parsed)
  {
    var r := Filter(parsed, IsKeptCommit);
    forall x
      ensures (x in r <==> x in parsed && IsKeptCommit(x))
      ensures multiset(r)[x] == if IsKeptCommit(x) then multiset(parsed)[x] else 0
    {
      FilterMembers(parsed, IsKeptCommit, x);
      FilterCount(parsed, IsKeptCommit, x);
    }
    FilterIsSubsequence(parsed, IsKeptCommit);
    r
  }

  /** `fetchPullRequests`' test: created or updated in the window, and not by a bot. */
  predicate IsKeptPR(x: PullRequest, inWindow: PullRequest -> bool) {
    inWindow(x) && !IsBotPR(x)
  }

  /**
   * `fetchPullRequests`' selection: exactly the parsed pull requests that pass
   * the test, each as often as it was parsed, in the parsed order.
   */
  function KeepPRs(parsed: seq<PullRequest>, inWindow: PullRequest -> bool): (r: seq<PullRequest>)
    ensures forall i :: 0 <= i < |r| ==> r[i] in parsed && inWindow(r[i]) && !IsBotPR(r[i])
    ensures forall x :: x in r <==> x in parsed && IsKeptPR(x, inWindow)
    ensures forall x :: multiset(r)[x] == if IsKeptPR(x, inWindow) then multiset(parsed)[x] else 0
    ensures IsSubsequence(r, parsed)
  {
    var keep := (x: PullRequest) => IsKeptPR(x, inWindow);
    var r := Filter(parsed, keep);
    forall x
      ensures (x in r <==> x in parsed && keep(x))
      ensures multiset(r)[x] == if keep(x) then multiset(parsed)[x] else 0
    {
      FilterMembers(parsed, keep, x);
      FilterCount(parsed, keep, x);
    }
    FilterIsSubsequence(parsed, keep);
    r
  }

  /** The parsed items of the three list endpoints for one repository. */
  datatype Fetched = Fetched(issues: seq<Issue>, commits: seq<Commit>, pullRequests: seq<PullRequest>)

  /**
   * What `fetchData` depends on beyond its arguments: the parsed API lists of
   * a repository, the PR-description fetch, and the PR window test (which
   * parses timestamps).
   */
  datatype Remote = Remote(
    lists: (string, string) -> Fetched,
    fetch: DescriptionFetch,
    prInWindow: PullRequest -> bool)

  /** One iteration of `fetchData`'s loop, for the repository `owner/repo`. */
  function RepoDataFor(owner: string, repo: string, start: string, end: string, team: seq<string>, remote: Remote)
    : RepositoryData
  {
    var raw := remote.lists(owner, repo);
    var issues := KeepIssues(raw.issues, start, end);
    var commits := EnrichAll(KeepCommits(raw.commits), owner, repo, remote.fetch);
    var prs := KeepPRs(raw.pullRequests, remote.prInWindow);
    RepositoryData(
      RepoName(owner, repo), Some(issues), Some(commits), Some(prs),
      Some(Filter(issues, (x: Issue) => InTeam(x.authorLogin, team))),
      Some(Filter(commits, (x: Commit) => InTeam(x.authorLogin, team))),
      Some(Filter(prs, (x: PullRequest) => InTeam(x.authorLogin, team))))
  }

  /** Nothing `BotFilter` flags survives a fetch, and enrichment keeps each commit's login. */
  lemma FetchedHasNoBots(owner: string, repo: string, start: string, end: string, team: seq<string>, remote: Remote)
    ensures var d := RepoDataFor(owner, repo, start, end, team, remote);
      && (forall i :: 0 <= i < |d.issues.value| ==> !IsBotIssue(d.issues.value[i]))
      && (forall i :: 0 <= i < |d.commits.value| ==> !IsBotCommit(d.commits.value[i]))
      && (forall i :: 0 <= i < |d.pullRequests.value| ==> !IsBotPR(d.pullRequests.value[i]))
  {
    var kept := KeepCommits(remote.lists(owner, repo).commits);
    var enriched := EnrichAll(kept, owner, repo, remote.fetch);
    forall i | 0 <= i < |enriched|
      ensures !IsBotCommit(enriched[i])
    {
      assert enriched[i].authorLogin == kept[i].authorLogin;
    }
  }

  /**
   * The team lists hold exactly the team's items, in the order of the full
   * lists and as often as there: a commit is a team commit iff it is a
   * fetched commit by a member.
   */
  lemma TeamCommitsAreMembers(owner: string, repo: string, start: string, end: string, team: seq<string>,
                              remote: Remote, c: Commit)
    ensures var d := RepoDataFor(owner, repo, start, end, team, remote);
      && (c in d.teamCommits.value <==> c in d.commits.value && InTeam(c.authorLogin, team))
      && IsSubsequence(d.teamCommits.value, d.commits.value)
      && multiset(d.teamCommits.value)[c] == if InTeam(c.authorLogin, team) then multiset(d.commits.value)[c] else 0
  {
    var d := RepoDataFor(owner, repo, start, end, team, remote);
    var member := (x: Commit) => InTeam(x.authorLogin, team);
    FilterMembers(d.commits.value, member, c);
    FilterIsSubsequence(d.commits.value, member);
    FilterCount(d.commits.value, member, c);
  }

  /** The same for issues and pull requests: membership, order and multiplicity. */
  lemma TeamIssuesAndPRsAreMembers(owner: string, repo: string, start: string, end: string, team: seq<string>,
                                   remote: Remote, x: Issue, pr: PullRequest)
    ensures var d := RepoDataFor(owner, repo, start, end, team, remote);
      && (x in d.teamIssues.value <==> x in d.issues.value && InTeam(x.authorLogin, team))
      && IsSubsequence(d.teamIssues.value, d.issues.value)
      && multiset(d.teamIssues.value)[x] == if InTeam(x.authorLogin, team) then multiset(d.issues.value)[x] else 0
    ensures var d := RepoDataFor(owner, repo, start, end, team, remote);
      && (pr in d.teamPRs.value <==> pr in d.pullRequests.value && InTeam(pr.authorLogin, team))
      && IsSubsequence(d.teamPRs.value, d.pullRequests.value)
      && multiset(d.teamPRs.value)[pr] == if InTeam(pr.authorLogin, team) then multiset(d.pullRequests.value)[pr] else 0
  {
    var d := RepoDataFor(owner, repo, start, end, team, remote);
    var issueMember := (i: Issue) => InTeam(i.authorLogin, team);
    var prMember := (p: PullRequest) => InTeam(p.authorLogin, team);
    FilterMembers(d.issues.value, issueMember, x);
    FilterIsSubsequence(d.issues.value, issueMember);
    FilterCount(d.issues.value, issueMember, x);
    FilterMembers(d.pullRequests.value, prMember, pr);
    FilterIsSubsequence(d.pullRequests.value, prMember);
    FilterCount(d.pullRequests.value, prMember, pr);
  }

  /**
   * `fetchData`'s loop for any per-repository step: one result per URL, in
   * order; a URL that does not split into owner and name throws, and the
   * whole call with it.
   */
  function ForEachRepo<T>(urls: seq<string>, step: (string, string) -> T): (r: Result<seq<T>, Exception>)
    ensures r.Ok? <==> forall i :: 0 <= i < |urls| ==> RepoCoordinates(urls[i]).Ok?
    ensures r.Ok? ==> |r.value| == |urls|
    ensures r.Ok? ==> forall i :: 0 <= i < |urls| ==>
      r.value[i] == step(RepoCoordinates(urls[i]).value.0, RepoCoordinates(urls[i]).value.1)
  {
    if urls == [] then Ok([])
    else
      var first := RepoCoordinates(urls[0]);
      if first.Err? then Err(first.error)
      else
        var rest := ForEachRepo(urls[1..], step);
        assert forall i :: 1 <= i < |urls| ==> urls[i] == urls[1..][i - 1];
        if rest.Err? then Err(rest.error)
        else Ok([step(first.value.0, first.value.1)] + rest.value)
  }

  /** `fetchData`: the per-repository step is `RepoDataFor`. */
  function FetchData(urls: seq<string>, start: string, end: string, team: seq<string>, remote: Remote)
    : Result<seq<RepositoryData>, Exception>
  {
    ForEachRepo(urls, (owner: string, repo: string) => RepoDataFor(owner, repo, start, end, team, remote))
  }

  /** Each fetched repository is named after its URL. */
  lemma FetchedNamesFollowUrls(urls: seq<string>, start: string, end: string, team: seq<string>, remote: Remote, i: nat)
    requires FetchData(urls, start, end, team, remote).Ok? && i < |urls|
    ensures FetchData(urls, start, end, team, remote).value[i].repoName ==
      RepoName(RepoCoordinates(urls[i]).value.0, RepoCoordinates(urls[i]).value.1)
  {
  }
}

=== FILE: html_report.dfy ===
/**
 * HtmlReportGenerator: the helpers and selection steps behind the HTML report
 * (escaping, truncation, the report's own bot rule, the SHA filter on the
 * categorisation, open-item selection and commit descriptions). The markup
 * itself is not modelled.
 */
module HtmlReport {
  import opened Wrappers
  import opened JavaText
  import opened Seqs
  import opened Entities
  import opened BotFilter
  import opened RepoData
  import opened Categorization

  // ---------------------------------------------------------------------------
  // escapeHtml
  // ---------------------------------------------------------------------------

  /** The five characters `escapeHtml` rewrites. */
  predicate IsMarkupChar(c: char) {
    c == '&' || c == '<' || c == '>' || c == '"' || c == '\''
  }

  /** The entity each markup character becomes; any other character stands for itself. */
  function EscapeChar(c: char): (e: string)
    ensures !IsMarkupChar(c) <==> e == [c]
    ensures e != [] && (IsMarkupChar(c) ==> e[0] == '&')
  {
    if c == '&' then "&amp;"
    else if c == '<' then "&lt;"
    else if c == '>' then "&gt;"
    else if c == '"' then "&quot;"
    else if c == '\'' then "&#x27;"
    else [c]
  }

  /** Character-by-character escaping: the reference `escapeHtml` is proved equal to. */
  function EscapeChars(s: string): (t: string)
    ensures '<' !in t && '>' !in t && '"' !in t && '\'' !in t
    ensures |t| >= |s|
  {
    if s == [] then [] else EscapeChar(s[0]) + EscapeChars(s[1..])
  }

  /**
   * `escapeHtml`: null becomes `""`; otherwise five `replace` calls, `&`
   * first, so the `&` of the later entities is not rewritten again.
   */
  function EscapeHtml(text: Option<string>): (r: string)
    ensures text.None? ==> r == ""
    ensures text.Some? ==> r == EscapeChars(text.value)
  {
    if text.None? then ""
    else
      var s := text.value;
      EscapeHtmlIsCharWise(s);
      ReplaceString(ReplaceString(ReplaceString(ReplaceString(ReplaceString(
        s, "&", "&amp;"), "<", "&lt;"), ">", "&gt;"), "\"", "&quot;"), "'", "&#x27;")
  }

  /** The four replacements after the first. */
  function LaterReplacements(s: string): string {
    ReplaceChar(ReplaceChar(ReplaceChar(ReplaceChar(s, '<', "&lt;"), '>', "&gt;"), '"', "&quot;"), '\'', "&#x27;")
  }

  lemma LaterReplacementsAppend(a: string, b: string)
    ensures LaterReplacements(a + b) == LaterReplacements(a) + LaterReplacements(b)
  {
    ReplaceCharAppend(a, b, '<', "&lt;");
    var a1, b1 := ReplaceChar(a, '<', "&lt;"), ReplaceChar(b, '<', "&lt;");
    ReplaceCharAppend(a1, b1, '>', "&gt;");
    var a2, b2 := ReplaceChar(a1, '>', "&gt;"), ReplaceChar(b1, '>', "&gt;");
    ReplaceCharAppend(a2, b2, '"', "&quot;");
    var a3, b3 := ReplaceChar(a2, '"', "&quot;"), ReplaceChar(b2, '"', "&quot;");
    ReplaceCharAppend(a3, b3, '\'', "&#x27;");
  }

  /** A string with none of `<>"'` passes the later replacements untouched. */
  lemma LaterReplacementsAbsent(s: string)
    requires '<' !in s && '>' !in s && '"' !in s && '\'' !in s
    ensures LaterReplacements(s) == s
  {
    ReplaceCharAbsent(s, '<', "&lt;");
    ReplaceCharAbsent(s, '>', "&gt;");
    ReplaceCharAbsent(s, '"', "&quot;");
    ReplaceCharAbsent(s, '\'', "&#x27;");
  }

  /** One character through all five replacements is its entity. */
  lemma OneCharEscapes(c: char)
    ensures LaterReplacements(if c == '&' then "&amp;" else [c]) == EscapeChar(c)
  {
    if c == '&' {
      LaterReplacementsAbsent("&amp;");
    } else if c == '<' {
      assert ReplaceChar([c], '<', "&lt;") == "&lt;";
      LaterReplacementsAbsent3("&lt;");
    } else if c == '>' {
      ReplaceCharAbsent([c], '<', "&lt;");
      assert ReplaceChar([c], '>', "&gt;") == "&gt;";
      LaterReplacementsAbsent2("&gt;");
    } else if c == '"' {
      ReplaceCharAbsent([c], '<', "&lt;");
      ReplaceCharAbsent([c], '>', "&gt;");
      assert ReplaceChar([c], '"', "&quot;") == "&quot;";
      ReplaceCharAbsent("&quot;", '\'', "&#x27;");
    } else if c == '\'' {
      ReplaceCharAbsent([c], '<', "&lt;");
      ReplaceCharAbsent([c], '>', "&gt;");
      ReplaceCharAbsent([c], '"', "&quot;");
      assert ReplaceChar([c], '\'', "&#x27;") == "&#x27;";
    } else {
      LaterReplacementsAbsent([c]);
    }
  }

  /** An entity without `>`, `"` or `'` is kept by the last three replacements. */
  lemma LaterReplacementsAbsent3(e: string)
    requires '>' !in e && '"' !in e && '\'' !in e
    ensures ReplaceChar(ReplaceChar(ReplaceChar(e, '>', "&gt;"), '"', "&quot;"), '\'', "&#x27;") == e
  {
    ReplaceCharAbsent(e, '>', "&gt;");
    ReplaceCharAbsent(e, '"', "&quot;");
    ReplaceCharAbsent(e, '\'', "&#x27;");
  }

  /** An entity without `"` or `'` is kept by the last two replacements. */
  lemma LaterReplacementsAbsent2(e: string)
    requires '"' !in e && '\'' !in e
    ensures ReplaceChar(ReplaceChar(e, '"', "&quot;"), '\'', "&#x27;") == e
  {
    ReplaceCharAbsent(e, '"', "&quot;");
    ReplaceCharAbsent(e, '\'', "&#x27;");
  }

  /** The five replacements, char-wise, are the per-character escaping. */
  lemma {:induction false} CharWiseIsEscapeChars(s: string)
    ensures LaterReplacements(ReplaceChar(s, '&', "&amp;")) == EscapeChars(s)
  {
    if s != [] {
      var head := if s[0] == '&' then "&amp;" else [s[0]];
      assert ReplaceChar(s, '&', "&amp;") == head + ReplaceChar(s[1..], '&', "&amp;");
      LaterReplacementsAppend(head, ReplaceChar(s[1..], '&', "&amp;"));
      OneCharEscapes(s[0]);
      CharWiseIsEscapeChars(s[1..]);
    }
  }

  /** `escapeHtml`'s chain of string replacements is the per-character escaping. */
  lemma EscapeHtmlIsCharWise(s: string)
    ensures ReplaceString(ReplaceString(ReplaceString(ReplaceString(ReplaceString(
      s, "&", "&amp;"), "<", "&lt;"), ">", "&gt;"), "\"", "&quot;"), "'", "&#x27;") == EscapeChars(s)
  {
    var s1 := ReplaceString(s, "&", "&amp;");
    ReplaceStringOneChar(s, '&', "&amp;");
    var s2 := ReplaceString(s1, "<", "&lt;");
    ReplaceStringOneChar(s1, '<', "&lt;");
    var s3 := ReplaceString(s2, ">", "&gt;");
    ReplaceStringOneChar(s2, '>', "&gt;");
    var s4 := ReplaceString(s3, "\"", "&quot;");
    ReplaceStringOneChar(s3, '"', "&quot;");
    ReplaceStringOneChar(s4, '\'', "&#x27;");
    CharWiseIsEscapeChars(s);
  }

  /** The five entities `escapeHtml` produces. */
  const EntityList: seq<string> := ["&amp;", "&lt;", "&gt;", "&quot;", "&#x27;"]

  /** One of the five entities starts at `i`. */
  predicate EntityAt(t: string, i: nat) {
    exists j :: 0 <= j < |EntityList| && OccursAt(t, EntityList[j], i)
  }

  /** An escaped character holds `&` at most in front, and then it is an entity. */
  lemma EscapeCharAmpersand(c: char, rest: string, k: nat)
    requires k < |EscapeChar(c)| && EscapeChar(c)[k] == '&'
    ensures k == 0 && EntityAt(EscapeChar(c) + rest, 0)
  {
    var e := EscapeChar(c);
    var t := e + rest;
    assert t[..|e|] == e;
    if c == '&' {
      assert OccursAt(t, EntityList[0], 0);
    } else if c == '<' {
      assert OccursAt(t, EntityList[1], 0);
    } else if c == '>' {
      assert OccursAt(t, EntityList[2], 0);
    } else if c == '"' {
      assert OccursAt(t, EntityList[3], 0);
    } else if c == '\'' {
      assert OccursAt(t, EntityList[4], 0);
    }
  }

  /** Every `&` of `t` is the start of an entity. */
  predicate AmpersandsStartEntities(t: string) {
    forall i :: 0 <= i < |t| && t[i] == '&' ==> EntityAt(t, i)
  }

  lemma OccursAtShift(a: string, b: string, sub: string, j: nat)
    requires OccursAt(b, sub, j)
    ensures OccursAt(a + b, sub, |a| + j)
  {
    assert (a + b)[|a| + j..|a| + j + |sub|] == b[j..j + |sub|];
  }

  /** In escaped text every `&` starts one of the five entities. */
  lemma {:induction false} EscapedAmpersands(s: string)
    ensures AmpersandsStartEntities(EscapeChars(s))
  {
    if s != [] {
      var e := EscapeChar(s[0]);
      var rest := EscapeChars(s[1..]);
      var t := EscapeChars(s);
      assert t == e + rest;
      EscapedAmpersands(s[1..]);
      forall i | 0 <= i < |t| && t[i] == '&'
        ensures EntityAt(t, i)
      {
        if i < |e| {
          assert t[i] == e[i];
          EscapeCharAmpersand(s[0], rest, i);
        } else {
          assert rest[i - |e|] == t[i];
          var j :| 0 <= j < |EntityList| && OccursAt(rest, EntityList[j], i - |e|);
          OccursAtShift(e, rest, EntityList[j], i - |e|);
        }
      }
    }
  }

  /** Decoding the five entities (a reader's view of the escaped text). */
  function Unescape(t: string): string
    decreases |t|
  {
    if t == [] then []
    else if StartsWith(t, "&amp;") then "&" + Unescape(t[5..])
    else if StartsWith(t, "&lt;") then "<" + Unescape(t[4..])
    else if StartsWith(t, "&gt;") then ">" + Unescape(t[4..])
    else if StartsWith(t, "&quot;") then "\"" + Unescape(t[6..])
    else if StartsWith(t, "&#x27;") then "'" + Unescape(t[6..])
    else [t[0]] + Unescape(t[1..])
  }

  /** Decoding an escaped character in front of more text gives the character back. */
  lemma UnescapeOne(c: char, rest: string)
    ensures Unescape(EscapeChar(c) + rest) == [c] + Unescape(rest)
  {
    var e := EscapeChar(c);
    var t := e + rest;
    assert t[..|e|] == e && t[|e|..] == rest;
    if !IsMarkupChar(c) {
      assert t[0] == c && t[1..] == rest;
      NotStartsWith(t, "&amp;", 0);
      NotStartsWith(t, "&lt;", 0);
      NotStartsWith(t, "&gt;", 0);
      NotStartsWith(t, "&quot;", 0);
      NotStartsWith(t, "&#x27;", 0);
    } else if c == '&' {
      assert StartsWith(t, "&amp;");
    } else if c == '<' {
      assert t[1] == 'l';
      NotStartsWith(t, "&amp;", 1);
      assert StartsWith(t, "&lt;");
    } else if c == '>' {
      assert t[1] == 'g';
      NotStartsWith(t, "&amp;", 1);
      NotStartsWith(t, "&lt;", 1);
      assert StartsWith(t, "&gt;");
    } else if c == '"' {
      assert t[1] == 'q';
      NotStartsWith(t, "&amp;", 1);
      NotStartsWith(t, "&lt;", 1);
      NotStartsWith(t, "&gt;", 1);
      assert StartsWith(t, "&quot;");
    } else {
      assert t[1] == '#';
      NotStartsWith(t, "&amp;", 1);
      NotStartsWith(t, "&lt;", 1);
      NotStartsWith(t, "&gt;", 1);
      NotStartsWith(t, "&quot;", 1);
      assert StartsWith(t, "&#x27;");
    }
  }

  /** Differing at position `k` rules out a prefix. */
  lemma NotStartsWith(t: string, p: string, k: nat)
    requires k < |p| && k < |t| && t[k] != p[k]
    ensures !StartsWith(t, p)
  {
    if |p| <= |t| {
      assert t[..|p|][k] == t[k];
    }
  }

  /** Escaping loses nothing: decoding restores the input exactly. */
  lemma {:induction false} UnescapeEscapes(s: string)
    ensures Unescape(EscapeHtml(Some(s))) == s
  {
    if s != [] {
      UnescapeEscapes(s[1..]);
      UnescapeOne(s[0], EscapeChars(s[1..]));
      assert s == [s[0]] + s[1..];
    }
  }

  /** Distinct texts stay distinct once escaped. */
  lemma EscapeInjective(a: string, b: string)
    requires EscapeHtml(Some(a)) == EscapeHtml(Some(b))
    ensures a == b
  {
    UnescapeEscapes(a);
    UnescapeEscapes(b);
  }

  /** Text without markup characters is left as it is. */
  lemma PlainTextUnchanged(s: string)
    requires forall i :: 0 <= i < |s| ==> !IsMarkupChar(s[i])
    ensures EscapeHtml(Some(s)) == s
  {
    PlainCharsUnchanged(s);
  }

  lemma {:induction false} PlainCharsUnchanged(s: string)
    requires forall i :: 0 <= i < |s| ==> !IsMarkupChar(s[i])
    ensures EscapeChars(s) == s
  {
    if s != [] {
      PlainCharsUnchanged(s[1..]);
      assert s == [s[0]] + s[1..];
    }
  }

  // ---------------------------------------------------------------------------
  // The overall-summary guard
  // ---------------------------------------------------------------------------

  /** The guard as written: any of `&lt;`, `&gt;`, `&amp;` counts as already escaped. */
  predicate LooksEscapedAsWritten(s: string) {
    Contains(s, "&lt;") || Contains(s, "&gt;") || Contains(s, "&amp;")
  }

  /** The summary put in the report, as written: escaped unless it looks escaped; null stays null. */
  function SummaryContentAsWritten(summary: Option<string>): (r: Option<string>)
    ensures summary.None? <==> r.None?
    ensures summary.Some? && LooksEscapedAsWritten(summary.value) ==> r == summary
    ensures summary.Some? && !LooksEscapedAsWritten(summary.value) ==> Unescape(r.value) == summary.value
  {
    if summary.Some? && !LooksEscapedAsWritten(summary.value) then
      UnescapeEscapes(summary.value);
      Some(EscapeHtml(summary))
    else summary
  }

  /** `escapeHtml` turns a lone `"` into `&quot;`. */
  lemma QuoteEscapes()
    ensures EscapeHtml(Some("\"")) == "&quot;"
  {
    assert EscapeChars("\""[1..]) == [];
  }

  /** An entity the guard as written misses is escaped again: its `&` becomes `&amp;`. */
  lemma MissedEntityEscapedAgain(t: string)
    requires t != [] && t[0] == '&' && forall i :: 1 <= i < |t| ==> !IsMarkupChar(t[i])
    requires !LooksEscapedAsWritten(t)
    ensures SummaryContentAsWritten(Some(t)) == Some("&amp;" + t[1..])
  {
    PlainCharsUnchanged(t[1..]);
    assert EscapeChars(t) == "&amp;" + EscapeChars(t[1..]);
  }

  /** `&quot;` passes the guard as written and is escaped again. */
  lemma QuotEscapedAgain(t: string)
    requires t == "&quot;"
    ensures SummaryContentAsWritten(Some(t)) == Some("&amp;quot;")
  {
    MissingCharNotContained(t, "&lt;", 'l');
    MissingCharNotContained(t, "&gt;", 'g');
    MissingCharNotContained(t, "&amp;", 'a');
    MissedEntityEscapedAgain(t);
    assert t[1..] == "quot;";
    AmpThenQuot();
  }

  /** `&amp;` followed by the rest of `&quot;`. */
  lemma AmpThenQuot()
    ensures "&amp;" + "quot;" == "&amp;quot;"
  {
  }

  /** The guard misses `&quot;`: an escaped `"` is escaped a second time. */
  lemma QuoteIsEscapedTwice()
    ensures EscapeHtml(Some("\"")) == "&quot;"
    ensures SummaryContentAsWritten(Some(EscapeHtml(Some("\"")))) == Some("&amp;quot;")
  {
    QuoteEscapes();
    QuotEscapedAgain(EscapeHtml(Some("\"")));
  }

  /** The guard with all five entities, as the comment beside it intends. */
  predicate LooksEscaped(s: string) {
    Contains(s, "&lt;") || Contains(s, "&gt;") || Contains(s, "&amp;") || Contains(s, "&quot;") || Contains(s, "&#x27;")
  }

  /** The summary put in the report: escaped unless it already holds an entity; null stays null. */
  function SummaryContent(summary: Option<string>): (r: Option<string>)
    ensures summary.None? <==> r.None?
    ensures summary.Some? && LooksEscaped(summary.value) ==> r == summary
    ensures summary.Some? && !LooksEscaped(summary.value) ==> Unescape(r.value) == summary.value
  {
    if summary.Some? && !LooksEscaped(summary.value) then
      UnescapeEscapes(summary.value);
      Some(EscapeHtml(summary))
    else summary
  }

  /** An escaped summary is never escaped again. */
  lemma EscapedSummaryIsKept(s: string)
    ensures SummaryContent(Some(EscapeHtml(Some(s)))) == Some(EscapeHtml(Some(s)))
  {
    var t := EscapeHtml(Some(s));
    if !LooksEscaped(t) {
      assert forall i :: 0 <= i < |s| ==> !IsMarkupChar(s[i]) by {
        forall i | 0 <= i < |s| ensures !IsMarkupChar(s[i]) {
          if IsMarkupChar(s[i]) {
            EntityInEscaped(s, i);
          }
        }
      }
      PlainCharsUnchanged(s);
      PlainCharsUnchanged(t);
    }
  }

  /** A markup character of `s` leaves its entity in the escaped text. */
  lemma {:induction false} EntityInEscaped(s: string, i: nat)
    requires i < |s| && IsMarkupChar(s[i])
    ensures LooksEscaped(EscapeChars(s))
  {
    var t := EscapeChars(s);
    var e := EscapeChar(s[0]);
    assert t == e + EscapeChars(s[1..]);
    if i == 0 {
      assert StartsWith(t, e);
    } else {
      EntityInEscaped(s[1..], i - 1);
      var rest := EscapeChars(s[1..]);
      if Contains(rest, "&lt;") { ContainsAppend(e, rest, "&lt;"); }
      if Contains(rest, "&gt;") { ContainsAppend(e, rest, "&gt;"); }
      if Contains(rest, "&amp;") { ContainsAppend(e, rest, "&amp;"); }
      if Contains(rest, "&quot;") { ContainsAppend(e, rest, "&quot;"); }
      if Contains(rest, "&#x27;") { ContainsAppend(e, rest, "&#x27;"); }
    }
  }

  lemma ContainsAppend(a: string, b: string, sub: string)
    requires Contains(b, sub)
    ensures Contains(a + b, sub)
  {
    ContainsIff(b, sub);
    var j :| OccursAt(b, sub, j);
    OccursAtShift(a, b, sub, j);
    ContainsAt(a + b, sub, |a| + j);
  }

  // ---------------------------------------------------------------------------
  // truncate
  // ---------------------------------------------------------------------------

  /** `truncate(text, n)` of the report: null is `""`; longer text keeps `n` chars and gains `...`. */
  function Truncate(text: Option<string>, maxLength: nat): (r: string)
    ensures text.None? ==> r == ""
    ensures text.Some? && |text.value| <= maxLength ==> r == text.value
    ensures text.Some? && |text.value| > maxLength ==>
      |r| == maxLength + 3 && StartsWith(text.value, r[..maxLength]) && EndsWith(r, "...")
  {
    if text.None? then ""
    else if |text.value| > maxLength then text.value[..maxLength] + "..."
    else text.value
  }

  // ---------------------------------------------------------------------------
  // The report's bot rule and filterBotActivity
  // ---------------------------------------------------------------------------

  /** The report's rule on a lowercased login: the first four clauses of `BotFilter`'s. */
  predicate IsReportBotLowercase(lower: string) {
    || EndsWith(lower, "bot")
    || Contains(lower, "perfbot")
    || lower == "testbot"
    || (Contains(lower, "gluten") && Contains(lower, "bot"))
  }

  /** The report's `isBotCommit` / `isBotPR`: a null login is never flagged. */
  predicate IsReportBotLogin(login: Option<string>) {
    login.Some? && IsReportBotLowercase(ToLower(login.value))
  }

  predicate IsReportBotCommit(c: Commit) {
    IsReportBotLogin(c.authorLogin)
  }

  predicate IsReportBotPR(pr: PullRequest) {
    IsReportBotLogin(pr.authorLogin)
  }

  /** Whatever the report flags, `BotFilter` flags too. */
  lemma ReportRuleIsWeaker(login: Option<string>)
    ensures IsReportBotLogin(login) ==> IsBotLogin(login)
  {
  }

  /** A lowercase login without a `b` is never flagged by the report's rule. */
  lemma NoBNotReportBot(lower: string)
    requires 'b' !in lower
    ensures !IsReportBotLowercase(lower)
  {
    MissingCharNotContained(lower, "bot", 'b');
    MissingCharNotContained(lower, "perfbot", 'b');
    assert !EndsWith(lower, "bot") by {
      if |lower| >= 3 {
        assert lower[|lower| - 3..][0] == lower[|lower| - 3] != 'b';
      }
    }
    assert "testbot"[4] == 'b';
  }

  /** The rule is strictly weaker: `renovate` passes the report's rule but not `BotFilter`'s. */
  lemma RenovatePassesReportRule()
    ensures !IsReportBotLogin(Some("renovate")) && IsBotLogin(Some("renovate"))
  {
    var l := "renovate";
    assert ToLower(l) == l;
    NoBNotReportBot(l);
    assert StartsWith(l, "renovate");
  }

  /** Anything the report flags mentions `bot`, so it is also removed by `removeBotActivity`. */
  lemma ReportRuleMentionsBot(login: Option<string>)
    ensures IsReportBotLogin(login) ==> MentionsBot(login)
  {
    if IsReportBotLogin(login) {
      var lower := ToLower(login.value);
      if EndsWith(lower, "bot") {
        assert OccursAt(lower, "bot", |lower| - 3);
        ContainsAt(lower, "bot", |lower| - 3);
      } else if Contains(lower, "perfbot") {
        ContainsIff(lower, "perfbot");
        var i :| OccursAt(lower, "perfbot", i);
        assert lower[i + 4..i + 7] == "perfbot"[4..];
        ContainsAt(lower, "bot", i + 4);
      }
    }
  }

  /**
   * The two rules differ only in `BotFilter`'s extra clauses: a login with none
   * of the markers `dependabot`, `renovate`, `github-actions` and neither of the
   * names `codecov-io`, `coveralls` is flagged by the report exactly when
   * `BotFilter` flags it.
   */
  lemma ReportRuleAgreesOffExtraMarkers(lower: string)
    requires !Contains(lower, "dependabot") && !Contains(lower, "renovate") && !Contains(lower, "github-actions")
    requires lower != "codecov-io" && lower != "coveralls"
    ensures IsReportBotLowercase(lower) <==> IsBotLowercase(lower)
  {
  }

  /** The report drops the `GlutenPerfBot` and `testbot` logins, as its tests expect. */
  lemma ReportFlagsTestBots()
    ensures IsReportBotLogin(Some("GlutenPerfBot")) && IsReportBotLogin(Some("testbot"))
    ensures !IsReportBotLogin(Some("humanuser"))
  {
    var g := ToLower("GlutenPerfBot");
    assert g == "glutenperfbot";
    assert g[|g| - 3..] == "bot";
    assert ToLower("testbot") == "testbot";
    assert ToLower("humanuser") == "humanuser";
    NoBNotReportBot("humanuser");
  }

  /**
   * `filterBotActivity`: a fresh copy with flagged commits and pull requests
   * (all and team lists) removed; issues and team issues are handed over as they
   * are; a null list stays null.
   */
  function FilterBotActivity(d: RepositoryData): (r: RepositoryData)
    ensures r.repoName == d.repoName && r.issues == d.issues && r.teamIssues == d.teamIssues
    ensures IsCleanedOf(d.commits, r.commits, IsReportBotCommit)
    ensures IsCleanedOf(d.teamCommits, r.teamCommits, IsReportBotCommit)
    ensures IsCleanedOf(d.pullRequests, r.pullRequests, IsReportBotPR)
    ensures IsCleanedOf(d.teamPRs, r.teamPRs, IsReportBotPR)
  {
    RemoveIfCleans(d.commits, IsReportBotCommit);
    RemoveIfCleans(d.teamCommits, IsReportBotCommit);
    RemoveIfCleans(d.pullRequests, IsReportBotPR);
    RemoveIfCleans(d.teamPRs, IsReportBotPR);
    RepositoryData(d.repoName, d.issues,
      RemoveIf(d.commits, IsReportBotCommit), RemoveIf(d.pullRequests, IsReportBotPR),
      d.teamIssues, RemoveIf(d.teamCommits, IsReportBotCommit), RemoveIf(d.teamPRs, IsReportBotPR))
  }

  /** A list none of whose entries the report flags goes through unchanged. */
  lemma RemoveIfNothingFlagged<T>(list: Option<seq<T>>, flagged: T -> bool)
    requires list.Some? ==> forall i :: 0 <= i < |list.value| ==> !flagged(list.value[i])
    ensures RemoveIf(list, flagged) == list
  {
    if list.Some? {
      FilterKeepsAll(list.value, x => !flagged(x));
    }
  }

  /** Data already cleaned by `removeBotActivity` has nothing left for the report to drop. */
  lemma ReportFilterAfterRemoveBotActivity(d: RepositoryData)
    ensures FilterBotActivity(RemoveBotActivity(d)) == RemoveBotActivity(d)
  {
    var c := RemoveBotActivity(d);
    forall x: Commit ensures IsReportBotCommit(x) ==> CommitMentionsBot(x) {
      ReportRuleMentionsBot(x.authorLogin);
    }
    forall x: PullRequest ensures IsReportBotPR(x) ==> PRMentionsBot(x) {
      ReportRuleMentionsBot(x.authorLogin);
    }
    RemoveIfNothingFlagged(c.commits, IsReportBotCommit);
    RemoveIfNothingFlagged(c.teamCommits, IsReportBotCommit);
    RemoveIfNothingFlagged(c.pullRequests, IsReportBotPR);
    RemoveIfNothingFlagged(c.teamPRs, IsReportBotPR);
  }

  // ---------------------------------------------------------------------------
  // filterCategorization / filterCommitsBySha
  // ---------------------------------------------------------------------------

  /** The SHAs of a commit list, in order. */
  function Shas(commits: seq<Commit>): (r: seq<string>)
    ensures |r| == |commits| && forall i :: 0 <= i < |r| ==> r[i] == commits[i].sha
  {
    if commits == [] then [] else [commits[0].sha] + Shas(commits[1..])
  }

  /** The SHA of `c` is among those of `all`. */
  predicate ShaAmong(c: Commit, all: seq<Commit>) {
    c.sha in Shas(all)
  }

  /**
   * `r` is `bucket` with the commits whose SHA is not among `all` removed: the
   * others keep their order and every occurrence.
   */
  ghost predicate IsShaFiltered(r: seq<Commit>, bucket: seq<Commit>, all: seq<Commit>) {
    && IsSubsequence(r, bucket)
    && forall x :: multiset(r)[x] == if ShaAmong(x, all) then multiset(bucket)[x] else 0
  }

  /**
   * `filterCommitsBySha`: the commits whose SHA occurs in `all`, in their
   * original order and as often as they occur; a null `all` leaves the bucket
   * as it is.
   */
  function FilterCommitsBySha(commits: seq<Commit>, all: Option<seq<Commit>>): (r: seq<Commit>)
    ensures all.None? ==> r == commits
    ensures |r| <= |commits|
    ensures all.Some? ==> IsShaFiltered(r, commits, all.value)
    ensures all.Some? ==> forall c :: c in r <==> c in commits && exists d :: d in all.value && d.sha == c.sha
  {
    if all.None? then commits
    else
      var keep := (c: Commit) => ShaAmong(c, all.value);
      FilterIsSubsequence(commits, keep);
      forall c
        ensures c in Filter(commits, keep) <==> c in commits && exists d :: d in all.value && d.sha == c.sha
        ensures multiset(Filter(commits, keep))[c] == if keep(c) then multiset(commits)[c] else 0
      {
        FilterMembers(commits, keep, c);
        FilterCount(commits, keep, c);
        if c.sha in Shas(all.value) {
          var i :| 0 <= i < |all.value| && Shas(all.value)[i] == c.sha;
          assert all.value[i] in all.value;
        }
      }
      Filter(commits, keep)
  }

  /**
   * `filterCategorization`: each bucket loses the commits whose SHA is not
   * among the report's filtered commits, and keeps the rest in order.
   */
  function FilterCategorization(c: CommitCategorization, filtered: RepositoryData): (r: CommitCategorization)
    ensures filtered.commits.None? ==> r == c
    ensures filtered.commits.Some? ==>
      && IsShaFiltered(r.bugFixes, c.bugFixes, filtered.commits.value)
      && IsShaFiltered(r.features, c.features, filtered.commits.value)
      && IsShaFiltered(r.improvements, c.improvements, filtered.commits.value)
      && IsShaFiltered(r.others, c.others, filtered.commits.value)
    ensures r.TotalCount() <= c.TotalCount()
  {
    CommitCategorization(
      FilterCommitsBySha(c.bugFixes, filtered.commits), FilterCommitsBySha(c.features, filtered.commits),
      FilterCommitsBySha(c.improvements, filtered.commits), FilterCommitsBySha(c.others, filtered.commits))
  }

  /** A bucket whose SHAs all survive is kept whole. */
  lemma FilterBySharedShasKeepsAll(commits: seq<Commit>, all: seq<Commit>)
    requires forall i :: 0 <= i < |commits| ==> exists d :: d in all && d.sha == commits[i].sha
    ensures FilterCommitsBySha(commits, Some(all)) == commits
  {
    var keep := (c: Commit) => ShaAmong(c, all);
    forall i | 0 <= i < |commits| ensures keep(commits[i]) {
      var d :| d in all && d.sha == commits[i].sha;
      var j :| 0 <= j < |all| && all[j] == d;
      assert Shas(all)[j] == commits[i].sha;
    }
    FilterKeepsAll(commits, keep);
  }

  // ---------------------------------------------------------------------------
  // Open issues and open pull requests
  // ---------------------------------------------------------------------------

  /** `"open".equalsIgnoreCase(state)`. */
  predicate IsOpenState(state: Option<string>) {
    EqualsIgnoreCase("open", state)
  }

  /** Consecutive entries are newest first: `key` never increases. */
  predicate SortedDescending<T>(s: seq<T>, key: T -> string) {
    forall i :: 0 < i < |s| ==> LexLeq(key(s[i]), key(s[i - 1]))
  }

  /** The entries with key `k`, in order: a stable sort keeps this sequence. */
  function WithKey<T>(s: seq<T>, key: T -> string, k: string): seq<T> {
    if s == [] then [] else (if key(s[0]) == k then [s[0]] else []) + WithKey(s[1..], key, k)
  }

  lemma WithKeyCons<T>(x: T, s: seq<T>, key: T -> string, k: string)
    ensures WithKey([x] + s, key, k) == (if key(x) == k then [x] else []) + WithKey(s, key, k)
  {
    assert ([x] + s)[1..] == s;
  }

  /** Inserts `x` before the first entry whose key is not greater than `x`'s. */
  function InsertDescending<T>(x: T, s: seq<T>, key: T -> string): (r: seq<T>)
    ensures |r| == |s| + 1 && multiset(r) == multiset(s) + multiset{x}
  {
    if s == [] then [x]
    else if LexLeq(key(s[0]), key(x)) then [x] + s
    else
      assert s == [s[0]] + s[1..];
      [s[0]] + InsertDescending(x, s[1..], key)
  }

  /** `sorted((a, b) -> b.key.compareTo(a.key))`: a stable sort, newest first. */
  function SortDescending<T>(s: seq<T>, key: T -> string): (r: seq<T>)
    ensures |r| == |s| && multiset(r) == multiset(s)
  {
    if s == [] then []
    else
      assert s == [s[0]] + s[1..];
      InsertDescending(s[0], SortDescending(s[1..], key), key)
  }

  lemma {:induction false} InsertKeepsOrder<T>(x: T, s: seq<T>, key: T -> string)
    requires SortedDescending(s, key)
    ensures SortedDescending(InsertDescending(x, s, key), key)
  {
    if s != [] && !LexLeq(key(s[0]), key(x)) {
      InsertKeepsOrder(x, s[1..], key);
      var r := InsertDescending(x, s[1..], key);
      LexLeqTotal(key(s[0]), key(x));
      if |s| > 1 {
        assert r[0] == x || r[0] == s[1];
      }
    }
  }

  lemma {:induction false} InsertIsStable<T>(x: T, s: seq<T>, key: T -> string, k: string)
    ensures WithKey(InsertDescending(x, s, key), key, k) == (if key(x) == k then [x] else []) + WithKey(s, key, k)
  {
    if s == [] {
      WithKeyCons(x, s, key, k);
    } else if LexLeq(key(s[0]), key(x)) {
      WithKeyCons(x, s, key, k);
    } else {
      var t := s[1..];
      var ins := InsertDescending(x, t, key);
      var xs := if key(x) == k then [x] else [];
      var hs := if key(s[0]) == k then [s[0]] else [];
      if key(s[0]) == key(x) {
        LexLeqReflexive(key(x));
      }
      assert xs == [] || hs == [];
      InsertIsStable(x, t, key, k);
      WithKeyCons(s[0], ins, key, k);
      WithKeyCons(s[0], t, key, k);
      assert [s[0]] + t == s;
      calc {
        WithKey(InsertDescending(x, s, key), key, k);
        WithKey([s[0]] + ins, key, k);
        hs + WithKey(ins, key, k);
        hs + (xs + WithKey(t, key, k));
        { SwapEmpty(hs, xs, WithKey(t, key, k)); }
        xs + (hs + WithKey(t, key, k));
        xs + WithKey(s, key, k);
      }
    }
  }

  /** Two parts of which one is empty can be put in either order. */
  lemma SwapEmpty<T>(a: seq<T>, b: seq<T>, c: seq<T>)
    requires a == [] || b == []
    ensures a + (b + c) == b + (a + c)
  {
    if a == [] {
      assert a + (b + c) == b + c == b + (a + c);
    } else {
      assert a + (b + c) == a + c == b + (a + c);
    }
  }

  /** The sort orders the entries newest first. */
  lemma {:induction false} SortIsOrdered<T>(s: seq<T>, key: T -> string)
    ensures SortedDescending(SortDescending(s, key), key)
  {
    if s != [] {
      SortIsOrdered(s[1..], key);
      InsertKeepsOrder(s[0], SortDescending(s[1..], key), key);
    }
  }

  /** The sort is stable: entries with equal keys keep their input order. */
  lemma {:induction false} SortIsStable<T>(s: seq<T>, key: T -> string, k: string)
    ensures WithKey(SortDescending(s, key), key, k) == WithKey(s, key, k)
  {
    if s != [] {
      SortIsStable(s[1..], key, k);
      InsertIsStable(s[0], SortDescending(s[1..], key), key, k);
      assert s == [s[0]] + s[1..];
    }
  }

  function IssueCreatedAt(i: Issue): string {
    i.createdAt
  }

  predicate IsOpenIssue(i: Issue) {
    IsOpenState(i.state)
  }

  predicate IsOpenPR(pr: PullRequest) {
    IsOpenState(pr.state)
  }

  /** The issues `appendIssues` lists: the open ones, newest first; none for a null list. */
  function OpenIssues(issues: Option<seq<Issue>>): (r: seq<Issue>)
    ensures issues.None? ==> r == []
    ensures issues.Some? ==> multiset(r) == multiset(Filter(issues.value, IsOpenIssue))
    ensures forall i :: 0 <= i < |r| ==> IsOpenIssue(r[i])
  {
    if issues.None? then []
    else
      var open := Filter(issues.value, IsOpenIssue);
      var r := SortDescending(open, IssueCreatedAt);
      assert forall i :: 0 <= i < |r| ==> r[i] in multiset(open);
      r
  }

  /**
   * The listed issues are exactly the open ones, newest first, and open issues
   * created at the same instant appear in their input order.
   */
  lemma OpenIssuesSelection(issues: seq<Issue>, x: Issue, k: string)
    ensures x in OpenIssues(Some(issues)) <==> x in issues && IsOpenIssue(x)
    ensures SortedDescending(OpenIssues(Some(issues)), IssueCreatedAt)
    ensures WithKey(OpenIssues(Some(issues)), IssueCreatedAt, k) == WithKey(Filter(issues, IsOpenIssue), IssueCreatedAt, k)
  {
    var open := Filter(issues, IsOpenIssue);
    FilterMembers(issues, IsOpenIssue, x);
    assert x in OpenIssues(Some(issues)) <==> x in multiset(open);
    SortIsOrdered(open, IssueCreatedAt);
    SortIsStable(open, IssueCreatedAt, k);
  }

  /** The pull requests `appendOpenPRs` lists: the open ones, in input order; none for a null list. */
  function OpenPRs(prs: Option<seq<PullRequest>>): (r: seq<PullRequest>)
    ensures prs.None? ==> r == []
    ensures prs.Some? ==> IsSubsequence(r, prs.value)
    ensures prs.Some? ==> forall pr :: pr in r <==> pr in prs.value && IsOpenPR(pr)
    ensures prs.Some? ==> forall pr :: multiset(r)[pr] == if IsOpenPR(pr) then multiset(prs.value)[pr] else 0
  {
    if prs.None? then []
    else
      FilterIsSubsequence(prs.value, IsOpenPR);
      forall pr
        ensures pr in Filter(prs.value, IsOpenPR) <==> pr in prs.value && IsOpenPR(pr)
        ensures multiset(Filter(prs.value, IsOpenPR))[pr] == if IsOpenPR(pr) then multiset(prs.value)[pr] else 0
      {
        FilterMembers(prs.value, IsOpenPR, pr);
        FilterCount(prs.value, IsOpenPR, pr);
      }
      Filter(prs.value, IsOpenPR)
  }

  // ---------------------------------------------------------------------------
  // getCommitDescription
  // ---------------------------------------------------------------------------

  /** `getCommitDescription`: the trimmed text after the first newline; `""` without one. */
  function CommitDescription(c: Commit): (r: string)
    ensures c.message.None? || '\n' !in c.message.value ==> r == ""
    ensures r != [] ==> Trim(r) == r
  {
    if c.message.None? then ""
    else
      var m := c.message.value;
      var k := IndexOfChar(m, '\n');
      if k < 0 then ""
      else
        TrimIdempotent(m[k + 1..]);
        Trim(m[k + 1..])
  }

  /** A subject line, a newline, then a body: the description is the trimmed body, newlines included. */
  lemma DescriptionIsTrimmedBody(c: Commit, subject: string, body: string)
    requires '\n' !in subject && c.message == Some(subject + "\n" + body)
    ensures CommitDescription(c) == Trim(body)
  {
    var m := subject + "\n" + body;
    assert m[|subject|] == '\n';
    assert m[..|subject|] == subject;
    assert m[|subject| + 1..] == body;
  }
}

=== FILE: java_text.dfy ===
/**
 * The `java.lang.String` / `Integer` behaviour the pipeline relies on, written out
 * explicitly so that every other module can be read against the Java source.
 *
 * Strings are sequences of Dafny `char`s (Unicode scalar values). Lowercasing is
 * ASCII-only, and parsing accepts ASCII digits only.
 */
module JavaText {
  import opened Wrappers

  /** The exceptions the modelled Java code can throw. */
  datatype Exception =
    | NumberFormatException
    | NullPointerException
    | IndexOutOfBoundsException
    | DateTimeParseException
    | DateTimeException
    | IOException

  // ---------------------------------------------------------------------------
  // Character classes
  // ---------------------------------------------------------------------------

  /** `String.trim` strips every char whose code is at most U+0020. */
  predicate IsTrimmable(c: char) {
    c <= ' '
  }

  /** The regex class `\s` (without UNICODE_CHARACTER_CLASS): `[ \t\n\x0B\f\r]`. */
  predicate IsRegexSpace(c: char) {
    c == ' ' || c == '\t' || c == '\n' || c == '\U{0B}' || c == '\U{0C}' || c == '\r'
  }

  /** `Character.isWhitespace`, which is what `String.isBlank` uses. */
  predicate IsJavaWhitespace(c: char) {
    || ('\t' <= c <= '\r')
    || ('\U{1C}' <= c <= ' ')
    || c == '\U{1680}'
    || ('\U{2000}' <= c <= '\U{2006}')
    || ('\U{2008}' <= c <= '\U{200A}')
    || c == '\U{2028}' || c == '\U{2029}' || c == '\U{205F}' || c == '\U{3000}'
  }

  /** The regex class `\d`: ASCII digits. */
  predicate IsDigit(c: char) {
    '0' <= c <= '9'
  }

  /** The regex class `\w`: `[a-zA-Z_0-9]`. */
  predicate IsWordChar(c: char) {
    ('a' <= c <= 'z') || ('A' <= c <= 'Z') || c == '_' || IsDigit(c)
  }

  predicate AllDigits(s: string) {
    forall i :: 0 <= i < |s| ==> IsDigit(s[i])
  }

  lemma RegexSpaceIsTrimmable(c: char)
    ensures IsRegexSpace(c) ==> IsTrimmable(c)
  {
  }

  // ---------------------------------------------------------------------------
  // greedy runs used by the hand-written regex matchers
  // ---------------------------------------------------------------------------

  /** The first index at or after `i` that is not in `\s`, or `|s|`. */
  function SkipRegexSpaces(s: string, i: nat): (j: nat)
    requires i <= |s|
    ensures i <= j <= |s|
    ensures forall k :: i <= k < j ==> IsRegexSpace(s[k])
    ensures j < |s| ==> !IsRegexSpace(s[j])
    decreases |s| - i
  {
    if i < |s| && IsRegexSpace(s[i]) then SkipRegexSpaces(s, i + 1) else i
  }

  /** The length of the run of digits starting at `i` (a greedy `\d+` or `\d*`). */
  function DigitRun(s: string, i: nat): (n: nat)
    requires i <= |s|
    ensures i + n <= |s|
    ensures forall k :: i <= k < i + n ==> IsDigit(s[k])
    ensures i + n < |s| ==> !IsDigit(s[i + n])
    decreases |s| - i
  {
    if i < |s| && IsDigit(s[i]) then 1 + DigitRun(s, i + 1) else 0
  }
  /** The chars a digit run covers are digits. */
  lemma DigitRunDigits(s: string, i: nat)
    requires i <= |s|
    ensures AllDigits(s[i..i + DigitRun(s, i)])
  {
    var r := s[i..i + DigitRun(s, i)];
    forall k | 0 <= k < |r|
      ensures IsDigit(r[k])
    {
      assert r[k] == s[i + k];
    }
  }

  /** A digit run is as long as the digits that are there: it stops at the first non-digit. */
  lemma {:induction false} DigitRunIs(s: string, i: nat, k: nat)
    requires i + k <= |s| && (forall j :: i <= j < i + k ==> IsDigit(s[j]))
    requires i + k == |s| || !IsDigit(s[i + k])
    ensures DigitRun(s, i) == k
    decreases k
  {
    if k > 0 {
      DigitRunIs(s, i + 1, k - 1);
    }
  }


  // ---------------------------------------------------------------------------
  // trim, isBlank, replaceAll("\\s+", " ")
  // ---------------------------------------------------------------------------

  /** The index of the first char at or after `i` that `trim` keeps, or `|s|`. */
  function TrimFrom(s: string, i: nat): (k: nat)
    requires i <= |s|
    ensures i <= k <= |s|
    ensures k < |s| ==> !IsTrimmable(s[k])
    ensures forall j :: i <= j < k ==> IsTrimmable(s[j])
    decreases |s| - i
  {
    if i == |s| || !IsTrimmable(s[i]) then i else TrimFrom(s, i + 1)
  }

  /** One past the last char below `j`, and not below `lo`, that `trim` keeps; `lo` if there is none. */
  function TrimTo(s: string, lo: nat, j: nat): (k: nat)
    requires lo <= j <= |s|
    ensures lo <= k <= j
    ensures lo < k ==> !IsTrimmable(s[k - 1])
    ensures forall m :: k <= m < j ==> IsTrimmable(s[m])
    decreases j
  {
    if j == lo || !IsTrimmable(s[j - 1]) then j else TrimTo(s, lo, j - 1)
  }

  /** The number of leading chars `Trim` drops. */
  function TrimOffset(s: string): nat {
    TrimFrom(s, 0)
  }

  /** `String.trim`: the slice between the first and last non-trimmable chars. */
  function Trim(s: string): (r: string)
    ensures r == [] <==> forall i :: 0 <= i < |s| ==> IsTrimmable(s[i])
    ensures r != [] ==> !IsTrimmable(r[0]) && !IsTrimmable(r[|r| - 1])
    ensures |r| <= |s|
  {
    var a := TrimFrom(s, 0);
    var b := TrimTo(s, a, |s|);
    assert a < |s| ==> a < b;
    s[a..b]
  }

  /** The trimmed string is the slice of the original that starts after the dropped chars. */
  lemma TrimIsSlice(s: string)
    ensures TrimOffset(s) + |Trim(s)| <= |s| && Trim(s) == s[TrimOffset(s)..TrimOffset(s) + |Trim(s)|]
  {
  }

  /** Every char of the trimmed string is a char of the original. */
  lemma TrimChars(s: string)
    ensures forall i :: 0 <= i < |Trim(s)| ==> Trim(s)[i] in s
  {
    var r := Trim(s);
    var k := TrimOffset(s);
    forall i | 0 <= i < |r|
      ensures r[i] in s
    {
      assert r[i] == s[k + i];
    }
  }

  /** `s.trim().isEmpty()`: the test the Java code uses for "blank". */
  predicate IsTrimBlank(s: string) {
    Trim(s) == []
  }

  /** `String.isBlank`: every char is `Character.isWhitespace`. */
  predicate IsBlank(s: string) {
    forall i :: 0 <= i < |s| ==> IsJavaWhitespace(s[i])
  }

  lemma TrimIdempotent(s: string)
    ensures Trim(Trim(s)) == Trim(s)
  {
    var r := Trim(s);
    if r != [] {
      TrimOfTrimmedEnds(r);
    }
  }

  /** A string that starts and ends with non-trimmable chars is its own trim. */
  lemma TrimOfTrimmedEnds(s: string)
    requires s != [] && !IsTrimmable(s[0]) && !IsTrimmable(s[|s| - 1])
    ensures Trim(s) == s
  {
    assert TrimFrom(s, 0) == 0;
    assert TrimTo(s, 0, |s|) == |s|;
  }

  /** A string with a leading space before visible ends trims to what follows the space. */
  lemma TrimLeadingSpace(s: string)
    requires s != [] && !IsTrimmable(s[0]) && !IsTrimmable(s[|s| - 1])
    ensures Trim(" " + s) == s
  {
    var t := " " + s;
    assert t[1] == s[0] && t[|t| - 1] == s[|s| - 1];
    assert TrimFrom(t, 1) == 1;
    assert TrimFrom(t, 0) == 1;
    assert TrimTo(t, 1, |t|) == |t|;
    assert t[1..|t|] == s;
  }

  /** `replaceAll("\\s+", " ")` applied to `s[i..]`. */
  function CollapseFrom(s: string, i: nat): (r: string)
    requires i <= |s|
    ensures r == [] <==> i == |s|
    ensures |r| <= |s| - i
    ensures forall k :: 0 <= k < |r| ==> !IsRegexSpace(r[k]) || r[k] == ' '
    ensures forall k :: 0 <= k < |r| ==> r[k] == ' ' || r[k] in s
    decreases |s| - i
  {
    if i == |s| then []
    else if IsRegexSpace(s[i]) then [' '] + CollapseFrom(s, SkipRegexSpaces(s, i + 1))
    else [s[i]] + CollapseFrom(s, i + 1)
  }

  /** `replaceAll("\\s+", " ")`: every maximal run of `\s` chars becomes one space. */
  function CollapseSpaces(s: string): (r: string)
    ensures r == [] <==> s == []
    ensures |r| <= |s|
    ensures forall i :: 0 <= i < |r| ==> !IsRegexSpace(r[i]) || r[i] == ' '
    ensures forall i :: 0 <= i < |r| ==> r[i] == ' ' || r[i] in s
  {
    CollapseFrom(s, 0)
  }

  /** The chars of `s` that are not regex spaces, in order. */
  function Visible(s: string): (r: string)
    ensures |r| <= |s|
    ensures forall k :: 0 <= k < |r| ==> !IsRegexSpace(r[k])
  {
    if s == [] then []
    else if IsRegexSpace(s[0]) then Visible(s[1..])
    else [s[0]] + Visible(s[1..])
  }

  /** No two neighbouring chars of `s` are both the plain space. */
  predicate NoDoubleSpace(s: string) {
    forall k :: 0 <= k < |s| - 1 ==> !(s[k] == ' ' && s[k + 1] == ' ')
  }

  /** Skipping a run of regex spaces drops nothing visible. */
  lemma {:induction false} VisibleSkipsSpaces(s: string, i: nat, j: nat)
    requires i <= j <= |s|
    requires forall k :: i <= k < j ==> IsRegexSpace(s[k])
    ensures Visible(s[i..]) == Visible(s[j..])
    decreases j - i
  {
    if i < j {
      assert s[i..][1..] == s[i + 1..];
      VisibleSkipsSpaces(s, i + 1, j);
    }
  }

  /** `CollapseFrom` keeps the visible chars of `s[i..]` in order and never emits two spaces in a row. */
  lemma {:induction false} CollapseFromContent(s: string, i: nat)
    requires i <= |s|
    ensures Visible(CollapseFrom(s, i)) == Visible(s[i..])
    ensures NoDoubleSpace(CollapseFrom(s, i))
    decreases |s| - i
  {
    if i < |s| {
      var r := CollapseFrom(s, i);
      assert s[i..][1..] == s[i + 1..];
      if IsRegexSpace(s[i]) {
        var j := SkipRegexSpaces(s, i + 1);
        var t := CollapseFrom(s, j);
        CollapseFromContent(s, j);
        VisibleSkipsSpaces(s, i + 1, j);
        assert r == [' '] + t && r[1..] == t;
        assert t != [] ==> t[0] != ' ';
        forall k | 0 <= k < |r| - 1
          ensures !(r[k] == ' ' && r[k + 1] == ' ')
        {
          if k > 0 {
            assert r[k] == t[k - 1] && r[k + 1] == t[k];
          }
        }
      } else {
        var t := CollapseFrom(s, i + 1);
        CollapseFromContent(s, i + 1);
        assert r == [s[i]] + t && r[1..] == t;
        forall k | 0 <= k < |r| - 1
          ensures !(r[k] == ' ' && r[k + 1] == ' ')
        {
          if k > 0 {
            assert r[k] == t[k - 1] && r[k + 1] == t[k];
          }
        }
      }
    }
  }

  /**
   * `replaceAll("\\s+", " ")` keeps every char that is not a regex space, in
   * order, and leaves no two spaces side by side.
   */
  lemma CollapseSpacesContent(s: string)
    ensures Visible(CollapseSpaces(s)) == Visible(s)
    ensures NoDoubleSpace(CollapseSpaces(s))
  {
    CollapseFromContent(s, 0);
    assert s[0..] == s;
  }

  /** Collapsing from a non-space keeps that char first, and keeps a non-space last char last. */
  lemma {:induction false} CollapseFromEnds(s: string, i: nat)
    requires i < |s| && !IsRegexSpace(s[|s| - 1])
    ensures var r := CollapseFrom(s, i);
      r != [] && r[|r| - 1] == s[|s| - 1] && (!IsRegexSpace(s[i]) ==> r[0] == s[i])
    decreases |s| - i
  {
    if IsRegexSpace(s[i]) {
      var j := SkipRegexSpaces(s, i + 1);
      assert j < |s|;
      CollapseFromEnds(s, j);
    } else if i + 1 < |s| {
      CollapseFromEnds(s, i + 1);
    }
  }

  /** Collapsing keeps the first and the last char when they are not spaces. */
  lemma CollapseKeepsEnds(s: string)
    requires s != [] && !IsRegexSpace(s[0]) && !IsRegexSpace(s[|s| - 1])
    ensures var r := CollapseSpaces(s); r != [] && r[0] == s[0] && r[|r| - 1] == s[|s| - 1]
  {
    CollapseFromEnds(s, 0);
  }

  /** After trimming, collapsing spaces keeps the string's first and last chars. */
  lemma CollapseOfTrimmed(s: string)
    requires Trim(s) != []
    ensures var r := CollapseSpaces(Trim(s));
      r != [] && !IsTrimmable(r[0]) && !IsTrimmable(r[|r| - 1])
  {
    var t := Trim(s);
    RegexSpaceIsTrimmable(t[0]);
    RegexSpaceIsTrimmable(t[|t| - 1]);
    CollapseKeepsEnds(t);
  }

  // ---------------------------------------------------------------------------
  // toLowerCase, startsWith, endsWith, contains, indexOf
  // ---------------------------------------------------------------------------

  /** `Character.toLowerCase`, restricted to ASCII letters. */
  function LowerChar(c: char): char {
    if 'A' <= c <= 'Z' then (c as int + 32) as char else c
  }

  /** `String.toLowerCase` (ASCII letters only). */
  function ToLower(s: string): (r: string)
    ensures |r| == |s|
    ensures forall i :: 0 <= i < |s| ==> r[i] == LowerChar(s[i])
  {
    seq(|s|, i requires 0 <= i < |s| => LowerChar(s[i]))
  }

  lemma ToLowerIdempotent(s: string)
    ensures ToLower(ToLower(s)) == ToLower(s)
  {
  }

  /** Two strings that differ only in ASCII letter case lowercase identically. */
  predicate SameIgnoringCase(a: string, b: string) {
    |a| == |b| && forall i :: 0 <= i < |a| ==> LowerChar(a[i]) == LowerChar(b[i])
  }

  lemma SameIgnoringCaseLower(a: string, b: string)
    requires SameIgnoringCase(a, b)
    ensures ToLower(a) == ToLower(b)
  {
  }

  /** `"open".equalsIgnoreCase(s)` and friends, for a literal ASCII `lit`. */
  predicate EqualsIgnoreCase(lit: string, s: Option<string>) {
    s.Some? && SameIgnoringCase(lit, s.value)
  }

  predicate StartsWith(s: string, p: string) {
    |p| <= |s| && s[..|p|] == p
  }

  predicate EndsWith(s: string, p: string) {
    |p| <= |s| && s[|s| - |p|..] == p
  }

  /** `sub` occurs in `s` at index `i`. */
  predicate OccursAt(s: string, sub: string, i: int) {
    0 <= i && i + |sub| <= |s| && s[i..i + |sub|] == sub
  }

  /** `String.contains`. */
  predicate Contains(s: string, sub: string)
    decreases |s|
  {
    StartsWith(s, sub) || (s != [] && Contains(s[1..], sub))
  }

  lemma {:induction false} ContainsIff(s: string, sub: string)
    ensures Contains(s, sub) <==> exists i :: OccursAt(s, sub, i)
    decreases |s|
  {
    if StartsWith(s, sub) {
      assert OccursAt(s, sub, 0);
    }
    if s != [] {
      ContainsIff(s[1..], sub);
      if Contains(s[1..], sub) {
        var i :| OccursAt(s[1..], sub, i);
        assert OccursAt(s, sub, i + 1);
      }
      if i :| OccursAt(s, sub, i) {
        if i > 0 {
          assert OccursAt(s[1..], sub, i - 1);
        }
      }
    } else {
      if i :| OccursAt(s, sub, i) {
        assert sub == [];
      }
    }
  }

  lemma ContainsAt(s: string, sub: string, i: int)
    requires OccursAt(s, sub, i)
    ensures Contains(s, sub)
  {
    ContainsIff(s, sub);
  }

  lemma EndsWithContains(s: string, p: string)
    requires EndsWith(s, p)
    ensures Contains(s, p)
  {
    ContainsAt(s, p, |s| - |p|);
  }

  /** A string that lacks one of `sub`'s chars cannot contain `sub`. */
  lemma {:induction false} MissingCharNotContained(s: string, sub: string, c: char)
    requires c in sub && c !in s
    ensures !Contains(s, sub)
  {
    var k :| 0 <= k < |sub| && sub[k] == c;
    if |sub| <= |s| {
      assert s[..|sub|][k] != sub[k];
    }
    if s != [] {
      MissingCharNotContained(s[1..], sub, c);
    }
  }

  /** Substring containment is transitive. */
  lemma ContainsTransitive(s: string, mid: string, sub: string)
    requires Contains(s, mid) && Contains(mid, sub)
    ensures Contains(s, sub)
  {
    ContainsIff(s, mid);
    ContainsIff(mid, sub);
    var i :| OccursAt(s, mid, i);
    var j :| OccursAt(mid, sub, j);
    forall k | 0 <= k < |sub|
      ensures s[i + j..i + j + |sub|][k] == sub[k]
    {
      assert sub[k] == mid[j + k] == s[i + (j + k)];
    }
    assert s[i + j..i + j + |sub|] == sub;
    ContainsAt(s, sub, i + j);
  }

  /** `s.indexOf(c)`: the first index holding `c`, or -1. */
  /** The first index at or after `i` holding `c`, or -1. */
  function IndexOfCharFrom(s: string, c: char, i: nat): (r: int)
    requires i <= |s|
    ensures r == -1 || i <= r < |s|
    ensures r >= 0 ==> s[r] == c
    ensures forall j :: i <= j < |s| && (r < 0 || j < r) ==> s[j] != c
    decreases |s| - i
  {
    if i == |s| then -1 else if s[i] == c then i else IndexOfCharFrom(s, c, i + 1)
  }

  /** `indexOf(c)`: the first index holding `c`, or -1. */
  function IndexOfChar(s: string, c: char): (r: int)
    ensures -1 <= r < |s|
    ensures r == -1 <==> c !in s
    ensures r >= 0 ==> s[r] == c && c !in s[..r]
  {
    var r := IndexOfCharFrom(s, c, 0);
    assert r >= 0 ==> forall j :: 0 <= j < r ==> s[..r][j] == s[j];
    r
  }

  /** `s.lastIndexOf(c, from)`: the last index `<= from` holding `c`, or -1. */
  function LastIndexOfChar(s: string, c: char, from: int): (r: int)
    ensures -1 <= r < |s| && (r == -1 || r <= from)
    ensures r >= 0 ==> s[r] == c
    ensures forall i :: r < i < |s| && i <= from ==> s[i] != c
  {
    if from < 0 then -1 else LastIndexBelow(s, c, if from < |s| then from + 1 else |s|)
  }

  /** The last index below `n` holding `c`, or -1. */
  function LastIndexBelow(s: string, c: char, n: int): (r: int)
    requires 0 <= n <= |s|
    ensures -1 <= r < n
    ensures r >= 0 ==> s[r] == c
    ensures forall i :: r < i < n ==> s[i] != c
    decreases n
  {
    if n <= 0 then -1
    else if s[n - 1] == c then n - 1
    else LastIndexBelow(s, c, n - 1)
  }

  // ---------------------------------------------------------------------------
  // replace, split
  // ---------------------------------------------------------------------------

  /** `s.replace(String.valueOf(c), r)`: every `c` becomes `r`. */
  function ReplaceChar(s: string, c: char, r: string): (t: string)
    ensures c !in r ==> c !in t
    ensures forall d :: d != c && d !in r ==> (d in t <==> d in s)
  {
    if s == [] then []
    else (if s[0] == c then r else [s[0]]) + ReplaceChar(s[1..], c, r)
  }

  /** Replacing a char that does not occur changes nothing. */
  lemma {:induction false} ReplaceCharAbsent(s: string, c: char, r: string)
    requires c !in s
    ensures ReplaceChar(s, c, r) == s
  {
    if s != [] {
      ReplaceCharAbsent(s[1..], c, r);
      assert s == [s[0]] + s[1..];
    }
  }

  /** Replacing a char by one char keeps the length and changes exactly the occurrences. */
  lemma {:induction false} ReplaceCharByChar(s: string, c: char, d: char)
    ensures |ReplaceChar(s, c, [d])| == |s|
    ensures forall i :: 0 <= i < |s| ==> ReplaceChar(s, c, [d])[i] == if s[i] == c then d else s[i]
  {
    if s != [] {
      ReplaceCharByChar(s[1..], c, d);
    }
  }

  /** `s.replace(t, r)` for a non-empty target: occurrences are replaced left to right. */
  function ReplaceString(s: string, t: string, r: string): string
    requires t != []
    decreases |s|
  {
    if |s| < |t| then s
    else if s[..|t|] == t then r + ReplaceString(s[|t|..], t, r)
    else [s[0]] + ReplaceString(s[1..], t, r)
  }

  lemma {:induction false} ReplaceStringAbsent(s: string, t: string, r: string)
    requires t != [] && !Contains(s, t)
    ensures ReplaceString(s, t, r) == s
    decreases |s|
  {
    if |s| >= |t| {
      assert s[..|t|] != t;
      ReplaceStringAbsent(s[1..], t, r);
    }
  }

  /** With a one-char target, `replace` on strings is the char-wise replacement. */
  lemma {:induction false} ReplaceStringOneChar(s: string, c: char, r: string)
    ensures ReplaceString(s, [c], r) == ReplaceChar(s, c, r)
    decreases |s|
  {
    if s != [] {
      ReplaceStringOneChar(s[1..], c, r);
      assert (s[..1] == [c]) == (s[0] == c);
    }
  }

  /** Char-wise replacement works piece by piece. */
  lemma {:induction false} ReplaceCharAppend(a: string, b: string, c: char, r: string)
    ensures ReplaceChar(a + b, c, r) == ReplaceChar(a, c, r) + ReplaceChar(b, c, r)
  {
    if a != [] {
      assert (a + b)[1..] == a[1..] + b;
      ReplaceCharAppend(a[1..], b, c, r);
    } else {
      assert a + b == b;
    }
  }

  /**
   * Splitting `s[i..]` at every `c` when the piece being read so far is
   * `cur`: a scan that closes the piece at each `c`.
   */
  function SplitLoop(s: string, c: char, i: nat, cur: string): (parts: seq<string>)
    requires i <= |s|
    ensures |parts| >= 1
    decreases |s| - i
  {
    if i == |s| then [cur]
    else if s[i] == c then [cur] + SplitLoop(s, c, i + 1, [])
    else SplitLoop(s, c, i + 1, cur + [s[i]])
  }

  /** No piece holds the separator. */
  lemma {:induction false} SplitLoopNoSep(s: string, c: char, i: nat, cur: string)
    requires i <= |s| && c !in cur
    ensures forall j :: 0 <= j < |SplitLoop(s, c, i, cur)| ==> c !in SplitLoop(s, c, i, cur)[j]
    decreases |s| - i
  {
    if i < |s| {
      if s[i] == c {
        SplitLoopNoSep(s, c, i + 1, []);
      } else {
        SplitLoopNoSep(s, c, i + 1, cur + [s[i]]);
      }
    }
  }

  /** Without a `c` from `i` on, the rest closes the current piece. */
  lemma {:induction false} SplitLoopNone(s: string, c: char, i: nat, cur: string)
    requires i <= |s|
    requires forall j :: i <= j < |s| ==> s[j] != c
    ensures SplitLoop(s, c, i, cur) == [cur + s[i..]]
    decreases |s| - i
  {
    if i < |s| {
      assert s[i] != c;
      SplitLoopNone(s, c, i + 1, cur + [s[i]]);
      assert cur + [s[i]] + s[i + 1..] == cur + s[i..];
    } else {
      assert cur + s[i..] == cur;
    }
  }

  /** A `c` at `k`, with none from `i` to it, closes the current piece there. */
  lemma {:induction false} SplitLoopAt(s: string, c: char, i: nat, cur: string, k: nat)
    requires i <= k < |s| && s[k] == c
    requires forall j :: i <= j < k ==> s[j] != c
    ensures SplitLoop(s, c, i, cur) == [cur + s[i..k]] + SplitLoop(s, c, k + 1, [])
    decreases k - i
  {
    if i < k {
      assert s[i] != c;
      SplitLoopAt(s, c, i + 1, cur + [s[i]], k);
      assert cur + [s[i]] + s[i + 1..k] == cur + s[i..k];
    } else {
      assert cur + s[i..k] == cur;
    }
  }

  /** `s` holds `t` from index `off` to its end. */
  predicate EndsWithAt(s: string, t: string, off: nat) {
    |s| == off + |t| && forall j :: 0 <= j < |t| ==> s[off + j] == t[j]
  }

  /** Splitting `s` from `off + i` is splitting `t` from `i`. */
  lemma {:induction false} SplitLoopShift(s: string, t: string, c: char, off: nat, i: nat, cur: string)
    requires EndsWithAt(s, t, off) && i <= |t|
    ensures SplitLoop(s, c, off + i, cur) == SplitLoop(t, c, i, cur)
    decreases |t| - i
  {
    if i < |t| {
      assert s[off + i] == t[i];
      SplitLoopShift(s, t, c, off, i + 1, []);
      SplitLoopShift(s, t, c, off, i + 1, cur + [t[i]]);
    }
  }

  /** Splits at every `c`. */
  function SplitAll(s: string, c: char): (parts: seq<string>)
    ensures |parts| >= 1
    ensures forall i :: 0 <= i < |parts| ==> c !in parts[i]
    ensures c !in s ==> parts == [s]
  {
    SplitLoopNoSep(s, c, 0, []);
    SplitLoopPlain(s, c);
    SplitLoop(s, c, 0, [])
  }

  /** Text without `c` is read as one piece. */
  lemma SplitLoopPlain(s: string, c: char)
    ensures c !in s ==> SplitLoop(s, c, 0, []) == [s]
  {
    if c !in s {
      SplitLoopNone(s, c, 0, []);
      assert [] + s[0..] == s;
    }
  }

  function Join(parts: seq<string>, c: char): string {
    if parts == [] then []
    else if |parts| == 1 then parts[0]
    else parts[0] + [c] + Join(parts[1..], c)
  }

  lemma JoinCons(p: string, rest: seq<string>, c: char)
    requires rest != []
    ensures Join([p] + rest, c) == p + [c] + Join(rest, c)
  {
    assert ([p] + rest)[1..] == rest;
  }

  /** The pieces, rejoined with `c`, give back what was read. */
  lemma {:induction false} SplitLoopJoin(s: string, c: char, i: nat, cur: string)
    requires i <= |s|
    ensures Join(SplitLoop(s, c, i, cur), c) == cur + s[i..]
    decreases |s| - i
  {
    if i < |s| {
      if s[i] == c {
        SplitLoopJoin(s, c, i + 1, []);
        JoinCons(cur, SplitLoop(s, c, i + 1, []), c);
      } else {
        SplitLoopJoin(s, c, i + 1, cur + [s[i]]);
      }
      assert cur + [s[i]] + s[i + 1..] == cur + s[i..];
    }
  }

  /** The pieces of a split, rejoined with the separator, give back the text. */
  lemma SplitAllJoin(s: string, c: char)
    ensures Join(SplitAll(s, c), c) == s
  {
    SplitLoopJoin(s, c, 0, []);
    assert [] + s[0..] == s;
  }

  function DropTrailingEmpty(parts: seq<string>): (r: seq<string>)
    ensures |r| <= |parts| && r == parts[..|r|]
    ensures r == [] || r[|r| - 1] != []
    ensures forall i :: |r| <= i < |parts| ==> parts[i] == []
  {
    if parts == [] || parts[|parts| - 1] != [] then parts
    else DropTrailingEmpty(parts[..|parts| - 1])
  }

  /**
   * `s.split(String.valueOf(c))` with limit 0: when `c` occurs, the pieces
   * without their trailing empty strings; when it does not, `[s]`
   * (so `"".split(",")` is `[""]`).
   */
  function JavaSplit(s: string, c: char): (parts: seq<string>)
    ensures forall i :: 0 <= i < |parts| ==> c !in parts[i]
    ensures c !in s ==> parts == [s]
  {
    if IndexOfChar(s, c) < 0 then [s] else DropTrailingEmpty(SplitAll(s, c))
  }

  /** A piece free of `c` followed by `c` splits off first. */
  lemma SplitCons(a: string, c: char, t: string)
    requires c !in a
    ensures SplitAll(a + [c] + t, c) == [a] + SplitAll(t, c)
  {
    var s := a + [c] + t;
    var k := |a|;
    assert s[k] == c;
    assert forall j :: 0 <= j < k ==> s[j] == a[j];
    assert EndsWithAt(s, t, k + 1);
    SplitLoopAt(s, c, 0, [], k);
    assert [] + s[0..k] == a;
    SplitLoopShift(s, t, c, k + 1, 0, []);
  }

  /** Text without `c` is one piece. */
  lemma SplitNone(s: string, c: char)
    requires c !in s
    ensures SplitAll(s, c) == [s]
  {
  }

  /** Splitting `a + [c] + b` with `c` in neither part and `b` non-empty gives `[a, b]`. */
  lemma SplitTwo(a: string, c: char, b: string)
    requires c !in a && c !in b && b != []
    ensures JavaSplit(a + [c] + b, c) == [a, b]
  {
    SplitCons(a, c, b);
    SplitNone(b, c);
    assert (a + [c] + b)[|a|] == c;
  }

  /** Splitting three separated parts, the last non-empty, gives the three parts. */
  lemma SplitThree(a: string, c: char, b: string, d: string)
    requires c !in a && c !in b && c !in d && d != []
    ensures JavaSplit(a + [c] + b + [c] + d, c) == [a, b, d]
  {
    assert a + [c] + b + [c] + d == a + [c] + (b + [c] + d);
    SplitCons(a, c, b + [c] + d);
    SplitCons(b, c, d);
    SplitNone(d, c);
    assert (a + [c] + b + [c] + d)[|a|] == c;
  }

  /** Splitting pieces joined with a separator none of them holds gives the pieces back. */
  lemma {:induction false} SplitAllOfJoin(parts: seq<string>, c: char)
    requires parts != []
    requires forall k :: 0 <= k < |parts| ==> c !in parts[k]
    ensures SplitAll(Join(parts, c), c) == parts
    decreases |parts|
  {
    if |parts| == 1 {
      SplitNone(parts[0], c);
    } else {
      var rest := parts[1..];
      JoinCons(parts[0], rest, c);
      assert [parts[0]] + rest == parts;
      SplitCons(parts[0], c, Join(rest, c));
      SplitAllOfJoin(rest, c);
    }
  }

  /** `String.join` then `split`: the pieces come back when the last is not empty. */
  lemma JavaSplitOfJoin(parts: seq<string>, c: char)
    requires parts != [] && parts[|parts| - 1] != []
    requires forall k :: 0 <= k < |parts| ==> c !in parts[k]
    ensures JavaSplit(Join(parts, c), c) == parts
  {
    SplitAllOfJoin(parts, c);
  }

  /** A char that is neither the separator nor in any piece is not in the join. */
  lemma {:induction false} JoinAvoids(parts: seq<string>, c: char, x: char)
    requires x != c
    requires forall k :: 0 <= k < |parts| ==> x !in parts[k]
    ensures x !in Join(parts, c)
    decreases |parts|
  {
    if |parts| > 1 {
      JoinAvoids(parts[1..], c, x);
    }
  }

  /** The join starts with the first piece and ends with the last. */
  lemma {:induction false} JoinEnds(parts: seq<string>, c: char)
    requires parts != []
    ensures |Join(parts, c)| >= |parts[0]| && Join(parts, c)[..|parts[0]|] == parts[0]
    ensures |Join(parts, c)| >= |parts[|parts| - 1]|
    ensures Join(parts, c)[|Join(parts, c)| - |parts[|parts| - 1]|..] == parts[|parts| - 1]
    decreases |parts|
  {
    if |parts| > 1 {
      var rest := parts[1..];
      JoinEnds(rest, c);
      var j := Join(parts, c);
      var last := parts[|parts| - 1];
      assert j == parts[0] + [c] + Join(rest, c);
      assert rest[|rest| - 1] == last;
      assert j[|j| - |last|..] == Join(rest, c)[|Join(rest, c)| - |last|..];
    }
  }

  // ---------------------------------------------------------------------------
  // Integer.parseInt and Integer.toString
  // ---------------------------------------------------------------------------

  const INT_MIN: int := -0x8000_0000
  const INT_MAX: int := 0x7FFF_FFFF

  predicate IsInt32(v: int) {
    INT_MIN <= v <= INT_MAX
  }

  function DigitValue(c: char): nat
    requires IsDigit(c)
  {
    c as int - '0' as int
  }

  function DigitChar(d: nat): (c: char)
    requires d < 10
    ensures IsDigit(c) && DigitValue(c) == d
  {
    ('0' as int + d) as char
  }

  /** The decimal value of a string of ASCII digits. */
  function DigitsValue(s: string): nat
    requires AllDigits(s)
  {
    if s == [] then 0 else DigitsValue(s[..|s| - 1]) * 10 + DigitValue(s[|s| - 1])
  }

  /** `Integer.toString` of a non-negative value. */
  function NatToString(n: nat): (s: string)
    ensures s != [] && AllDigits(s)
    ensures DigitsValue(s) == n
  {
    if n < 10 then [DigitChar(n)]
    else
      var s := NatToString(n / 10) + [DigitChar(n % 10)];
      assert s[..|s| - 1] == NatToString(n / 10);
      s
  }

  /** `Integer.toString` / `String.valueOf(int)` / `%d`. */
  function IntToString(v: int): string {
    if v < 0 then "-" + NatToString(-v) else NatToString(v)
  }

  /**
   * `Integer.parseInt(s)`: an optional `+` or `-`, then one or more digits, whose
   * value must fit in 32 bits; anything else throws NumberFormatException.
   */
  function ParseInt(s: string): (r: Result<int, Exception>)
    ensures r.Ok? ==> IsInt32(r.value)
    ensures r.Err? ==> r.error == NumberFormatException
  {
    var negative := s != [] && s[0] == '-';
    var body := if s != [] && (s[0] == '-' || s[0] == '+') then s[1..] else s;
    if body == [] || !AllDigits(body) then Err(NumberFormatException)
    else
      var v: int := if negative then -(DigitsValue(body) as int) else DigitsValue(body);
      if IsInt32(v) then Ok(v) else Err(NumberFormatException)
  }

  /** Parsing accepts exactly the optionally signed digit strings in range. */
  lemma ParseIntOkIff(s: string)
    ensures ParseInt(s).Ok? <==>
      var body := if s != [] && (s[0] == '-' || s[0] == '+') then s[1..] else s;
      body != [] && AllDigits(body) &&
      IsInt32(if s != [] && s[0] == '-' then -(DigitsValue(body) as int) else DigitsValue(body))
  {
  }

  /** An unsigned digit string parses to its value, or throws when that exceeds `Integer.MAX_VALUE`. */
  lemma ParseIntOfDigits(s: string)
    requires s != [] && AllDigits(s)
    ensures ParseInt(s) == if DigitsValue(s) <= INT_MAX then Ok(DigitsValue(s)) else Err(NumberFormatException)
  {
    assert IsDigit(s[0]);
  }

  /** `Integer.parseInt(Integer.toString(v)) == v` for every 32-bit `v`. */
  lemma ParseIntToString(v: int)
    requires IsInt32(v)
    ensures ParseInt(IntToString(v)) == Ok(v)
  {
    var s := IntToString(v);
    if v < 0 {
      assert s[1..] == NatToString(-v);
    } else {
      assert s == NatToString(v);
      assert IsDigit(s[0]);
    }
  }

  // ---------------------------------------------------------------------------
  // compareTo
  // ---------------------------------------------------------------------------

  /** `a.compareTo(b) <= 0`: lexicographic order on chars, a prefix first. */
  predicate LexLeq(a: string, b: string) {
    a == [] || (b != [] && (a[0] < b[0] || (a[0] == b[0] && LexLeq(a[1..], b[1..]))))
  }

  lemma {:induction false} LexLeqReflexive(a: string)
    ensures LexLeq(a, a)
  {
    if a != [] {
      LexLeqReflexive(a[1..]);
    }
  }

  lemma {:induction false} LexLeqTotal(a: string, b: string)
    ensures LexLeq(a, b) || LexLeq(b, a)
  {
    if a != [] && b != [] && a[0] == b[0] {
      LexLeqTotal(a[1..], b[1..]);
    }
  }

  lemma {:induction false} LexLeqTransitive(a: string, b: string, c: string)
    requires LexLeq(a, b) && LexLeq(b, c)
    ensures LexLeq(a, c)
  {
    if a != [] && a[0] == b[0] && b[0] == c[0] {
      LexLeqTransitive(a[1..], b[1..], c[1..]);
    }
  }

  lemma {:induction false} LexLeqAntisymmetric(a: string, b: string)
    requires LexLeq(a, b) && LexLeq(b, a)
    ensures a == b
  {
    if a != [] {
      LexLeqAntisymmetric(a[1..], b[1..]);
      assert a == [a[0]] + a[1..];
      assert b == [b[0]] + b[1..];
    }
  }
}

=== FILE: orchestrator.dfy ===
/**
 * SummaryGeneratorOrchestrator.run: where the parameters come from, the start
 * date, and one output file per fetched repository. Fetching and the agent's
 * summary are oracle parameters; writing the files is not modelled.
 */
module Orchestrator {
  import opened Wrappers
  import opened JavaText
  import opened Entities
  import opened RepoData
  import opened Calendar
  import opened UserInput

  /** The values `ConfigLoader` supplies; its repository list is never null. */
  datatype Config = Config(repositories: seq<string>, endDate: Option<string>, summaryPeriod: int, outputDir: string)

  /** The parameters `run` settles on before computing the start date. */
  datatype Parameters = Parameters(repositories: seq<string>, endDate: Option<string>, period: int)

  /**
   * Without arguments everything comes from the config. With arguments, a
   * user value is taken when it is set (repositories: non-null and non-empty;
   * period: positive), the config value otherwise. Parsing the arguments may throw.
   */
  function ResolveParameters(args: seq<string>, config: Config): (r: Result<Parameters, Exception>)
    ensures args == [] ==> r == Ok(Parameters(config.repositories, config.endDate, config.summaryPeriod))
    ensures args != [] ==> (r.Ok? <==> ParseArgs(args).Ok?)
    ensures r.Err? ==> r.error == NumberFormatException
  {
    if args == [] then Ok(Parameters(config.repositories, config.endDate, config.summaryPeriod))
    else
      match ParseArgs(args)
      case Err(e) => Err(e)
      case Ok(u) =>
        Ok(Parameters(
          if u.repositories.Some? && u.repositories.value != [] then u.repositories.value else config.repositories,
          if u.endDate.Some? then u.endDate else config.endDate,
          if u.summaryPeriod > 0 then u.summaryPeriod else config.summaryPeriod))
  }

  /**
   * With arguments, each parameter is the last value given for its flag when
   * that value counts as set, and the config value otherwise.
   */
  lemma ArgumentsOverrideConfig(args: seq<string>, config: Config)
    requires args != [] && PeriodsParse(args)
    ensures ResolveParameters(args, config).Ok?
    ensures var p := ResolveParameters(args, config).value;
      var date := LastWith(args, DateFlag);
      var repos := LastWith(args, ReposFlag);
      && p.endDate == (if date.Some? then date else config.endDate)
      && p.repositories == (if repos.Some? && JavaSplit(repos.value, ',') != [] then JavaSplit(repos.value, ',') else config.repositories)
      && p.period == (if Expected(args).summaryPeriod > 0 then Expected(args).summaryPeriod else config.summaryPeriod)
  {
    ParseArgsIsLastValues(args);
  }

  /** With no `--period=`, or a non-positive one, the config's period is used. */
  lemma NoPeriodUsesConfig(args: seq<string>, config: Config)
    requires args != [] && PeriodsParse(args) && LastWith(args, PeriodFlag).None?
    ensures ResolveParameters(args, config).Ok? && ResolveParameters(args, config).value.period == config.summaryPeriod
  {
    ParseArgsIsLastValues(args);
  }

  /**
   * `calculateStartDate`: parse the end date as `yyyy-MM-dd`, go back `period`
   * days, and format the result the same way. A null end date throws a
   * `NullPointerException`; a malformed one a `DateTimeParseException`.
   */
  function CalculateStartDate(endDate: Option<string>, period: int): (r: Result<string, Exception>)
    ensures endDate.None? ==> r == Err(NullPointerException)
    ensures ParseIsoDate(endDate).Err? ==> r == Err(ParseIsoDate(endDate).error)
    ensures r.Ok? ==> endDate.Some?
  {
    match ParseIsoDate(endDate)
    case Err(e) => Err(e)
    case Ok(end) =>
      match MinusDays(end, period)
      case Err(e) => Err(e)
      case Ok(start) => Ok(FormatIsoDate(start))
  }

  /**
   * The start date is the end date moved back `period` days: reading the
   * result back gives exactly the valid date `period` days before the end
   * date, whenever that date falls in the current era.
   */
  lemma StartDateIsPeriodEarlier(endDate: string, period: int, end: Date, start: Date)
    requires ParseIsoDate(Some(endDate)) == Ok(end)
    requires IsValidDate(start) && DayNumber(start) == DayNumber(end) - period
    requires 1 <= start.year <= MAX_YEAR
    ensures CalculateStartDate(Some(endDate), period) == Ok(FormatIsoDate(start))
    ensures ParseIsoDate(Some(CalculateStartDate(Some(endDate), period).value)) == Ok(start)
  {
    MinusDaysIsUnique(end, period, start);
    FormatThenParse(start);
  }

  /** A start date outside the supported years makes `minusDays` throw. */
  lemma StartDateOutOfRange(endDate: string, period: int, end: Date, start: Date)
    requires ParseIsoDate(Some(endDate)) == Ok(end)
    requires IsValidDate(start) && DayNumber(start) == DayNumber(end) - period
    requires !InRange(start)
    ensures CalculateStartDate(Some(endDate), period) == Err(DateTimeException)
  {
    MinusDaysIsUnique(end, period, start);
  }

  // ---------------------------------------------------------------------------
  // Output file names
  // ---------------------------------------------------------------------------

  /** The file name for a repository: `/` becomes `-`, a space `_`, then `.html`. */
  function RepoFileName(repoName: string): (f: string)
    ensures |f| == |repoName| + 5 && f[|repoName|..] == ".html"
    ensures forall i :: 0 <= i < |repoName| ==> f[i] == FileNameChar(repoName[i])
    ensures '/' !in f && ' ' !in f
    ensures EndsWith(f, ".html")
  {
    var base := ReplaceChar(ReplaceChar(repoName, '/', "-"), ' ', "_");
    FileNameBase(repoName);
    var f := base + ".html";
    assert f[|f| - 5..] == ".html";
    assert forall i :: 0 <= i < |repoName| ==> f[i] == base[i];
    f
  }

  /** Both replacements together map each char of the name by `FileNameChar`. */
  lemma FileNameBase(repoName: string)
    ensures var base := ReplaceChar(ReplaceChar(repoName, '/', "-"), ' ', "_");
      && |base| == |repoName|
      && (forall i :: 0 <= i < |repoName| ==> base[i] == FileNameChar(repoName[i]))
      && '/' !in base && ' ' !in base
  {
    var dashed := ReplaceChar(repoName, '/', "-");
    ReplaceCharByChar(repoName, '/', '-');
    ReplaceCharByChar(dashed, ' ', '_');
  }

  /** The char a repository name's char becomes in its file name. */
  function FileNameChar(c: char): char {
    if c == '/' then '-' else if c == ' ' then '_' else c
  }

  /** Names differing only in `/` versus `-` share a file. */
  lemma FileNamesCollide()
    ensures RepoFileName("a/b-c") == RepoFileName("a-b/c")
  {
    assert ReplaceChar("a/b-c", '/', "-") == "a-b-c";
    assert ReplaceChar("a-b/c", '/', "-") == "a-b-c";
  }

  /** A name with no `/` or space keeps its characters. */
  lemma PlainNameKept(repoName: string)
    requires '/' !in repoName && ' ' !in repoName
    ensures RepoFileName(repoName) == repoName + ".html"
  {
    ReplaceCharAbsent(repoName, '/', "-");
    ReplaceCharAbsent(repoName, ' ', "_");
  }

  // ---------------------------------------------------------------------------
  // run
  // ---------------------------------------------------------------------------

  /** A file `run` writes: directory, name, the repository it is for and the agent's summary. */
  datatype OutputFile = OutputFile(dir: string, fileName: string, repoName: string, summary: string)

  /** `fetcher.fetchData(repositories, startDate, endDate)`. */
  type Fetch = (seq<string>, string, string) -> Result<seq<RepositoryData>, Exception>

  /** `agentClient.getSummaryFromAgent(repoData, startDate, endDate, period)`; never null. */
  type Summarize = (RepositoryData, string, string, int) -> string

  /** The files for the fetched repositories, in order. */
  function OutputsFor(repos: seq<RepositoryData>, config: Config, summarize: Summarize,
                      startDate: string, endDate: string, period: int): (r: seq<OutputFile>)
    ensures |r| == |repos|
    ensures forall i :: 0 <= i < |r| ==>
      r[i] == OutputFile(config.outputDir, RepoFileName(repos[i].repoName), repos[i].repoName,
                         summarize(repos[i], startDate, endDate, period))
  {
    if repos == [] then []
    else [OutputFile(config.outputDir, RepoFileName(repos[0].repoName), repos[0].repoName,
                     summarize(repos[0], startDate, endDate, period))]
         + OutputsFor(repos[1..], config, summarize, startDate, endDate, period)
  }

  /**
   * `run`: an exception from argument parsing or from the start-date
   * computation escapes; a failed fetch is caught and nothing is written;
   * otherwise one file per fetched repository.
   */
  function Run(args: seq<string>, config: Config, fetch: Fetch, summarize: Summarize): (r: Result<seq<OutputFile>, Exception>)
    ensures ResolveParameters(args, config).Err? ==> r == Err(NumberFormatException)
    ensures r.Ok? ==> ResolveParameters(args, config).Ok?
  {
    match ResolveParameters(args, config)
    case Err(e) => Err(e)
    case Ok(p) =>
      match CalculateStartDate(p.endDate, p.period)
      case Err(e) => Err(e)
      case Ok(startDate) =>
        var endDate := p.endDate.value;
        match fetch(p.repositories, startDate, endDate)
        case Err(_) => Ok([])
        case Ok(repos) => Ok(OutputsFor(repos, config, summarize, startDate, endDate, p.period))
  }

  /**
   * Once the parameters and start date are settled, `run` succeeds: no file
   * when the fetch throws, else exactly one per repository with its derived name.
   */
  lemma RunWritesOnePerRepository(args: seq<string>, config: Config, fetch: Fetch, summarize: Summarize,
                                  p: Parameters, startDate: string)
    requires ResolveParameters(args, config) == Ok(p)
    requires CalculateStartDate(p.endDate, p.period) == Ok(startDate)
    ensures p.endDate.Some? && Run(args, config, fetch, summarize).Ok?
    ensures var files := Run(args, config, fetch, summarize).value;
      var fetched := fetch(p.repositories, startDate, p.endDate.value);
      && (fetched.Err? ==> files == [])
      && (fetched.Ok? ==> (|files| == |fetched.value| &&
            forall i :: 0 <= i < |files| ==> files[i].fileName == RepoFileName(fetched.value[i].repoName)))
  {
  }

  /** A start date that cannot be computed stops `run` before anything is fetched. */
  lemma RunStopsOnBadDate(args: seq<string>, config: Config, fetch: Fetch, summarize: Summarize, p: Parameters)
    requires ResolveParameters(args, config) == Ok(p)
    requires CalculateStartDate(p.endDate, p.period).Err?
    ensures Run(args, config, fetch, summarize) == Err(CalculateStartDate(p.endDate, p.period).error)
  {
  }
}

=== FILE: prompt_text.dfy ===
/**
 * The text helpers of `ParallelCommitSummaryService` that build the per-commit
 * prompt: message and description truncation, SHA abbreviation and the
 * extraction of issue references (`#123`) from commit messages.
 *
 * The two regular expressions of `extractIssueRefs` are replaced by
 * hand-written matchers that follow the same matching rules.
 */
module PromptText {
  import opened Wrappers
  import opened JavaText
  import opened Seqs
  import opened Entities

  /** Looks up an issue's description by its number (`"123"`); `None` when unknown. */
  type Resolver = string -> Option<string>

  // ---------------------------------------------------------------------------
  // Truncation
  // ---------------------------------------------------------------------------

  /** `truncateMessage`: a message over 200 chars is cut to 197 chars plus `...`. */
  function TruncateMessage(message: Option<string>): (r: Option<string>)
    ensures r.None? <==> message.None?
    ensures r.Some? ==> |r.value| <= 200
    ensures r.Some? && |message.value| <= 200 ==> r.value == message.value
    ensures r.Some? && |message.value| > 200 ==>
      |r.value| == 200 && StartsWith(message.value, r.value[..197]) && EndsWith(r.value, "...")
  {
    if message.None? || |message.value| <= 200 then message
    else Some(message.value[..197] + "...")
  }

  /** Truncating a truncated message changes nothing. */
  lemma TruncateMessageIdempotent(message: Option<string>)
    ensures TruncateMessage(TruncateMessage(message)) == TruncateMessage(message)
  {
  }

  /**
   * `truncate(text, max)`: `null` becomes `""`; text longer than `max` keeps
   * its first `max - 3` chars and gains `...`. `substring` throws when
   * `max - 3` is negative, which only a cap below 3 can cause.
   */
  function Truncate(text: Option<string>, max: int): (r: Result<string, Exception>)
    ensures r.Err? <==> text.Some? && |text.value| > max && max < 3
    ensures r.Ok? && max >= 0 ==> |r.value| <= max
    ensures r.Ok? && text.None? ==> r.value == ""
    ensures r.Ok? && text.Some? && |text.value| <= max ==> r.value == text.value
    ensures r.Ok? && text.Some? && |text.value| > max ==>
      |r.value| == max && StartsWith(text.value, r.value[..max - 3]) && EndsWith(r.value, "...")
  {
    if text.None? then Ok("")
    else if |text.value| <= max then Ok(text.value)
    else if max < 3 then Err(IndexOutOfBoundsException)
    else Ok(text.value[..max - 3] + "...")
  }

  /** With a cap of at least 3, truncating twice is truncating once. */
  lemma TruncateIdempotent(text: Option<string>, max: int)
    requires max >= 3
    ensures Truncate(Some(Truncate(text, max).value), max) == Truncate(text, max)
  {
  }

  /** `abbreviateSha`: at most the first 8 chars. */
  function AbbreviateSha(sha: string): (r: string)
    ensures |r| <= 8 && StartsWith(sha, r)
    ensures |sha| <= 8 ==> r == sha
  {
    if |sha| <= 8 then sha else sha[..8]
  }

  // ---------------------------------------------------------------------------
  // Issue references
  // ---------------------------------------------------------------------------

  /** A reference as the prompt lists it: `#` followed by one or more digits. */
  predicate IsIssueRef(r: string) {
    |r| >= 2 && r[0] == '#' && AllDigits(r[1..])
  }

  /** The end of the run of non-`/` chars starting at `i` (a greedy `[^/]*`). */
  function SegmentEnd(s: string, i: nat): (j: nat)
    requires i <= |s|
    ensures i <= j <= |s|
    ensures forall k :: i <= k < j ==> s[k] != '/'
    ensures j < |s| ==> s[j] == '/'
    decreases |s| - i
  {
    if i < |s| && s[i] != '/' then SegmentEnd(s, i + 1) else i
  }

  const UrlHead := "https://github.com/"
  const IssuesPath := "/issues/"

  /**
   * A match of `https://github\.com/[^/]+/[^/]+/issues/(\d+)` starting at `i`:
   * the bounds of its digit group. Since `[^/]+` cannot cross a `/`, each
   * segment ends at the next `/` and the match, if any, is unique.
   */
  function UrlMatchAt(s: string, i: nat): (m: Option<(nat, nat)>)
    requires i <= |s|
    ensures m.Some? ==> i < m.value.0 < m.value.1 <= |s| && OccursAt(s, UrlHead, i)
    ensures m.Some? ==> OccursAt(s, IssuesPath, m.value.0 - |IssuesPath|)
    ensures m.Some? ==> m.value.1 == m.value.0 + DigitRun(s, m.value.0)
  {
    if !OccursAt(s, UrlHead, i) then None
    else
      var a := i + |UrlHead|;
      var aEnd := SegmentEnd(s, a);
      if aEnd == a || aEnd == |s| then None
      else
        var b := aEnd + 1;
        var bEnd := SegmentEnd(s, b);
        if bEnd == b || !OccursAt(s, IssuesPath, bEnd) then None
        else
          var d := bEnd + |IssuesPath|;
          var n := DigitRun(s, d);
          if n == 0 then None else Some((d, d + n))
  }

  /** The reference a URL match at `i` yields. */
  function UrlRefAt(s: string, i: nat): (r: string)
    requires i <= |s| && UrlMatchAt(s, i).Some?
    ensures IsIssueRef(r)
  {
    var m := UrlMatchAt(s, i).value;
    "#" + s[m.0..m.1]
  }

  /** A match of `(?<![A-Za-z0-9_])#(\d+)` at `i`: a `#` not after a word char, then digits. */
  predicate HashMatchAt(s: string, i: nat) {
    i + 1 < |s| && s[i] == '#' && (i == 0 || !IsWordChar(s[i - 1])) && IsDigit(s[i + 1])
  }

  /** Where a hash match at `i` ends: after its greedy run of digits. */
  function HashMatchEnd(s: string, i: nat): (e: nat)
    requires HashMatchAt(s, i)
    ensures i + 1 < e <= |s|
  {
    i + 1 + DigitRun(s, i + 1)
  }

  /** The reference a hash match at `i` yields: the `#` and all the digits after it. */
  function HashRefAt(s: string, i: nat): (r: string)
    requires HashMatchAt(s, i)
    ensures IsIssueRef(r)
  {
    s[i..HashMatchEnd(s, i)]
  }

  /**
   * The URL references `Matcher.find` reports from `i` on, in order: each
   * search resumes where the previous match ended.
   */
  function UrlRefsFrom(s: string, i: nat): (refs: seq<string>)
    requires i <= |s|
    ensures forall k :: 0 <= k < |refs| ==> IsIssueRef(refs[k])
    decreases |s| - i
  {
    if i == |s| then []
    else
      match UrlMatchAt(s, i)
      case Some(m) => [UrlRefAt(s, i)] + UrlRefsFrom(s, m.1)
      case None => UrlRefsFrom(s, i + 1)
  }

  /** The `#n` references `Matcher.find` reports from `i` on, in order. */
  function HashRefsFrom(s: string, i: nat): (refs: seq<string>)
    requires i <= |s|
    ensures forall k :: 0 <= k < |refs| ==> IsIssueRef(refs[k])
    decreases |s| - i
  {
    if i == |s| then []
    else if HashMatchAt(s, i) then [HashRefAt(s, i)] + HashRefsFrom(s, HashMatchEnd(s, i))
    else HashRefsFrom(s, i + 1)
  }

  /** `r` is what a URL match somewhere in `s` yields. */
  predicate IsUrlRefOf(s: string, r: string) {
    exists j :: 0 <= j <= |s| && UrlMatchAt(s, j).Some? && UrlRefAt(s, j) == r
  }

  /** `r` is what a hash match somewhere in `s` yields. */
  predicate IsHashRefOf(s: string, r: string) {
    exists j :: 0 <= j <= |s| && HashMatchAt(s, j) && HashRefAt(s, j) == r
  }

  /** Every URL reference the scan reports comes from a match in `s`. */
  lemma {:induction false} UrlRefsSound(s: string, i: nat)
    requires i <= |s|
    ensures forall k :: 0 <= k < |UrlRefsFrom(s, i)| ==> IsUrlRefOf(s, UrlRefsFrom(s, i)[k])
    decreases |s| - i
  {
    if i < |s| {
      match UrlMatchAt(s, i)
      case Some(m) =>
        UrlRefsSound(s, m.1);
      case None =>
        UrlRefsSound(s, i + 1);
    }
  }

  /** Every `#n` reference the scan reports comes from a match in `s`. */
  lemma {:induction false} HashRefsSound(s: string, i: nat)
    requires i <= |s|
    ensures forall k :: 0 <= k < |HashRefsFrom(s, i)| ==> IsHashRefOf(s, HashRefsFrom(s, i)[k])
    decreases |s| - i
  {
    if i < |s| {
      if HashMatchAt(s, i) {
        HashRefsSound(s, HashMatchEnd(s, i));
      } else {
        HashRefsSound(s, i + 1);
      }
    }
  }

  /**
   * Resuming after a match skips no other match: the chars a match covers
   * after its `#` are digits, so no `#` hides among them.
   */
  lemma {:induction false} HashRefsComplete(s: string, i: nat, j: nat)
    requires i <= j <= |s| && HashMatchAt(s, j)
    ensures HashRefAt(s, j) in HashRefsFrom(s, i)
    decreases |s| - i
  {
    if i < j {
      if HashMatchAt(s, i) {
        var e := HashMatchEnd(s, i);
        assert !IsDigit(s[j]);
        HashRefsComplete(s, e, j);
      } else {
        HashRefsComplete(s, i + 1, j);
      }
    }
  }

  /**
   * `extractIssueRefs`: the URL references first, then the `#n` ones, each
   * reported once; `null` text has none.
   */
  function ExtractIssueRefs(text: Option<string>): (refs: seq<string>)
    ensures Distinct(refs)
    ensures forall k :: 0 <= k < |refs| ==> IsIssueRef(refs[k])
    ensures text.None? ==> refs == []
  {
    if text.None? then []
    else AddDistinct(AddDistinct([], UrlRefsFrom(text.value, 0)), HashRefsFrom(text.value, 0))
  }

  /** Every extracted reference comes from a URL match or a hash match in the text. */
  lemma ExtractIssueRefsSound(text: string)
    ensures forall k :: 0 <= k < |ExtractIssueRefs(Some(text))| ==>
      IsUrlRefOf(text, ExtractIssueRefs(Some(text))[k]) || IsHashRefOf(text, ExtractIssueRefs(Some(text))[k])
  {
    var urls := UrlRefsFrom(text, 0);
    var hashes := HashRefsFrom(text, 0);
    var fromUrls := AddDistinct([], urls);
    var refs := AddDistinct(fromUrls, hashes);
    assert refs == ExtractIssueRefs(Some(text));
    forall k | 0 <= k < |refs|
      ensures IsUrlRefOf(text, refs[k]) || IsHashRefOf(text, refs[k])
    {
      if refs[k] in fromUrls {
        var m :| 0 <= m < |fromUrls| && fromUrls[m] == refs[k];
        assert fromUrls[m] in urls;
        var n :| 0 <= n < |urls| && urls[n] == refs[k];
        UrlRefsSound(text, 0);
      } else {
        assert refs[k] in hashes;
        var n :| 0 <= n < |hashes| && hashes[n] == refs[k];
        HashRefsSound(text, 0);
      }
    }
  }

  /** The first `n` of `refs` are URL references; the rest are `#n` references that are not. */
  ghost predicate UrlsThenHashes(refs: seq<string>, urls: seq<string>, hashes: seq<string>, n: nat) {
    && n <= |refs|
    && (forall k :: 0 <= k < n ==> refs[k] in urls)
    && (forall k :: n <= k < |refs| ==> refs[k] in hashes && refs[k] !in urls)
  }

  /**
   * The URL references come first: after them only `#n` references follow,
   * and none of those repeats a URL reference.
   */
  lemma ExtractIssueRefsOrder(text: string)
    ensures exists n :: UrlsThenHashes(ExtractIssueRefs(Some(text)), UrlRefsFrom(text, 0), HashRefsFrom(text, 0), n)
  {
    var urls := UrlRefsFrom(text, 0);
    var fromUrls := AddDistinct([], urls);
    var refs := AddDistinct(fromUrls, HashRefsFrom(text, 0));
    assert refs == ExtractIssueRefs(Some(text));
    assert Distinct(fromUrls) by {
      assert Distinct<string>([]);
    }
    AddDistinctTail(fromUrls, HashRefsFrom(text, 0));
    var n := |fromUrls|;
    assert forall k :: 0 <= k < n ==> refs[k] in urls by {
      forall k | 0 <= k < n
        ensures refs[k] in urls
      {
        assert refs[k] == fromUrls[k];
      }
    }
    assert forall k :: n <= k < |refs| ==> refs[k] !in urls by {
      forall k | n <= k < |refs|
        ensures refs[k] !in urls
      {
        assert refs[k] !in fromUrls;
      }
    }
    assert UrlsThenHashes(refs, urls, HashRefsFrom(text, 0), n);
  }

  /** Every hash match in the text, and every reference the URL scan reports, is extracted. */
  lemma ExtractIssueRefsComplete(text: string)
    ensures forall j :: 0 <= j <= |text| && HashMatchAt(text, j) ==> HashRefAt(text, j) in ExtractIssueRefs(Some(text))
    ensures forall k :: 0 <= k < |UrlRefsFrom(text, 0)| ==> UrlRefsFrom(text, 0)[k] in ExtractIssueRefs(Some(text))
  {
    HashRefsAllFound(text);
    var fromUrls := AddDistinct([], UrlRefsFrom(text, 0));
    assert forall k :: 0 <= k < |fromUrls| ==> fromUrls[k] in ExtractIssueRefs(Some(text));
  }

  /** Every hash match in `s` is reported by the scan from the start. */
  lemma HashRefsAllFound(s: string)
    ensures forall j :: 0 <= j <= |s| && HashMatchAt(s, j) ==> HashRefAt(s, j) in HashRefsFrom(s, 0)
  {
    forall j | 0 <= j <= |s| && HashMatchAt(s, j)
      ensures HashRefAt(s, j) in HashRefsFrom(s, 0)
    {
      HashRefsComplete(s, 0, j);
    }
  }

  // ---------------------------------------------------------------------------
  // The per-commit prompt
  // ---------------------------------------------------------------------------

  /** `String.format("%s", x)` of a possibly-null string. */
  function Shown(x: Option<string>): string {
    x.GetOr("null")
  }

  /** The PR description counts when it is non-null and not blank after trimming. */
  predicate HasPrDescription(c: Commit) {
    c.prDescription.Some? && !IsTrimBlank(c.prDescription.value)
  }

  /**
   * The references `buildSummaryPrompt` collects: the message's, then the PR
   * description's, with repeats dropped (`stream().distinct()` keeps the first).
   */
  function PromptRefs(c: Commit): (refs: seq<string>)
    ensures Distinct(refs)
    ensures forall k :: 0 <= k < |refs| ==> IsIssueRef(refs[k])
    ensures forall k :: 0 <= k < |refs| ==>
      refs[k] in ExtractIssueRefs(c.message) || (HasPrDescription(c) && refs[k] in ExtractIssueRefs(c.prDescription))
    ensures |ExtractIssueRefs(c.message)| <= |refs| && refs[..|ExtractIssueRefs(c.message)|] == ExtractIssueRefs(c.message)
    ensures HasPrDescription(c) ==>
      forall k :: 0 <= k < |ExtractIssueRefs(c.prDescription)| ==> ExtractIssueRefs(c.prDescription)[k] in refs
  {
    var fromMessage := ExtractIssueRefs(c.message);
    var fromDescription := if HasPrDescription(c) then ExtractIssueRefs(c.prDescription) else [];
    var all := fromMessage + fromDescription;
    var refs := AddDistinct([], all);
    AddDistinctAfter(fromMessage, fromDescription);
    assert forall k :: 0 <= k < |refs| ==> IsIssueRef(refs[k]) by {
      forall k | 0 <= k < |refs|
        ensures IsIssueRef(refs[k])
      {
        assert refs[k] in fromMessage || refs[k] in fromDescription;
      }
    }
    refs
  }

  /** At most the first three references are looked up. */
  function PromptRefLimit(refs: seq<string>): (r: seq<string>)
    ensures |r| <= 3 && |r| <= |refs| && r == refs[..|r|]
    ensures |refs| <= 3 ==> r == refs
  {
    if |refs| <= 3 then refs else refs[..3]
  }

  /** The description the resolver gives for a reference's number (the text after `#`); none without a resolver. */
  function Description(ref: string, resolver: Option<Resolver>): Option<string> {
    if resolver.Some? && ref != [] then resolver.value(ref[1..]) else None
  }

  /** A reference whose description is known and not blank gets a line. */
  predicate IsKnownRef(ref: string, resolver: Option<Resolver>) {
    var d := Description(ref, resolver);
    d.Some? && !IsBlank(d.value)
  }

  /**
   * The line for one reference: `Issue #n: ` and the trimmed description cut
   * to 1000 chars, or nothing when the description is unknown or blank.
   */
  function IssueLine(ref: string, resolver: Option<Resolver>): (line: string)
    ensures line == [] <==> !IsKnownRef(ref, resolver)
    ensures IsKnownRef(ref, resolver) ==>
      && StartsWith(line, "Issue " + ref + ": ") && line[|line| - 1] == '\n'
      && |line| <= |"Issue " + ref + ": "| + 1000 + 1
  {
    var desc := Description(ref, resolver);
    if desc.Some? && !IsBlank(desc.value) then
      var line := "Issue " + ref + ": " + Truncate(Some(Trim(desc.value)), 1000).value + "\n";
      assert line[..|"Issue " + ref + ": "|] == "Issue " + ref + ": ";
      line
    else ""
  }

  /** The issue lines of the references, in order; empty exactly when no reference is known. */
  function IssuesSegment(refs: seq<string>, resolver: Option<Resolver>): (seg: string)
    ensures seg == [] <==> forall k :: 0 <= k < |refs| ==> !IsKnownRef(refs[k], resolver)
  {
    if refs == [] then ""
    else
      var rest := IssuesSegment(refs[1..], resolver);
      assert forall k :: 1 <= k < |refs| ==> refs[k] == refs[1..][k - 1];
      IssueLine(refs[0], resolver) + rest
  }

  /** The segment is the lines before a reference, its own line, then the lines after it. */
  lemma {:induction false} IssuesSegmentSplit(refs: seq<string>, resolver: Option<Resolver>, i: nat)
    requires i < |refs|
    ensures IssuesSegment(refs, resolver)
      == IssuesSegment(refs[..i], resolver) + IssueLine(refs[i], resolver) + IssuesSegment(refs[i + 1..], resolver)
  {
    if i == 0 {
      assert refs[..0] == [];
      assert refs[1..] == refs[i + 1..];
    } else {
      var tail := refs[1..];
      IssuesSegmentSplit(tail, resolver, i - 1);
      SliceShift(refs, i);
      var first := IssueLine(refs[0], resolver);
      var before := IssuesSegment(tail[..i - 1], resolver);
      var here := IssueLine(refs[i], resolver);
      var after := IssuesSegment(refs[i + 1..], resolver);
      calc {
        IssuesSegment(refs, resolver);
        first + IssuesSegment(tail, resolver);
        { assert IssuesSegment(tail, resolver) == before + here + after; }
        first + (before + here + after);
        { Regroup(first, before, here, after); }
        first + before + here + after;
        { assert IssuesSegment(refs[..i], resolver) == first + before; }
        IssuesSegment(refs[..i], resolver) + here + after;
      }
    }
  }

  /** The head of a five-part concatenation, and its last two parts. */
  lemma FiveParts(a: string, b: string, c: string, d: string, e: string)
    ensures StartsWith(a + b + c + d + e, a)
    ensures EndsWith(a + b + c + d + e, d + e)
  {
    var s := a + b + c + d + e;
    assert s[..|a|] == a;
    assert s[|s| - |d + e|..] == d + e;
  }

  /** Without a resolver, no issue line is added. */
  lemma NoResolverNoIssues(refs: seq<string>)
    ensures IssuesSegment(refs, None) == ""
  {
  }

  /**
   * The `PR Description: ...` line: present exactly when there is a non-blank
   * description, holding it trimmed and, past 300 chars, cut to 297 plus `...`.
   */
  function PrSegment(c: Commit): (seg: string)
    ensures !HasPrDescription(c) ==> seg == ""
    ensures HasPrDescription(c) ==>
      var d := Trim(c.prDescription.value);
      && (|d| <= 300 ==> seg == "PR Description: " + d + "\n")
      && (|d| > 300 ==> seg == "PR Description: " + d[..297] + "...\n")
  {
    if HasPrDescription(c)
    then "PR Description: " + Truncate(Some(Trim(c.prDescription.value)), 300).value + "\n"
    else ""
  }

  const PromptHead :=
    "Generate exactly 2 short sentences (each <= 80 chars) summarizing this git commit. "
    + "Return them in a SINGLE LINE separated by a space (no line breaks). "
  const PromptTail := "\n\nOutput format (single line): <Sentence 1.> <Sentence 2.>"

  /** The part of the prompt that names the commit: abbreviated SHA, author, truncated message. */
  function CommitLines(c: Commit): string {
    "Commit: " + AbbreviateSha(c.sha) + "\nAuthor: " + Shown(c.authorLogin)
    + "\nMessage: " + Shown(TruncateMessage(c.message))
  }

  /**
   * `buildSummaryPrompt`: the fixed instruction, the PR-description line, the
   * lines of the first three distinct references with a known description,
   * the commit lines, then the fixed output format.
   */
  function BuildSummaryPrompt(c: Commit, resolver: Option<Resolver>): (p: string)
    ensures StartsWith(p, PromptHead)
    ensures EndsWith(p, CommitLines(c) + PromptTail)
    ensures p == PromptHead + PrSegment(c) + IssuesSegment(PromptRefLimit(PromptRefs(c)), resolver)
      + CommitLines(c) + PromptTail
  {
    var issues := IssuesSegment(PromptRefLimit(PromptRefs(c)), resolver);
    FiveParts(PromptHead, PrSegment(c), issues, CommitLines(c), PromptTail);
    PromptHead + PrSegment(c) + issues + CommitLines(c) + PromptTail
  }

  /**
   * With no PR description and no resolver (the configuration the analysis
   * service uses for commits without a PR), the prompt is the fixed
   * instruction followed directly by the commit lines.
   */
  lemma PlainPrompt(c: Commit)
    requires !HasPrDescription(c)
    ensures BuildSummaryPrompt(c, None) == PromptHead + CommitLines(c) + PromptTail
  {
    var refs := PromptRefLimit(PromptRefs(c));
    calc {
      BuildSummaryPrompt(c, None);
      PromptHead + PrSegment(c) + IssuesSegment(refs, None) + CommitLines(c) + PromptTail;
      { NoResolverNoIssues(refs); }
      PromptHead + "" + "" + CommitLines(c) + PromptTail;
      { assert PromptHead + "" + "" == PromptHead; }
      PromptHead + CommitLines(c) + PromptTail;
    }
  }

  /**
   * A reference among the first three with a known description is listed in
   * the prompt with its line, after the PR-description line.
   */
  lemma KnownIssueInPrompt(c: Commit, resolver: Option<Resolver>, i: nat)
    requires i < |PromptRefLimit(PromptRefs(c))|
    requires IsKnownRef(PromptRefLimit(PromptRefs(c))[i], resolver)
    ensures var refs := PromptRefLimit(PromptRefs(c));
      BuildSummaryPrompt(c, resolver) == PromptHead + PrSegment(c) + IssuesSegment(refs[..i], resolver)
        + IssueLine(refs[i], resolver) + IssuesSegment(refs[i + 1..], resolver) + CommitLines(c) + PromptTail
  {
    var refs := PromptRefLimit(PromptRefs(c));
    var head := PromptHead + PrSegment(c);
    var before := IssuesSegment(refs[..i], resolver);
    var here := IssueLine(refs[i], resolver);
    var after := IssuesSegment(refs[i + 1..], resolver);
    calc {
      BuildSummaryPrompt(c, resolver);
      head + IssuesSegment(refs, resolver) + CommitLines(c) + PromptTail;
      { IssuesSegmentSplit(refs, resolver, i); }
      head + (before + here + after) + CommitLines(c) + PromptTail;
      { Regroup(head, before, here, after); }
      head + before + here + after + CommitLines(c) + PromptTail;
    }
  }
}

=== FILE: reply_decoding.dfy ===
/**
 * What the categorisation reply decoder of `AzureAiAnalysisService` makes of
 * well-formed replies: a comma-separated index list reads back as its indices,
 * `<label>: [indices]` selects those commits, and a reply naming one label
 * fills exactly that bucket.
 */
module ReplyDecoding {
  import opened Wrappers
  import opened JavaText
  import opened Seqs
  import opened Entities
  import opened Categorization
  import opened AiAnalysis

  // ---------------------------------------------------------------------------
  // Index lists
  // ---------------------------------------------------------------------------

  /** Decoding distributes over concatenation: both parts must decode, and their values concatenate. */
  lemma {:induction false} ParseIndexTokensAppend(a: seq<string>, b: seq<string>)
    ensures ParseIndexTokens(a + b).Ok? <==> ParseIndexTokens(a).Ok? && ParseIndexTokens(b).Ok?
    ensures ParseIndexTokens(a + b).Ok? ==>
      ParseIndexTokens(a + b).value == ParseIndexTokens(a).value + ParseIndexTokens(b).value
    decreases |a|
  {
    if a == [] {
      assert a + b == b;
    } else {
      assert (a + b)[0] == a[0] && (a + b)[1..] == a[1..] + b;
      ParseIndexTokensAppend(a[1..], b);
      var t := Trim(a[0]);
      if t != [] && ParseInt(t).Ok? && ParseIndexTokens(a + b).Ok? {
        var v := ParseInt(t).value;
        assert [v] + (ParseIndexTokens(a[1..]).value + ParseIndexTokens(b).value)
            == [v] + ParseIndexTokens(a[1..]).value + ParseIndexTokens(b).value;
      }
    }
  }

  /** One token: blank after trimming gives nothing, an `int` gives itself, anything else throws. */
  lemma ParseIndexTokenOne(t: string)
    ensures IsTrimBlank(t) ==> ParseIndexTokens([t]) == Ok([])
    ensures !IsTrimBlank(t) && ParseInt(Trim(t)).Ok? ==> ParseIndexTokens([t]) == Ok([ParseInt(Trim(t)).value])
    ensures !IsTrimBlank(t) && ParseInt(Trim(t)).Err? ==> ParseIndexTokens([t]) == Err(NumberFormatException)
  {
    assert [t][1..] == [];
    var r := ParseInt(Trim(t));
    if r.Ok? {
      assert [r.value] + [] == [r.value];
    }
  }

  /** Tokens that trim to the decimal forms of in-range numbers decode to those numbers. */
  lemma {:induction false} ParseDigitTokens(tokens: seq<string>, indices: seq<nat>)
    requires |tokens| == |indices|
    requires forall k :: 0 <= k < |indices| ==> Trim(tokens[k]) == NatToString(indices[k]) && indices[k] <= INT_MAX
    ensures ParseIndexTokens(tokens) == Ok(indices)
    decreases |tokens|
  {
    if tokens != [] {
      ParseIntOfDigits(NatToString(indices[0]));
      ParseDigitTokens(tokens[1..], indices[1..]);
      assert [indices[0]] + indices[1..] == indices;
    }
  }

  /** The numbers as the prompt's reply format writes them: `1,3,5`. */
  function IndexListText(indices: seq<nat>): string {
    Join(IndexTokens(indices), ',')
  }

  function IndexTokens(indices: seq<nat>): (tokens: seq<string>)
    ensures |tokens| == |indices|
    ensures forall k :: 0 <= k < |indices| ==> tokens[k] == NatToString(indices[k])
  {
    seq(|indices|, k requires 0 <= k < |indices| => NatToString(indices[k]))
  }

  /** A decimal string keeps its ends under trimming and holds no separator or bracket. */
  lemma DecimalToken(n: nat)
    ensures Trim(NatToString(n)) == NatToString(n)
    ensures ',' !in NatToString(n) && ']' !in NatToString(n)
  {
    var d := NatToString(n);
    assert IsDigit(d[0]) && IsDigit(d[|d| - 1]);
    TrimOfTrimmedEnds(d);
  }

  /** Writing in-range numbers in the reply format and decoding the list gives them back. */
  lemma ParseIndexListOfText(indices: seq<nat>)
    requires forall k :: 0 <= k < |indices| ==> indices[k] <= INT_MAX
    ensures ParseIndexList(IndexListText(indices)) == Ok(indices)
  {
    var tokens := IndexTokens(indices);
    var text := IndexListText(indices);
    if indices == [] {
      assert text == [];
    } else {
      forall k | 0 <= k < |tokens|
        ensures Trim(tokens[k]) == tokens[k] && ',' !in tokens[k]
      {
        DecimalToken(indices[k]);
      }
      JoinEnds(tokens, ',');
      var first := tokens[0];
      var last := tokens[|tokens| - 1];
      assert text[0] == first[0] by {
        assert text[..|first|][0] == first[0];
      }
      assert text[|text| - 1] == last[|last| - 1] by {
        assert text[|text| - |last|..][|last| - 1] == last[|last| - 1];
      }
      assert IsDigit(first[0]) && IsDigit(last[|last| - 1]);
      TrimOfTrimmedEnds(text);
      JavaSplitOfJoin(tokens, ',');
      ParseDigitTokens(tokens, indices);
    }
  }

  /**
   * A reply that starts with `<name>: [i1,i2,...]` puts the commits at those
   * 1-based positions in the bucket, in the reply's order, dropping positions
   * outside 1..N.
   */
  lemma IndexReplySelects(name: string, indices: seq<nat>, rest: string, commits: seq<Commit>)
    requires forall k :: 0 <= k < |indices| ==> indices[k] <= INT_MAX
    ensures ExtractCommitsByCategory(name + ": [" + IndexListText(indices) + "]" + rest, name, commits)
         == Ok(SelectCommits(indices, commits))
  {
    var tokens := IndexTokens(indices);
    forall k | 0 <= k < |tokens|
      ensures ']' !in tokens[k]
    {
      DecimalToken(indices[k]);
    }
    JoinAvoids(tokens, ',', ']');
    LeadingLabelIsRead(name, IndexListText(indices), rest);
    ParseIndexListOfText(indices);
  }

  /** `<name>: [i]` with `i` in 1..N puts exactly commit `i` in the bucket. */
  lemma OneIndexSelects(name: string, i: nat, rest: string, commits: seq<Commit>)
    requires 1 <= i <= |commits| <= INT_MAX
    ensures ExtractCommitsByCategory(name + ": [" + NatToString(i) + "]" + rest, name, commits) == Ok([commits[i - 1]])
  {
    assert IndexListText([i]) == NatToString(i);
    IndexReplySelects(name, [i], rest, commits);
    SelectOne(i, commits);
  }

  // ---------------------------------------------------------------------------
  // Replies that name one bucket
  // ---------------------------------------------------------------------------

  /** The categorisation with `xs` in bucket `k` and the other three empty. */
  function OnlyIn(k: Category, xs: seq<Commit>): (r: CommitCategorization)
    ensures Bucket(r, k) == xs
    ensures forall other: Category :: other != k ==> Bucket(r, other) == []
    ensures r.TotalCount() == |xs|
  {
    match k
    case BugFix => CommitCategorization(xs, [], [], [])
    case Feature => CommitCategorization([], xs, [], [])
    case Improvement => CommitCategorization([], [], xs, [])
    case Other => CommitCategorization([], [], [], xs)
  }

  /** A letter of one bucket name that no other bucket name has. */
  function LabelMark(k: Category): (c: char)
    ensures c in LabelOf(k)
    ensures forall other: Category :: other != k ==> c !in LabelOf(other)
  {
    match k
    case BugFix => 'B'
    case Feature => 'a'
    case Improvement => 'I'
    case Other => 'O'
  }

  /** After one bucket name, text without the names' letters brings in no other name. */
  lemma OtherLabelsAbsent(k: Category, body: string, commits: seq<Commit>)
    requires forall other: Category :: LabelMark(other) !in body
    ensures forall other: Category :: other != k ==> ExtractCommitsByCategory(LabelOf(k) + body, LabelOf(other), commits) == Ok([])
  {
    var s := LabelOf(k) + body;
    forall other: Category | other != k
      ensures ExtractCommitsByCategory(s, LabelOf(other), commits) == Ok([])
    {
      assert LabelMark(other) !in s;
      MissingCharNotContained(s, LabelOf(other), LabelMark(other));
      MissingLabelReadsNothing(s, LabelOf(other));
    }
  }

  /** One decoded bucket and three empty ones decode to exactly that bucket. */
  lemma DecodeOneBucket(s: string, k: Category, xs: seq<Commit>, commits: seq<Commit>)
    requires ExtractCommitsByCategory(s, LabelOf(k), commits) == Ok(xs)
    requires forall other: Category :: other != k ==> ExtractCommitsByCategory(s, LabelOf(other), commits) == Ok([])
    ensures DecodeReply(Some(s), commits) == Ok(OnlyIn(k, xs))
  {
    assert ExtractCommitsByCategory(s, LabelOf(BugFix), commits).Ok?;
    assert ExtractCommitsByCategory(s, LabelOf(Feature), commits).Ok?;
    assert ExtractCommitsByCategory(s, LabelOf(Improvement), commits).Ok?;
    assert ExtractCommitsByCategory(s, LabelOf(Other), commits).Ok?;
  }

  /**
   * A reply naming one bucket, `<name>: [i1,i2,...]`, puts the commits at
   * those positions in that bucket and leaves the others empty; when no
   * position is in 1..N nothing is decoded and the keyword fallback decides.
   */
  lemma SingleBucketReply(k: Category, indices: seq<nat>, commits: seq<Commit>)
    requires forall j :: 0 <= j < |indices| ==> indices[j] <= INT_MAX
    ensures ParseCategorizationResponse(Some(LabelOf(k) + ": [" + IndexListText(indices) + "]"), commits)
         == if SelectCommits(indices, commits) == [] then Fallback(commits)
            else OnlyIn(k, SelectCommits(indices, commits))
  {
    var body := ": [" + IndexListText(indices) + "]";
    var reply := LabelOf(k) + body;
    assert LabelOf(k) + ": [" + IndexListText(indices) + "]" == reply;
    assert reply + "" == reply;
    IndexReplySelects(LabelOf(k), indices, "", commits);
    ReplyBodyUnmarked(indices);
    OtherLabelsAbsent(k, body, commits);
    DecodeOneBucket(reply, k, SelectCommits(indices, commits), commits);
  }

  /** The brackets and the index list hold none of the bucket names' marking letters. */
  lemma ReplyBodyUnmarked(indices: seq<nat>)
    ensures forall other: Category :: LabelMark(other) !in ": [" + IndexListText(indices) + "]"
  {
    var tokens := IndexTokens(indices);
    forall other: Category
      ensures LabelMark(other) !in IndexListText(indices)
    {
      forall j | 0 <= j < |tokens|
        ensures LabelMark(other) !in tokens[j]
      {
        assert AllDigits(tokens[j]);
      }
      JoinAvoids(tokens, ',', LabelMark(other));
    }
    forall other: Category
      ensures LabelMark(other) !in ": [" + IndexListText(indices) + "]"
    {
      MarkNotPunctuation(other, IndexListText(indices));
    }
  }

  /** Wrapping text without a marking letter in `: [` and `]` adds none. */
  lemma MarkNotPunctuation(k: Category, text: string)
    requires LabelMark(k) !in text
    ensures LabelMark(k) !in ": [" + text + "]"
  {
    var c := LabelMark(k);
    assert c != ':' && c != ' ' && c != '[' && c != ']';
  }
}

=== FILE: report_service.dfy ===
/**
 * ReportService: bot commits are filtered out before categorisation, the
 * overall summary is requested, and everything is handed to the HTML
 * generator. The generator's markup is not modelled, so the report is the
 * triple of values it receives.
 */
module ReportService {
  import opened Wrappers
  import opened JavaText
  import opened Seqs
  import opened Entities
  import opened Agents
  import opened Categorization
  import opened RepoData
  import opened AiAnalysis

  /**
   * `filterBotCommits`: null gives an empty list; otherwise the commits whose
   * login is null or whose lowercase login lacks `bot`, in order. This is the
   * commit half of `removeBotActivity`.
   */
  function FilterBotCommits(commits: Option<seq<Commit>>): (r: seq<Commit>)
    ensures commits.None? ==> r == []
    ensures commits.Some? ==> IsSubsequence(r, commits.value)
    ensures forall i :: 0 <= i < |r| ==> !CommitMentionsBot(r[i])
    ensures forall c :: c in r <==> commits.Some? && c in commits.value && !CommitMentionsBot(c)
  {
    RemoveIfCleans(commits, CommitMentionsBot);
    match RemoveIf(commits, CommitMentionsBot)
    case None => []
    case Some(kept) =>
      forall c ensures c in kept <==> c in commits.value && !CommitMentionsBot(c) {
        FilterMembers(commits.value, x => !CommitMentionsBot(x), c);
      }
      kept
  }

  /** A filtered list is the commit list `removeBotActivity` leaves. */
  lemma FilterBotCommitsIsRemoveBotActivity(d: RepositoryData)
    requires d.commits.Some?
    ensures RemoveBotActivity(d).commits == Some(FilterBotCommits(d.commits))
  {
  }

  /** Some commit of `commits` has the SHA of `x`. */
  predicate HasShaOf(x: Commit, commits: seq<Commit>) {
    exists c :: c in commits && c.sha == x.sha
  }

  const DefaultSummary := "No significant activity recorded for this period."

  /** The null-summary default of `generateReport`; a non-null summary, `""` included, is kept. */
  function SummaryOrDefault(summary: Option<string>): (r: string)
    ensures summary.None? ==> r == DefaultSummary
    ensures summary.Some? ==> r == summary.value
  {
    if summary.None? then DefaultSummary else summary.value
  }

  /** What `generateReport` hands to the HTML generator. */
  datatype ReportInputs = ReportInputs(data: RepositoryData, categorization: CommitCategorization, summary: string)

  /**
   * The categorisation step of `generateReport`: only the non-bot commits are
   * categorised, so no bucket holds a commit whose login mentions `bot`.
   */
  method CategorizeNonBotCommits(a: AnalysisService, commits: Option<seq<Commit>>)
    returns (r: CommitCategorization, calls: seq<Call>)
    ensures forall k: Category, j :: 0 <= j < |Bucket(r, k)| ==> !CommitMentionsBot(Bucket(r, k)[j])
    ensures forall k: Category, j :: 0 <= j < |Bucket(r, k)| ==>
      HasShaOf(Bucket(r, k)[j], FilterBotCommits(commits))
    ensures FilterBotCommits(commits) == [] ==> r == Empty && calls == []
    ensures FilterBotCommits(commits) != [] ==> CategorizedAs(a, FilterBotCommits(commits), r, calls)
  {
    var nonBot := FilterBotCommits(commits);
    r, calls := CategorizeCommits(a, Some(nonBot));
    if nonBot == [] {
      assert forall k: Category :: Bucket(r, k) == [];
    } else {
      var parsed := ParseCategorizationResponse(
        AskAgent(a.agent, BuildCategorizationPrompt(nonBot), CategorizationMaxTokens), nonBot);
      ghost var summaries :| r == AttachSummaries(parsed, summaries);
      AttachedCommitsAreNonBot(parsed, summaries, nonBot);
    }
  }

  /** Attaching summaries to buckets drawn from non-bot commits keeps every login and SHA. */
  lemma AttachedCommitsAreNonBot(parsed: CommitCategorization, summaries: map<string, string>, nonBot: seq<Commit>)
    requires forall k: Category :: forall j :: 0 <= j < |Bucket(parsed, k)| ==> Bucket(parsed, k)[j] in nonBot
    requires forall i :: 0 <= i < |nonBot| ==> !CommitMentionsBot(nonBot[i])
    ensures var r := AttachSummaries(parsed, summaries);
      forall k: Category, j :: 0 <= j < |Bucket(r, k)| ==> !CommitMentionsBot(Bucket(r, k)[j])
    ensures var r := AttachSummaries(parsed, summaries);
      forall k: Category, j :: 0 <= j < |Bucket(r, k)| ==> HasShaOf(Bucket(r, k)[j], nonBot)
  {
    var r := AttachSummaries(parsed, summaries);
    forall k: Category, j | 0 <= j < |Bucket(r, k)|
      ensures !CommitMentionsBot(Bucket(r, k)[j])
      ensures HasShaOf(Bucket(r, k)[j], nonBot)
    {
      AttachKeepsCommits(parsed, summaries, k, j);
      var c := Bucket(parsed, k)[j];
      assert c in nonBot && c.sha == Bucket(r, k)[j].sha;
    }
  }

  /**
   * `generateReport`. The categorisation is built from the non-bot commits
   * only, while the generator receives the data unfiltered. The summary is
   * never null, so the default text never replaces it.
   */
  method GenerateReport(a: AnalysisService, data: RepositoryData, startDate: Option<string>, endDate: Option<string>)
    returns (r: ReportInputs, calls: seq<Call>)
    ensures r.data == data
    ensures forall k: Category, j :: 0 <= j < |Bucket(r.categorization, k)| ==>
      !CommitMentionsBot(Bucket(r.categorization, k)[j]) &&
      HasShaOf(Bucket(r.categorization, k)[j], FilterBotCommits(data.commits))
    ensures FilterBotCommits(data.commits) == [] ==> r.categorization == Empty && |calls| == 1
    ensures r.summary == GenerateOverallSummary(a.agent, Some(data), Some(r.categorization), startDate, endDate).text
    ensures calls != [] &&
      calls[|calls| - 1] == Call(OverallPrompt(data, r.categorization, startDate, endDate), OverallSummaryMaxTokens)
    ensures FilterBotCommits(data.commits) != [] ==>
      CategorizedAs(a, FilterBotCommits(data.commits), r.categorization, calls[..|calls| - 1])
  {
    var categorization, categorizeCalls := CategorizeNonBotCommits(a, data.commits);
    var summary, last := OverallStep(a, data, categorization, startDate, endDate);
    r := ReportInputs(data, categorization, summary);
    calls := categorizeCalls + [last];
    AppendOne(categorizeCalls, last);
  }

  /** The summary step of `generateReport`: one agent call, whose text is the summary (never null). */
  method OverallStep(a: AnalysisService, data: RepositoryData, categorization: CommitCategorization,
                     startDate: Option<string>, endDate: Option<string>)
    returns (summary: string, last: Call)
    ensures summary == GenerateOverallSummary(a.agent, Some(data), Some(categorization), startDate, endDate).text
    ensures last == Call(OverallPrompt(data, categorization, startDate, endDate), OverallSummaryMaxTokens)
  {
    var outcome := GenerateOverallSummary(a.agent, Some(data), Some(categorization), startDate, endDate);
    summary := SummaryOrDefault(Some(outcome.text));
    last := Call(OverallPrompt(data, categorization, startDate, endDate), OverallSummaryMaxTokens);
  }
}

=== FILE: repository_data.dfy ===
/**
 * RepositoryData: everything fetched for one repository, and its in-place bot
 * clean-up (`removeBotActivity`) as a function returning the cleaned value.
 */
module RepoData {
  import opened Wrappers
  import opened JavaText
  import opened Seqs
  import opened Entities

  /** One repository's data; a `None` list is a list that was never set (Java `null`). */
  datatype RepositoryData = RepositoryData(
    repoName: string,
    issues: Option<seq<Issue>>,
    commits: Option<seq<Commit>>,
    pullRequests: Option<seq<PullRequest>>,
    teamIssues: Option<seq<Issue>>,
    teamCommits: Option<seq<Commit>>,
    teamPRs: Option<seq<PullRequest>>)

  /** The plain rule: a non-null login whose lowercase form contains `bot`. */
  predicate MentionsBot(login: Option<string>) {
    login.Some? && Contains(ToLower(login.value), "bot")
  }

  /** A nullable list filtered in place with `removeIf`; a null list stays null. */
  function RemoveIf<T>(list: Option<seq<T>>, flagged: T -> bool): Option<seq<T>> {
    match list
    case None => None
    case Some(xs) => Some(Filter(xs, x => !flagged(x)))
  }

  /**
   * `after` is `before` with exactly the flagged entries taken out: null stays
   * null, survivors keep their order, no flagged entry survives, and every
   * unflagged entry survives with all its occurrences.
   */
  ghost predicate IsCleanedOf<T(!new)>(before: Option<seq<T>>, after: Option<seq<T>>, flagged: T -> bool) {
    && (after.None? <==> before.None?)
    && (after.Some? && before.Some? ==>
        && IsSubsequence(after.value, before.value)
        && (forall i :: 0 <= i < |after.value| ==> !flagged(after.value[i]))
        && (forall x :: !flagged(x) ==> multiset(after.value)[x] == multiset(before.value)[x]))
  }

  /** `RemoveIf` removes exactly the flagged entries. */
  lemma RemoveIfCleans<T(!new)>(list: Option<seq<T>>, flagged: T -> bool)
    ensures IsCleanedOf(list, RemoveIf(list, flagged), flagged)
  {
    if list.Some? {
      var keep := x => !flagged(x);
      FilterIsSubsequence(list.value, keep);
      forall x | !flagged(x)
        ensures multiset(Filter(list.value, keep))[x] == multiset(list.value)[x]
      {
        FilterCount(list.value, keep, x);
      }
    }
  }

  predicate CommitMentionsBot(c: Commit) {
    MentionsBot(c.authorLogin)
  }

  predicate PRMentionsBot(pr: PullRequest) {
    MentionsBot(pr.authorLogin)
  }

  /**
   * `removeBotActivity`: drops commits and pull requests (all and team lists)
   * whose login mentions `bot`; issues, team issues and the name are untouched.
   */
  function RemoveBotActivity(d: RepositoryData): (r: RepositoryData)
    ensures r.repoName == d.repoName && r.issues == d.issues && r.teamIssues == d.teamIssues
    ensures IsCleanedOf(d.commits, r.commits, CommitMentionsBot)
    ensures IsCleanedOf(d.teamCommits, r.teamCommits, CommitMentionsBot)
    ensures IsCleanedOf(d.pullRequests, r.pullRequests, PRMentionsBot)
    ensures IsCleanedOf(d.teamPRs, r.teamPRs, PRMentionsBot)
  {
    RemoveIfCleans(d.commits, CommitMentionsBot);
    RemoveIfCleans(d.teamCommits, CommitMentionsBot);
    RemoveIfCleans(d.pullRequests, PRMentionsBot);
    RemoveIfCleans(d.teamPRs, PRMentionsBot);
    d.(commits := RemoveIf(d.commits, CommitMentionsBot),
       teamCommits := RemoveIf(d.teamCommits, CommitMentionsBot),
       pullRequests := RemoveIf(d.pullRequests, PRMentionsBot),
       teamPRs := RemoveIf(d.teamPRs, PRMentionsBot))
  }

  /** Entries with a null login always survive the clean-up. */
  lemma NullLoginSurvives(d: RepositoryData, c: Commit)
    requires d.commits.Some? && c in d.commits.value && c.authorLogin.None?
    ensures RemoveBotActivity(d).commits.Some? && c in RemoveBotActivity(d).commits.value
  {
    var r := RemoveBotActivity(d);
    assert multiset(r.commits.value)[c] == multiset(d.commits.value)[c];
  }

  lemma RemoveIfIdempotent<T>(list: Option<seq<T>>, flagged: T -> bool)
    ensures RemoveIf(RemoveIf(list, flagged), flagged) == RemoveIf(list, flagged)
  {
    if list.Some? {
      FilterIdempotent(list.value, x => !flagged(x));
    }
  }

  /** Cleaning twice is cleaning once. */
  lemma RemoveBotActivityIdempotent(d: RepositoryData)
    ensures RemoveBotActivity(RemoveBotActivity(d)) == RemoveBotActivity(d)
  {
    RemoveIfIdempotent(d.commits, CommitMentionsBot);
    RemoveIfIdempotent(d.teamCommits, CommitMentionsBot);
    RemoveIfIdempotent(d.pullRequests, PRMentionsBot);
    RemoveIfIdempotent(d.teamPRs, PRMentionsBot);
  }
}

=== FILE: seqs.dfy ===
/** Order-preserving filtering, the `stream().filter(...).collect(toList())` idiom. */
module Seqs {

  /** The elements of `s` satisfying `p`, in their original order. */
  function Filter<T>(s: seq<T>, p: T -> bool): (r: seq<T>)
    ensures |r| <= |s|
    ensures forall i :: 0 <= i < |r| ==> p(r[i])
  {
    if s == [] then []
    else
      var rest := Filter(s[1..], p);
      if p(s[0]) then [s[0]] + rest else rest
  }

  /** Filtering only deletes: the survivors are a sub-multiset of the input. */
  lemma {:induction false} FilterSubMultiset<T>(s: seq<T>, p: T -> bool)
    ensures multiset(Filter(s, p)) <= multiset(s)
  {
    if s != [] {
      FilterSubMultiset(s[1..], p);
      assert s == [s[0]] + s[1..];
    }
  }

  /** Membership: exactly the elements of `s` that satisfy `p` survive. */
  lemma {:induction false} FilterMembers<T>(s: seq<T>, p: T -> bool, x: T)
    ensures x in Filter(s, p) <==> x in s && p(x)
  {
    if s != [] {
      FilterMembers(s[1..], p, x);
      assert s == [s[0]] + s[1..];
    }
  }

  /** Filtering distributes over concatenation, so relative order is kept. */
  lemma {:induction false} FilterAppend<T>(a: seq<T>, b: seq<T>, p: T -> bool)
    ensures Filter(a + b, p) == Filter(a, p) + Filter(b, p)
  {
    if a != [] {
      assert (a + b)[1..] == a[1..] + b;
      FilterAppend(a[1..], b, p);
    } else {
      assert a + b == b;
    }
  }

  /** A filter that rejects nothing is the identity. */
  lemma {:induction false} FilterKeepsAll<T>(s: seq<T>, p: T -> bool)
    requires forall i :: 0 <= i < |s| ==> p(s[i])
    ensures Filter(s, p) == s
  {
    if s != [] {
      FilterKeepsAll(s[1..], p);
    }
  }

  /** Filtering twice with the same predicate is filtering once. */
  lemma FilterIdempotent<T>(s: seq<T>, p: T -> bool)
    ensures Filter(Filter(s, p), p) == Filter(s, p)
  {
    FilterKeepsAll(Filter(s, p), p);
  }

  /** `a` can be obtained from `b` by deleting elements. */
  predicate IsSubsequence<T(==)>(a: seq<T>, b: seq<T>)
    decreases |b|
  {
    a == [] || (b != [] && ((a[0] == b[0] && IsSubsequence(a[1..], b[1..])) || IsSubsequence(a, b[1..])))
  }

  /** The survivors of a filter appear in the input in the same relative order. */
  lemma {:induction false} FilterIsSubsequence<T>(s: seq<T>, p: T -> bool)
    ensures IsSubsequence(Filter(s, p), s)
  {
    if s != [] {
      FilterIsSubsequence(s[1..], p);
      var r := Filter(s, p);
      if p(s[0]) {
        assert r[0] == s[0] && r[1..] == Filter(s[1..], p);
      }
    }
  }

  /** A filter with predicate `p` splits `s` into the kept part and its complement. */
  lemma {:induction false} FilterPartition<T>(s: seq<T>, p: T -> bool, q: T -> bool)
    requires forall x :: q(x) == !p(x)
    ensures multiset(Filter(s, p)) + multiset(Filter(s, q)) == multiset(s)
  {
    if s != [] {
      FilterPartition(s[1..], p, q);
      assert s == [s[0]] + s[1..];
      assert multiset(s) == multiset{s[0]} + multiset(s[1..]);
      if p(s[0]) {
        assert Filter(s, p) == [s[0]] + Filter(s[1..], p);
        assert Filter(s, q) == Filter(s[1..], q);
      } else {
        assert Filter(s, p) == Filter(s[1..], p);
        assert Filter(s, q) == [s[0]] + Filter(s[1..], q);
      }
    }
  }

  /** Each element kept by the filter keeps all its occurrences; each rejected one keeps none. */
  lemma {:induction false} FilterCount<T>(s: seq<T>, p: T -> bool, x: T)
    ensures multiset(Filter(s, p))[x] == if p(x) then multiset(s)[x] else 0
  {
    if s != [] {
      FilterCount(s[1..], p, x);
      assert s == [s[0]] + s[1..];
    }
  }

  /** No element occurs twice. */
  predicate Distinct<T(==)>(s: seq<T>) {
    forall i, j :: 0 <= i < j < |s| ==> s[i] != s[j]
  }

  /**
   * Appends each element of `xs` that is not yet present, in order: the
   * `if (!list.contains(x)) list.add(x)` loop, and `stream().distinct()` when
   * `acc` is empty.
   */
  function AddDistinct<T(==)>(acc: seq<T>, xs: seq<T>): (r: seq<T>)
    ensures |acc| <= |r| && r[..|acc|] == acc
    ensures Distinct(acc) ==> Distinct(r)
    ensures forall i :: 0 <= i < |r| ==> r[i] in acc || r[i] in xs
    ensures forall i :: 0 <= i < |xs| ==> xs[i] in r
    decreases |xs|
  {
    if xs == [] then acc
    else
      var next := if xs[0] in acc then acc else acc + [xs[0]];
      var r := AddDistinct(next, xs[1..]);
      assert r[..|acc|] == r[..|next|][..|acc|];
      assert xs[0] in next && next == r[..|next|];
      assert forall i :: 1 <= i < |xs| ==> xs[i] == xs[1..][i - 1];
      r
  }

  /** Dropping the head of `s` shifts every index and slice by one. */
  lemma SliceShift<T>(s: seq<T>, i: nat)
    requires 0 < i < |s|
    ensures s[..i][0] == s[0] && s[..i][1..] == s[1..][..i - 1]
    ensures s[1..][i - 1] == s[i] && s[1..][i..] == s[i + 1..]
  {
  }

  /** Concatenation regroups freely. */
  lemma Regroup<T>(a: seq<T>, b: seq<T>, c: seq<T>, d: seq<T>)
    ensures a + (b + c + d) == a + b + c + d
  {
  }

  /** Adding `a + b` is adding `a`, then `b`. */
  lemma {:induction false} AddDistinctAppend<T>(acc: seq<T>, a: seq<T>, b: seq<T>)
    ensures AddDistinct(acc, a + b) == AddDistinct(AddDistinct(acc, a), b)
    decreases |a|
  {
    if a != [] {
      var next := if a[0] in acc then acc else acc + [a[0]];
      assert (a + b)[0] == a[0] && (a + b)[1..] == a[1..] + b;
      AddDistinctAppend(next, a[1..], b);
    } else {
      assert a + b == b;
    }
  }

  /** Adding items none of which repeats keeps them all, in order. */
  lemma {:induction false} AddDistinctKeepsDistinct<T>(acc: seq<T>, xs: seq<T>)
    requires Distinct(acc + xs)
    ensures AddDistinct(acc, xs) == acc + xs
    decreases |xs|
  {
    if xs != [] {
      assert xs[0] !in acc by {
        forall k | 0 <= k < |acc|
          ensures acc[k] != xs[0]
        {
          assert (acc + xs)[k] == acc[k] && (acc + xs)[|acc|] == xs[0];
        }
      }
      assert acc + xs == (acc + [xs[0]]) + xs[1..];
      AddDistinctKeepsDistinct(acc + [xs[0]], xs[1..]);
    }
  }

  /** Adding the distinct `a`, then `b`, from scratch keeps `a` whole in front. */
  lemma AddDistinctAfter<T>(a: seq<T>, b: seq<T>)
    requires Distinct(a)
    ensures AddDistinct([], a + b) == AddDistinct(a, b)
  {
    AddDistinctAppend([], a, b);
    assert [] + a == a;
    AddDistinctKeepsDistinct([], a);
  }

  /** What adding appends after a distinct `acc` comes from `xs` and is new. */
  lemma AddDistinctTail<T>(acc: seq<T>, xs: seq<T>)
    requires Distinct(acc)
    ensures var r := AddDistinct(acc, xs);
      forall k :: |acc| <= k < |r| ==> r[k] in xs && r[k] !in acc
  {
    var r := AddDistinct(acc, xs);
    forall k | |acc| <= k < |r|
      ensures r[k] in xs && r[k] !in acc
    {
      forall m | 0 <= m < |acc|
        ensures acc[m] != r[k]
      {
        assert acc[m] == r[m];
      }
    }
  }

  /** Appending one element: dropping it gives the list back, and it is the last. */
  lemma AppendOne<T>(a: seq<T>, x: T)
    ensures |a + [x]| == |a| + 1 && (a + [x])[..|a|] == a && (a + [x])[|a|] == x
  {
  }
}

=== FILE: summary_format.dfy ===
/**
 * Cleaning of one raw LLM reply into a one-line, two-sentence commit summary of
 * at most 200 characters (`formatSummaryResponse` and its helpers in
 * ParallelCommitSummaryService).
 */
module SummaryFormat {
  import opened Wrappers
  import opened JavaText
  import opened Seqs

  /** No line terminator, tab or other regex space survives except the plain space. */
  predicate IsOneLine(s: string) {
    forall i :: 0 <= i < |s| ==> !IsRegexSpace(s[i]) || s[i] == ' '
  }

  predicate IsTerminator(c: char) {
    c == '.' || c == '!' || c == '?'
  }

  /** Ends in `.`, `!` or `?` (an ellipsis ends in `.`). */
  predicate EndsWithTerminator(s: string) {
    s != [] && IsTerminator(s[|s| - 1])
  }

  /** The greatest length a formatted summary may have. */
  const MaxSummaryLength := 200

  lemma OneLineSlice(s: string, i: nat, j: nat)
    requires i <= j <= |s|
    ensures IsOneLine(s) ==> IsOneLine(s[i..j])
  {
    assert forall k :: 0 <= k < j - i ==> s[i..j][k] == s[i + k];
  }

  lemma OneLineConcat(a: string, b: string)
    ensures IsOneLine(a) && IsOneLine(b) ==> IsOneLine(a + b)
  {
    assert forall k :: |a| <= k < |a + b| ==> (a + b)[k] == b[k - |a|];
  }

  lemma OneLineTrim(s: string)
    ensures IsOneLine(s) ==> IsOneLine(Trim(s))
  {
    OneLineSlice(s, TrimOffset(s), TrimOffset(s) + |Trim(s)|);
  }

  // ---------------------------------------------------------------------------
  // ensureSentencePunctuation
  // ---------------------------------------------------------------------------

  /** The trimmed text, with a `.` added unless it is empty or already ends a sentence. */
  function EnsureSentencePunctuation(s: string): (r: string)
    ensures r == [] <==> Trim(s) == []
    ensures r != [] ==> EndsWithTerminator(r) && !IsTrimmable(r[0])
    ensures r == Trim(s) || (r == Trim(s) + "." && !EndsWithTerminator(Trim(s)))
    ensures IsOneLine(s) ==> IsOneLine(r)
  {
    var t := Trim(s);
    OneLineTrim(s);
    if t == [] then t
    else if EndsWithTerminator(t) then t
    else t + "."
  }

  /** Punctuating twice is punctuating once. */
  lemma PunctuationIdempotent(s: string)
    ensures EnsureSentencePunctuation(EnsureSentencePunctuation(s)) == EnsureSentencePunctuation(s)
  {
    var r := EnsureSentencePunctuation(s);
    if r != [] {
      TrimOfTrimmedEnds(r);
    }
  }

  // ---------------------------------------------------------------------------
  // truncateIfNeeded
  // ---------------------------------------------------------------------------

  /**
   * How an over-long text is cut: after its last `.` at an index up to 197
   * when that index is above 150, and otherwise to 197 chars plus `...`.
   */
  predicate IsSentenceCut(r: string, text: string)
    requires |text| > MaxSummaryLength
  {
    || (exists k :: 150 < k <= 197 && text[k] == '.' && (forall j :: k < j <= 197 ==> text[j] != '.') &&
          r == text[..k + 1])
    || ((forall j :: 150 < j <= 197 ==> text[j] != '.') && r == text[..197] + "...")
  }

  /** Text of at most 200 chars is kept; longer text is cut at its last early-enough `.`. */
  function TruncateIfNeeded(text: string): (r: string)
    ensures |r| <= MaxSummaryLength
    ensures |text| <= MaxSummaryLength ==> r == text
    ensures |text| > MaxSummaryLength ==> IsSentenceCut(r, text) && EndsWithTerminator(r) && |r| > 150
    ensures IsOneLine(text) ==> IsOneLine(r)
  {
    if |text| <= MaxSummaryLength then text
    else
      var lastPeriod := LastIndexOfChar(text, '.', 197);
      if lastPeriod > 150 then
        OneLineSlice(text, 0, lastPeriod + 1);
        text[..lastPeriod + 1]
      else
        OneLineSlice(text, 0, 197);
        OneLineConcat(text[..197], "...");
        text[..197] + "..."
  }

  // ---------------------------------------------------------------------------
  // ensureTwoSentences
  // ---------------------------------------------------------------------------

  /** A non-blank one-line text. */
  predicate IsSentence(s: string) {
    Trim(s) != [] && IsOneLine(s)
  }

  predicate AllSentences(ss: seq<string>) {
    forall i :: 0 <= i < |ss| ==> IsSentence(ss[i])
  }

  /** At a terminator: the trimmed `current` joins the sentences unless it is empty. */
  function CloseSentence(current: string, acc: seq<string>): (r: seq<string>)
    ensures |acc| <= |r| <= |acc| + 1
    ensures AllSentences(acc) && IsOneLine(current) ==> AllSentences(r)
  {
    var sentence := Trim(current);
    OneLineTrim(current);
    TrimIdempotent(current);
    if sentence != [] then acc + [sentence] else acc
  }

  /** The whitespace normalisation the sentence scan starts from: trimmed, runs collapsed. */
  function NormalizeSpaces(line: string): (t: string)
    ensures |t| <= |line| && IsOneLine(t)
    ensures t != [] ==> !IsTrimmable(t[0]) && !IsTrimmable(t[|t| - 1])
  {
    if Trim(line) != [] then
      CollapseOfTrimmed(line);
      CollapseSpaces(Trim(line))
    else
      CollapseSpaces(Trim(line))
  }

  /**
   * The scan of `ensureTwoSentences` over `t[i..]`: the chars since the last
   * sentence end, `t[start..i]`, are pending; at each terminator the trimmed
   * pending text, when non-empty, becomes a sentence and the pending text
   * restarts; the scan stops once two sentences are found. Returns the
   * sentences and the pending text left at the end.
   */
  function ScanSentences(t: string, i: nat, start: nat, acc: seq<string>): (r: (seq<string>, string))
    requires start <= i <= |t| && |acc| < 2
    ensures |acc| <= |r.0| <= 2
    ensures |r.0| == 2 ==> r.1 == []
    decreases |t| - i
  {
    if i == |t| then (acc, t[start..|t|])
    else if IsTerminator(t[i]) then
      var acc' := CloseSentence(t[start..i + 1], acc);
      if |acc'| == 2 then (acc', [])
      else ScanSentences(t, i + 1, i + 1, acc')
    else ScanSentences(t, i + 1, start, acc)
  }

  /** The index of the first terminator in `t[i..]`, or -1 when there is none. */
  function FirstTerminatorFrom(t: string, i: nat): (k: int)
    requires i <= |t|
    ensures k == -1 || i <= k < |t|
    ensures k >= 0 ==> IsTerminator(t[k])
    ensures forall j :: i <= j < |t| && (k < 0 || j < k) ==> !IsTerminator(t[j])
    decreases |t| - i
  {
    if i == |t| then -1
    else if IsTerminator(t[i]) then i
    else FirstTerminatorFrom(t, i + 1)
  }

  /**
   * Where the sentences of a normalised text lie, defined by its terminators:
   * the first runs up to and including the first terminator, the second up to
   * and including the next one; when no second terminator follows, whatever
   * text remains is the last one. The spans are not yet trimmed.
   */
  function SentenceSpans(t: string): seq<string> {
    var k1 := FirstTerminatorFrom(t, 0);
    if k1 < 0 then (if t == [] then [] else [t[0..|t|]])
    else
      var k2 := FirstTerminatorFrom(t, k1 + 1);
      if k2 >= 0 then [t[0..k1 + 1], t[k1 + 1..k2 + 1]]
      else if k1 + 1 == |t| then [t[0..k1 + 1]]
      else [t[0..k1 + 1], t[k1 + 1..|t|]]
  }

  /** Each text trimmed. */
  function TrimEach(ss: seq<string>): (r: seq<string>)
    ensures |r| == |ss| && forall i :: 0 <= i < |ss| ==> r[i] == Trim(ss[i])
  {
    if ss == [] then [] else [Trim(ss[0])] + TrimEach(ss[1..])
  }

  /** The reference definition of the sentences `ensureTwoSentences` finds: the spans, trimmed. */
  function FirstTwoSentences(t: string): seq<string> {
    TrimEach(SentenceSpans(t))
  }

  lemma NoSentenceEnd(t: string)
    requires FirstTerminatorFrom(t, 0) < 0
    ensures SentenceSpans(t) == if t == [] then [] else [t[0..|t|]]
  {
  }

  lemma OneSentenceEnd(t: string, k1: nat)
    requires k1 == FirstTerminatorFrom(t, 0) && FirstTerminatorFrom(t, k1 + 1) < 0
    ensures SentenceSpans(t) ==
      if k1 + 1 == |t| then [t[0..k1 + 1]] else [t[0..k1 + 1], t[k1 + 1..|t|]]
  {
  }

  lemma TwoSentenceEnds(t: string, k1: nat, k2: nat)
    requires k1 == FirstTerminatorFrom(t, 0) && k2 == FirstTerminatorFrom(t, k1 + 1)
    ensures SentenceSpans(t) == [t[0..k1 + 1], t[k1 + 1..k2 + 1]]
  {
  }

  lemma TrimOne(a: string)
    ensures TrimEach([a]) == [Trim(a)]
  {
  }

  lemma TrimTwo(a: string, b: string)
    ensures TrimEach([a, b]) == [Trim(a), Trim(b)]
  {
  }

  /** Up to the next terminator the scan only moves on; with none left it ends with all pending. */
  lemma {:induction false} ScanToTerminator(t: string, i: nat, start: nat, acc: seq<string>)
    requires start <= i <= |t| && |acc| < 2
    ensures var k := FirstTerminatorFrom(t, i);
      && (k < 0 ==> ScanSentences(t, i, start, acc) == (acc, t[start..|t|]))
      && (k >= 0 ==> ScanSentences(t, i, start, acc) == ScanSentences(t, k, start, acc))
    decreases |t| - i
  {
    if i < |t| && !IsTerminator(t[i]) {
      ScanToTerminator(t, i + 1, start, acc);
    }
  }

  /** A slice that ends in a terminator trims to a non-empty text. */
  lemma ClosedSentence(t: string, a: nat, b: nat)
    requires a < b <= |t| && IsTerminator(t[b - 1])
    ensures Trim(t[a..b]) != [] && |Trim(t[a..b])| <= b - a
    ensures IsOneLine(t) ==> IsSentence(Trim(t[a..b]))
  {
    assert t[a..b][b - 1 - a] == t[b - 1];
    OneLineSlice(t, a, b);
    OneLineTrim(t[a..b]);
    TrimIdempotent(t[a..b]);
  }

  /** The scan finds exactly the sentences of the reference definition. */
  lemma ScanFindsSentences(t: string)
    ensures Collected(ScanSentences(t, 0, 0, [])) == FirstTwoSentences(t)
  {
    var k1 := FirstTerminatorFrom(t, 0);
    if k1 < 0 {
      ScanNoEnd(t);
    } else if FirstTerminatorFrom(t, k1 + 1) >= 0 {
      ScanTwoEnds(t, k1, FirstTerminatorFrom(t, k1 + 1));
    } else {
      ScanOneEnd(t, k1);
    }
  }

  lemma ScanNoEnd(t: string)
    requires FirstTerminatorFrom(t, 0) < 0
    ensures Collected(ScanSentences(t, 0, 0, [])) == FirstTwoSentences(t)
  {
    ScanToTerminator(t, 0, 0, []);
    NoSentenceEnd(t);
    if t != [] {
      TrimOne(t[0..|t|]);
    }
  }

  lemma ScanOneEnd(t: string, k1: nat)
    requires k1 == FirstTerminatorFrom(t, 0) && FirstTerminatorFrom(t, k1 + 1) < 0
    ensures Collected(ScanSentences(t, 0, 0, [])) == FirstTwoSentences(t)
  {
    ScanToTerminator(t, 0, 0, []);
    var s1 := ScanFirstSentence(t, k1);
    ScanToTerminator(t, k1 + 1, k1 + 1, [s1]);
    OneSentenceEnd(t, k1);
    if k1 + 1 == |t| {
      ScanEndsAtEnd(t, k1, s1);
    } else {
      ScanEndsWithRest(t, k1, s1);
    }
  }

  lemma ScanEndsAtEnd(t: string, k1: nat, s1: string)
    requires k1 + 1 == |t| && SentenceSpans(t) == [t[0..k1 + 1]] && s1 == Trim(t[0..k1 + 1])
    requires ScanSentences(t, 0, 0, []) == ([s1], t[k1 + 1..|t|])
    ensures Collected(ScanSentences(t, 0, 0, [])) == FirstTwoSentences(t)
  {
    TrimOne(t[0..k1 + 1]);
  }

  lemma ScanEndsWithRest(t: string, k1: nat, s1: string)
    requires k1 + 1 < |t| && SentenceSpans(t) == [t[0..k1 + 1], t[k1 + 1..|t|]] && s1 == Trim(t[0..k1 + 1])
    requires ScanSentences(t, 0, 0, []) == ([s1], t[k1 + 1..|t|])
    ensures Collected(ScanSentences(t, 0, 0, [])) == FirstTwoSentences(t)
  {
    TrimTwo(t[0..k1 + 1], t[k1 + 1..|t|]);
  }

  lemma ScanTwoEnds(t: string, k1: nat, k2: nat)
    requires k1 == FirstTerminatorFrom(t, 0) && k2 == FirstTerminatorFrom(t, k1 + 1)
    ensures Collected(ScanSentences(t, 0, 0, [])) == FirstTwoSentences(t)
  {
    ScanToTerminator(t, 0, 0, []);
    var s1 := ScanFirstSentence(t, k1);
    ScanToTerminator(t, k1 + 1, k1 + 1, [s1]);
    var s2 := ScanSecondSentence(t, k1 + 1, k2, s1);
    TwoSentenceEnds(t, k1, k2);
    TrimTwo(t[0..k1 + 1], t[k1 + 1..k2 + 1]);
  }

  /** At the first terminator the scan closes the first sentence and moves past it. */
  lemma ScanFirstSentence(t: string, k1: nat) returns (s1: string)
    requires k1 < |t| && IsTerminator(t[k1])
    ensures s1 == Trim(t[0..k1 + 1]) && s1 != []
    ensures ScanSentences(t, k1, 0, []) == ScanSentences(t, k1 + 1, k1 + 1, [s1])
  {
    ClosedSentence(t, 0, k1 + 1);
    s1 := Trim(t[0..k1 + 1]);
    assert CloseSentence(t[0..k1 + 1], []) == [s1];
  }

  /** At the next terminator the scan closes the second sentence and stops. */
  lemma ScanSecondSentence(t: string, start: nat, k2: nat, s1: string) returns (s2: string)
    requires start <= k2 < |t| && IsTerminator(t[k2])
    ensures s2 == Trim(t[start..k2 + 1])
    ensures ScanSentences(t, k2, start, [s1]) == ([s1, s2], [])
  {
    ClosedSentence(t, start, k2 + 1);
    s2 := Trim(t[start..k2 + 1]);
    assert CloseSentence(t[start..k2 + 1], [s1]) == [s1, s2];
  }

  /** The total length of some texts. */
  function TotalLength(ss: seq<string>): nat {
    if ss == [] then 0 else TotalLength(ss[..|ss| - 1]) + |ss[|ss| - 1]|
  }

  lemma TotalAppend(ss: seq<string>, x: string)
    ensures TotalLength(ss + [x]) == TotalLength(ss) + |x|
  {
    assert (ss + [x])[..|ss|] == ss;
  }

  /**
   * From a normalised text the scan only produces non-blank one-line
   * sentences, together no longer than the text.
   */
  lemma {:induction false} ScanKeepsSentences(t: string, i: nat, start: nat, acc: seq<string>)
    requires start <= i <= |t| && |acc| < 2
    requires IsOneLine(t) && (t != [] ==> !IsTrimmable(t[|t| - 1]))
    requires AllSentences(acc) && TotalLength(acc) <= start
    ensures var ss := Collected(ScanSentences(t, i, start, acc));
      AllSentences(ss) && TotalLength(ss) <= |t|
    decreases |t| - i, 1
  {
    if i == |t| {
      PendingSentence(t, start, acc);
    } else if IsTerminator(t[i]) {
      ScanKeepsAtTerminator(t, i, start, acc);
    } else {
      ScanKeepsSentences(t, i + 1, start, acc);
    }
  }

  lemma {:induction false} ScanKeepsAtTerminator(t: string, i: nat, start: nat, acc: seq<string>)
    requires start <= i < |t| && |acc| < 2 && IsTerminator(t[i])
    requires IsOneLine(t) && (t != [] ==> !IsTrimmable(t[|t| - 1]))
    requires AllSentences(acc) && TotalLength(acc) <= start
    ensures var ss := Collected(ScanSentences(t, i, start, acc));
      AllSentences(ss) && TotalLength(ss) <= |t|
    decreases |t| - i, 0
  {
    ClosingKeepsSentences(t, start, i, acc);
    var acc' := CloseSentence(t[start..i + 1], acc);
    if |acc'| < 2 {
      ScanKeepsSentences(t, i + 1, i + 1, acc');
    }
  }

  /** Closing a sentence at a terminator keeps the sentences and their length bound. */
  lemma ClosingKeepsSentences(t: string, start: nat, i: nat, acc: seq<string>)
    requires start <= i < |t| && IsOneLine(t)
    requires AllSentences(acc) && TotalLength(acc) <= start
    ensures var acc' := CloseSentence(t[start..i + 1], acc);
      AllSentences(acc') && TotalLength(acc') <= i + 1
  {
    OneLineSlice(t, start, i + 1);
    TotalAppend(acc, Trim(t[start..i + 1]));
  }

  /** The pending text added at the end is a sentence within the length bound. */
  lemma PendingSentence(t: string, start: nat, acc: seq<string>)
    requires start <= |t| && |acc| < 2
    requires IsOneLine(t) && (t != [] ==> !IsTrimmable(t[|t| - 1]))
    requires AllSentences(acc) && TotalLength(acc) <= start
    ensures var ss := Collected((acc, t[start..|t|]));
      AllSentences(ss) && TotalLength(ss) <= |t|
  {
    if start < |t| {
      LastSentence(t, start);
      TotalAppend(acc, Trim(t[start..|t|]));
    }
  }

  /** The text after the last terminator, when there is some, trims to a shorter sentence. */
  lemma LastSentence(t: string, a: nat)
    requires a < |t| && IsOneLine(t) && !IsTrimmable(t[|t| - 1])
    ensures IsSentence(Trim(t[a..|t|])) && |Trim(t[a..|t|])| <= |t| - a
  {
    OneLineSlice(t, a, |t|);
    assert t[a..|t|][|t| - a - 1] == t[|t| - 1];
    TrimmedSentence(t[a..|t|]);
  }

  lemma TrimmedSentence(r: string)
    requires r != [] && !IsTrimmable(r[|r| - 1]) && IsOneLine(r)
    ensures IsSentence(Trim(r))
  {
    OneLineTrim(r);
    TrimIdempotent(r);
  }

  /** The sentences found, with the trimmed pending text added when fewer than two were. */
  function Collected(scan: (seq<string>, string)): seq<string> {
    if |scan.0| < 2 && scan.1 != [] then scan.0 + [Trim(scan.1)] else scan.0
  }

  const FallbackSecondSentence := "Improves code quality."
  const FallbackTwoSentences := "Update applied. Improves code quality."

  lemma FallbackSecondIsSentence()
    ensures IsOneLine(FallbackSecondSentence) && EndsWithTerminator(FallbackSecondSentence)
  {
  }

  lemma FallbackPairIsSentence()
    ensures IsOneLine(FallbackTwoSentences) && EndsWithTerminator(FallbackTwoSentences)
  {
  }

  /**
   * Two punctuated sentences joined by a space: the first two found in the
   * whitespace-normalised line, with `Improves code quality.` standing in for a
   * missing second one, and a fixed pair when the line holds no sentence.
   */
  function EnsureTwoSentences(line: string): (r: string)
    ensures var ss := FirstTwoSentences(NormalizeSpaces(line));
      && (ss == [] ==> r == FallbackTwoSentences)
      && (|ss| == 1 ==> r == EnsureSentencePunctuation(ss[0]) + " " + FallbackSecondSentence)
      && (|ss| == 2 ==> r == EnsureSentencePunctuation(ss[0]) + " " + EnsureSentencePunctuation(ss[1]))
    ensures EndsWithTerminator(r) && IsOneLine(r)
    ensures |r| <= |line| + |FallbackTwoSentences|
  {
    var sentences := SentencesOf(line);
    if sentences == [] then
      FallbackPairIsSentence();
      FallbackTwoSentences
    else
      JoinSentences(sentences)
  }

  /** The at most two sentences `ensureTwoSentences` finds in the normalised line. */
  function SentencesOf(line: string): (ss: seq<string>)
    ensures ss == FirstTwoSentences(NormalizeSpaces(line))
    ensures |ss| <= 2 && AllSentences(ss) && TotalLength(ss) <= |line|
  {
    var t := NormalizeSpaces(line);
    ScanFindsSentences(t);
    ScanKeepsSentences(t, 0, 0, []);
    Collected(ScanSentences(t, 0, 0, []))
  }

  /** One or two sentences punctuated and joined; at most 24 chars longer than the sentences. */
  function JoinSentences(ss: seq<string>): (r: string)
    requires 1 <= |ss| <= 2 && AllSentences(ss)
    ensures EndsWithTerminator(r) && IsOneLine(r)
    ensures |r| <= TotalLength(ss) + 24
  {
    var first := EnsureSentencePunctuation(ss[0]);
    if |ss| == 1 then
      FallbackSecondIsSentence();
      Join2(first, FallbackSecondSentence)
    else
      Join2(first, EnsureSentencePunctuation(ss[1]))
  }

  /** Two texts joined by one space, the second non-empty and punctuated. */
  function Join2(a: string, b: string): (r: string)
    requires EndsWithTerminator(b)
    ensures EndsWithTerminator(r)
    ensures IsOneLine(a) && IsOneLine(b) ==> IsOneLine(r)
  {
    OneLineConcat(a, " ");
    OneLineConcat(a + " ", b);
    a + " " + b
  }

  // ---------------------------------------------------------------------------
  // formatSummaryResponse
  // ---------------------------------------------------------------------------

  /** The reply prefixes that are stripped, in the order they are tried (case-sensitive). */
  const SummaryPrefixes: seq<string> :=
    ["Summary:", "summary:", "Commit summary:", "commit summary:", "Output:", "output:"]

  /** At most one prefix is stripped: the first one `t` starts with, followed by a trim. */
  function StripPrefix(t: string, prefixes: seq<string>): string {
    if prefixes == [] then t
    else if StartsWith(t, prefixes[0]) then Trim(t[|prefixes[0]|..])
    else StripPrefix(t, prefixes[1..])
  }

  /** `t` is one of the recognised prefixes followed only by blank text. */
  predicate IsBarePrefix(t: string) {
    IsBarePrefixOf(t, SummaryPrefixes)
  }

  predicate IsBarePrefixOf(t: string, prefixes: seq<string>) {
    exists i :: 0 <= i < |prefixes| && StartsWith(t, prefixes[i]) && IsTrimBlank(t[|prefixes[i]|..])
  }

  /** Non-empty prefixes that start with pairwise different chars. */
  predicate DistinctLeads(prefixes: seq<string>) {
    && (forall i :: 0 <= i < |prefixes| ==> prefixes[i] != [])
    && (forall i, j :: 0 <= i < j < |prefixes| ==> prefixes[i][0] != prefixes[j][0])
  }

  lemma SummaryPrefixesDistinct()
    ensures DistinctLeads(SummaryPrefixes)
  {
  }

  /** A non-empty one-line text that starts with a visible char. */
  predicate IsPiece(s: string) {
    s != [] && !IsTrimmable(s[0]) && IsOneLine(s)
  }

  lemma PieceOfLine(line: string)
    ensures CollapseSpaces(Trim(line)) != [] ==> IsPiece(CollapseSpaces(Trim(line)))
  {
    if Trim(line) != [] {
      CollapseOfTrimmed(line);
    }
  }

  /** A line trimmed, with its whitespace runs collapsed to one space. */
  function CleanLine(line: string): string {
    CollapseSpaces(Trim(line))
  }

  /** Each line cleaned. */
  function CleanEach(lines: seq<string>): (r: seq<string>)
    ensures |r| == |lines| && forall i :: 0 <= i < |lines| ==> r[i] == CleanLine(lines[i])
  {
    if lines == [] then [] else [CleanLine(lines[0])] + CleanEach(lines[1..])
  }

  predicate IsNonEmptyText(s: string) {
    s != []
  }

  /** Reference definition of the pieces: every line cleaned, then the empty ones dropped. */
  function CleanLines(lines: seq<string>): seq<string> {
    Filter(CleanEach(lines), IsNonEmptyText)
  }

  /** The non-empty lines, each trimmed and with its whitespace runs collapsed to one space. */
  function Pieces(lines: seq<string>): (r: seq<string>)
    ensures r == CleanLines(lines)
    ensures forall i :: 0 <= i < |r| ==> IsPiece(r[i])
  {
    if lines == [] then []
    else
      var piece := CollapseSpaces(Trim(lines[0]));
      PieceOfLine(lines[0]);
      assert CleanEach(lines)[1..] == CleanEach(lines[1..]);
      if piece != [] then [piece] + Pieces(lines[1..])
      else Pieces(lines[1..])
  }

  /** The lines of the cleaned reply: `\r` removed, then split at `\n`. */
  function LinesOf(cleaned: string): seq<string> {
    JavaSplit(ReplaceChar(cleaned, '\r', ""), '\n')
  }

  /**
   * `formatSummaryResponse`: `None` (Java `null`) when nothing is left after
   * trimming and prefix stripping; otherwise a single line of at most 200
   * chars that ends a sentence.
   */
  function FormatSummaryResponse(response: Option<string>): (r: Option<string>)
    ensures r.None? <==> response.None? || IsTrimBlank(response.value) || IsBarePrefix(Trim(response.value))
    ensures r.Some? ==> IsOneLine(r.value) && 0 < |r.value| <= MaxSummaryLength && EndsWithTerminator(r.value)
    ensures r.Some? ==>
      var ps := CleanLines(LinesOf(StripPrefix(Trim(response.value), SummaryPrefixes)));
      && (forall i :: 0 <= i < |ps| ==> IsPiece(ps[i]))
      && (|ps| == 1 ==> r.value == FormatSingle(ps[0]))
      && (|ps| >= 2 ==> r.value == FormatPair(ps[0], ps[1]))
  {
    if response.None? || IsTrimBlank(response.value) then None
    else
      var cleaned := StripPrefix(Trim(response.value), SummaryPrefixes);
      StrippedBlankIff(response.value);
      if IsTrimBlank(cleaned) then None
      else Some(FormatPieces(Pieces(LinesOf(cleaned))))
  }

  /**
   * One piece becomes the summary on its own; otherwise the first two are
   * joined, with `Enhances codebase quality` standing in for a missing second.
   */
  function FormatPieces(pieces: seq<string>): (r: string)
    requires forall i :: 0 <= i < |pieces| ==> IsPiece(pieces[i])
    ensures IsOneLine(r) && 0 < |r| <= MaxSummaryLength && EndsWithTerminator(r)
  {
    if |pieces| == 1 then
      assert IsPiece(pieces[0]);
      FormatSingle(pieces[0])
    else
      var first := if pieces != [] then pieces[0] else "";
      var second := if |pieces| > 1 then pieces[1] else "Enhances codebase quality";
      SecondFallbackIsPiece();
      assert pieces != [] ==> IsPiece(pieces[0]);
      assert |pieces| > 1 ==> IsPiece(pieces[1]);
      FormatPair(first, second)
  }

  /**
   * A single piece of at least 15 chars once punctuated is kept (cut when over
   * 200); a shorter one gets a second sentence and is never cut.
   */
  function FormatSingle(piece: string): (r: string)
    requires IsPiece(piece)
    ensures IsOneLine(r) && 0 < |r| <= MaxSummaryLength && EndsWithTerminator(r)
    ensures var single := EnsureSentencePunctuation(piece);
      && (15 <= |single| <= MaxSummaryLength ==> r == single)
      && (|single| > MaxSummaryLength ==> IsSentenceCut(r, single))
      && (|single| < 15 ==> r == EnsureTwoSentences(single))
  {
    PieceIsNotBlank(piece);
    var single := EnsureSentencePunctuation(piece);
    if |single| >= 15 && EndsWithTerminator(single) then TruncateIfNeeded(single)
    else TruncateIfNeeded(EnsureTwoSentences(single))
  }

  /** Two pieces, each punctuated, joined by a space, then truncated. */
  function FormatPair(first: string, second: string): (r: string)
    requires IsOneLine(first) && IsPiece(second)
    ensures IsOneLine(r) && 0 < |r| <= MaxSummaryLength && EndsWithTerminator(r)
    ensures var joined := EnsureSentencePunctuation(first) + " " + EnsureSentencePunctuation(second);
      && (|joined| <= MaxSummaryLength ==> r == joined)
      && (|joined| > MaxSummaryLength ==> IsSentenceCut(r, joined))
  {
    PieceIsNotBlank(second);
    TruncateIfNeeded(Join2(EnsureSentencePunctuation(first), EnsureSentencePunctuation(second)))
  }

  lemma SecondFallbackIsPiece()
    ensures IsPiece("Enhances codebase quality")
  {
  }

  lemma PieceIsNotBlank(s: string)
    requires IsPiece(s)
    ensures Trim(s) != []
  {
  }

  /** Stripping uses the first prefix that matches, or leaves the text alone when none does. */
  lemma {:induction false} StripPrefixCases(t: string, prefixes: seq<string>)
    ensures
      || (exists i ::
            && 0 <= i < |prefixes| && StartsWith(t, prefixes[i])
            && (forall j :: 0 <= j < i ==> !StartsWith(t, prefixes[j]))
            && StripPrefix(t, prefixes) == Trim(t[|prefixes[i]|..]))
      || (&& (forall j :: 0 <= j < |prefixes| ==> !StartsWith(t, prefixes[j]))
          && StripPrefix(t, prefixes) == t)
  {
    if prefixes != [] && !StartsWith(t, prefixes[0]) {
      StripPrefixCases(t, prefixes[1..]);
      if i :| 0 <= i < |prefixes[1..]| && StartsWith(t, prefixes[1..][i]) &&
              (forall j :: 0 <= j < i ==> !StartsWith(t, prefixes[1..][j])) &&
              StripPrefix(t, prefixes[1..]) == Trim(t[|prefixes[1..][i]|..]) {
        assert StartsWith(t, prefixes[i + 1]);
        forall j | 0 <= j < i + 1 ensures !StartsWith(t, prefixes[j]) {
          if j > 0 { assert prefixes[j] == prefixes[1..][j - 1]; }
        }
      } else {
        forall j | 0 <= j < |prefixes| ensures !StartsWith(t, prefixes[j]) {
          if j > 0 { assert prefixes[j] == prefixes[1..][j - 1]; }
        }
      }
    }
  }

  /** Prefixes with distinct leading chars cannot both match. */
  lemma PrefixesExclusive(t: string, prefixes: seq<string>, i: int, j: int)
    requires DistinctLeads(prefixes)
    requires 0 <= i < |prefixes| && 0 <= j < |prefixes|
    requires StartsWith(t, prefixes[i]) && StartsWith(t, prefixes[j])
    ensures i == j
  {
    assert t[0] == t[..|prefixes[i]|][0] == prefixes[i][0];
    assert t[0] == t[..|prefixes[j]|][0] == prefixes[j][0];
  }

  /**
   * Stripping leaves blank text exactly when the reply was blank or was a bare
   * recognised prefix.
   */
  lemma StrippedBlankIff(t: string)
    ensures IsTrimBlank(StripPrefix(Trim(t), SummaryPrefixes)) <==> IsTrimBlank(t) || IsBarePrefix(Trim(t))
  {
    SummaryPrefixesDistinct();
    StrippedBlankIffOf(t, SummaryPrefixes);
  }

  lemma StrippedBlankIffOf(t: string, prefixes: seq<string>)
    requires DistinctLeads(prefixes)
    ensures IsTrimBlank(StripPrefix(Trim(t), prefixes)) <==> IsTrimBlank(t) || IsBarePrefixOf(Trim(t), prefixes)
  {
    var u := Trim(t);
    TrimIdempotent(t);
    StripPrefixCases(u, prefixes);
    if i :| 0 <= i < |prefixes| && StartsWith(u, prefixes[i]) &&
            StripPrefix(u, prefixes) == Trim(u[|prefixes[i]|..]) {
      TrimIdempotent(u[|prefixes[i]|..]);
      if IsBarePrefixOf(u, prefixes) {
        var k :| 0 <= k < |prefixes| && StartsWith(u, prefixes[k]) && IsTrimBlank(u[|prefixes[k]|..]);
        PrefixesExclusive(u, prefixes, i, k);
      }
    }
  }

  // ---------------------------------------------------------------------------
  // How typical replies are formatted
  // ---------------------------------------------------------------------------

  /** Starts and ends with a char `trim` keeps. */
  predicate HasVisibleEnds(s: string) {
    s != [] && !IsTrimmable(s[0]) && !IsTrimmable(s[|s| - 1])
  }

  /** No two spaces in a row. */
  predicate SingleSpaced(s: string) {
    forall i :: 0 <= i < |s| - 1 ==> !(s[i] == ' ' && s[i + 1] == ' ')
  }

  /**
   * An already-clean line: visible first and last chars, plain single spaces
   * and no other whitespace.
   */
  predicate IsNormalLine(s: string) {
    HasVisibleEnds(s) && IsOneLine(s) && SingleSpaced(s)
  }

  /** Collapsing whitespace leaves single-spaced one-line text alone, from any index on. */
  lemma {:induction false} CollapseFromClean(s: string, i: nat)
    requires IsOneLine(s) && SingleSpaced(s) && i <= |s|
    ensures CollapseFrom(s, i) == s[i..]
    decreases |s| - i
  {
    if i < |s| {
      CollapseFromClean(s, i + 1);
      if IsRegexSpace(s[i]) {
        assert s[i] == ' ';
        assert i + 1 == |s| || !IsRegexSpace(s[i + 1]);
        assert SkipRegexSpaces(s, i + 1) == i + 1;
      }
      assert s[i..] == [s[i]] + s[i + 1..];
    }
  }

  /** Collapsing whitespace leaves single-spaced one-line text alone. */
  lemma CollapseSingleSpaced(s: string)
    requires IsOneLine(s) && SingleSpaced(s)
    ensures CollapseSpaces(s) == s
  {
    CollapseFromClean(s, 0);
  }

  /** A clean line is one piece, equal to itself. */
  lemma NormalLineIsOnePiece(s: string)
    requires IsNormalLine(s)
    ensures LinesOf(s) == [s]
    ensures Pieces(LinesOf(s)) == [s]
  {
    assert '\r' !in s && '\n' !in s by {
      forall i | 0 <= i < |s| ensures s[i] != '\r' && s[i] != '\n' { }
    }
    ReplaceCharAbsent(s, '\r', "");
    TrimOfTrimmedEnds(s);
    CollapseSingleSpaced(s);
    assert [s][1..] == [];
  }

  /** A reply whose cleaned text is a clean line is formatted from that line alone. */
  lemma FormatOfCleanedLine(response: string, line: string)
    requires !IsTrimBlank(response)
    requires StripPrefix(Trim(response), SummaryPrefixes) == line && IsNormalLine(line)
    ensures FormatSummaryResponse(Some(response)) == Some(FormatSingle(line))
  {
    assert !IsTrimBlank(line) by {
      TrimOfTrimmedEnds(line);
    }
    assert Pieces(LinesOf(line)) == [line] by {
      NormalLineIsOnePiece(line);
    }
    assert FormatPieces([line]) == FormatSingle(line);
  }

  /** A clean one-line reply that starts with no recognised prefix is formatted as it stands. */
  lemma UnprefixedLine(line: string)
    requires IsNormalLine(line)
    requires forall i :: 0 <= i < |SummaryPrefixes| ==> !StartsWith(line, SummaryPrefixes[i])
    ensures FormatSummaryResponse(Some(line)) == Some(FormatSingle(line))
  {
    TrimOfTrimmedEnds(line);
    StripPrefixCases(line, SummaryPrefixes);
    FormatOfCleanedLine(line, line);
  }

  /** Exactly one recognised prefix and the space after it are stripped. */
  lemma PrefixIsStripped(i: nat, line: string)
    requires i < |SummaryPrefixes| && IsNormalLine(line)
    ensures FormatSummaryResponse(Some(SummaryPrefixes[i] + " " + line)) == Some(FormatSingle(line))
  {
    SummaryPrefixesDistinct();
    SummaryPrefixesVisible();
    StripOnePrefix(SummaryPrefixes, i, line);
    FormatOfCleanedLine(SummaryPrefixes[i] + " " + line, line);
  }

  lemma SummaryPrefixesVisible()
    ensures forall i :: 0 <= i < |SummaryPrefixes| ==> SummaryPrefixes[i] != [] && !IsTrimmable(SummaryPrefixes[i][0])
  {
  }

  /** When prefix `i` is the first that matches, it is the one stripped. */
  lemma {:induction false} StripFirstMatch(t: string, prefixes: seq<string>, i: nat)
    requires i < |prefixes| && StartsWith(t, prefixes[i])
    requires forall j :: 0 <= j < i ==> !StartsWith(t, prefixes[j])
    ensures StripPrefix(t, prefixes) == Trim(t[|prefixes[i]|..])
    decreases i
  {
    if i > 0 {
      assert prefixes[1..][i - 1] == prefixes[i];
      StripFirstMatch(t, prefixes[1..], i - 1);
    }
  }

  /** A visible prefix, a space and a line with visible ends: its own trim, starting with the prefix. */
  lemma PrefixedLineShape(p: string, line: string)
    requires p != [] && !IsTrimmable(p[0]) && HasVisibleEnds(line)
    ensures StartsWith(p + " " + line, p)
    ensures (p + " " + line)[|p|..] == " " + line
    ensures Trim(p + " " + line) == p + " " + line
  {
    var response := p + " " + line;
    assert response[..|p|] == p;
    assert response[0] == p[0] && response[|response| - 1] == line[|line| - 1];
    TrimOfTrimmedEnds(response);
  }

  /** With distinct leading chars, a matching prefix has no matching prefix before it. */
  lemma OnlyMatch(t: string, prefixes: seq<string>, i: nat)
    requires DistinctLeads(prefixes) && i < |prefixes| && StartsWith(t, prefixes[i])
    ensures forall j :: 0 <= j < i ==> !StartsWith(t, prefixes[j])
  {
    forall j | 0 <= j < i
      ensures !StartsWith(t, prefixes[j])
    {
      assert t[0] == t[..|prefixes[i]|][0] == prefixes[i][0];
      assert prefixes[j][0] != prefixes[i][0];
    }
  }

  lemma StripOnePrefix(prefixes: seq<string>, i: nat, line: string)
    requires DistinctLeads(prefixes) && i < |prefixes| && HasVisibleEnds(line)
    requires forall k :: 0 <= k < |prefixes| ==> prefixes[k] != [] && !IsTrimmable(prefixes[k][0])
    ensures !IsTrimBlank(prefixes[i] + " " + line)
    ensures StripPrefix(Trim(prefixes[i] + " " + line), prefixes) == line
  {
    var response := prefixes[i] + " " + line;
    PrefixedLineShape(prefixes[i], line);
    OnlyMatch(response, prefixes, i);
    StripFirstMatch(response, prefixes, i);
    TrimLeadingSpace(line);
  }

  /** A clean line with a `.` appended is still clean. */
  lemma NormalWithPeriod(line: string)
    requires IsNormalLine(line)
    ensures IsNormalLine(line + ".")
  {
    OneLineConcat(line, ".");
    var t := line + ".";
    forall i | 0 <= i < |t| - 1
      ensures !(t[i] == ' ' && t[i + 1] == ' ')
    {
      if i + 1 < |line| {
        assert t[i] == line[i] && t[i + 1] == line[i + 1];
      }
    }
  }

  /** Normalising a clean line changes nothing. */
  lemma NormalizeClean(s: string)
    requires IsNormalLine(s)
    ensures NormalizeSpaces(s) == s && CleanLine(s) == s
  {
    TrimOfTrimmedEnds(s);
    CollapseSingleSpaced(s);
  }

  /** A clean line whose only terminator is its last char is one sentence. */
  lemma OnlySentence(t: string)
    requires IsNormalLine(t) && IsTerminator(t[|t| - 1])
    requires forall j :: 0 <= j < |t| - 1 ==> !IsTerminator(t[j])
    ensures FirstTwoSentences(NormalizeSpaces(t)) == [t]
  {
    NormalizeClean(t);
    var k1 := FirstTerminatorFrom(t, 0);
    assert k1 == |t| - 1;
    OneSentenceEnd(t, k1);
    assert t[0..|t|] == t;
    TrimOne(t);
    TrimOfTrimmedEnds(t);
  }

  /**
   * A clean line shorter than 15 chars once punctuated, with no sentence end
   * before its last char and no recognised prefix, is punctuated and completed
   * with `Improves code quality.`.
   */
  lemma ShortLineCompleted(line: string)
    requires IsNormalLine(line)
    requires forall i :: 0 <= i < |SummaryPrefixes| ==> !StartsWith(line, SummaryPrefixes[i])
    requires forall j :: 0 <= j < |line| - 1 ==> !IsTerminator(line[j])
    requires |EnsureSentencePunctuation(line)| < 15
    ensures FormatSummaryResponse(Some(line)) == Some(EnsureSentencePunctuation(line) + " " + FallbackSecondSentence)
  {
    UnprefixedLine(line);
    var single := PunctuatedOneSentence(line);
    CompletedSentence(single);
  }

  /** Punctuating a clean line with no early terminator gives a clean one-sentence line. */
  lemma PunctuatedOneSentence(line: string) returns (single: string)
    requires IsNormalLine(line)
    requires forall j :: 0 <= j < |line| - 1 ==> !IsTerminator(line[j])
    ensures single == EnsureSentencePunctuation(line)
    ensures IsNormalLine(single) && IsTerminator(single[|single| - 1])
    ensures forall j :: 0 <= j < |single| - 1 ==> !IsTerminator(single[j])
  {
    TrimOfTrimmedEnds(line);
    single := EnsureSentencePunctuation(line);
    if single != line {
      NormalWithPeriod(line);
      assert single == line + ".";
    }
  }

  /** A clean one-sentence line gets `Improves code quality.` as its second sentence. */
  lemma CompletedSentence(single: string)
    requires IsNormalLine(single) && IsTerminator(single[|single| - 1])
    requires forall j :: 0 <= j < |single| - 1 ==> !IsTerminator(single[j])
    ensures EnsureTwoSentences(single) == single + " " + FallbackSecondSentence
  {
    OnlySentence(single);
    TrimOfTrimmedEnds(single);
    assert EnsureSentencePunctuation(single) == single;
  }

  /**
   * A reply whose first two lines are clean, the first without a recognised
   * prefix, is those two lines punctuated, joined by a space and truncated;
   * whatever follows the second line break is ignored.
   */
  lemma TwoLinesJoined(l1: string, l2: string, rest: string)
    requires IsNormalLine(l1) && IsNormalLine(l2)
    requires forall i :: 0 <= i < |SummaryPrefixes| ==> !StartsWith(l1, SummaryPrefixes[i])
    ensures FormatSummaryResponse(Some(l1 + "\n" + l2 + "\n" + rest))
         == Some(TruncateIfNeeded(EnsureSentencePunctuation(l1) + " " + EnsureSentencePunctuation(l2)))
  {
    var response := l1 + "\n" + l2 + "\n" + rest;
    var t := TrimmedTwoLines(l1, l2, rest);
    assert t == l1 + t[|l1|..];
    NoPrefixAcrossBreak(l1, t[|l1|..]);
    LinesOfTwoLines(l1, l2, t);
    CleanFirstTwo(LinesOf(t));
    FormatOfUnprefixed(response, t);
    PairJoined(l1, l2);
  }

  /** A reply whose trim starts with no recognised prefix and has two pieces is formatted from those two. */
  lemma FormatOfUnprefixed(response: string, t: string)
    requires t == Trim(response) && t != []
    requires forall i :: 0 <= i < |SummaryPrefixes| ==> !StartsWith(t, SummaryPrefixes[i])
    requires |Pieces(LinesOf(t))| >= 2
    ensures FormatSummaryResponse(Some(response)) == Some(FormatPair(Pieces(LinesOf(t))[0], Pieces(LinesOf(t))[1]))
  {
    StripPrefixCases(t, SummaryPrefixes);
  }

  /** Two one-line pieces are punctuated, joined by a space and truncated. */
  lemma PairJoined(first: string, second: string)
    requires IsOneLine(first) && IsPiece(second)
    ensures FormatPair(first, second) == TruncateIfNeeded(EnsureSentencePunctuation(first) + " " + EnsureSentencePunctuation(second))
  {
  }

  /** The trim of the reply keeps both lines and the break between them, plus a part that starts a new line. */
  lemma TrimmedTwoLines(l1: string, l2: string, rest: string) returns (t: string)
    requires IsNormalLine(l1) && IsNormalLine(l2)
    ensures t == Trim(l1 + "\n" + l2 + "\n" + rest)
    ensures |l1| + 1 + |l2| <= |t| && t[..|l1| + 1 + |l2|] == l1 + "\n" + l2
    ensures |t| == |l1| + 1 + |l2| || t[|l1| + 1 + |l2|] == '\n'
  {
    var response := l1 + "\n" + l2 + "\n" + rest;
    var n := |l1| + 1 + |l2|;
    assert response[..n] == l1 + "\n" + l2;
    assert response[0] == l1[0] && response[n - 1] == l2[|l2| - 1];
    TrimKeepsHead(response, n);
    t := Trim(response);
    assert t[..n] == response[..n];
    if |t| > n {
      assert t[n] == response[n];
    }
  }

  /** `trim` of a text with a visible first char is a prefix reaching at least its last visible char. */
  lemma TrimKeepsHead(s: string, n: nat)
    requires 0 < n <= |s| && !IsTrimmable(s[0]) && !IsTrimmable(s[n - 1])
    ensures n <= |Trim(s)| && Trim(s) == s[..|Trim(s)|]
  {
    TrimIsSlice(s);
    assert TrimOffset(s) == 0;
  }

  /** No recognised prefix contains a line break. */
  lemma SummaryPrefixesOneLine()
    ensures forall i :: 0 <= i < |SummaryPrefixes| ==> IsOneLine(SummaryPrefixes[i])
  {
  }

  /** A text that starts with a prefix-free first line and a break starts with no recognised prefix. */
  lemma NoPrefixAcrossBreak(l1: string, u: string)
    requires IsOneLine(l1)
    requires forall i :: 0 <= i < |SummaryPrefixes| ==> !StartsWith(l1, SummaryPrefixes[i])
    requires u != [] && u[0] == '\n'
    ensures forall i :: 0 <= i < |SummaryPrefixes| ==> !StartsWith(l1 + u, SummaryPrefixes[i])
  {
    SummaryPrefixesOneLine();
    forall i | 0 <= i < |SummaryPrefixes|
      ensures !StartsWith(l1 + u, SummaryPrefixes[i])
    {
      var p := SummaryPrefixes[i];
      if |p| <= |l1| {
        assert (l1 + u)[..|p|] == l1[..|p|];
      } else {
        assert (l1 + u)[|l1|] == '\n';
      }
    }
  }

  /** The lines of the trimmed reply start with the two clean lines. */
  lemma LinesOfTwoLines(l1: string, l2: string, t: string)
    requires IsOneLine(l1) && IsOneLine(l2) && l2 != []
    requires |l1| + 1 + |l2| <= |t| && t[..|l1| + 1 + |l2|] == l1 + "\n" + l2
    requires |t| == |l1| + 1 + |l2| || t[|l1| + 1 + |l2|] == '\n'
    ensures |LinesOf(t)| >= 2 && LinesOf(t)[0] == l1 && LinesOf(t)[1] == l2
  {
    var y := t[|l1| + 1 + |l2|..];
    assert t == l1 + "\n" + l2 + y;
    var y' := CarriageReturnsDropped(l1, l2, y);
    var s := l1 + "\n" + l2 + y';
    assert s[|l1|] == '\n';
    var parts := SplitFirstTwo(l1, l2, y');
    var kept := DropTrailingEmpty(parts);
    assert |kept| >= 2;
  }

  /** Removing `\r` leaves the two lines and the break alone, and the tail still starts a new line. */
  lemma CarriageReturnsDropped(l1: string, l2: string, y: string) returns (y': string)
    requires IsOneLine(l1) && IsOneLine(l2)
    requires y == [] || y[0] == '\n'
    ensures ReplaceChar(l1 + "\n" + l2 + y, '\r', "") == l1 + "\n" + l2 + y'
    ensures y' == [] || y'[0] == '\n'
  {
    var head := l1 + "\n" + l2;
    assert '\r' !in head by {
      assert forall i :: 0 <= i < |head| ==> head[i] != '\r';
    }
    ReplaceCharAppend(head, y, '\r', "");
    ReplaceCharAbsent(head, '\r', "");
    y' := ReplaceChar(y, '\r', "");
    if y != [] {
      assert y == ['\n'] + y[1..];
      ReplaceCharAppend(['\n'], y[1..], '\r', "");
    }
  }

  /** Splitting at line breaks yields the two lines first. */
  lemma SplitFirstTwo(l1: string, l2: string, y: string) returns (parts: seq<string>)
    requires IsOneLine(l1) && IsOneLine(l2)
    requires y == [] || y[0] == '\n'
    ensures parts == SplitAll(l1 + "\n" + l2 + y, '\n')
    ensures |parts| >= 2 && parts[0] == l1 && parts[1] == l2
  {
    assert '\n' !in l1 && '\n' !in l2;
    assert l1 + "\n" + l2 + y == l1 + ['\n'] + (l2 + y);
    SplitCons(l1, '\n', l2 + y);
    if y == [] {
      assert l2 + y == l2;
      SplitNone(l2, '\n');
    } else {
      assert l2 + y == l2 + ['\n'] + y[1..];
      SplitCons(l2, '\n', y[1..]);
    }
    parts := SplitAll(l1 + "\n" + l2 + y, '\n');
  }

  /** Two clean first lines are the first two pieces. */
  lemma CleanFirstTwo(lines: seq<string>)
    requires |lines| >= 2 && IsNormalLine(lines[0]) && IsNormalLine(lines[1])
    ensures |CleanLines(lines)| >= 2 && CleanLines(lines)[0] == lines[0] && CleanLines(lines)[1] == lines[1]
  {
    NormalizeClean(lines[0]);
    NormalizeClean(lines[1]);
    var cs := CleanEach(lines);
    assert cs == [lines[0], lines[1]] + cs[2..];
    FilterAppend([lines[0], lines[1]], cs[2..], IsNonEmptyText);
    FilterKeepsAll([lines[0], lines[1]], IsNonEmptyText);
  }

  /** A single line of 15 to 200 chars once punctuated is kept, punctuated. */
  lemma LongLineKept(line: string)
    requires IsNormalLine(line)
    requires 15 <= |EnsureSentencePunctuation(line)| <= MaxSummaryLength
    ensures FormatSingle(line) == EnsureSentencePunctuation(line)
  {
    TrimOfTrimmedEnds(line);
  }
}

=== FILE: user_input.dfy ===
/**
 * UserInput: the `--key=value` command-line parsing. Arguments are read in
 * order, later ones overriding earlier ones; anything else is ignored.
 */
module UserInput {
  import opened Wrappers
  import opened JavaText

  /** The parsed arguments; a field nobody set keeps its Java default (null, 0, null). */
  datatype UserInput = UserInput(endDate: Option<string>, summaryPeriod: int, repositories: Option<seq<string>>)

  const Initial := UserInput(None, 0, None)

  const DateFlag := "--date="
  const PeriodFlag := "--period="
  const ReposFlag := "--repos="

  /** One argument of the constructor's loop; a bad period makes `Integer.parseInt` throw. */
  function ApplyArg(u: UserInput, arg: string): (r: Result<UserInput, Exception>)
    ensures r.Err? ==> StartsWith(arg, PeriodFlag) && r.error == NumberFormatException
  {
    if StartsWith(arg, DateFlag) then Ok(u.(endDate := Some(arg[|DateFlag|..])))
    else if StartsWith(arg, PeriodFlag) then
      match ParseInt(arg[|PeriodFlag|..])
      case Err(e) => Err(e)
      case Ok(v) => Ok(u.(summaryPeriod := v))
    else if StartsWith(arg, ReposFlag) then Ok(u.(repositories := Some(JavaSplit(arg[|ReposFlag|..], ','))))
    else Ok(u)
  }

  /** `new UserInput(args)`: the arguments applied left to right; the first exception ends it. */
  function ParseArgs(args: seq<string>): (r: Result<UserInput, Exception>)
    ensures r.Err? ==> r.error == NumberFormatException
  {
    if args == [] then Ok(Initial)
    else
      match ParseArgs(args[..|args| - 1])
      case Err(e) => Err(e)
      case Ok(u) => ApplyArg(u, args[|args| - 1])
  }

  // ---------------------------------------------------------------------------
  // The reference: the last value given for each flag
  // ---------------------------------------------------------------------------

  /** The value after `flag` of the last argument starting with it. */
  function LastWith(args: seq<string>, flag: string): (v: Option<string>)
    ensures v.Some? ==> exists i :: 0 <= i < |args| && StartsWith(args[i], flag) && v.value == args[i][|flag|..]
    ensures v.None? <==> forall i :: 0 <= i < |args| ==> !StartsWith(args[i], flag)
  {
    if args == [] then None
    else if StartsWith(args[|args| - 1], flag) then Some(args[|args| - 1][|flag|..])
    else
      var v := LastWith(args[..|args| - 1], flag);
      assert forall i :: 0 <= i < |args| - 1 ==> args[..|args| - 1][i] == args[i];
      v
  }

  /** Every `--period=` value is a 32-bit integer. */
  predicate PeriodsParse(args: seq<string>) {
    forall i :: 0 <= i < |args| && StartsWith(args[i], PeriodFlag) ==> ParseInt(args[i][|PeriodFlag|..]).Ok?
  }

  /** What the parsed input should be: the last value of each flag, or the default. */
  function Expected(args: seq<string>): UserInput
    requires PeriodsParse(args)
  {
    var period := LastWith(args, PeriodFlag);
    if period.Some? then
      UserInput(LastWith(args, DateFlag), ParseInt(period.value).value,
        match LastWith(args, ReposFlag) case None => None case Some(l) => Some(JavaSplit(l, ',')))
    else
      UserInput(LastWith(args, DateFlag), 0,
        match LastWith(args, ReposFlag) case None => None case Some(l) => Some(JavaSplit(l, ',')))
  }

  /** An argument starts with at most one of the three flags. */
  lemma FlagsExclusive(arg: string)
    ensures !(StartsWith(arg, DateFlag) && StartsWith(arg, PeriodFlag))
    ensures !(StartsWith(arg, DateFlag) && StartsWith(arg, ReposFlag))
    ensures !(StartsWith(arg, PeriodFlag) && StartsWith(arg, ReposFlag))
  {
    if |arg| > 2 {
      if StartsWith(arg, DateFlag) { assert arg[2] == arg[..|DateFlag|][2] == 'd'; }
      if StartsWith(arg, PeriodFlag) { assert arg[2] == arg[..|PeriodFlag|][2] == 'p'; }
      if StartsWith(arg, ReposFlag) { assert arg[2] == arg[..|ReposFlag|][2] == 'r'; }
    }
  }

  /**
   * Parsing fails exactly when some `--period=` value is not an integer, and
   * otherwise yields, for each flag, the value of its last occurrence.
   */
  lemma {:induction false} ParseArgsIsLastValues(args: seq<string>)
    ensures ParseArgs(args).Ok? <==> PeriodsParse(args)
    ensures ParseArgs(args).Ok? ==> ParseArgs(args).value == Expected(args)
  {
    if args != [] {
      var init, last := args[..|args| - 1], args[|args| - 1];
      assert forall i :: 0 <= i < |init| ==> init[i] == args[i];
      assert args == init + [last];
      ParseArgsIsLastValues(init);
      FlagsExclusive(last);
      assert PeriodsParse(args) <==> (PeriodsParse(init) &&
        (StartsWith(last, PeriodFlag) ==> ParseInt(last[|PeriodFlag|..]).Ok?));
    }
  }

  /** Arguments matching none of the flags leave every field at its default. */
  lemma UnknownArgsIgnored(args: seq<string>)
    requires forall i :: 0 <= i < |args| ==>
      !StartsWith(args[i], DateFlag) && !StartsWith(args[i], PeriodFlag) && !StartsWith(args[i], ReposFlag)
    ensures ParseArgs(args) == Ok(Initial)
  {
    ParseArgsIsLastValues(args);
  }

  /** A `--period=` value that is not an integer makes construction fail. */
  lemma BadPeriodFails(args: seq<string>, i: nat)
    requires i < |args| && StartsWith(args[i], PeriodFlag) && ParseInt(args[i][|PeriodFlag|..]).Err?
    ensures ParseArgs(args) == Err(NumberFormatException)
  {
    ParseArgsIsLastValues(args);
  }
}

=== FILE: wrappers.dfy ===
/** Java `null` and thrown exceptions, made explicit. */
module Wrappers {

  /** A possibly-null Java reference: `None` stands for `null`. */
  datatype Option<+T> = None | Some(value: T) {
    function GetOr(default: T): T {
      match this
      case Some(v) => v
      case None => default
    }
  }

  /** The outcome of a Java call that may throw: `Err` carries the exception's kind. */
  datatype Result<+T, +E> = Ok(value: T) | Err(error: E)
}
